=== FILE: README.md ===
# Coursework solvers: a Dafny model

This project models the computational core of a set of coursework solvers
written in Rust. Each solver reads a text input and shows a worked answer.

- **Lexer preprocessing** (`comp/lexer.rs`). A character state machine strips `//` and `/* */`
  comments, folds every run of blanks and newlines into one space, and drops a
  final space. Every kept character carries its source row and column.
- **Exact linear algebra** over big rationals. These are modelled as Dafny `real`:
  - `common.rs`: the matrix type, its text reader and its TeX printer;
  - `rref.rs` and `reduced_row_echelon.rs`: Gauss–Jordan elimination with a step log, plus the rank;
  - `lineq.rs`: classification and solution of a linear system from its augmented matrix;
  - `maxlinind.rs`: a maximal linearly independent subset of the columns of a matrix;
  - `inversion_number.rs`: the inversion number of an integer sequence and its parity.
- **Discrete mathematics**:
  - `exp1.rs`, and the standalone copy of the same experiment: truth tables and the full disjunctive and conjunctive normal forms of a propositional formula;
  - `exp2.rs`: the properties of a relation given by a 0/1 matrix, and its transitive closure by Warshall's algorithm;
  - `exp4.rs`: a random simple graph, its connected components by depth-first search, and an Euler circuit or path by a Fleury-style walk.

Modules follow the source files:

| file | module | source |
|---|---|---|
| `outcomes.dfy` | `Outcomes` | `Option`/`Result` |
| `decimal.dfy` | `Decimal` | integer and rational cell text |
| `matrix.dfy` | `Matrices` | `common.rs` |
| `lexer.dfy` | `Lexer` | `comp/lexer.rs` |
| `elimination.dfy` | `Elimination` | `rref.rs`, `reduced_row_echelon.rs` |
| `rational_text.dfy` | `RationalText` | the TeX number and step-label printers |
| `systems.dfy` | `LinearSystems` | the linear algebra `lineq.rs` relies on |
| `lineq.dfy` | `LinearEquations` | `lineq.rs` |
| `lineq_findings.dfy` | `LinearEquationsFindings` | concrete witnesses for the findings below |
| `vectorset.dfy` | `VectorSets` | `maxlinind.rs` |
| `inversion.dfy` | `InversionNumbers` | `inversion_number.rs` |
| `propositional.dfy` | `Propositional` | `exp1.rs` (both copies) |
| `relation.dfy` | `Relations` | `exp2.rs` |
| `graph.dfy` | `Graphs` | `exp4.rs` |

Modelling choices:

- Each solver's final view becomes a report datatype. Every "Failed to parse." / "… must …" message becomes an error constructor.
- A panic the code can reach becomes an error constructor too:
  - the `todo!()` for an all-zero column in `lineq.rs`;
  - the `usize` underflow in the basic-solution padding, in the as-written members only (`LinearEquations.SweepAsWritten`); the solver itself uses the corrected construction (see Findings);
  - `remove(0)` on an empty vector list in `maxlinind.rs`;
  - `n - 1` with no vertices in `exp4.rs`;
  - `Matrix::shape()` indexing the first row (common.rs:17) when the text holds no cell: at lineq.rs:167 this is `LinearEquations` `NoRows`, at maxlinind.rs:97 `VectorSets` `NoVectors`, and at exp2.rs:51 `Relations` `NoRows`.
- The random number generator of `exp4.rs` is a parameter: a finite list of raw draws. Each draw is brought into range by the remainder modulo n.
- The standalone copy of the propositional experiment differs from the library copy only in its title. `Propositional.Title` models that title.
- In a block comment the preprocessor reads `*` followed by `*` as going back into the comment. So `**/` does not end the comment. The model keeps that behaviour (`Lexer.DoubleStarDoesNotClose`), and so does the reference reading of comments, `Lexer.StripComments`, which reads a star in a block comment together with the character after it. The reference reading puts one space where a comment stood, since the preprocessor treats an opened comment as a separator.
- `rref.rs` prints its step labels with `to_tex_with_paren` (rref.rs:98) and `to_tex_with_sign_ignore_one` (rref.rs:111). The trait that defines these two methods is not part of this model. `RationalText.Label` takes them to behave like the formatters that `reduced_row_echelon.rs` uses at the same two places: the parenthesised printer at lines 47-64 and the factor printer at lines 165-180.

## Model

| member | source | states |
|---|---|---|
| Lexer.PreprocessShape | assignment/src/comp/lexer.rs:77-199 | the output has no newline, no space at either end and never two spaces in a row, and every kept character carries the row and column of a source character it came from; a kept character other than a space is that source character, read outside every comment; the source indices strictly increase along the output, so no source character yields two output characters and the order is kept |
| Lexer.PreprocessFolds | assignment/src/comp/lexer.rs:77-199 | for every source, the output's characters are exactly the reference folding `Lexer.Fold`: the text outside comments cut at blanks and comments into its non-blank runs, joined by one space, with nothing at either end |
| Lexer.RunSqueezes | assignment/src/comp/lexer.rs:83-194 | over the whole loop, the emitted characters are what `Lexer.Squeeze` makes of the reference reading of the text: each stretch of blanks and comments becomes one space, none right after a space or at the start |
| Lexer.StepSqueezes | assignment/src/comp/lexer.rs:84-193 | each iteration, in each comment state, keeps the emitted text plus the squeezed pending text unchanged |
| Lexer.SqueezeSpaced | assignment/src/comp/lexer.rs:172-193 | the character-by-character space collapsing equals the runs joined by single spaces, plus one leading and one trailing space exactly when the text starts or ends with a blank that is not already covered |
| Lexer.StepKeepsShape | assignment/src/comp/lexer.rs:84-193 | one loop iteration keeps the output free of newlines, leading spaces and double spaces, with the `spaced` flag telling whether the output ends in a space |
| Lexer.RunKeepsShape | assignment/src/comp/lexer.rs:83-194 | the whole loop keeps that invariant |
| Lexer.StepKeepsOrigins | assignment/src/comp/lexer.rs:84-193 | after each character the row/column counters equal the line number and the column within the consumed text, and the output characters have strictly increasing origins there, all before a held slash |
| Lexer.RunKeepsOrigins | assignment/src/comp/lexer.rs:83-194 | the counters and the increasing origins stay correct over the whole loop |
| Lexer.PositionsOnAppend | assignment/src/comp/lexer.rs:172-192 | a newline advances the row and resets the column to 1; any other character advances the column |
| Lexer.RunWithoutSlash | assignment/src/comp/lexer.rs:172-193 | with no slash the machine never enters a comment, and it keeps exactly the characters that are not blanks or newlines |
| Lexer.PreprocessKeepsWords | assignment/src/comp/lexer.rs:77-199 | on slash-free input, removing spaces from the output gives the input without spaces and newlines |
| Lexer.CleanIsFixedPoint | assignment/src/comp/lexer.rs:77-199 | a normalized slash-free text comes out unchanged |
| Lexer.PreprocessIdempotent | assignment/src/comp/lexer.rs:77-199 | preprocessing the characters of a preprocessed slash-free text changes nothing |
| Lexer.PreprocessStripsComments | assignment/src/comp/lexer.rs:77-199 | for every source, the output without spaces is exactly the non-blank text that the reference reading of comments (`Lexer.StripComments`) keeps: nothing inside a line or block comment is emitted and nothing outside is lost except blanks and a final slash |
| Lexer.RunStrips | assignment/src/comp/lexer.rs:83-194 | over the whole loop, the visible output grows by exactly what the reference reading keeps of the text read, given the comment state the loop starts in |
| Lexer.StepStrips | assignment/src/comp/lexer.rs:84-193 | each iteration, in each of the five comment states, moves visible text from the reference's pending part to the output without changing the whole |
| Lexer.StripSlashFree | assignment/src/comp/lexer.rs:86-91 | text without a slash opens no comment, so the reference keeps all of it and the general statement agrees with the slash-free one |
| Lexer.BlockSwallows | assignment/src/comp/lexer.rs:137-152 | inside a block comment, text without `*` emits nothing and stays in the comment |
| Lexer.UnterminatedBlockIsDropped | assignment/src/comp/lexer.rs:137-152 | once a block comment is open and never closed, any following text without `*` adds nothing to the output |
| Lexer.FinalSlashIsDropped | assignment/src/comp/lexer.rs:86-91 | a slash at the very end of the input is never emitted |
| Lexer.DoubleStarDoesNotClose | assignment/src/comp/lexer.rs:153-169 | `**/` does not end a block comment: `*` then `*` goes back to the comment state |
| Lexer.EmptyCommentSeparates | assignment/src/comp/lexer.rs:203-214 | the first test case: `i/**/n`, newline, `t` gives i, space, n, space, t at (1,1) (1,2) (1,6) (1,7) (2,1) |
| Lexer.LineCommentInsideBlockIsInert | assignment/src/comp/lexer.rs:216-227 | the second test case: `//` inside a block comment has no effect |
| Lexer.LineCommentAfterBlockSwallowsLine | assignment/src/comp/lexer.rs:229-238 | the third test case: `//` right after a block comment removes the rest of the line |
| Decimal.IntRoundTrip | assignment/src/common.rs:57 | an integer cell printed in decimal reads back as itself |
| Decimal.FractionRoundTrip | assignment/src/common.rs:57 | a rational cell `p/q` with non-zero q reads back as p/q |
| Decimal.UnderscoreSkipped | assignment/src/common.rs:57 | as in num-bigint's reader, a `_` after the first digit does not change the number read, with or without a sign, and a `_` before the first digit is rejected |
| Decimal.UnderscoreExamples | assignment/src/common.rs:57 | `1_000` reads as 1000, `1_2/3` as 4, and `_1` and `-_1` are rejected |
| Matrices.Shape | assignment/src/common.rs:16-18 | the shape is the number of rows and the length of the first row, which is every row's length in a rectangular matrix |
| Matrices.Map | assignment/src/common.rs:20-29 | every cell is mapped in place |
| Matrices.MapKeepsShape | assignment/src/common.rs:20-29 | mapping keeps the matrix rectangular with the same shape |
| Matrices.SplitJoinRoundTrip | assignment/src/common.rs:53 | splitting on a separator character and joining with it gives the text back |
| Matrices.LinesRoundTrip | assignment/src/common.rs:53 | the lines of a text joined by newlines give the text back |
| Matrices.WordsRoundTrip | assignment/src/common.rs:56 | non-empty blank-free words joined by single spaces split back into the same words |
| Matrices.EmptyHasNoWords | assignment/src/common.rs:56-60 | an empty line has no words, so it is skipped |
| Matrices.FromText | assignment/src/common.rs:52-74 | the text reads exactly when every word parses and all non-blank lines have the same number of words, and then cell (i, j) is the j-th word of the i-th non-blank line |
| Matrices.ParseLinesMatchesGrid | assignment/src/common.rs:53-65 | reading line by line and dropping blank lines succeeds exactly when every word of the word grid parses |
| Matrices.TextRoundTrip | assignment/src/common.rs:52-74 | a matrix of cell words written one row per line reads back as the same grid |
| Matrices.ShowRoundTrip | assignment/src/common.rs:81-92 | the rows joined by the TeX row break can be split apart again, giving each shown row back, when no row contains a `[` |
| Matrices.JoinSplitOnRoundTrip | assignment/src/common.rs:88 | joining parts with a separator and splitting on it is the identity when a marker character of the separator occurs in no part |
| Elimination.SwapRow | assignment/src/linalg/rref.rs:16-20 | the two rows are exchanged and every other row is kept |
| Elimination.ScaleRow | assignment/src/linalg/rref.rs:29-38 | every entry of the row is multiplied by the factor, and other rows are kept |
| Elimination.ScaleAddRow | assignment/src/linalg/rref.rs:49-61 | row2 gains row1 times the factor, entry by entry, and other rows are kept |
| Elimination.SwapUndoesSwap | assignment/src/linalg/rref.rs:16-20 | a swap is its own inverse |
| Elimination.ScaleUndoesScale | assignment/src/linalg/rref.rs:29-38 | scaling by f and then by 1/f restores the matrix |
| Elimination.ScaleAddUndoesScaleAdd | assignment/src/linalg/rref.rs:49-61 | adding f times a row and then -f times it restores the matrix |
| Elimination.Steps | assignment/src/linalg/rref.rs:63-121 | the log holds one entry per row operation, in order, and entry k holds the matrix after applying the first k + 1 operations, so the last one is the result |
| Elimination.FirstNonZero | assignment/src/linalg/rref.rs:70-80 | the pivot search finds the first row at or below the target with a non-zero entry in the column, or reports that there is none |
| Elimination.Normalize | assignment/src/linalg/rref.rs:81-102 | after the optional swap and scale, the target row has a 1 in the pivot column |
| Elimination.ClearCorrect | assignment/src/linalg/rref.rs:103-117 | clearing zeroes the pivot column outside the target row, leaves the target row alone, and equals applying its logged operations |
| Elimination.ColumnCorrect | assignment/src/linalg/rref.rs:69-119 | processing one column either leaves the matrix alone (no pivot) or adds one pivot row whose leading entry is in that column, keeping earlier pivots |
| Elimination.EliminateCorrect | assignment/src/linalg/reduced_row_echelon.rs:118-188 | elimination ends in reduced row echelon form, the result is the logged operations applied to the input, and the pivot count is the number of non-zero rows |
| Elimination.ReducedRowEchelonForm | assignment/src/linalg/rref.rs:127-134 | the result is in reduced row echelon form, has the input's shape, and is reached from the input by row operations |
| Elimination.Rank | assignment/src/linalg/rref.rs:140-147 | the rank is the pivot count of elimination and is at most the number of rows and of columns |
| Elimination.NoStepsIffRref | assignment/src/linalg/rref.rs:184-188 | the step log is empty exactly when the input is already in reduced row echelon form |
| Elimination.RrefIsFixedPoint | assignment/src/linalg/reduced_row_echelon.rs:194-204 | a matrix in reduced row echelon form is its own reduced form |
| Elimination.ReduceIdempotent | assignment/src/linalg/rref.rs:127-147 | reducing twice is reducing once, and the rank is unchanged |
| Elimination.ReduceTruncate | assignment/src/linalg/lineq.rs:26-34 | eliminating the first k columns does what full elimination does to those columns, which lets the coefficient rank be compared with the augmented rank |
| RationalText.ToTex | assignment/src/linalg/reduced_row_echelon.rs:17-28 | the plain form starts with `-` exactly for negative values |
| RationalText.WithSign | assignment/src/linalg/reduced_row_echelon.rs:30-45 | the signed form always starts with `+` or `-`, and with `-` exactly for negative values |
| RationalText.WithSignIsSignedTex | assignment/src/linalg/reduced_row_echelon.rs:30-45 | the signed form is the plain form, with `+` in front when the value is non-negative |
| RationalText.WithParenWrapsNegative | assignment/src/linalg/reduced_row_echelon.rs:47-64 | the parenthesised form is the plain form, wrapped in `\left(` … `\right)` when negative |
| RationalText.TexRoundTrip | assignment/src/linalg/reduced_row_echelon.rs:17-28 | a reduced fraction printed in plain form reads back as itself |
| RationalText.ReadSignedOf | assignment/src/linalg/reduced_row_echelon.rs:30-45 | the signed form reads back as the same fraction |
| RationalText.ReadParenOf | assignment/src/linalg/reduced_row_echelon.rs:47-64 | the parenthesised form reads back as the same fraction |
| RationalText.Coefficient | assignment/src/linalg/reduced_row_echelon.rs:166-180 | the factor of an elimination step is a bare sign exactly when it is 1 or -1, and starts with `-` exactly when negative |
| RationalText.ScaleLabelRoundTrip | assignment/src/linalg/reduced_row_echelon.rs:152-158 | the scaling label names the row (counted from 1) and the factor, and both read back |
| RationalText.ScaleAddLabelRoundTrip | assignment/src/linalg/reduced_row_echelon.rs:165-180 | the elimination label names the changed row, the factor and the pivot row, and all three read back |
| RationalText.LabelRoundTrip | assignment/src/linalg/rref.rs:81-115 | the caption of each logged row operation (swap, scale, add a multiple) reads back as that operation's rows and a fraction with its factor; the swap caption is the corrected one of the Findings |
| RationalText.SwapLabelRoundTrip | assignment/src/linalg/reduced_row_echelon.rs:142-145 | corrected: the swap label names both exchanged rows, counted from 1 |
| RationalText.SwapLabelAsWrittenReadsOneRowUp | assignment/src/linalg/rref.rs:84-87 | as written, the swap label names the second row one lower than the row actually exchanged |
| LinearSystems.Coefficients | assignment/src/linalg/lineq.rs:27-31 | the coefficient matrix is every row without its last entry |
| LinearSystems.OpsKeepSolutions | assignment/src/linalg/rref.rs:63-121 | a sequence of valid row operations keeps the solution set of an augmented matrix |
| LinearSystems.ReductionKeepsSolutions | assignment/src/linalg/lineq.rs:271 | a system and its reduced row echelon form have the same solutions |
| LinearSystems.AddHomogeneous | assignment/src/linalg/lineq.rs:332-340 | a solution plus a solution of the homogeneous system is a solution, as in the set η0 + Σ kᵢ ξᵢ |
| LinearSystems.ParticularSolves | assignment/src/linalg/lineq.rs:321-324 | with no pivot in the right-hand column, putting each pivot row's right-hand side on its pivot unknown solves the reduced system |
| LinearSystems.BasicSolvesHomogeneous | assignment/src/linalg/lineq.rs:300-318 | the basic solution of a free unknown (1 there, minus its column on the pivot unknowns) solves the homogeneous system |
| LinearSystems.RankTest | assignment/src/linalg/lineq.rs:26-34 | the coefficient matrix and the augmented matrix have equal rank exactly when the system is solvable |
| LinearSystems.SolutionCount | assignment/src/linalg/lineq.rs:36-38 | a solvable system has a unique solution exactly when its rank equals the number of unknowns, and infinitely many exactly when the rank is smaller |
| LinearSystems.SolutionIsRhs | assignment/src/linalg/lineq.rs:379-392 | when the rank equals the number of unknowns, every solution is the right-hand column of the reduced form read down its pivot rows, so the solution the program calls unique is determined |
| LinearEquations.HomogeneousIffZeroSolves | assignment/src/linalg/lineq.rs:21-24 | a system is homogeneous exactly when the zero vector solves it |
| LinearEquations.HasAnySolution | assignment/src/linalg/lineq.rs:26-34 | the rank comparison is true exactly when the system is solvable |
| LinearEquations.InfiniteSolutionsCorrect | assignment/src/linalg/lineq.rs:36-38 | for a solvable system the rank test means many solutions, and its negation means a unique one |
| LinearEquations.Col | assignment/src/linalg/lineq.rs:121-129 | column j holds entry j of every row |
| LinearEquations.NonZeroRows | assignment/src/linalg/lineq.rs:182-186 | the rows where a column is non-zero, all of them, in increasing order |
| LinearEquations.FreeUnknowns | assignment/src/linalg/lineq.rs:180-209 | the unknowns without a pivot, all of them, in increasing order |
| LinearEquations.BasisCorrect | assignment/src/linalg/lineq.rs:180-209 | each basic solution solves the homogeneous system, and on the free unknowns the basis is the identity |
| LinearEquations.HasZeroColumn | assignment/src/linalg/lineq.rs:187-188 | true exactly when some coefficient column is all zero, the case the Rust solver leaves as `todo!()` |
| LinearEquations.BasicSolutions | assignment/src/linalg/lineq.rs:180-209 | corrected construction: fails exactly on an all-zero coefficient column; otherwise one basic solution per free unknown, each solving the homogeneous system |
| LinearEquations.OneSolution | assignment/src/linalg/lineq.rs:321-324 | corrected: a homogeneous solution plus each pivot row's right-hand side placed on that row's pivot unknown solves the reduced system |
| LinearEquations.OneSolutionSolves | assignment/src/linalg/lineq.rs:321-324 | that particular solution also solves the original system |
| LinearEquations.DifferenceIsHomogeneous | assignment/src/linalg/lineq.rs:332-340 | two solutions differ by a homogeneous solution, so η0 + span ξ describes every solution |
| LinearEquations.ClassifyHomogeneous | assignment/src/linalg/lineq.rs:175-269 | a homogeneous system has only the zero solution or a basis of homogeneous solutions, matching the uniqueness of its solution; it stops with `Unimplemented` exactly when the system has several solutions and its reduced form has an all-zero coefficient column |
| LinearEquations.GeneralFamily | assignment/src/linalg/lineq.rs:288-378 | with several solutions, the report holds a particular solution and a non-empty list of homogeneous solutions; it stops with `Unimplemented` exactly when the reduced form has an all-zero coefficient column |
| LinearEquations.ClassifyGeneral | assignment/src/linalg/lineq.rs:270-396 | a non-homogeneous system is reported unsolvable, unique or a family, each matching the truth, and `Unimplemented` exactly when it has several solutions and its reduced form has an all-zero coefficient column |
| LinearEquations.Classify | assignment/src/linalg/lineq.rs:174-396 | the report's kind is homogeneous exactly when the system is, "no solution" exactly when unsolvable, and unique exactly when there is one solution; `Unimplemented` comes exactly when the system has several solutions and its reduced form has an all-zero coefficient column |
| LinearEquations.FreeBranchStops | assignment/src/linalg/lineq.rs:180-188 | for a system with several solutions, the basic solutions of the reduced form fail exactly when one of its coefficient columns is entirely zero |
| LinearEquations.UniqueNeverStops | assignment/src/linalg/lineq.rs:174-188 | a system with one solution never reaches the all-zero-column stop |
| LinearEquations.Solve | assignment/src/linalg/lineq.rs:157-173 | parse failures, an empty matrix and fewer than 2 columns are reported as such; otherwise the report is for the matrix read and tells the truth about it (`Truthful`: the reduced form, and each kind exactly when the system has that kind of solution set, with its solutions), an `Unimplemented` report comes exactly when the matrix read has several solutions and its reduced form has an all-zero coefficient column, and the padding underflow never reaches it |
| LinearEquations.ShownRows | assignment/src/linalg/lineq.rs:71-72 | the printed equations are the non-zero rows, all of them, in order: an order-preserving subsequence of the rows, every one non-zero, with as many entries as the matrix has non-zero rows |
| Elimination.NonZeroSubseqUnique | assignment/src/linalg/lineq.rs:71-72 | those three facts pin the result down: two subsequences of the same matrix that both satisfy them are equal, so any list meeting them is the filter's output |
| LinearEquations.ReducedShowsRank | assignment/src/linalg/lineq.rs:71-72 | the reduced system prints as many equations as the rank |
| LinearEquations.SweepAsWritten | assignment/src/linalg/lineq.rs:291-320 | as written: the column loop keeps a prefix of basic solutions and fails only at an all-zero column or at the padding underflow |
| LinearEquations.BasicSolutionsAsWritten | assignment/src/linalg/lineq.rs:180-209 | as written: each basic solution has one entry per unknown, and the underflow happens only with more rows than unknowns |
| LinearEquations.OneSolutionAsWritten | assignment/src/linalg/lineq.rs:321-324 | as written: the right-hand side of row i is added at index i |
| LinearEquationsFindings.ShiftedBasicSolutionAsWritten | assignment/src/linalg/lineq.rs:201-207 | on x1+x2+x4=0, x3+x4=0 the Rust solver's second basic solution (-1,-1,0,1) does not solve the system |
| LinearEquationsFindings.ShiftedBasicSolutionsCorrected | assignment/src/linalg/lineq.rs:201-207 | the corrected basic solutions of the same system solve it |
| LinearEquationsFindings.TallUnderflowsAsWritten | assignment/src/linalg/lineq.rs:189-197 | x1+x2=0 written with two extra zero rows makes the padding length 3 - 1 - 3 = 2 - 3 underflow |
| LinearEquationsFindings.TallIsFixedPoint | assignment/src/linalg/lineq.rs:176 | x1+x2=0 with two extra zero rows is already in reduced row echelon form, so the reduction the solver applies first returns it unchanged and the finding is about the matrix as typed |
| LinearEquationsFindings.TallBasicSolutionsCorrected | assignment/src/linalg/lineq.rs:189-197 | the corrected construction gives that system its basic solution (-1, 1) |
| LinearEquationsFindings.OffsetIsFixedPoint | assignment/src/linalg/lineq.rs:271 | x1+x2=1, x3=1 is already in reduced row echelon form, so the reduction the solver applies first returns it unchanged |
| LinearEquationsFindings.OffsetOneSolutionAsWritten | assignment/src/linalg/lineq.rs:321-324 | on x1+x2=1, x3=1 the Rust solver shows (0,2,0), which does not solve the system |
| LinearEquationsFindings.OffsetOneSolutionCorrected | assignment/src/linalg/lineq.rs:321-324 | the corrected particular solution (0,1,1) solves the same system |
| VectorSets.FromColumns | assignment/src/linalg/maxlinind.rs:95-103 | vector j is column j of the matrix read |
| VectorSets.ToMatrix | assignment/src/linalg/maxlinind.rs:50-63 | the matrix has the vectors as columns and the set's shape |
| VectorSets.ColumnsRoundTrip | assignment/src/linalg/maxlinind.rs:50-59 | reading the columns of a matrix and putting them side by side gives the matrix back |
| VectorSets.MatrixRoundTrip | assignment/src/linalg/maxlinind.rs:95-103 | putting vectors side by side and reading the columns gives the vectors back |
| VectorSets.SolvesAugmented | assignment/src/linalg/maxlinind.rs:70-74 | c solves [set \| v] exactly when c is a coefficient list that combines the set into v |
| VectorSets.SpanIffSolvable | assignment/src/linalg/maxlinind.rs:65-75 | v lies in the span exactly when the augmented system is solvable |
| VectorSets.IsInSpan | assignment/src/linalg/maxlinind.rs:65-75 | the rank test answers span membership |
| VectorSets.FirstOccurrences | assignment/src/linalg/maxlinind.rs:156-161 | the reference dedup: the same members as the input, each once, in order of first occurrence |
| VectorSets.Dedup | assignment/src/linalg/maxlinind.rs:156-161 | the dedup loop equals that reference |
| VectorSets.NonZeroVectors | assignment/src/linalg/maxlinind.rs:162-168 | exactly the non-zero vectors, in order: an order-preserving subsequence of the input, with the same non-zero members and as many entries as the input has non-zero vectors |
| VectorSets.NonZeroVectorsAreShownRows | assignment/src/linalg/maxlinind.rs:162-168 | this zero filter keeps the same list as the filter of printed equations in `lineq.rs` |
| VectorSets.StepwiseIndependent | assignment/src/linalg/maxlinind.rs:169-177 | a set where no member is in the span of the earlier ones is linearly independent |
| VectorSets.SelectIndependent | assignment/src/linalg/maxlinind.rs:169-177 | the greedy pass returns exactly the reference choice `GreedyChoice`: the first vector, then each vector outside the span of the vectors kept before it, skipping each vector inside that span; the kept set spans every input vector, and an empty input is the only error |
| VectorSets.GreedyNext | assignment/src/linalg/maxlinind.rs:172-177 | one iteration keeps the loop state and the reference choice: a vector is appended exactly when it is outside the span of those kept |
| VectorSets.MaximalIndependent | assignment/src/linalg/maxlinind.rs:155-177 | the result is the greedy choice over the unique non-zero vectors in order; it is linearly independent, drawn from the non-zero input vectors, and spans every input vector; it fails exactly when all vectors are zero |
| VectorSets.SelectionSpans | assignment/src/linalg/maxlinind.rs:155-177 | a greedy result over the unique non-zero vectors is independent, drawn from the non-zero input vectors, and spans every input vector, the zero vectors included |
| VectorSets.Parse | assignment/src/linalg/maxlinind.rs:92-103 | the vectors are the columns of the matrix read, or the parse failure or empty input |
| VectorSets.Solve | assignment/src/linalg/maxlinind.rs:145-177 | the answer is the greedy choice over the unique non-zero input vectors, an independent subset of them spanning all of them, with each failure reported exactly when it happens |
| InversionNumbers.Inv | assignment/src/linalg/inversion_number.rs:6-17 | the double loop counts exactly the pairs i < j with a[i] > a[j] |
| InversionNumbers.InversionsBound | assignment/src/linalg/inversion_number.rs:6-17 | there are at most n(n-1)/2 inversions |
| InversionNumbers.NoInversionsIffAscending | assignment/src/linalg/inversion_number.rs:6-17 | there is no inversion exactly when the sequence is non-decreasing |
| InversionNumbers.MostInversionsIffDescending | assignment/src/linalg/inversion_number.rs:6-17 | there are n(n-1)/2 inversions exactly when the sequence is strictly decreasing |
| InversionNumbers.InvBounds | assignment/src/linalg/inversion_number.rs:6-17 | the computed count respects the bound and both extremal characterisations |
| InversionNumbers.AscendingExample | assignment/src/linalg/inversion_number.rs:21-28 | 1 2 3 4 has no inversion |
| InversionNumbers.DescendingExample | assignment/src/linalg/inversion_number.rs:29-36 | 4 3 2 1 has 6 inversions |
| InversionNumbers.AscendingThousand | assignment/src/linalg/inversion_number.rs:37-43 | 1..1000 has no inversion |
| InversionNumbers.DescendingThousand | assignment/src/linalg/inversion_number.rs:44-51 | 1000..1 has 499500 inversions |
| InversionNumbers.ParseNumbers | assignment/src/linalg/inversion_number.rs:75-84 | the input parses exactly when every piece between non-digits is non-empty; the numbers are non-negative and there is at least one |
| InversionNumbers.ParseRoundTrip | assignment/src/linalg/inversion_number.rs:75-84 | numbers written with single spaces read back as themselves |
| InversionNumbers.EmptyFails | assignment/src/linalg/inversion_number.rs:75-87 | the empty input is one empty piece, so it fails to parse rather than reaching the emptiness check |
| InversionNumbers.LeadingSeparatorFails | assignment/src/linalg/inversion_number.rs:76-77 | a leading non-digit, such as a minus sign, makes the input fail |
| InversionNumbers.TrailingSeparatorFails | assignment/src/linalg/inversion_number.rs:76-77 | a trailing non-digit makes the input fail |
| InversionNumbers.DoubleSeparatorFails | assignment/src/linalg/inversion_number.rs:76-77 | two non-digits in a row make the input fail |
| InversionNumbers.Solve | assignment/src/linalg/inversion_number.rs:74-97 | a parse failure is the only error; otherwise the answer is the inversion number and its parity |
| Propositional.EvalAgrees | assignment/src/discrete/exp1.rs:105-120 | a formula's value depends only on the values of its own propositions |
| Propositional.FromWord | assignment/src/discrete/exp1.rs:49-53 | a word is a literal exactly when its ASCII lowercase form is t, true, f or false (true for the first two); otherwise it is a proposition with the word as written |
| Propositional.WordExamples | assignment/src/discrete/exp1.rs:49-53 | TRUE, F and fAlSe are literals and P is a proposition |
| Propositional.SortedList | assignment/src/discrete/exp1.rs:123 | the propositions, each once, in strictly increasing order |
| Propositional.Rows | assignment/src/discrete/exp1.rs:124-125 | 2^k rows of k values each |
| Propositional.RowsComplete | assignment/src/discrete/exp1.rs:124-125 | every k-tuple of values is a row, found at the position its values give when read as binary digits with true as 0 |
| Propositional.RowsOrdered | assignment/src/discrete/exp1.rs:124-125 | rows come in lexicographic order with true before false |
| Propositional.RowsEnds | assignment/src/discrete/exp1.rs:124-125 | the first row is all true and the last row all false |
| Propositional.Zip | assignment/src/discrete/exp1.rs:128-132 | the assignment is defined on exactly the propositions |
| Propositional.ZipAt | assignment/src/discrete/exp1.rs:128-132 | the assignment gives proposition i the i-th value of the row |
| Propositional.TruthTable | assignment/src/discrete/exp1.rs:122-139 | 2^k rows, each defined on exactly the propositions, each result being the formula's value under the row |
| Propositional.TableComplete | assignment/src/discrete/exp1.rs:122-139 | every assignment of the propositions appears as a row |
| Propositional.TableDistinct | assignment/src/discrete/exp1.rs:122-139 | no assignment appears twice |
| Propositional.TableEnds | assignment/src/discrete/exp1.rs:122-139 | the first row makes every proposition true and the last row every one false |
| Propositional.Term | assignment/src/discrete/exp1.rs:180-186 | one literal per proposition, in order, each holding under the row exactly when the row's result is the clause's polarity |
| Propositional.RowsToClauses | assignment/src/discrete/exp1.rs:194-217 | every row with the chosen result contributes its clause |
| Propositional.ClausesFromRows | assignment/src/discrete/exp1.rs:169-192 | every clause comes from a row with the chosen result |
| Propositional.DnfEquivalent | assignment/src/discrete/exp1.rs:194-217 | the full disjunctive normal form holds under an assignment exactly when the formula does |
| Propositional.CnfEquivalent | assignment/src/discrete/exp1.rs:169-192 | the full conjunctive normal form holds under an assignment exactly when the formula does |
| Propositional.FormsShareTheTable | assignment/src/discrete/exp1.rs:169-217 | the two forms together have one clause per row of the table |
| Propositional.DnfText | assignment/src/discrete/exp1.rs:194-217 | the printed disjunctive form is empty exactly when it has no clause |
| Propositional.CnfText | assignment/src/discrete/exp1.rs:169-192 | the printed conjunctive form is empty exactly when it has no clause |
| Propositional.BlankDnfIffContradiction | assignment/src/discrete/exp1.rs:194-217 | the disjunctive form prints as nothing exactly when the formula is a contradiction |
| Propositional.BlankCnfIffTautology | assignment/src/discrete/exp1.rs:169-192 | the conjunctive form prints as nothing exactly when the formula is a tautology |
| Propositional.NoTrueRowIffContradiction | assignment/src/discrete/exp1.rs:194-217 | the table has no true row exactly when no assignment satisfies the formula |
| Propositional.NoFalseRowIffTautology | assignment/src/discrete/exp1.rs:169-192 | the table has no false row exactly when every assignment satisfies the formula |
| Propositional.Title | assignment/discrete/exp1/src/main.rs:261-262 | the standalone title starts and ends with the fixed text around the count |
| Propositional.TitleCount | assignment/discrete/exp1/src/main.rs:261-262 | the digits in the title read back as the number of distinct propositions |
| Relations.Related | assignment/src/discrete/exp2.rs:58 | a pair is related exactly when its entry is non-zero |
| Relations.Diagonal | assignment/src/discrete/exp2.rs:59-60 | the diagonal check holds exactly when every diagonal entry has the given value |
| Relations.ReflexiveAndIrreflexive | assignment/src/discrete/exp2.rs:59-60 | a relation is both reflexive and irreflexive exactly when it is empty |
| Relations.LowerPairs | assignment/src/discrete/exp2.rs:61-62 | the check over pairs below the diagonal holds exactly when it holds for every such pair |
| Relations.SymmetricIff | assignment/src/discrete/exp2.rs:61 | checking the pairs below the diagonal decides symmetry over all pairs |
| Relations.AntisymmetricIff | assignment/src/discrete/exp2.rs:62 | checking the pairs below the diagonal decides antisymmetry over all distinct pairs |
| Relations.Warshall | assignment/src/discrete/exp2.rs:63-75 | the in-place triple loop computes the transitive closure |
| Relations.ThroughComposes | assignment/src/discrete/exp2.rs:63-75 | paths through intermediate vertices below i compose |
| Relations.ClosureContains | assignment/src/discrete/exp2.rs:63-75 | the closure contains the relation |
| Relations.ClosureTransitive | assignment/src/discrete/exp2.rs:63-75 | the closure is transitive |
| Relations.ClosureLeast | assignment/src/discrete/exp2.rs:63-75 | the closure is contained in every transitive relation that contains the relation |
| Relations.TransitiveIffClosed | assignment/src/discrete/exp2.rs:76 | comparing the relation with its closure decides transitivity |
| Relations.ClosureIdempotent | assignment/src/discrete/exp2.rs:63-76 | closing twice is closing once |
| Relations.Bits | assignment/src/discrete/exp2.rs:77-78 | each cell shows "1" exactly when the pair is related, and "0" otherwise |
| Relations.Solve | assignment/src/discrete/exp2.rs:41-78 | parse failure, an empty matrix and a non-square matrix are reported exactly when they happen; otherwise each flag holds exactly when the property it names holds over all pairs (reflexive, irreflexive, symmetric, antisymmetric, transitive), and the closure is the transitive closure |
| Graphs.Dfs | assignment/src/discrete/exp4.rs:15-22 | the search marks the start and keeps old marks; each newly marked vertex is reachable from the start through unmarked vertices, and its neighbours are all marked |
| Graphs.FirstUnvisited | assignment/src/discrete/exp4.rs:29-36 | the first unmarked vertex |
| Graphs.CountComponents | assignment/src/discrete/exp4.rs:24-41 | the count is the number of connected components, witnessed by pairwise unreachable roots that reach every vertex; it is 0 exactly for the empty graph |
| Graphs.ComponentsUnique | assignment/src/discrete/exp4.rs:24-41 | any two sets of component roots have the same size, so the count is well defined |
| Graphs.ConnectedIffOneComponent | assignment/src/discrete/exp4.rs:96 | a non-empty simple graph has one component exactly when every two vertices are connected |
| Graphs.AddEdge | assignment/src/discrete/exp4.rs:86-91 | inserting an absent edge keeps the graph simple, adds 2 to the degree total and 1 to each end's degree |
| Graphs.RemoveEdge | assignment/src/discrete/exp4.rs:119-121 | removing a present edge keeps the graph simple and takes 2 from the degree total |
| Graphs.RemoveRestore | assignment/src/discrete/exp4.rs:131-132 | putting a removed edge back restores the graph |
| Graphs.EdgeGuardSound | assignment/src/discrete/exp4.rs:74-76 | a simple graph on n vertices has at most n(n-1)/2 edges, so the guard rejects only impossible requests |
| Graphs.CheckCounts | assignment/src/discrete/exp4.rs:74-76 | no vertices and too many edges are reported exactly when they hold |
| Graphs.Generate | assignment/src/discrete/exp4.rs:77-94 | the graph is simple with n vertices and m edges, and the degree list matches it; it is the graph the reference placement `Graphs.Place` builds from the draws, and the draws run out exactly when that placement fails |
| Graphs.Place | assignment/src/discrete/exp4.rs:82-94 | scanning the draws in order and adding the edge of each draw with two distinct, not yet joined vertices, until m edges stand, gives a simple graph whose degree total grows by 2m |
| Graphs.PlaceFailsIffFewDraws | assignment/src/discrete/exp4.rs:82-94 | the placement fails exactly when fewer than m draws qualify in the unbounded scan |
| Graphs.PlaceEdgesDrawn | assignment/src/discrete/exp4.rs:84-91 | the placed graph keeps every edge it started with, and each edge it adds is named by some draw, in one order or the other |
| Graphs.SkipTaken | assignment/src/discrete/exp4.rs:83-93 | the inner loop passes over exactly the draws that name one vertex twice or an existing edge and stops at the first other draw |
| Graphs.OddVertices | assignment/src/discrete/exp4.rs:98-103 | exactly the odd-degree vertices, in increasing order |
| Graphs.OddVerticesEven | assignment/src/discrete/exp4.rs:98-105 | a simple graph has an even number of odd-degree vertices |
| Graphs.Classify | assignment/src/discrete/exp4.rs:104-146 | Euler circuit exactly when connected with no odd vertex, Euler path exactly when connected with one or two, neither otherwise |
| Graphs.StartVertex | assignment/src/discrete/exp4.rs:109-113 | the walk starts at vertex 0 when no vertex is odd, else at the least odd vertex |
| Graphs.HasEdge | assignment/src/discrete/exp4.rs:115 | true exactly when the row has an edge |
| Graphs.Advance | assignment/src/discrete/exp4.rs:117-135 | takes the first neighbour whose edge removal keeps the component count or leaves the vertex isolated, after refusing all earlier ones; if none qualifies, the graph is unchanged and every neighbour was refused |
| Graphs.WalkStep | assignment/src/discrete/exp4.rs:117-126 | taking an unused edge extends the trail and removes exactly that edge from what is left |
| Graphs.Fleury | assignment/src/discrete/exp4.rs:109-138 | the path starts at the start vertex and is a trail of the graph, with the remaining graph being the unused edges; it finishes only when the last vertex has no edge left |
| Graphs.UnsignedRoundTrip | assignment/src/discrete/exp4.rs:62-69 | counts print and read back, with or without a `+` |
| Graphs.UnsignedIsSigned | assignment/src/discrete/exp4.rs:62 | an unsigned count reads as the same signed number, and a leading `-` is rejected |
| Graphs.Counts | assignment/src/discrete/exp4.rs:61-73 | the counts are read exactly when the first two words parse as unsigned numbers |
| Graphs.Solve | assignment/src/discrete/exp4.rs:60-146 | a parse failure is reported exactly when the counts do not parse, the bound failures exactly when `Graphs.CheckCounts` reports them, and exhausted draws exactly when the reference placement fails; a stuck walk is reported only for a graph the placement builds whose kind is not neither and whose walk from the start vertex ends with every remaining edge at its last vertex refused; the report's graph is the placed graph, its flag means connected, its kind follows the classification, and a walk is shown exactly for the first two kinds, as a trail from the start vertex that has used every edge at its last vertex |
| Graphs.Analyse | assignment/src/discrete/exp4.rs:96-146 | after generation the only failure is a stuck walk, with its witness; otherwise the report keeps the graph and degrees, and its flag, kind and walk are as in `Graphs.Solve` |

## Left out

- The lexer's tokenizer after preprocessing, the parser and the pest grammar of the propositional formulas. Formulas are a datatype here. Only the word-to-literal rule of the term builder is modelled.
- The Pratt precedence table of the formula parser (`exp1.rs` lines 76-85) is not modelled. It only decides the shape of the tree.
- Views, styles, TeX page layout, the web framework and `shiyanyi/src/lib.rs`. Only the texts the core computes are modelled: numbers, step labels, normal forms and the title.
- Big integers and big rationals are unbounded `int` and `real`. A rational cell keeps its value; its reduced numerator and denominator appear only where printing needs them.
- Propositional.TruthTable: with no propositions the model yields one empty row. The Rust solver's result depends on the version of the Cartesian-product library it uses.
- Graphs.Generate: the random generator is a finite list of draws. Running out of draws is an error of the model; the Rust solver would keep drawing. The seed word of the input is ignored.
- Graphs.CheckCounts: with zero vertices, `n - 1` underflows. This is a panic in a debug build, modelled as an error. In a release build the bound wraps, and only m > 0 would be rejected.
- Graphs.Counts: the `usize` width of the counts is not modelled.
- Graphs.Fleury: does not prove that a finished walk uses every edge of the graph (Fleury's theorem). It proves only that the walk is a trail and that its last vertex has no edge left.
- Graphs.Solve: when every edge at the current vertex is refused, the Rust solver's loop repeats forever; the model reports `WalkStuck`.
- InversionNumbers.Solve: the "Input is empty." branch is not modelled. Splitting always yields at least one piece, and an empty piece fails to parse, so the branch cannot be reached.
- VectorSets.IsInSpan: a vector of the wrong length makes the Rust solver panic. Here it is a precondition. All vectors read from one matrix have the same length, so the solver never hits it.
- VectorSets.Solve: the displayed rank is the size of the independent subset. It is not proved equal to the matrix rank.
- LinearEquations.Solve: the all-zero coefficient column (`todo!()` in the Rust solver) is reported as `Unimplemented`.
- LinearEquations.Solve: reports the corrected basic and particular solutions. Where the Rust solver panics at the padding underflow or shows a wrong vector, it returns the correct report instead; the as-written behaviour is modelled separately and listed under Findings.

## Findings

| source | as written | input that shows it | evidently intended | confidence | as-written member | corrected member |
|---|---|---|---|---|---|---|
| assignment/src/linalg/lineq.rs:201-207 | the negated column j of the reduced matrix is placed at indices 0..rows, i.e. entry i goes to unknown i | x1 + x2 + x4 = 0, x3 + x4 = 0 (`1 1 0 1 0` / `0 0 1 1 0`): the second basic solution shown is (-1, -1, 0, 1), which violates the second equation | entry i goes to the pivot unknown of row i, giving (-1, 0, -1, 1) | not executed | LinearEquationsFindings.ShiftedBasicSolutionAsWritten | LinearEquationsFindings.ShiftedBasicSolutionsCorrected |
| assignment/src/linalg/lineq.rs:189-197 | the column is padded to n - 1 entries with `n - 1 - col.len()`, which underflows when there are more rows than unknowns | x1 + x2 = 0 with two extra all-zero rows (`1 1 0` / `0 0 0` / `0 0 0`): with n = 3 columns and 3 rows, n - 1 - col.len() is 2 - 3, which underflows and the solver panics | one entry per unknown, whatever the number of rows | not executed | LinearEquationsFindings.TallUnderflowsAsWritten | LinearEquationsFindings.TallBasicSolutionsCorrected |
| assignment/src/linalg/lineq.rs:321-324 | the right-hand side of row i is added to unknown i | x1 + x2 = 1, x3 = 1 (`1 1 0 1` / `0 0 1 1`): the particular solution shown is (0, 2, 0), which violates the second equation | the right-hand side of row i goes to the pivot unknown of row i, giving (0, 1, 1) | not executed | LinearEquationsFindings.OffsetOneSolutionAsWritten | LinearEquationsFindings.OffsetOneSolutionCorrected |
| assignment/src/linalg/rref.rs:84-87 | the swap label prints the target row counted from 1 but the other row counted from 0 | `0 1` / `1 0`: rows 1 and 2 are exchanged, and the label reads r_1 ↔ r_1 | both rows counted from 1: r_1 ↔ r_2 (the same line is in reduced_row_echelon.rs at 142-145) | not executed | RationalText.SwapLabelAsWrittenReadsOneRowUp | RationalText.SwapLabelRoundTrip |

=== FILE: decimal.dfy ===
/**
  Decimal text for integers: the printing used when matrices, inversion
  numbers and titles are shown, and the integer and fraction syntax accepted
  when matrix cells are read. A cell integer follows num-bigint's reader: an
  optional `+` or `-`, then an ASCII digit, then digits and `_` separators,
  which are skipped; a fraction is two such integers around the first `/`,
  with a non-zero denominator.
 */
module Decimal {
  import opened Outcomes

  predicate IsDigit(c: char) {
    '0' <= c <= '9'
  }

  predicate AllDigits(s: string) {
    forall i :: 0 <= i < |s| ==> IsDigit(s[i])
  }

  function DigitChar(d: nat): (c: char)
    requires d < 10
    ensures IsDigit(c)
  {
    ('0' as int + d) as char
  }

  /** The number a string of digits denotes. */
  function ValueOf(s: string): nat
    requires AllDigits(s)
  {
    if s == [] then 0 else ValueOf(s[..|s| - 1]) * 10 + (s[|s| - 1] as int - '0' as int)
  }

  /** Shortest decimal digits of n (no leading zeros). */
  function NatToString(n: nat): (r: string)
    ensures |r| > 0 && AllDigits(r)
    ensures |r| > 1 ==> r[0] != '0'
  {
    if n < 10 then [DigitChar(n)] else NatToString(n / 10) + [DigitChar(n % 10)]
  }

  /** Decimal text of an integer, with a leading `-` when negative. */
  function IntToString(x: int): string {
    if x < 0 then "-" + NatToString(-x) else NatToString(x)
  }

  /** A run of digits with `_` separators that starts with a digit. */
  predicate Numeral(s: string) {
    |s| > 0 && IsDigit(s[0]) && forall i :: 0 <= i < |s| ==> IsDigit(s[i]) || s[i] == '_'
  }

  /** s with every `_` removed. */
  function DropUnderscores(s: string): (r: string)
    ensures |r| <= |s|
    ensures (forall i :: 0 <= i < |s| ==> IsDigit(s[i]) || s[i] == '_') ==> AllDigits(r)
    ensures |s| > 0 && IsDigit(s[0]) ==> |r| > 0 && r[0] == s[0]
  {
    if s == [] then []
    else if s[0] == '_' then DropUnderscores(s[1..])
    else [s[0]] + DropUnderscores(s[1..])
  }

  /** The number a numeral denotes: its digits with the separators skipped. */
  function NumeralValue(s: string): nat
    requires Numeral(s)
  {
    ValueOf(DropUnderscores(s))
  }

  /** An optional `+` or `-` followed by a numeral. */
  function ParseInt(s: string): Option<int> {
    if |s| > 1 && (s[0] == '-' || s[0] == '+') && Numeral(s[1..]) then
      Some(if s[0] == '-' then 0 - NumeralValue(s[1..]) else NumeralValue(s[1..]) as int)
    else if Numeral(s) then
      Some(NumeralValue(s))
    else
      None
  }

  /** Index of the first `/` in s, if any. */
  function SlashIndex(s: string): (r: Option<nat>)
    ensures r.Some? ==> r.value < |s| && s[r.value] == '/' && '/' !in s[..r.value]
    ensures r.None? ==> '/' !in s
  {
    if s == [] then None
    else if s[0] == '/' then Some(0)
    else match SlashIndex(s[1..])
      case None => None
      case Some(k) => assert s[..k + 1] == [s[0]] + s[1..][..k]; Some(k + 1)
  }

  /** An exact rational written as an integer or as `p/q` with q non-zero;
      the text after the first `/` must itself be an integer. */
  function ParseRational(s: string): Option<real> {
    match SlashIndex(s)
    case None =>
      (match ParseInt(s) case Some(p) => Some(p as real) case None => None)
    case Some(k) =>
      (match (ParseInt(s[..k]), ParseInt(s[k + 1..]))
       case (Some(p), Some(q)) => if q == 0 then None else Some(p as real / q as real)
       case _ => None)
  }

  lemma {:induction false} NatToStringRoundTrip(n: nat)
    ensures ValueOf(NatToString(n)) == n
    decreases n
  {
    if n >= 10 {
      var r := NatToString(n);
      NatToStringRoundTrip(n / 10);
      assert r[..|r| - 1] == NatToString(n / 10);
    }
  }

  lemma {:induction false} DropNoUnderscores(s: string)
    requires AllDigits(s)
    ensures DropUnderscores(s) == s
  {
    if s != [] {
      DropNoUnderscores(s[1..]);
    }
  }

  lemma {:induction false} DropAppend(a: string, b: string)
    ensures DropUnderscores(a + b) == DropUnderscores(a) + DropUnderscores(b)
  {
    if a == [] {
      assert a + b == b;
    } else {
      assert (a + b)[0] == a[0];
      assert (a + b)[1..] == a[1..] + b;
      DropAppend(a[1..], b);
    }
  }

  /** A non-empty digit string is a numeral denoting its value. */
  lemma DigitsAreNumeral(s: string)
    requires |s| > 0 && AllDigits(s)
    ensures Numeral(s) && NumeralValue(s) == ValueOf(s)
  {
    DropNoUnderscores(s);
  }

  /** Printing an integer and reading it back gives the same integer. */
  lemma IntRoundTrip(x: int)
    ensures ParseInt(IntToString(x)) == Some(x)
  {
    NatToStringRoundTrip(if x < 0 then -x else x);
    DigitsAreNumeral(NatToString(if x < 0 then -x else x));
    if x < 0 {
      var r := IntToString(x);
      assert r[1..] == NatToString(-x);
    }
  }

  /** A sign (or none) before a numeral reads as the signed value. */
  lemma SignedRead(sign: string, t: string)
    requires sign == "" || sign == "+" || sign == "-"
    requires Numeral(t)
    ensures ParseInt(sign + t) == Some(if sign == "-" then 0 - NumeralValue(t) else NumeralValue(t))
  {
    var w := sign + t;
    if sign == "" {
      assert w == t;
    } else {
      assert w[0] == sign[0] && w[1..] == t;
    }
  }

  /** A `_` where the first digit should be is rejected, after any sign. */
  lemma LeadingUnderscoreRejected(sign: string, t: string)
    requires sign == "" || sign == "+" || sign == "-"
    requires |t| > 0 && t[0] == '_'
    ensures ParseInt(sign + t) == None
  {
    var w := sign + t;
    if sign == "" {
      assert w == t;
    } else {
      assert w[0] == sign[0] && w[1..] == t;
    }
  }

  /** A `_` placed anywhere after the first digit of a digit string leaves
      the number read unchanged, with or without a sign; a leading `_` is
      rejected. */
  lemma UnderscoreSkipped(sign: string, d: string, k: nat)
    requires sign == "" || sign == "+" || sign == "-"
    requires AllDigits(d) && 0 < k <= |d|
    ensures ParseInt(sign + d[..k] + "_" + d[k..]) == ParseInt(sign + d)
    ensures ParseInt(sign + "_" + d) == None
  {
    InsertedRead(sign, d, k);
    LeadingUnderscoreRejected(sign, "_" + d);
    assert sign + "_" + d == sign + ("_" + d);
  }

  lemma InsertedRead(sign: string, d: string, k: nat)
    requires sign == "" || sign == "+" || sign == "-"
    requires AllDigits(d) && 0 < k <= |d|
    ensures ParseInt(sign + d[..k] + "_" + d[k..]) == ParseInt(sign + d)
  {
    var u := d[..k] + "_" + d[k..];
    assert sign + d[..k] + "_" + d[k..] == sign + u;
    DropInserted(d, k);
    DigitsAreNumeral(d);
    assert NumeralValue(u) == NumeralValue(d);
    SignedRead(sign, u);
    SignedRead(sign, d);
  }

  /** Inserting a `_` after the first digit keeps a numeral of the same
      digits. */
  lemma DropInserted(d: string, k: nat)
    requires AllDigits(d) && 0 < k <= |d|
    ensures Numeral(d[..k] + "_" + d[k..])
    ensures DropUnderscores(d[..k] + "_" + d[k..]) == d
  {
    InsertedIsNumeral(d, k);
    var x, y := d[..k], d[k..];
    assert AllDigits(x) && AllDigits(y);
    DropSplice(x, y);
    assert x + y == d;
  }

  lemma DropSplice(x: string, y: string)
    requires AllDigits(x) && AllDigits(y)
    ensures DropUnderscores(x + "_" + y) == x + y
  {
    var u: string := "_";
    var xu := x + u;
    assert DropUnderscores(u) == [] by {
      assert u[0] == '_' && u[1..] == [];
    }
    DropAppend(x, u);
    DropNoUnderscores(x);
    assert DropUnderscores(xu) == x;
    DropAppend(xu, y);
    DropNoUnderscores(y);
  }

  lemma InsertedIsNumeral(d: string, k: nat)
    requires AllDigits(d) && 0 < k <= |d|
    ensures Numeral(d[..k] + "_" + d[k..])
  {
    var u := d[..k] + "_" + d[k..];
    forall i | 0 <= i < |u|
      ensures IsDigit(u[i]) || u[i] == '_'
    {
      if i < k {
        assert u[i] == d[i];
      } else if i > k {
        assert u[i] == d[i - 1];
      }
    }
    assert u[0] == d[0];
  }

  /** Two cells with separators, read as num-bigint reads them. */
  lemma UnderscoreExamples()
    ensures ParseInt("1_000") == Some(1000)
    ensures ParseRational("1_2/3") == Some(4.0)
    ensures ParseInt("_1") == None
    ensures ParseInt("-_1") == None
  {
    UnderscoreThousand();
    UnderscoreFraction();
    LeadingUnderscoreRejected("", "_1");
    LeadingUnderscoreRejected("-", "_1");
    assert "" + "_1" == "_1" && "-" + "_1" == "-_1";
  }

  lemma UnderscoreThousand()
    ensures ParseInt("1_000") == Some(1000)
  {
    assert ValueOf("1000") == 1000 by {
      assert "1000"[..3] == "100" && "100"[..2] == "10" && "10"[..1] == "1";
    }
    assert DropUnderscores("1_000") == "1000" by {
      assert "1_000"[1..] == "_000" && "_000"[1..] == "000";
      DropNoUnderscores("000");
    }
    assert Numeral("1_000");
    SignedRead("", "1_000");
    assert "" + "1_000" == "1_000";
  }

  lemma UnderscoreTwelve()
    ensures ParseInt("1_2") == Some(12)
  {
    assert ValueOf("12") == 12 by { assert "12"[..1] == "1"; }
    assert DropUnderscores("1_2") == "12" by {
      assert "1_2"[1..] == "_2" && "_2"[1..] == "2";
    }
    assert Numeral("1_2");
    SignedRead("", "1_2");
    assert "" + "1_2" == "1_2";
  }

  lemma UnderscoreFraction()
    ensures ParseRational("1_2/3") == Some(4.0)
  {
    var s := "1_2/3";
    UnderscoreTwelve();
    DigitsParse("3");
    assert ValueOf("3") == 3;
    assert s[0] != '/' && s[1] != '/' && s[2] != '/' && s[3] == '/';
    assert '/' !in s[..3];
    assert SlashIndex(s) == Some(3);
    assert s[..3] == "1_2" && s[4..] == "3";
  }

  /** Printing a fraction with a non-zero denominator and reading it back
      gives its value. */
  lemma FractionRoundTrip(p: int, q: nat)
    requires q != 0
    ensures ParseRational(IntToString(p) + "/" + NatToString(q)) == Some(p as real / q as real)
  {
    var a := IntToString(p);
    var s := a + "/" + NatToString(q);
    assert '/' !in a;
    assert s[|a|] == '/';
    assert '/' !in s[..|a|] by { assert s[..|a|] == a; }
    assert SlashIndex(s) == Some(|a|);
    assert s[..|a|] == a && s[|a| + 1..] == NatToString(q);
    IntRoundTrip(p);
    IntRoundTrip(q);
  }

  /** Digits only, so a separator-free piece parses exactly when it is
      non-empty. */
  lemma DigitsParse(s: string)
    requires AllDigits(s)
    ensures ParseInt(s) == (if s == [] then None else Some(ValueOf(s)))
  {
    if s != [] {
      DigitsAreNumeral(s);
    }
  }
}

=== FILE: elimination.dfy ===
/**
  Elementary row operations and Gauss-Jordan elimination over exact
  rationals, with the log of steps the solvers display and the rank read off
  the reduced form.

  The elimination is written as pure functions that return the final matrix,
  the number of pivot rows found and the list of row operations performed;
  the step log (each operation with the matrix after it) is the replay of
  that list.
 */
module Elimination {
  import opened Outcomes
  import opened Matrices

  /** A matrix with at least one row, all rows as long as the first. */
  predicate Rect(M: Matrix<real>) {
    |M| > 0 && forall i :: 0 <= i < |M| ==> |M[i]| == |M[0]|
  }

  function Width(M: Matrix<real>): nat
    requires |M| > 0
  {
    |M[0]|
  }

  // ---------------------------------------------------------------------
  // Row operations

  /** `Swap(a, b)`: exchange rows a and b. `Scale(r, f)`: row r *= f.
      `ScaleAdd(a, f, b)`: row b += row a * f. */
  datatype RowOp =
    | Swap(row1: nat, row2: nat)
    | Scale(row: nat, factor: real)
    | ScaleAdd(source: nat, multiple: real, target: nat)

  function SwapRow(M: Matrix<real>, r1: nat, r2: nat): (R: Matrix<real>)
    requires r1 < |M| && r2 < |M|
    ensures |R| == |M| && R[r1] == M[r2] && R[r2] == M[r1]
    ensures forall i :: 0 <= i < |M| && i != r1 && i != r2 ==> R[i] == M[i]
  {
    M[r1 := M[r2]][r2 := M[r1]]
  }

  function ScaleRow(M: Matrix<real>, r: nat, f: real): (R: Matrix<real>)
    requires Rect(M) && r < |M|
    ensures Rect(R) && |R| == |M| && Width(R) == Width(M)
    ensures forall j :: 0 <= j < Width(M) ==> R[r][j] == M[r][j] * f
    ensures forall i :: 0 <= i < |M| && i != r ==> R[i] == M[i]
  {
    M[r := seq(Width(M), j requires 0 <= j < Width(M) => M[r][j] * f)]
  }

  function ScaleAddRow(M: Matrix<real>, r1: nat, f: real, r2: nat): (R: Matrix<real>)
    requires Rect(M) && r1 < |M| && r2 < |M|
    ensures Rect(R) && |R| == |M| && Width(R) == Width(M)
    ensures forall j :: 0 <= j < Width(M) ==> R[r2][j] == M[r2][j] + M[r1][j] * f
    ensures forall i :: 0 <= i < |M| && i != r2 ==> R[i] == M[i]
  {
    M[r2 := seq(Width(M), j requires 0 <= j < Width(M) => M[r2][j] + M[r1][j] * f)]
  }

  /** Exchanging the same two rows twice restores the matrix. */
  lemma SwapUndoesSwap(M: Matrix<real>, r1: nat, r2: nat)
    requires r1 < |M| && r2 < |M|
    ensures SwapRow(SwapRow(M, r1, r2), r1, r2) == M
  {
  }

  /** Scaling by f and then by 1/f restores the matrix when f is non-zero. */
  lemma ScaleUndoesScale(M: Matrix<real>, r: nat, f: real)
    requires Rect(M) && r < |M| && f != 0.0
    ensures ScaleRow(ScaleRow(M, r, f), r, 1.0 / f) == M
  {
    var R := ScaleRow(ScaleRow(M, r, f), r, 1.0 / f);
    forall j | 0 <= j < Width(M)
      ensures R[r][j] == M[r][j]
    {
      assert R[r][j] == M[r][j] * (f * (1.0 / f));
    }
    assert R[r] == M[r];
  }

  /** Adding f times another row and then -f times it restores the matrix. */
  lemma ScaleAddUndoesScaleAdd(M: Matrix<real>, r1: nat, f: real, r2: nat)
    requires Rect(M) && r1 < |M| && r2 < |M| && r1 != r2
    ensures ScaleAddRow(ScaleAddRow(M, r1, f, r2), r1, -f, r2) == M
  {
    var R := ScaleAddRow(ScaleAddRow(M, r1, f, r2), r1, -f, r2);
    assert R[r2] == M[r2];
  }

  /** The operations elimination performs on an m-row matrix: rows in range,
      scaling by a non-zero factor, adding a multiple of a different row. */
  predicate Valid(m: nat, op: RowOp) {
    match op
    case Swap(a, b) => a < m && b < m
    case Scale(r, f) => r < m && f != 0.0
    case ScaleAdd(a, f, b) => a < m && b < m && a != b
  }

  predicate AllValid(m: nat, ops: seq<RowOp>) {
    forall k :: 0 <= k < |ops| ==> Valid(m, ops[k])
  }

  function Apply(M: Matrix<real>, op: RowOp): (R: Matrix<real>)
    requires Rect(M) && Valid(|M|, op)
    ensures Rect(R) && |R| == |M| && Width(R) == Width(M)
  {
    match op
    case Swap(a, b) => SwapRow(M, a, b)
    case Scale(r, f) => ScaleRow(M, r, f)
    case ScaleAdd(a, f, b) => ScaleAddRow(M, a, f, b)
  }

  function ApplyAll(M: Matrix<real>, ops: seq<RowOp>): (R: Matrix<real>)
    requires Rect(M) && AllValid(|M|, ops)
    ensures Rect(R) && |R| == |M| && Width(R) == Width(M)
    decreases |ops|
  {
    if ops == [] then M else ApplyAll(Apply(M, ops[0]), ops[1..])
  }

  lemma {:induction false} ApplyAllAppend(M: Matrix<real>, a: seq<RowOp>, b: seq<RowOp>)
    requires Rect(M) && AllValid(|M|, a) && AllValid(|M|, b)
    ensures AllValid(|M|, a + b)
    ensures ApplyAll(M, a + b) == ApplyAll(ApplyAll(M, a), b)
    decreases |a|
  {
    assert AllValid(|M|, a + b);
    if a != [] {
      assert (a + b)[0] == a[0];
      assert (a + b)[1..] == a[1..] + b;
      ApplyAllAppend(Apply(M, a[0]), a[1..], b);
    } else {
      assert a + b == b;
    }
  }

  /** Entry k of the log holds the first k + 1 operations applied to M. */
  ghost predicate Replays(M: Matrix<real>, ops: seq<RowOp>, log: seq<(RowOp, Matrix<real>)>)
    requires Rect(M) && AllValid(|M|, ops) && |log| == |ops|
  {
    forall k :: 0 <= k < |log| ==> Replayed(M, ops, log, k)
  }

  /** Entry k of the log holds M after the first k + 1 operations. */
  ghost predicate Replayed(M: Matrix<real>, ops: seq<RowOp>, log: seq<(RowOp, Matrix<real>)>, k: int)
    requires Rect(M) && AllValid(|M|, ops) && |log| == |ops| && 0 <= k < |log|
  {
    AllValid(|M|, ops[..k + 1]) && log[k].1 == ApplyAll(M, ops[..k + 1])
  }

  /** The step log: each operation paired with the matrix right after it,
      that is, with the operations up to and including it applied to M. */
  function Steps(M: Matrix<real>, ops: seq<RowOp>): (r: seq<(RowOp, Matrix<real>)>)
    requires Rect(M) && AllValid(|M|, ops)
    ensures |r| == |ops|
    ensures forall k :: 0 <= k < |ops| ==> r[k].0 == ops[k]
    ensures Replays(M, ops, r)
    ensures |ops| > 0 ==> r[|r| - 1].1 == ApplyAll(M, ops)
    decreases |ops|
  {
    if ops == [] then []
    else
      var next := Apply(M, ops[0]);
      var rest := Steps(next, ops[1..]);
      ReplayCons(M, ops, rest);
      [(ops[0], next)] + rest
  }

  /** A log of the later operations replayed from the matrix after the first
      one, preceded by that first step, replays all of them. */
  lemma ReplayCons(M: Matrix<real>, ops: seq<RowOp>, rest: seq<(RowOp, Matrix<real>)>)
    requires Rect(M) && AllValid(|M|, ops) && |ops| > 0 && |rest| == |ops| - 1
    requires Replays(Apply(M, ops[0]), ops[1..], rest)
    ensures Replays(M, ops, [(ops[0], Apply(M, ops[0]))] + rest)
  {
    var log := [(ops[0], Apply(M, ops[0]))] + rest;
    forall k | 0 <= k < |log|
      ensures Replayed(M, ops, log, k)
    {
      ReplayPrefix(M, ops, k);
      if k > 0 {
        assert log[k] == rest[k - 1];
        assert Replayed(Apply(M, ops[0]), ops[1..], rest, k - 1);
      } else {
        assert ops[1..][..0] == [];
      }
    }
  }

  lemma ReplayPrefix(M: Matrix<real>, ops: seq<RowOp>, k: nat)
    requires Rect(M) && AllValid(|M|, ops) && k < |ops|
    ensures AllValid(|M|, ops[..k + 1])
    ensures ApplyAll(M, ops[..k + 1]) == ApplyAll(Apply(M, ops[0]), ops[1..][..k])
  {
    var p := ops[..k + 1];
    assert AllValid(|M|, p);
    assert p[0] == ops[0];
    assert p[1..] == ops[1..][..k];
    assert ApplyAll(M, p) == ApplyAll(Apply(M, p[0]), p[1..]);
  }

  // ---------------------------------------------------------------------
  // Leading entries and the echelon shape

  /** Column of the first non-zero entry, or the row length for a zero row. */
  function Lead(row: seq<real>): (k: nat)
    ensures k <= |row|
    ensures forall c :: 0 <= c < k ==> row[c] == 0.0
    ensures k < |row| ==> row[k] != 0.0
  {
    if row == [] then 0
    else if row[0] != 0.0 then 0
    else 1 + Lead(row[1..])
  }

  predicate IsZeroRow(row: seq<real>) {
    forall c :: 0 <= c < |row| ==> row[c] == 0.0
  }

  /** Reduced row echelon form: every non-zero row starts with 1, the
      leading 1s move strictly right going down (so zero rows come last), and
      a leading 1 is the only non-zero entry of its column. */
  predicate IsRref(M: Matrix<real>) {
    Rect(M) &&
    (forall r :: 0 <= r < |M| && Lead(M[r]) < Width(M) ==> M[r][Lead(M[r])] == 1.0) &&
    (forall r1, r2 :: 0 <= r1 < r2 < |M| && Lead(M[r2]) < Width(M) ==> Lead(M[r1]) < Lead(M[r2])) &&
    (forall r, i :: 0 <= r < |M| && 0 <= i < |M| && i != r && Lead(M[r]) < Width(M) ==> M[i][Lead(M[r])] == 0.0)
  }

  /** The shape after columns 0..j-1 have been processed with t pivots:
      rows 0..t-1 lead with a 1 left of column j, in increasing columns, each
      alone in its column; rows t.. are zero left of column j. */
  predicate Partial(M: Matrix<real>, t: nat, j: nat) {
    Rect(M) && t <= |M| && j <= Width(M) &&
    (forall r :: 0 <= r < t ==> Lead(M[r]) < j && M[r][Lead(M[r])] == 1.0) &&
    (forall r1, r2 :: 0 <= r1 < r2 < t ==> Lead(M[r1]) < Lead(M[r2])) &&
    (forall r, i :: 0 <= r < t && 0 <= i < |M| && i != r ==> M[i][Lead(M[r])] == 0.0) &&
    (forall r, c :: t <= r < |M| && 0 <= c < j ==> M[r][c] == 0.0)
  }

  // ---------------------------------------------------------------------
  // Gauss-Jordan elimination

  /** First row at or below `from` with a non-zero entry in column j. */
  function FirstNonZero(M: Matrix<real>, j: nat, from: nat): (r: Option<nat>)
    requires Rect(M) && j < Width(M) && from <= |M|
    ensures r.Some? ==> from <= r.value < |M| && M[r.value][j] != 0.0
    ensures r.Some? ==> forall i :: from <= i < r.value ==> M[i][j] == 0.0
    ensures r.None? ==> forall i :: from <= i < |M| ==> M[i][j] == 0.0
    decreases |M| - from
  {
    if from == |M| then None
    else if M[from][j] != 0.0 then Some(from)
    else FirstNonZero(M, j, from + 1)
  }

  /** Clear column j in rows i.. (except the pivot row t) by adding
      multiples of row t. */
  function Clear(M: Matrix<real>, t: nat, j: nat, i: nat): (r: (Matrix<real>, seq<RowOp>))
    requires Rect(M) && t < |M| && j < Width(M) && i <= |M|
    ensures Rect(r.0) && |r.0| == |M| && Width(r.0) == Width(M)
    ensures AllValid(|M|, r.1)
    decreases |M| - i
  {
    if i == |M| then (M, [])
    else if i != t && M[i][j] != 0.0 then
      var op := ScaleAdd(t, -M[i][j], i);
      var rest := Clear(ScaleAddRow(M, t, -M[i][j], i), t, j, i + 1);
      (rest.0, [op] + rest.1)
    else
      Clear(M, t, j, i + 1)
  }

  /** Where elimination stands: the matrix so far, the number of pivot rows
      found (the next target row), and the operations performed. */
  datatype Stage = Stage(m: Matrix<real>, pivots: nat, ops: seq<RowOp>)

  /** Process column j with target row t: find a pivot at or below t, swap
      it up, scale it to 1, clear the rest of the column. A column without a
      pivot is skipped. */
  function Column(M: Matrix<real>, t: nat, j: nat): (s: Stage)
    requires Rect(M) && t <= |M| && j < Width(M)
    ensures Rect(s.m) && |s.m| == |M| && Width(s.m) == Width(M)
    ensures s.pivots == t || (s.pivots == t + 1 && t < |M|)
    ensures AllValid(|M|, s.ops)
  {
    match FirstNonZero(M, j, t)
    case None => Stage(M, t, [])
    case Some(p) => Pivot(M, t, j, p)
  }

  /** Swap row p into target row t, unless it is already there. */
  function BringUp(M: Matrix<real>, t: nat, p: nat): (r: (Matrix<real>, seq<RowOp>))
    requires Rect(M) && t <= p < |M|
    ensures Rect(r.0) && |r.0| == |M| && Width(r.0) == Width(M)
    ensures r.0[t] == M[p]
    ensures AllValid(|M|, r.1)
  {
    if p != t then (SwapRow(M, t, p), [Swap(t, p)]) else (M, [])
  }

  /** Scale row t so that its non-zero entry in column j becomes 1. */
  function ScaleToOne(M: Matrix<real>, t: nat, j: nat): (r: (Matrix<real>, seq<RowOp>))
    requires Rect(M) && t < |M| && j < Width(M) && M[t][j] != 0.0
    ensures Rect(r.0) && |r.0| == |M| && Width(r.0) == Width(M)
    ensures r.0[t][j] == 1.0
    ensures AllValid(|M|, r.1)
  {
    var v := M[t][j];
    if v != 1.0 then
      var M2 := ScaleRow(M, t, 1.0 / v);
      assert M2[t][j] == v * (1.0 / v) == 1.0;
      (M2, [Scale(t, 1.0 / v)])
    else
      (M, [])
  }

  /** Swap row p (non-zero in column j) into target row t and scale it so
      that its entry in column j is 1. */
  function Normalize(M: Matrix<real>, t: nat, j: nat, p: nat): (r: (Matrix<real>, seq<RowOp>))
    requires Rect(M) && t <= p < |M| && j < Width(M) && M[p][j] != 0.0
    ensures Rect(r.0) && |r.0| == |M| && Width(r.0) == Width(M)
    ensures r.0[t][j] == 1.0
    ensures AllValid(|M|, r.1)
  {
    var up := BringUp(M, t, p);
    var one := ScaleToOne(up.0, t, j);
    (one.0, up.1 + one.1)
  }

  /** Bring a pivot into row t and clear the rest of column j. */
  function Pivot(M: Matrix<real>, t: nat, j: nat, p: nat): (s: Stage)
    requires Rect(M) && t <= p < |M| && j < Width(M) && M[p][j] != 0.0
    ensures Rect(s.m) && |s.m| == |M| && Width(s.m) == Width(M)
    ensures s.pivots == t + 1
    ensures AllValid(|M|, s.ops)
  {
    var normalized := Normalize(M, t, j, p);
    var cleared := Clear(normalized.0, t, j, 0);
    Stage(cleared.0, t + 1, normalized.1 + cleared.1)
  }

  /** Process columns j..stop-1 starting with target row t. */
  function Reduce(M: Matrix<real>, t: nat, j: nat, stop: nat): (s: Stage)
    requires Rect(M) && t <= |M| && j <= stop <= Width(M)
    ensures Rect(s.m) && |s.m| == |M| && Width(s.m) == Width(M)
    ensures t <= s.pivots <= |M| && s.pivots <= t + (stop - j)
    ensures AllValid(|M|, s.ops)
    decreases stop - j
  {
    if j == stop then Stage(M, t, [])
    else
      var c := Column(M, t, j);
      var rest := Reduce(c.m, c.pivots, j + 1, stop);
      Stage(rest.m, rest.pivots, c.ops + rest.ops)
  }

  /** Elimination over every column from the top row. */
  function Eliminate(M: Matrix<real>): Stage
    requires Rect(M)
  {
    Reduce(M, 0, 0, Width(M))
  }

  /** The step log shown by the solvers. */
  function StepsOf(M: Matrix<real>): seq<(RowOp, Matrix<real>)>
    requires Rect(M)
  {
    Steps(M, Eliminate(M).ops)
  }

  /** The last matrix of the step log, or the input when no step was taken. */
  function ReducedRowEchelonForm(M: Matrix<real>): (R: Matrix<real>)
    requires Rect(M)
    ensures IsRref(R) && |R| == |M| && Width(R) == Width(M)
    ensures R == ApplyAll(M, Eliminate(M).ops)
  {
    EliminateCorrect(M);
    var steps := StepsOf(M);
    if steps == [] then M else steps[|steps| - 1].1
  }

  /** Number of rows with a non-zero entry. */
  function CountNonZeroRows(M: Matrix<real>): (k: nat)
    ensures k <= |M|
  {
    if M == [] then 0
    else CountNonZeroRows(M[..|M| - 1]) + (if IsZeroRow(M[|M| - 1]) then 0 else 1)
  }

  /** A subsequence of M made of non-zero rows has at most as many rows as
      M has non-zero rows. */
  lemma {:induction false} NonZeroSubseqBound(S: Matrix<real>, M: Matrix<real>)
    requires IsSubseq(S, M) && forall k :: 0 <= k < |S| ==> !IsZeroRow(S[k])
    ensures |S| <= CountNonZeroRows(M)
    decreases |M|
  {
    if |S| > 0 {
      var S', M' := S[..|S| - 1], M[..|M| - 1];
      assert forall k :: 0 <= k < |S'| ==> S'[k] == S[k];
      if S[|S| - 1] == M[|M| - 1] && IsSubseq(S', M') {
        NonZeroSubseqBound(S', M');
      } else {
        NonZeroSubseqBound(S, M');
      }
    }
  }

  /** The non-zero rows of M in order, one step back: whether the last row
      of M is kept decides how S continues into the rows before it. */
  lemma NonZeroSubseqLast(S: Matrix<real>, M: Matrix<real>)
    requires |M| > 0
    requires IsSubseq(S, M) && (forall k :: 0 <= k < |S| ==> !IsZeroRow(S[k])) && |S| == CountNonZeroRows(M)
    ensures IsZeroRow(M[|M| - 1]) ==> IsSubseq(S, M[..|M| - 1]) && |S| == CountNonZeroRows(M[..|M| - 1])
    ensures !IsZeroRow(M[|M| - 1]) ==>
      && |S| > 0 && S[|S| - 1] == M[|M| - 1]
      && IsSubseq(S[..|S| - 1], M[..|M| - 1]) && |S| - 1 == CountNonZeroRows(M[..|M| - 1])
  {
    var M' := M[..|M| - 1];
    if |S| > 0 && !(S[|S| - 1] == M[|M| - 1] && IsSubseq(S[..|S| - 1], M')) {
      NonZeroSubseqBound(S, M');
    }
  }

  /** The non-zero rows of M, in order, are pinned down by three facts: they
      form a subsequence of M, every one of them is non-zero, and there are
      as many as M has non-zero rows. */
  lemma {:induction false} NonZeroSubseqUnique(S: Matrix<real>, T: Matrix<real>, M: Matrix<real>)
    requires IsSubseq(S, M) && (forall k :: 0 <= k < |S| ==> !IsZeroRow(S[k])) && |S| == CountNonZeroRows(M)
    requires IsSubseq(T, M) && (forall k :: 0 <= k < |T| ==> !IsZeroRow(T[k])) && |T| == CountNonZeroRows(M)
    ensures S == T
    decreases |M|
  {
    if |M| > 0 {
      var M' := M[..|M| - 1];
      NonZeroSubseqLast(S, M);
      NonZeroSubseqLast(T, M);
      if IsZeroRow(M[|M| - 1]) {
        NonZeroSubseqUnique(S, T, M');
      } else {
        var S', T' := S[..|S| - 1], T[..|T| - 1];
        assert forall k :: 0 <= k < |S'| ==> S'[k] == S[k];
        assert forall k :: 0 <= k < |T'| ==> T'[k] == T[k];
        NonZeroSubseqUnique(S', T', M');
        assert S == S' + [S[|S| - 1]] && T == T' + [T[|T| - 1]];
      }
    }
  }

  /** The rank: non-zero rows of the reduced row echelon form. */
  function Rank(M: Matrix<real>): (k: nat)
    requires Rect(M)
    ensures k <= |M| && k <= Width(M)
    ensures k == Eliminate(M).pivots
  {
    EliminateCorrect(M);
    CountNonZeroRows(ReducedRowEchelonForm(M))
  }

  // ---------------------------------------------------------------------
  // Correctness of elimination

  lemma EliminateCorrect(M: Matrix<real>)
    requires Rect(M)
    ensures Partial(Eliminate(M).m, Eliminate(M).pivots, Width(M))
    ensures IsRref(Eliminate(M).m)
    ensures ApplyAll(M, Eliminate(M).ops) == Eliminate(M).m
    ensures CountNonZeroRows(Eliminate(M).m) == Eliminate(M).pivots
    ensures Eliminate(M).pivots <= Width(M)
  {
    assert Partial(M, 0, 0);
    ReduceCorrect(M, 0, 0, Width(M));
    PartialDone(Eliminate(M).m, Eliminate(M).pivots);
  }

  lemma {:induction false} ReduceCorrect(M: Matrix<real>, t: nat, j: nat, stop: nat)
    requires Partial(M, t, j) && j <= stop <= Width(M)
    ensures Partial(Reduce(M, t, j, stop).m, Reduce(M, t, j, stop).pivots, stop)
    ensures ApplyAll(M, Reduce(M, t, j, stop).ops) == Reduce(M, t, j, stop).m
    decreases stop - j
  {
    if j < stop {
      var c := Column(M, t, j);
      ColumnCorrect(M, t, j);
      ReduceCorrect(c.m, c.pivots, j + 1, stop);
      var rest := Reduce(c.m, c.pivots, j + 1, stop);
      ApplyAllAppend(M, c.ops, rest.ops);
    }
  }

  /** The leading column is the one with only zeros before it and a
      non-zero entry at it (or the row length). */
  lemma {:induction false} LeadUnique(row: seq<real>, k: nat)
    requires k <= |row|
    requires forall c :: 0 <= c < k ==> row[c] == 0.0
    requires k < |row| ==> row[k] != 0.0
    ensures Lead(row) == k
  {
    if row != [] && k > 0 {
      LeadUnique(row[1..], k - 1);
    }
  }

  /** Rows that agree up to and including the leading entry of one of them
      have the same leading entry. */
  lemma LeadAgrees(a: seq<real>, b: seq<real>, k: nat)
    requires |a| == |b| && Lead(a) <= k < |a|
    requires forall c :: 0 <= c <= k ==> a[c] == b[c]
    ensures Lead(b) == Lead(a)
  {
    LeadUnique(b, Lead(a));
  }

  lemma ClearCorrect(M: Matrix<real>, t: nat, j: nat, i: nat)
    requires Rect(M) && t < |M| && j < Width(M) && i <= |M| && M[t][j] == 1.0
    ensures Clear(M, t, j, i).0[t] == M[t]
    ensures forall r :: 0 <= r < i ==> Clear(M, t, j, i).0[r] == M[r]
    ensures forall r, c :: 0 <= r < |M| && 0 <= c < Width(M) && M[t][c] == 0.0 ==>
      Clear(M, t, j, i).0[r][c] == M[r][c]
    ensures forall r :: i <= r < |M| && r != t ==> Clear(M, t, j, i).0[r][j] == 0.0
    ensures ApplyAll(M, Clear(M, t, j, i).1) == Clear(M, t, j, i).0
  {
    ClearKeeps(M, t, j, i);
    ClearZeroes(M, t, j, i);
    ClearApplies(M, t, j, i);
  }

  /** Clearing leaves the pivot row, the rows before i, and every column
      where the pivot row is zero alone. */
  lemma {:induction false} ClearKeeps(M: Matrix<real>, t: nat, j: nat, i: nat)
    requires Rect(M) && t < |M| && j < Width(M) && i <= |M|
    ensures Clear(M, t, j, i).0[t] == M[t]
    ensures forall r :: 0 <= r < i ==> Clear(M, t, j, i).0[r] == M[r]
    ensures forall r, c :: 0 <= r < |M| && 0 <= c < Width(M) && M[t][c] == 0.0 ==>
      Clear(M, t, j, i).0[r][c] == M[r][c]
    decreases |M| - i
  {
    if i < |M| {
      if i != t && M[i][j] != 0.0 {
        var N := ScaleAddRow(M, t, -M[i][j], i);
        ClearKeeps(N, t, j, i + 1);
        assert N[t] == M[t];
        assert Clear(M, t, j, i).0 == Clear(N, t, j, i + 1).0;
      } else {
        ClearKeeps(M, t, j, i + 1);
      }
    }
  }

  /** Clearing zeroes column j in every row from i on except the pivot row. */
  lemma {:induction false} ClearZeroes(M: Matrix<real>, t: nat, j: nat, i: nat)
    requires Rect(M) && t < |M| && j < Width(M) && i <= |M| && M[t][j] == 1.0
    ensures forall r :: i <= r < |M| && r != t ==> Clear(M, t, j, i).0[r][j] == 0.0
    decreases |M| - i
  {
    if i < |M| {
      if i != t && M[i][j] != 0.0 {
        var N := ScaleAddRow(M, t, -M[i][j], i);
        assert N[i][j] == 0.0;
        ClearZeroes(N, t, j, i + 1);
        ClearKeeps(N, t, j, i + 1);
        assert Clear(M, t, j, i).0 == Clear(N, t, j, i + 1).0;
      } else {
        ClearZeroes(M, t, j, i + 1);
        ClearKeeps(M, t, j, i + 1);
      }
    }
  }

  /** The logged operations replay to the cleared matrix. */
  lemma {:induction false} ClearApplies(M: Matrix<real>, t: nat, j: nat, i: nat)
    requires Rect(M) && t < |M| && j < Width(M) && i <= |M|
    ensures ApplyAll(M, Clear(M, t, j, i).1) == Clear(M, t, j, i).0
    decreases |M| - i
  {
    if i < |M| {
      if i != t && M[i][j] != 0.0 {
        var op := ScaleAdd(t, -M[i][j], i);
        var N := ScaleAddRow(M, t, -M[i][j], i);
        ClearApplies(N, t, j, i + 1);
        var rest := Clear(N, t, j, i + 1);
        assert Clear(M, t, j, i).1 == [op] + rest.1;
        assert ([op] + rest.1)[1..] == rest.1;
      } else {
        ClearApplies(M, t, j, i + 1);
      }
    }
  }

  lemma ApplyOne(M: Matrix<real>, op: RowOp)
    requires Rect(M) && Valid(|M|, op)
    ensures ApplyAll(M, [op]) == Apply(M, op)
  {
    assert [op][1..] == [];
  }

  /** Swapping the target row with a row below it keeps the shape. */
  lemma SwapKeepsPartial(M: Matrix<real>, t: nat, p: nat, j: nat)
    requires Partial(M, t, j) && t <= p < |M|
    ensures Partial(SwapRow(M, t, p), t, j)
    ensures forall r :: 0 <= r < t ==> SwapRow(M, t, p)[r] == M[r]
  {
    var M1 := SwapRow(M, t, p);
    forall r, i | 0 <= r < t && 0 <= i < |M| && i != r
      ensures M1[i][Lead(M1[r])] == 0.0
    {
      assert M1[r] == M[r];
    }
  }

  /** Scaling the target row keeps the shape. */
  lemma ScaleKeepsPartial(M: Matrix<real>, t: nat, j: nat, f: real)
    requires Partial(M, t, j) && t < |M|
    ensures Partial(ScaleRow(M, t, f), t, j)
    ensures forall r :: 0 <= r < t ==> ScaleRow(M, t, f)[r] == M[r]
  {
    var M1 := ScaleRow(M, t, f);
    forall r, i | 0 <= r < t && 0 <= i < |M| && i != r
      ensures M1[i][Lead(M1[r])] == 0.0
    {
      assert M1[r] == M[r];
    }
  }

  /** Clearing column j around a pivot 1 in the target row adds that row to
      the pivot rows. */
  lemma ClearMakesPivot(M: Matrix<real>, t: nat, j: nat)
    requires Partial(M, t, j) && t < |M| && j < Width(M) && M[t][j] == 1.0
    ensures Partial(Clear(M, t, j, 0).0, t + 1, j + 1)
    ensures forall r :: 0 <= r < t ==> Lead(Clear(M, t, j, 0).0[r]) == Lead(M[r])
    ensures Lead(Clear(M, t, j, 0).0[t]) == j
    ensures ApplyAll(M, Clear(M, t, j, 0).1) == Clear(M, t, j, 0).0
  {
    ClearCorrect(M, t, j, 0);
    PivotAdded(M, Clear(M, t, j, 0).0, t, j);
  }

  /** Any matrix that agrees with M wherever the pivot row is zero, keeps
      the pivot row, and is zero in column j elsewhere has one more pivot. */
  lemma PivotAdded(M: Matrix<real>, R: Matrix<real>, t: nat, j: nat)
    requires Partial(M, t, j) && t < |M| && j < Width(M) && M[t][j] == 1.0
    requires Rect(R) && |R| == |M| && Width(R) == Width(M) && R[t] == M[t]
    requires forall r, c :: 0 <= r < |M| && 0 <= c < Width(M) && M[t][c] == 0.0 ==> R[r][c] == M[r][c]
    requires forall r :: 0 <= r < |M| && r != t ==> R[r][j] == 0.0
    ensures Partial(R, t + 1, j + 1)
    ensures forall r :: 0 <= r < t ==> Lead(R[r]) == Lead(M[r])
    ensures Lead(R[t]) == j
  {
    forall r, c | 0 <= r < |M| && 0 <= c < j
      ensures R[r][c] == M[r][c]
    {
      assert M[t][c] == 0.0;
    }
    forall r | 0 <= r < t
      ensures Lead(R[r]) == Lead(M[r])
    {
      LeadAgrees(M[r], R[r], Lead(M[r]));
    }
    LeadUnique(R[t], j);
    forall r, i | 0 <= r < t + 1 && 0 <= i < |M| && i != r
      ensures R[i][Lead(R[r])] == 0.0
    {
      if r < t {
        assert R[i][Lead(M[r])] == M[i][Lead(M[r])];
      }
    }
    forall r, c | t + 1 <= r < |M| && 0 <= c < j + 1
      ensures R[r][c] == 0.0
    {
      if c < j {
        assert R[r][c] == M[r][c];
      }
    }
  }

  lemma ColumnCorrect(M: Matrix<real>, t: nat, j: nat)
    requires Partial(M, t, j) && j < Width(M)
    ensures Partial(Column(M, t, j).m, Column(M, t, j).pivots, j + 1)
    ensures ApplyAll(M, Column(M, t, j).ops) == Column(M, t, j).m
    ensures forall r :: 0 <= r < t ==> Lead(Column(M, t, j).m[r]) == Lead(M[r])
    ensures Column(M, t, j).pivots == t + 1 ==> Lead(Column(M, t, j).m[t]) == j
    ensures Column(M, t, j).pivots == t ==> Column(M, t, j).m == M && Column(M, t, j).ops == []
  {
    match FirstNonZero(M, j, t)
    case None =>
    case Some(p) => PivotCorrect(M, t, j, p);
  }

  lemma PivotCorrect(M: Matrix<real>, t: nat, j: nat, p: nat)
    requires Partial(M, t, j) && t <= p < |M| && j < Width(M) && M[p][j] != 0.0
    ensures Partial(Pivot(M, t, j, p).m, t + 1, j + 1)
    ensures ApplyAll(M, Pivot(M, t, j, p).ops) == Pivot(M, t, j, p).m
    ensures forall r :: 0 <= r < t ==> Lead(Pivot(M, t, j, p).m[r]) == Lead(M[r])
    ensures Lead(Pivot(M, t, j, p).m[t]) == j
  {
    var normalized := Normalize(M, t, j, p);
    NormalizeCorrect(M, t, j, p);
    ClearMakesPivot(normalized.0, t, j);
    ApplyAllAppend(M, normalized.1, Clear(normalized.0, t, j, 0).1);
  }

  lemma NormalizeCorrect(M: Matrix<real>, t: nat, j: nat, p: nat)
    requires Partial(M, t, j) && t <= p < |M| && j < Width(M) && M[p][j] != 0.0
    ensures Partial(Normalize(M, t, j, p).0, t, j)
    ensures forall r :: 0 <= r < t ==> Normalize(M, t, j, p).0[r] == M[r]
    ensures ApplyAll(M, Normalize(M, t, j, p).1) == Normalize(M, t, j, p).0
  {
    var up := BringUp(M, t, p);
    SwapPhase(M, t, j, p);
    ScalePhase(up.0, t, j);
    ApplyAllAppend(M, up.1, ScaleToOne(up.0, t, j).1);
  }

  lemma SwapPhase(M: Matrix<real>, t: nat, j: nat, p: nat)
    requires Partial(M, t, j) && t <= p < |M| && j < Width(M)
    ensures Partial(BringUp(M, t, p).0, t, j)
    ensures forall r :: 0 <= r < t ==> BringUp(M, t, p).0[r] == M[r]
    ensures ApplyAll(M, BringUp(M, t, p).1) == BringUp(M, t, p).0
  {
    if p != t {
      ApplyOne(M, Swap(t, p));
      SwapKeepsPartial(M, t, p, j);
    }
  }

  lemma ScalePhase(M: Matrix<real>, t: nat, j: nat)
    requires Partial(M, t, j) && t < |M| && j < Width(M) && M[t][j] != 0.0
    ensures Partial(ScaleToOne(M, t, j).0, t, j)
    ensures forall r :: 0 <= r < t ==> ScaleToOne(M, t, j).0[r] == M[r]
    ensures ApplyAll(M, ScaleToOne(M, t, j).1) == ScaleToOne(M, t, j).0
  {
    var v := M[t][j];
    if v != 1.0 {
      var f := 1.0 / v;
      assert ScaleToOne(M, t, j).0 == ScaleRow(M, t, f);
      assert ScaleToOne(M, t, j).1 == [Scale(t, f)];
      ScaleBy(M, t, j, f);
    }
  }

  lemma ScaleBy(M: Matrix<real>, t: nat, j: nat, f: real)
    requires Partial(M, t, j) && t < |M| && j < Width(M) && f != 0.0
    ensures Partial(ScaleRow(M, t, f), t, j)
    ensures forall r :: 0 <= r < t ==> ScaleRow(M, t, f)[r] == M[r]
    ensures AllValid(|M|, [Scale(t, f)])
    ensures ApplyAll(M, [Scale(t, f)]) == ScaleRow(M, t, f)
  {
    ApplyOne(M, Scale(t, f));
    ScaleKeepsPartial(M, t, j, f);
  }

  lemma {:induction false} CountPrefix(M: Matrix<real>, t: nat, k: nat)
    requires t <= |M| && k <= |M|
    requires forall r :: 0 <= r < t ==> !IsZeroRow(M[r])
    requires forall r :: t <= r < |M| ==> IsZeroRow(M[r])
    ensures CountNonZeroRows(M[..k]) == if k < t then k else t
  {
    if k > 0 {
      CountPrefix(M, t, k - 1);
      assert M[..k][..k - 1] == M[..k - 1];
    }
  }

  lemma PartialDone(M: Matrix<real>, t: nat)
    requires Rect(M) && Partial(M, t, Width(M))
    ensures IsRref(M)
    ensures CountNonZeroRows(M) == t
    ensures forall r :: 0 <= r < |M| ==> (Lead(M[r]) < Width(M) <==> r < t)
  {
    forall r | 0 <= r < |M|
      ensures Lead(M[r]) < Width(M) <==> r < t
    {
      if r >= t {
        LeadUnique(M[r], Width(M));
      }
    }
    forall r | 0 <= r < |M|
      ensures IsZeroRow(M[r]) <==> r >= t
    {
      if r < t {
        assert M[r][Lead(M[r])] == 1.0;
      }
    }
    CountPrefix(M, t, |M|);
    assert M[..|M|] == M;
  }

  // ---------------------------------------------------------------------
  // A matrix already in reduced form takes no steps

  lemma {:induction false} ClearNothing(M: Matrix<real>, t: nat, j: nat, i: nat)
    requires Rect(M) && t < |M| && j < Width(M) && i <= |M|
    requires forall r :: i <= r < |M| && r != t ==> M[r][j] == 0.0
    ensures Clear(M, t, j, i) == (M, [])
    decreases |M| - i
  {
    if i < |M| {
      ClearNothing(M, t, j, i + 1);
    }
  }

  lemma {:induction false} ReduceOnRref(M: Matrix<real>, t: nat, j: nat)
    requires IsRref(M) && t <= |M| && j <= Width(M)
    requires forall r :: 0 <= r < t ==> Lead(M[r]) < j
    requires forall r :: t <= r < |M| ==> Lead(M[r]) >= j
    ensures Reduce(M, t, j, Width(M)).m == M
    ensures Reduce(M, t, j, Width(M)).ops == []
    decreases Width(M) - j, 1
  {
    if j < Width(M) {
      if t < |M| && Lead(M[t]) == j {
        ReduceOnRrefPivot(M, t, j);
      } else {
        ReduceOnRrefFree(M, t, j);
      }
    }
  }

  lemma {:induction false} ReduceOnRrefPivot(M: Matrix<real>, t: nat, j: nat)
    requires IsRref(M) && t < |M| && j < Width(M) && Lead(M[t]) == j
    requires forall r :: 0 <= r < t ==> Lead(M[r]) < j
    requires forall r :: t <= r < |M| ==> Lead(M[r]) >= j
    ensures Reduce(M, t, j, Width(M)).m == M
    ensures Reduce(M, t, j, Width(M)).ops == []
    decreases Width(M) - j, 0
  {
    PivotColumnOnRref(M, t, j);
    ReduceSkip(M, t, j, Width(M), t + 1);
    ReduceOnRref(M, t + 1, j + 1);
  }

  lemma {:induction false} ReduceOnRrefFree(M: Matrix<real>, t: nat, j: nat)
    requires IsRref(M) && t <= |M| && j < Width(M) && (t < |M| ==> Lead(M[t]) != j)
    requires forall r :: 0 <= r < t ==> Lead(M[r]) < j
    requires forall r :: t <= r < |M| ==> Lead(M[r]) >= j
    ensures Reduce(M, t, j, Width(M)).m == M
    ensures Reduce(M, t, j, Width(M)).ops == []
    decreases Width(M) - j, 0
  {
    FreeColumnOnRref(M, t, j);
    ReduceSkip(M, t, j, Width(M), t);
    ReduceOnRref(M, t, j + 1);
  }

  /** A column that changes nothing just moves elimination one column on. */
  lemma ReduceSkip(M: Matrix<real>, t: nat, j: nat, stop: nat, t': nat)
    requires Rect(M) && t <= |M| && j < stop <= Width(M) && t' <= |M|
    requires Column(M, t, j) == Stage(M, t', [])
    ensures Reduce(M, t, j, stop) == Reduce(M, t', j + 1, stop)
  {
    ReduceUnfold(M, t, j, stop);
    var rest := Reduce(M, t', j + 1, stop);
    assert [] + rest.ops == rest.ops;
  }

  lemma ReduceUnfold(M: Matrix<real>, t: nat, j: nat, stop: nat)
    requires Rect(M) && t <= |M| && j < stop <= Width(M)
    ensures var c := Column(M, t, j);
      var rest := Reduce(c.m, c.pivots, j + 1, stop);
      Reduce(M, t, j, stop) == Stage(rest.m, rest.pivots, c.ops + rest.ops)
  {
  }

  lemma PivotColumnOnRref(M: Matrix<real>, t: nat, j: nat)
    requires IsRref(M) && t < |M| && j < Width(M) && Lead(M[t]) == j
    requires forall r :: t <= r < |M| ==> Lead(M[r]) >= j
    ensures Column(M, t, j) == Stage(M, t + 1, [])
    ensures forall r :: t + 1 <= r < |M| ==> Lead(M[r]) >= j + 1
  {
    assert FirstNonZero(M, j, t) == Some(t);
    assert BringUp(M, t, t) == (M, []);
    assert M[t][j] == 1.0;
    assert ScaleToOne(M, t, j) == (M, []);
    assert BringUp(M, t, t).1 + ScaleToOne(M, t, j).1 == [];
    assert Normalize(M, t, j, t) == (M, []);
    ClearNothing(M, t, j, 0);
    forall r | t + 1 <= r < |M|
      ensures Lead(M[r]) >= j + 1
    {
      if Lead(M[r]) < Width(M) {
        assert Lead(M[t]) < Lead(M[r]);
      }
    }
  }

  lemma FreeColumnOnRref(M: Matrix<real>, t: nat, j: nat)
    requires IsRref(M) && t <= |M| && j < Width(M) && (t < |M| ==> Lead(M[t]) != j)
    requires forall r :: t <= r < |M| ==> Lead(M[r]) >= j
    ensures Column(M, t, j) == Stage(M, t, [])
    ensures forall r :: t <= r < |M| ==> Lead(M[r]) >= j + 1
  {
    forall r | t <= r < |M|
      ensures Lead(M[r]) > j
    {
      if r > t && Lead(M[r]) < Width(M) {
        assert Lead(M[t]) < Lead(M[r]);
      }
    }
    assert forall r :: t <= r < |M| ==> M[r][j] == 0.0;
  }

  /** Elimination leaves a matrix in reduced row echelon form alone and
      performs no step on it. */
  lemma RrefIsFixedPoint(M: Matrix<real>)
    requires IsRref(M)
    ensures Eliminate(M).ops == [] && Eliminate(M).m == M
    ensures ReducedRowEchelonForm(M) == M
  {
    ReduceOnRref(M, 0, 0);
  }

  /** The step log is empty exactly when the input is already in reduced
      row echelon form. */
  lemma NoStepsIffRref(M: Matrix<real>)
    requires Rect(M)
    ensures StepsOf(M) == [] <==> IsRref(M)
  {
    EliminateCorrect(M);
    if IsRref(M) {
      RrefIsFixedPoint(M);
    }
  }

  /** Reducing twice is reducing once, and the rank is unchanged. */
  lemma ReduceIdempotent(M: Matrix<real>)
    requires Rect(M)
    ensures ReducedRowEchelonForm(ReducedRowEchelonForm(M)) == ReducedRowEchelonForm(M)
    ensures Rank(ReducedRowEchelonForm(M)) == Rank(M)
  {
    var R := ReducedRowEchelonForm(M);
    RrefIsFixedPoint(R);
    EliminateCorrect(R);
    EliminateCorrect(M);
  }

  // ---------------------------------------------------------------------
  // Elimination of the leading columns ignores the trailing ones

  /** The first k columns. */
  function Truncate(M: Matrix<real>, k: nat): (T: Matrix<real>)
    requires Rect(M) && k <= Width(M)
    ensures Rect(T) && |T| == |M| && Width(T) == k
    ensures forall i, c :: 0 <= i < |M| && 0 <= c < k ==> T[i][c] == M[i][c]
  {
    seq(|M|, i requires 0 <= i < |M| => M[i][..k])
  }

  lemma {:induction false} FirstNonZeroTruncate(M: Matrix<real>, k: nat, j: nat, from: nat)
    requires Rect(M) && j < k <= Width(M) && from <= |M|
    ensures FirstNonZero(Truncate(M, k), j, from) == FirstNonZero(M, j, from)
    decreases |M| - from
  {
    if from < |M| {
      FirstNonZeroTruncate(M, k, j, from + 1);
    }
  }

  lemma OpTruncate(M: Matrix<real>, k: nat, op: RowOp)
    requires Rect(M) && k <= Width(M) && Valid(|M|, op)
    ensures Truncate(Apply(M, op), k) == Apply(Truncate(M, k), op)
  {
    var A := Truncate(Apply(M, op), k);
    var T := Truncate(M, k);
    var B := Apply(T, op);
    forall i | 0 <= i < |M|
      ensures A[i] == B[i]
    {
      forall c | 0 <= c < k
        ensures A[i][c] == B[i][c]
      {
        match op
        case Swap(a, b) =>
        case Scale(r, f) =>
          if i == r {
            assert B[i][c] == T[i][c] * f;
          }
        case ScaleAdd(a, f, b) =>
          if i == b {
            assert B[i][c] == T[i][c] + T[a][c] * f;
          }
      }
    }
  }

  lemma {:induction false} ClearTruncate(M: Matrix<real>, k: nat, t: nat, j: nat, i: nat)
    requires Rect(M) && t < |M| && j < k <= Width(M) && i <= |M|
    ensures Clear(Truncate(M, k), t, j, i).0 == Truncate(Clear(M, t, j, i).0, k)
    ensures Clear(Truncate(M, k), t, j, i).1 == Clear(M, t, j, i).1
    decreases |M| - i
  {
    if i < |M| {
      if i != t && M[i][j] != 0.0 {
        ClearTruncate(ScaleAddRow(M, t, -M[i][j], i), k, t, j, i + 1);
        ClearTruncateTake(M, k, t, j, i);
      } else {
        var T := Truncate(M, k);
        assert T[i][j] == M[i][j];
        ClearTruncate(M, k, t, j, i + 1);
        assert Clear(T, t, j, i) == Clear(T, t, j, i + 1);
      }
    }
  }

  /** The step of ClearTruncate that clears row i, given the claim for the
      rows after it. */
  lemma ClearTruncateTake(M: Matrix<real>, k: nat, t: nat, j: nat, i: nat)
    requires Rect(M) && t < |M| && j < k <= Width(M) && i < |M| && i != t && M[i][j] != 0.0
    requires var N := ScaleAddRow(M, t, -M[i][j], i);
      Clear(Truncate(N, k), t, j, i + 1).0 == Truncate(Clear(N, t, j, i + 1).0, k) &&
      Clear(Truncate(N, k), t, j, i + 1).1 == Clear(N, t, j, i + 1).1
    ensures Clear(Truncate(M, k), t, j, i).0 == Truncate(Clear(M, t, j, i).0, k)
    ensures Clear(Truncate(M, k), t, j, i).1 == Clear(M, t, j, i).1
  {
    var T := Truncate(M, k);
    assert T[i][j] == M[i][j];
    var f := -M[i][j];
    OpTruncate(M, k, ScaleAdd(t, f, i));
    var N := ScaleAddRow(M, t, f, i);
    assert Truncate(N, k) == ScaleAddRow(T, t, f, i);
    var rest := Clear(N, t, j, i + 1);
    assert Clear(M, t, j, i) == (rest.0, [ScaleAdd(t, f, i)] + rest.1);
    assert Clear(T, t, j, i) == (Clear(Truncate(N, k), t, j, i + 1).0, [ScaleAdd(t, f, i)] + rest.1);
  }

  lemma NormalizeTruncate(M: Matrix<real>, k: nat, t: nat, j: nat, p: nat)
    requires Rect(M) && t <= p < |M| && j < k <= Width(M) && M[p][j] != 0.0
    ensures Normalize(Truncate(M, k), t, j, p).0 == Truncate(Normalize(M, t, j, p).0, k)
    ensures Normalize(Truncate(M, k), t, j, p).1 == Normalize(M, t, j, p).1
  {
    var M1 := BringUp(M, t, p).0;
    if p != t {
      OpTruncate(M, k, Swap(t, p));
    }
    assert BringUp(Truncate(M, k), t, p).0 == Truncate(M1, k);
    var v := M1[t][j];
    if v != 1.0 {
      OpTruncate(M1, k, Scale(t, 1.0 / v));
    }
  }

  lemma ColumnTruncate(M: Matrix<real>, k: nat, t: nat, j: nat)
    requires Rect(M) && t <= |M| && j < k <= Width(M)
    ensures Column(Truncate(M, k), t, j).m == Truncate(Column(M, t, j).m, k)
    ensures Column(Truncate(M, k), t, j).pivots == Column(M, t, j).pivots
    ensures Column(Truncate(M, k), t, j).ops == Column(M, t, j).ops
  {
    FirstNonZeroTruncate(M, k, j, t);
    match FirstNonZero(M, j, t)
    case None =>
    case Some(p) =>
      NormalizeTruncate(M, k, t, j, p);
      var N := Normalize(M, t, j, p).0;
      ClearTruncate(N, k, t, j, 0);
  }

  lemma {:induction false} ReduceTruncate(M: Matrix<real>, k: nat, t: nat, j: nat, stop: nat)
    requires Rect(M) && t <= |M| && j <= stop <= k <= Width(M)
    ensures Reduce(Truncate(M, k), t, j, stop).m == Truncate(Reduce(M, t, j, stop).m, k)
    ensures Reduce(Truncate(M, k), t, j, stop).pivots == Reduce(M, t, j, stop).pivots
    ensures Reduce(Truncate(M, k), t, j, stop).ops == Reduce(M, t, j, stop).ops
    decreases stop - j
  {
    if j < stop {
      ColumnTruncate(M, k, t, j);
      var c := Column(M, t, j);
      ReduceTruncate(c.m, k, c.pivots, j + 1, stop);
    }
  }

  /** Step logs concatenate in either grouping. */
  lemma LogsAssociate(a: seq<RowOp>, b: seq<RowOp>, c: seq<RowOp>)
    ensures a + (b + c) == (a + b) + c
  {
  }

  /** Eliminating columns j..stop is eliminating j..stop-1 and then
      processing column stop. */
  lemma {:induction false} ReduceSplit(M: Matrix<real>, t: nat, j: nat, stop: nat)
    requires Rect(M) && t <= |M| && j <= stop < Width(M)
    ensures var s := Reduce(M, t, j, stop);
      var c := Column(s.m, s.pivots, stop);
      Reduce(M, t, j, stop + 1) == Stage(c.m, c.pivots, s.ops + c.ops)
    decreases stop - j
  {
    if j < stop {
      var c := Column(M, t, j);
      ReduceSplit(c.m, c.pivots, j + 1, stop);
      var s := Reduce(c.m, c.pivots, j + 1, stop);
      var last := Column(s.m, s.pivots, stop);
      LogsAssociate(c.ops, s.ops, last.ops);
    } else {
      var c := Column(M, t, j);
      assert c.ops + [] == c.ops;
      assert Reduce(c.m, c.pivots, j + 1, stop + 1) == Stage(c.m, c.pivots, []);
    }
  }
}

=== FILE: graph.dfy ===
/**
  The Euler-path solver: a random simple graph with a given number of
  vertices and edges is built on an adjacency matrix, its connected
  components are counted by depth-first search, the vertices of odd degree
  decide between an Euler circuit, an Euler path and neither, and a
  Fleury-style walk removes one edge at a time, refusing a bridge while
  another edge is available.
 */
module Graphs {
  import opened Outcomes
  import opened Decimal
  import opened Matrices

  type Graph = seq<seq<bool>>

  predicate Square(G: Graph) {
    forall i :: 0 <= i < |G| ==> |G[i]| == |G|
  }

  /** Symmetric without self-loops: what the generator builds. */
  predicate Simple(G: Graph) {
    Square(G) &&
    (forall a, b :: 0 <= a < |G| && 0 <= b < |G| ==> G[a][b] == G[b][a]) &&
    (forall a :: 0 <= a < |G| ==> !G[a][a])
  }

  // ---------------------------------------------------------------------
  // Walks and reachability

  /** Consecutive vertices of p are adjacent in G. */
  ghost predicate IsWalk(G: Graph, p: seq<nat>)
    requires Square(G)
  {
    |p| > 0 &&
    (forall k :: 0 <= k < |p| ==> p[k] < |G|) &&
    (forall k :: 0 <= k < |p| - 1 ==> G[p[k]][p[k + 1]])
  }

  /** t can be reached from s by a walk whose vertices after the first are
      all unmarked in avoid. */
  ghost predicate ReachesAvoiding(G: Graph, avoid: seq<bool>, s: nat, t: nat)
    requires Square(G) && |avoid| == |G|
  {
    exists p :: IsWalk(G, p) && p[0] == s && p[|p| - 1] == t &&
      forall k :: 0 < k < |p| ==> !avoid[p[k]]
  }

  ghost predicate Reachable(G: Graph, s: nat, t: nat)
    requires Square(G)
  {
    exists p :: IsWalk(G, p) && p[0] == s && p[|p| - 1] == t
  }

  lemma AvoidingReaches(G: Graph, avoid: seq<bool>, s: nat, t: nat)
    requires Square(G) && |avoid| == |G| && ReachesAvoiding(G, avoid, s, t)
    ensures Reachable(G, s, t)
  {
  }

  lemma ReachesItself(G: Graph, avoid: seq<bool>, s: nat)
    requires Square(G) && |avoid| == |G| && s < |G|
    ensures ReachesAvoiding(G, avoid, s, s)
  {
    assert IsWalk(G, [s]);
  }

  /** A first step to an unmarked neighbour, then a walk through unmarked
      vertices of a larger marking. */
  lemma StepThenAvoid(G: Graph, avoid: seq<bool>, more: seq<bool>, s: nat, i: nat, t: nat)
    requires Square(G) && |avoid| == |G| && |more| == |G|
    requires forall x :: 0 <= x < |G| && avoid[x] ==> more[x]
    requires s < |G| && i < |G| && G[s][i] && !more[i] && ReachesAvoiding(G, more, i, t)
    ensures ReachesAvoiding(G, avoid, s, t)
  {
    var p :| IsWalk(G, p) && p[0] == i && p[|p| - 1] == t && forall k :: 0 < k < |p| ==> !more[p[k]];
    var q := [s] + p;
    assert forall k :: 0 < k < |q| ==> q[k] == p[k - 1];
    assert IsWalk(G, q);
  }

  /** Joining two walks at a shared vertex. */
  lemma ReachableJoin(G: Graph, s: nat, m: nat, t: nat)
    requires Square(G) && Reachable(G, s, m) && Reachable(G, m, t)
    ensures Reachable(G, s, t)
  {
    var p :| IsWalk(G, p) && p[0] == s && p[|p| - 1] == m;
    var q :| IsWalk(G, q) && q[0] == m && q[|q| - 1] == t;
    var w := p + q[1..];
    assert forall k :: |p| <= k < |w| ==> w[k] == q[k - |p| + 1];
    forall k | 0 <= k < |w| - 1
      ensures G[w[k]][w[k + 1]]
    {
      if k == |p| - 1 {
        assert w[k] == q[0] && w[k + 1] == q[1];
      }
    }
    assert IsWalk(G, w);
  }

  /** In a symmetric graph a walk can be walked backwards. */
  lemma ReachableBack(G: Graph, s: nat, t: nat)
    requires Simple(G) && Reachable(G, s, t)
    ensures Reachable(G, t, s)
  {
    var p :| IsWalk(G, p) && p[0] == s && p[|p| - 1] == t;
    var r := seq(|p|, k requires 0 <= k < |p| => p[|p| - 1 - k]);
    forall k | 0 <= k < |r| - 1
      ensures G[r[k]][r[k + 1]]
    {
      assert G[p[|p| - 2 - k]][p[|p| - 1 - k]];
    }
    assert IsWalk(G, r);
  }

  /** Every vertex reachable from a marked vertex of a marking closed under
      adjacency is marked. */
  lemma {:induction false} ClosedKeepsReach(G: Graph, marked: seq<bool>, p: seq<nat>)
    requires Square(G) && |marked| == |G| && IsWalk(G, p) && marked[p[0]]
    requires forall x, y :: 0 <= x < |G| && 0 <= y < |G| && marked[x] && G[x][y] ==> marked[y]
    ensures marked[p[|p| - 1]]
    decreases |p|
  {
    if |p| > 1 {
      var q := p[..|p| - 1];
      assert IsWalk(G, q);
      ClosedKeepsReach(G, marked, q);
    }
  }

  // ---------------------------------------------------------------------
  // Depth-first search

  /** The number of unmarked vertices. */
  function Unvisited(v: seq<bool>): (c: nat)
    ensures c <= |v|
  {
    if v == [] then 0 else Unvisited(v[..|v| - 1]) + (if v[|v| - 1] then 0 else 1)
  }

  /** Marking more vertices leaves fewer unmarked; strictly fewer when one
      more is marked. */
  lemma {:induction false} UnvisitedShrinks(a: seq<bool>, b: seq<bool>, x: nat)
    requires |a| == |b| && forall i :: 0 <= i < |a| && a[i] ==> b[i]
    ensures Unvisited(b) <= Unvisited(a)
    ensures x < |a| && b[x] && !a[x] ==> Unvisited(b) < Unvisited(a)
    decreases |a|
  {
    if a != [] {
      UnvisitedShrinks(a[..|a| - 1], b[..|b| - 1], x);
    }
  }

  /** Marks current and, through every unmarked neighbour in index order,
      everything reachable through unmarked vertices; never clears a mark.
      Every newly marked vertex has all its neighbours marked. */
  method Dfs(G: Graph, current: nat, visited: seq<bool>) returns (v: seq<bool>)
    requires Square(G) && current < |G| && |visited| == |G|
    ensures |v| == |G| && v[current]
    ensures forall x :: 0 <= x < |G| && visited[x] ==> v[x]
    ensures forall x :: 0 <= x < |G| && v[x] && !visited[x] ==> ReachesAvoiding(G, visited, current, x)
    ensures forall x, y :: 0 <= x < |G| && 0 <= y < |G| && v[x] && !visited[x] && G[x][y] ==> v[y]
    decreases 2 * Unvisited(visited) + (if visited[current] then 1 else 0)
  {
    v := visited[current := true];
    ReachesItself(G, visited, current);
    for i := 0 to |G|
      invariant |v| == |G| && v[current]
      invariant forall x :: 0 <= x < |G| && visited[x] ==> v[x]
      invariant forall x :: 0 <= x < |G| && v[x] && !visited[x] ==> ReachesAvoiding(G, visited, current, x)
      invariant forall x, y :: 0 <= x < |G| && 0 <= y < |G| && v[x] && !visited[x] && x != current && G[x][y] ==> v[y]
      invariant forall y :: 0 <= y < i && G[current][y] ==> v[y]
    {
      if !v[i] && G[current][i] {
        UnvisitedShrinks(visited, v, current);
        var w := Dfs(G, i, v);
        forall x | 0 <= x < |G| && w[x] && !v[x]
          ensures ReachesAvoiding(G, visited, current, x)
        {
          StepThenAvoid(G, visited, v, current, i, x);
        }
        v := w;
      }
    }
  }

  /** The first unmarked vertex, or the vertex count when all are marked. */
  function FirstUnvisited(v: seq<bool>): (i: nat)
    ensures i <= |v| && (i < |v| ==> !v[i])
    ensures forall j :: 0 <= j < i ==> v[j]
  {
    if v == [] || !v[0] then 0 else 1 + FirstUnvisited(v[1..])
  }

  /** Some root reaches x. */
  ghost predicate Covered(G: Graph, reps: seq<nat>, x: nat)
    requires Square(G)
  {
    exists k :: 0 <= k < |reps| && Reachable(G, reps[k], x)
  }

  /** reps are the roots of separate components covering every vertex: no
      later root is reachable from an earlier one, and every vertex is
      reachable from some root. In a symmetric graph their number is the
      number of connected components. */
  ghost predicate Roots(G: Graph, reps: seq<nat>)
    requires Square(G)
  {
    (forall k :: 0 <= k < |reps| ==> reps[k] < |G|) &&
    (forall k, l :: 0 <= k < l < |reps| ==> !Reachable(G, reps[k], reps[l])) &&
    (forall x :: 0 <= x < |G| ==> Covered(G, reps, x))
  }

  ghost predicate Components(G: Graph, c: nat)
    requires Square(G)
  {
    exists reps :: |reps| == c && Roots(G, reps)
  }

  /** The state between searches: the marked vertices are closed under
      adjacency and covered by the roots found so far, which are marked
      and separate. */
  ghost predicate Searched(G: Graph, visited: seq<bool>, reps: seq<nat>)
    requires Square(G)
  {
    |visited| == |G| &&
    (forall k :: 0 <= k < |reps| ==> reps[k] < |G| && visited[reps[k]]) &&
    (forall x :: 0 <= x < |G| && visited[x] ==> Covered(G, reps, x)) &&
    (forall x, y :: 0 <= x < |G| && 0 <= y < |G| && visited[x] && G[x][y] ==> visited[y]) &&
    (forall k, l :: 0 <= k < l < |reps| ==> !Reachable(G, reps[k], reps[l]))
  }

  /** An unmarked vertex is not reachable from a marked root. */
  lemma NewRootSeparate(G: Graph, visited: seq<bool>, reps: seq<nat>, s: nat)
    requires Square(G) && Searched(G, visited, reps) && s < |G| && !visited[s]
    ensures forall k :: 0 <= k < |reps| ==> !Reachable(G, reps[k], s)
  {
    forall k | 0 <= k < |reps|
      ensures !Reachable(G, reps[k], s)
    {
      if Reachable(G, reps[k], s) {
        var p :| IsWalk(G, p) && p[0] == reps[k] && p[|p| - 1] == s;
        ClosedKeepsReach(G, visited, p);
      }
    }
  }

  /** Appending a root that no earlier root reaches keeps them separate. */
  lemma SeparateStep(G: Graph, reps: seq<nat>, s: nat)
    requires Square(G)
    requires forall k, l :: 0 <= k < l < |reps| ==> !Reachable(G, reps[k], reps[l])
    requires forall k :: 0 <= k < |reps| ==> !Reachable(G, reps[k], s)
    ensures forall k, l :: 0 <= k < l < |reps + [s]| ==> !Reachable(G, (reps + [s])[k], (reps + [s])[l])
  {
    var reps' := reps + [s];
    forall k, l | 0 <= k < l < |reps'|
      ensures !Reachable(G, reps'[k], reps'[l])
    {
      if l < |reps| {
        assert reps'[k] == reps[k] && reps'[l] == reps[l];
      } else {
        assert reps'[k] == reps[k] && reps'[l] == s;
      }
    }
  }

  /** Covered by some roots means covered by more roots. */
  lemma CoveredGrows(G: Graph, reps: seq<nat>, s: nat, x: nat)
    requires Square(G) && Covered(G, reps, x)
    ensures Covered(G, reps + [s], x)
  {
    var k :| 0 <= k < |reps| && Reachable(G, reps[k], x);
    assert (reps + [s])[k] == reps[k];
  }

  /** Reached from the new root means covered. */
  lemma CoveredByLast(G: Graph, reps: seq<nat>, s: nat, x: nat)
    requires Square(G) && Reachable(G, s, x)
    ensures Covered(G, reps + [s], x)
  {
    assert (reps + [s])[|reps|] == s;
  }

  /** One more search from an unmarked vertex s keeps the state, with s as
      a new root. */
  lemma SearchStep(G: Graph, visited: seq<bool>, reps: seq<nat>, s: nat, w: seq<bool>)
    requires Square(G) && Searched(G, visited, reps) && s < |G| && !visited[s]
    requires |w| == |G| && w[s]
    requires forall x :: 0 <= x < |G| && visited[x] ==> w[x]
    requires forall x :: 0 <= x < |G| && w[x] && !visited[x] ==> ReachesAvoiding(G, visited, s, x)
    requires forall x, y :: 0 <= x < |G| && 0 <= y < |G| && w[x] && !visited[x] && G[x][y] ==> w[y]
    ensures Searched(G, w, reps + [s])
  {
    NewRootSeparate(G, visited, reps, s);
    SeparateStep(G, reps, s);
    forall x | 0 <= x < |G| && w[x]
      ensures Covered(G, reps + [s], x)
    {
      if visited[x] {
        CoveredGrows(G, reps, s, x);
      } else {
        AvoidingReaches(G, visited, s, x);
        CoveredByLast(G, reps, s, x);
      }
    }
  }

  /** Repeated depth-first search from the first unmarked vertex until all
      are marked, counting the searches. */
  method CountComponents(G: Graph) returns (count: nat)
    requires Square(G)
    ensures Components(G, count)
    ensures count == 0 <==> |G| == 0
  {
    var n := |G|;
    var visited := seq(n, _ => false);
    count := 0;
    ghost var reps: seq<nat> := [];
    while FirstUnvisited(visited) < n
      invariant Searched(G, visited, reps) && |reps| == count
      decreases Unvisited(visited)
    {
      var s := FirstUnvisited(visited);
      var w := Dfs(G, s, visited);
      UnvisitedShrinks(visited, w, s);
      SearchStep(G, visited, reps, s, w);
      visited := w;
      reps := reps + [s];
      count := count + 1;
    }
    SearchDone(G, visited, reps);
  }

  /** Once every vertex is marked the roots found are the components'
      roots, and a non-empty graph has at least one. */
  lemma SearchDone(G: Graph, visited: seq<bool>, reps: seq<nat>)
    requires Square(G) && Searched(G, visited, reps) && forall x :: 0 <= x < |G| ==> visited[x]
    ensures Roots(G, reps)
    ensures |reps| == 0 <==> |G| == 0
  {
    assert |reps| > 0 ==> reps[0] < |G|;
    if |G| > 0 {
      assert Covered(G, reps, 0);
    }
  }

  /** In a symmetric graph one root means every vertex reaches every other,
      and conversely. */
  lemma ConnectedIffOneComponent(G: Graph, reps: seq<nat>)
    requires Simple(G) && |G| > 0 && Roots(G, reps)
    ensures |reps| == 1 <==> forall u, v :: 0 <= u < |G| && 0 <= v < |G| ==> Reachable(G, u, v)
  {
    assert Covered(G, reps, 0);
    if |reps| == 1 {
      forall u, v | 0 <= u < |G| && 0 <= v < |G|
        ensures Reachable(G, u, v)
      {
        assert Covered(G, reps, u) && Covered(G, reps, v);
        ReachableBack(G, reps[0], u);
        ReachableJoin(G, u, reps[0], v);
      }
    }
    assert |reps| >= 2 ==> reps[0] < |G| && reps[1] < |G|;
  }

  // ---------------------------------------------------------------------
  // Pigeonhole: the number of components is well defined

  function Values(f: seq<nat>): set<nat> {
    set x | x in f
  }

  /** A sequence without repeats has as many distinct values as entries. */
  lemma {:induction false} DistinctCard(f: seq<nat>)
    requires forall i, j :: 0 <= i < j < |f| ==> f[i] != f[j]
    ensures |Values(f)| == |f|
    decreases |f|
  {
    if f != [] {
      var g := f[..|f| - 1];
      var y := f[|f| - 1];
      DistinctCard(g);
      assert Values(f) == Values(g) + {y};
      assert forall i :: 0 <= i < |g| ==> g[i] == f[i];
      assert y !in Values(g);
    }
  }

  /** A set of numbers below b has at most b members. */
  lemma {:induction false} BelowCard(S: set<nat>, b: nat)
    requires forall x :: x in S ==> x < b
    ensures |S| <= b
    decreases b
  {
    if b > 0 {
      BelowCard(S - {b - 1}, b - 1);
    }
  }

  /** Two sets of roots of a symmetric graph have the same size. */
  lemma ComponentsUnique(G: Graph, A: seq<nat>, B: seq<nat>)
    requires Simple(G) && Roots(G, A) && Roots(G, B)
    ensures |A| == |B|
  {
    RootsInject(G, A, B);
    RootsInject(G, B, A);
  }

  /** Sending each root of A to a root of B that reaches it is one-to-one. */
  lemma RootsInject(G: Graph, A: seq<nat>, B: seq<nat>)
    requires Simple(G) && Roots(G, A) && Roots(G, B)
    ensures |A| <= |B|
  {
    var f := seq(|A|, i requires 0 <= i < |A| => ReachingRoot(G, B, A[i]));
    forall i, j | 0 <= i < j < |A|
      ensures f[i] != f[j]
    {
      var k := f[i];
      if f[j] == k {
        ReachableBack(G, B[k], A[i]);
        ReachableJoin(G, A[i], B[k], A[j]);
      }
    }
    DistinctCard(f);
    BelowCard(Values(f), |B|);
  }

  /** The index of a root of B that reaches x. */
  ghost function ReachingRoot(G: Graph, B: seq<nat>, x: nat): (k: nat)
    requires Square(G) && Roots(G, B) && x < |G|
    ensures k < |B| && Reachable(G, B[k], x)
  {
    assert Covered(G, B, x);
    var k :| 0 <= k < |B| && Reachable(G, B[k], x);
    k
  }

  // ---------------------------------------------------------------------
  // Degrees and edges

  /** The number of true entries. */
  function Count(row: seq<bool>): (c: nat)
    ensures c <= |row|
  {
    if row == [] then 0 else Count(row[..|row| - 1]) + (if row[|row| - 1] then 1 else 0)
  }

  /** Setting one entry changes the count by what was there and what is
      put there. */
  lemma {:induction false} CountSet(row: seq<bool>, j: nat, v: bool)
    requires j < |row|
    ensures Count(row[j := v]) == Count(row) - (if row[j] then 1 else 0) + (if v then 1 else 0)
    decreases |row|
  {
    var n := |row| - 1;
    if j < n {
      assert row[j := v][..n] == row[..n][j := v];
      CountSet(row[..n], j, v);
    } else {
      assert row[j := v][..n] == row[..n];
    }
  }

  /** A false entry leaves room: the count is below the length. */
  lemma {:induction false} CountMissing(row: seq<bool>, j: nat)
    requires j < |row| && !row[j]
    ensures Count(row) < |row|
    decreases |row|
  {
    var n := |row| - 1;
    if j < n {
      CountMissing(row[..n], j);
    }
  }

  /** A true entry makes the count positive. */
  lemma {:induction false} CountPresent(row: seq<bool>, j: nat)
    requires j < |row| && row[j]
    ensures Count(row) > 0
    decreases |row|
  {
    var n := |row| - 1;
    if j < n {
      CountPresent(row[..n], j);
    }
  }

  function Degree(G: Graph, v: nat): nat
    requires v < |G|
  {
    Count(G[v])
  }

  /** The sum of all degrees: each edge of a symmetric graph counted from
      both ends. */
  function Total(G: Graph): nat {
    if G == [] then 0 else Total(G[..|G| - 1]) + Count(G[|G| - 1])
  }

  lemma {:induction false} TotalSet(G: Graph, i: nat, r: seq<bool>)
    requires i < |G|
    ensures Total(G[i := r]) == Total(G) - Count(G[i]) + Count(r)
    decreases |G|
  {
    var n := |G| - 1;
    if i < n {
      assert G[i := r][..n] == G[..n][i := r];
      TotalSet(G[..n], i, r);
    } else {
      assert G[i := r][..n] == G[..n];
    }
  }

  /** Without self-loops every row misses its own column, so the degrees
      sum to at most n(n - 1). */
  lemma {:induction false} TotalBound(G: Graph, n: nat)
    requires |G| <= n && forall i :: 0 <= i < |G| ==> |G[i]| == n && !G[i][i]
    ensures Total(G) <= |G| * (n - 1)
    decreases |G|
  {
    if G != [] {
      var last := |G| - 1;
      var P := G[..last];
      assert forall i :: 0 <= i < |P| ==> P[i] == G[i];
      TotalBound(P, n);
      CountMissing(G[last], last);
      assert Total(G) == Total(P) + Count(G[last]);
      Spread(last, n - 1);
    }
  }

  lemma Spread(k: nat, w: nat)
    ensures (k + 1) * w == k * w + w
  {
  }

  /** Sets entry (a, b) and its mirror (b, a) to v. */
  function Link(G: Graph, a: nat, b: nat, v: bool): (H: Graph)
    requires Square(G) && a < |G| && b < |G|
    ensures Square(H) && |H| == |G|
    ensures forall x, y :: 0 <= x < |G| && 0 <= y < |G| ==>
      H[x][y] == if (x == a && y == b) || (x == b && y == a) then v else G[x][y]
  {
    var G1 := G[a := G[a][b := v]];
    G1[b := G1[b][a := v]]
  }

  /** Setting an entry and its mirror to the same value keeps a
      symmetric graph symmetric; setting them false or off the diagonal
      keeps it loop-free. */
  lemma LinkSimple(G: Graph, a: nat, b: nat, v: bool)
    requires Simple(G) && a < |G| && b < |G| && (v ==> a != b)
    ensures Simple(Link(G, a, b, v))
  {
  }

  /** Setting an entry and its mirror changes the degree sum by what the
      two entries held and what they now hold. */
  lemma LinkTotal(G: Graph, a: nat, b: nat, v: bool)
    requires Simple(G) && a < |G| && b < |G| && a != b
    ensures Total(Link(G, a, b, v)) == Total(G) - (if G[a][b] then 2 else 0) + (if v then 2 else 0)
  {
    var G1 := G[a := G[a][b := v]];
    CountSet(G[a], b, v);
    TotalSet(G, a, G[a][b := v]);
    assert G1[b] == G[b];
    CountSet(G1[b], a, v);
    TotalSet(G1, b, G1[b][a := v]);
  }

  /** Setting an edge changes only the degrees of its ends. */
  lemma LinkDegree(G: Graph, a: nat, b: nat, v: bool, x: nat)
    requires Simple(G) && a < |G| && b < |G| && a != b && x < |G|
    ensures Degree(Link(G, a, b, v), x) ==
      Degree(G, x) + (if x == a || x == b then (if v then 1 else 0) - (if G[a][b] then 1 else 0) else 0)
  {
    var G1 := G[a := G[a][b := v]];
    var H := Link(G, a, b, v);
    if x == a {
      assert H[x] == G[a][b := v];
      CountSet(G[a], b, v);
    } else if x == b {
      assert H[x] == G[b][a := v];
      CountSet(G[b], a, v);
    } else {
      assert H[x] == G[x];
    }
  }

  /** Adding a missing edge between distinct vertices keeps the graph
      simple, adds two to the degree sum and one to each end's degree. */
  lemma AddEdge(G: Graph, a: nat, b: nat)
    requires Simple(G) && a < |G| && b < |G| && a != b && !G[a][b]
    ensures Simple(Link(G, a, b, true))
    ensures Total(Link(G, a, b, true)) == Total(G) + 2
    ensures forall x :: 0 <= x < |G| ==>
      Degree(Link(G, a, b, true), x) == Degree(G, x) + (if x == a || x == b then 1 else 0)
  {
    LinkSimple(G, a, b, true);
    LinkTotal(G, a, b, true);
    forall x | 0 <= x < |G|
      ensures Degree(Link(G, a, b, true), x) == Degree(G, x) + (if x == a || x == b then 1 else 0)
    {
      LinkDegree(G, a, b, true, x);
    }
  }

  /** Removing a present edge between distinct vertices keeps the graph
      simple and takes two from the degree sum. */
  lemma RemoveEdge(G: Graph, a: nat, b: nat)
    requires Simple(G) && a < |G| && b < |G| && a != b && G[a][b]
    ensures Simple(Link(G, a, b, false))
    ensures Total(Link(G, a, b, false)) == Total(G) - 2
  {
    LinkSimple(G, a, b, false);
    LinkTotal(G, a, b, false);
  }

  /** Removing an edge and putting it back restores the graph. */
  lemma RemoveRestore(G: Graph, a: nat, b: nat)
    requires Simple(G) && a < |G| && b < |G| && G[a][b]
    ensures Link(Link(G, a, b, false), a, b, true) == G
  {
    var H := Link(Link(G, a, b, false), a, b, true);
    forall x | 0 <= x < |G|
      ensures H[x] == G[x]
    {
    }
  }

  // ---------------------------------------------------------------------
  // Generation

  /** The largest edge count a simple graph on n vertices can have. */
  function MaxEdges(n: nat): nat {
    n * (n - 1) / 2
  }

  /** A simple graph on n vertices has at most MaxEdges(n) edges, so the
      generator's refusal of larger counts refuses only impossible ones. */
  lemma EdgeGuardSound(G: Graph, m: nat)
    requires Simple(G) && Total(G) == 2 * m
    ensures m <= MaxEdges(|G|)
  {
    TotalBound(G, |G|);
    if |G| > 0 {
      assert 2 * m <= |G| * (|G| - 1);
    }
  }

  datatype Failure =
    | ParseFailure     // the vertex or edge count is missing or not a number
    | NoVertices       // n - 1 underflows in the edge bound
    | TooManyEdges
    | DrawsExhausted   // the random source ran out before m edges were placed
    | WalkStuck        // every edge at the current vertex was refused

  /** The edge bound: with no vertices the subtraction n - 1 underflows
      (a panic in a debug build). */
  function CheckCounts(n: nat, m: nat): (r: Result<(), Failure>)
    ensures r == Err(NoVertices) <==> n == 0
    ensures r == Err(TooManyEdges) <==> n > 0 && m > MaxEdges(n)
    ensures r.Ok? <==> n > 0 && m <= MaxEdges(n)
  {
    if n == 0 then Err(NoVertices)
    else if m > MaxEdges(n) then Err(TooManyEdges)
    else Ok(())
  }

  /** Every draw names two vertices of an n-vertex graph. */
  predicate InRange(draws: seq<(nat, nat)>, n: nat) {
    forall k :: 0 <= k < |draws| ==> draws[k].0 < n && draws[k].1 < n
  }

  lemma InRangeSuffix(draws: seq<(nat, nat)>, n: nat, k: nat)
    requires InRange(draws, n) && k <= |draws|
    ensures InRange(draws[k..], n)
  {
    assert forall i :: 0 <= i < |draws| - k ==> draws[k..][i] == draws[k + i];
  }

  /** The graph on n vertices without edges. */
  function NoEdges(n: nat): (G: Graph)
    ensures |G| == n && Simple(G) && Total(G) == 0
    ensures forall v :: 0 <= v < n ==> Degree(G, v) == 0
    ensures forall a, b :: 0 <= a < n && 0 <= b < n ==> !G[a][b]
  {
    var G := seq(n, _ => seq(n, _ => false));
    EmptyGraph(G, seq(n, _ => 0));
    G
  }

  /** A draw the generator accepts: two distinct vertices not yet joined. */
  predicate Qualifies(G: Graph, d: (nat, nat))
    requires Square(G) && d.0 < |G| && d.1 < |G|
  {
    d.0 != d.1 && !G[d.0][d.1]
  }

  /** The reference placement: scan the draws in order, adding the edge of
      each qualifying draw, until m edges are placed; None when the draws
      run out first. */
  function Place(G: Graph, m: nat, draws: seq<(nat, nat)>): (r: Option<Graph>)
    requires Simple(G) && InRange(draws, |G|)
    ensures r.Some? ==> Simple(r.value) && |r.value| == |G| && Total(r.value) == Total(G) + 2 * m
    decreases |draws|
  {
    InRangeSuffix(draws, |G|, if draws == [] then 0 else 1);
    if m == 0 then Some(G)
    else if draws == [] then None
    else if Qualifies(G, draws[0]) then
      AddEdge(G, draws[0].0, draws[0].1);
      Place(Link(G, draws[0].0, draws[0].1, true), m - 1, draws[1..])
    else Place(G, m, draws[1..])
  }

  /** How many draws the scan accepts when it never stops early. */
  function Accepted(G: Graph, draws: seq<(nat, nat)>): nat
    requires Simple(G) && InRange(draws, |G|)
    decreases |draws|
  {
    InRangeSuffix(draws, |G|, if draws == [] then 0 else 1);
    if draws == [] then 0
    else if Qualifies(G, draws[0]) then
      AddEdge(G, draws[0].0, draws[0].1);
      1 + Accepted(Link(G, draws[0].0, draws[0].1, true), draws[1..])
    else Accepted(G, draws[1..])
  }

  /** The draws run out exactly when fewer than m of them qualify. */
  lemma {:induction false} PlaceFailsIffFewDraws(G: Graph, m: nat, draws: seq<(nat, nat)>)
    requires Simple(G) && InRange(draws, |G|)
    ensures Place(G, m, draws).None? <==> Accepted(G, draws) < m
    decreases |draws|
  {
    InRangeSuffix(draws, |G|, if draws == [] then 0 else 1);
    if m != 0 && draws != [] {
      if Qualifies(G, draws[0]) {
        AddEdge(G, draws[0].0, draws[0].1);
        PlaceFailsIffFewDraws(Link(G, draws[0].0, draws[0].1, true), m - 1, draws[1..]);
      } else {
        PlaceFailsIffFewDraws(G, m, draws[1..]);
      }
    }
  }

  /** Some draw names the pair x, y in either order. */
  ghost predicate Drawn(draws: seq<(nat, nat)>, x: nat, y: nat) {
    exists k :: 0 <= k < |draws| && (draws[k] == (x, y) || draws[k] == (y, x))
  }

  /** The placed graph keeps the edges it started with, and every edge it
      adds comes from a draw. */
  lemma {:induction false} PlaceEdgesDrawn(G: Graph, m: nat, draws: seq<(nat, nat)>)
    requires Simple(G) && InRange(draws, |G|) && Place(G, m, draws).Some?
    ensures forall x, y :: 0 <= x < |G| && 0 <= y < |G| && G[x][y] ==> Place(G, m, draws).value[x][y]
    ensures forall x, y :: 0 <= x < |G| && 0 <= y < |G| && Place(G, m, draws).value[x][y] ==> G[x][y] || Drawn(draws, x, y)
    decreases |draws|
  {
    InRangeSuffix(draws, |G|, if draws == [] then 0 else 1);
    if m != 0 {
      DrawnTail(draws);
      if Qualifies(G, draws[0]) {
        var (a, b) := draws[0];
        AddEdge(G, a, b);
        PlaceEdgesDrawn(Link(G, a, b, true), m - 1, draws[1..]);
        LinkDrawn(G, draws);
      } else {
        PlaceEdgesDrawn(G, m, draws[1..]);
      }
    }
  }

  /** A pair drawn later is drawn. */
  lemma DrawnTail(draws: seq<(nat, nat)>)
    requires draws != []
    ensures forall x: nat, y: nat :: Drawn(draws[1..], x, y) ==> Drawn(draws, x, y)
  {
    forall x: nat, y: nat | Drawn(draws[1..], x, y)
      ensures Drawn(draws, x, y)
    {
      var k :| 0 <= k < |draws[1..]| && (draws[1..][k] == (x, y) || draws[1..][k] == (y, x));
      assert draws[k + 1] == draws[1..][k];
    }
  }

  /** Adding the edge of the first draw adds only a drawn pair. */
  lemma LinkDrawn(G: Graph, draws: seq<(nat, nat)>)
    requires Square(G) && draws != [] && draws[0].0 < |G| && draws[0].1 < |G|
    ensures forall x, y :: 0 <= x < |G| && 0 <= y < |G| && Link(G, draws[0].0, draws[0].1, true)[x][y] ==>
      G[x][y] || Drawn(draws, x, y)
  {
    var (a, b) := draws[0];
    forall x, y | 0 <= x < |G| && 0 <= y < |G| && Link(G, a, b, true)[x][y] && !G[x][y]
      ensures Drawn(draws, x, y)
    {
      assert draws[0] == (x, y) || draws[0] == (y, x);
    }
  }

  /** A draw that does not qualify is skipped. */
  lemma PlaceSkips(G: Graph, m: nat, draws: seq<(nat, nat)>, k: nat)
    requires Simple(G) && InRange(draws, |G|) && 0 < m && k < |draws|
    requires !Qualifies(G, draws[k])
    ensures InRange(draws[k..], |G|) && InRange(draws[k + 1..], |G|)
    ensures Place(G, m, draws[k..]) == Place(G, m, draws[k + 1..])
  {
    InRangeSuffix(draws, |G|, k);
    InRangeSuffix(draws, |G|, k + 1);
    assert draws[k..][0] == draws[k] && draws[k..][1..] == draws[k + 1..];
  }

  /** A qualifying draw places its edge. */
  lemma PlaceTakes(G: Graph, m: nat, draws: seq<(nat, nat)>, k: nat)
    requires Simple(G) && InRange(draws, |G|) && 0 < m && k < |draws|
    requires Qualifies(G, draws[k])
    ensures InRange(draws[k..], |G|) && InRange(draws[k + 1..], |G|)
    ensures Simple(Link(G, draws[k].0, draws[k].1, true))
    ensures Place(G, m, draws[k..]) == Place(Link(G, draws[k].0, draws[k].1, true), m - 1, draws[k + 1..])
  {
    InRangeSuffix(draws, |G|, k);
    InRangeSuffix(draws, |G|, k + 1);
    AddEdge(G, draws[k].0, draws[k].1);
    assert draws[k..][0] == draws[k] && draws[k..][1..] == draws[k + 1..];
  }

  /** The generator after placing e of m edges and consuming the first k
      draws: G is simple with the degrees in step, and placing the rest
      from the remaining draws gives the reference placement. */
  ghost predicate Generating(G: Graph, degree: seq<nat>, n: nat, m: nat, e: nat, k: nat, draws: seq<(nat, nat)>) {
    && e <= m && k <= |draws| && InRange(draws, n)
    && Simple(G) && |G| == n && Total(G) == 2 * e && DegreesOf(G, degree)
    && InRange(draws[k..], n)
    && Place(G, m - e, draws[k..]) == Place(NoEdges(n), m, draws)
  }

  lemma GeneratingStart(n: nat, m: nat, draws: seq<(nat, nat)>)
    requires InRange(draws, n)
    ensures Generating(NoEdges(n), seq(n, _ => 0), n, m, 0, 0, draws)
  {
    EmptyGraph(NoEdges(n), seq(n, _ => 0));
    assert draws[0..] == draws;
  }

  lemma GeneratingSkip(G: Graph, degree: seq<nat>, n: nat, m: nat, e: nat, k: nat, draws: seq<(nat, nat)>)
    requires Generating(G, degree, n, m, e, k, draws) && e < m && k < |draws|
    requires draws[k].0 == draws[k].1 || G[draws[k].0][draws[k].1]
    ensures Generating(G, degree, n, m, e, k + 1, draws)
  {
    PlaceSkips(G, m - e, draws, k);
  }

  lemma GeneratingTake(G: Graph, degree: seq<nat>, n: nat, m: nat, e: nat, k: nat, draws: seq<(nat, nat)>)
    requires Generating(G, degree, n, m, e, k, draws) && e < m && k < |draws|
    requires draws[k].0 != draws[k].1 && !G[draws[k].0][draws[k].1]
    ensures var a, b := draws[k].0, draws[k].1;
      Generating(Link(G, a, b, true), degree[a := degree[a] + 1][b := degree[b] + 1], n, m, e + 1, k + 1, draws)
  {
    var a, b := draws[k].0, draws[k].1;
    PlaceTakes(G, m - e, draws, k);
    AddEdge(G, a, b);
    AddEdgeDegrees(G, degree, a, b);
  }

  lemma GeneratingExhausted(G: Graph, degree: seq<nat>, n: nat, m: nat, e: nat, draws: seq<(nat, nat)>)
    requires Generating(G, degree, n, m, e, |draws|, draws) && e < m
    ensures Place(NoEdges(n), m, draws).None?
  {
    assert draws[|draws|..] == [];
  }

  lemma GeneratingEnd(G: Graph, degree: seq<nat>, n: nat, m: nat, k: nat, draws: seq<(nat, nat)>)
    requires Generating(G, degree, n, m, m, k, draws)
    ensures Place(NoEdges(n), m, draws) == Some(G)
    ensures Simple(G) && |G| == n && Total(G) == 2 * m
    ensures |degree| == n && forall v :: 0 <= v < n ==> degree[v] == Degree(G, v)
  {
  }

  /** The inner loop of the generator: skips draws that name one vertex
      twice or an existing edge, stopping at the first that does not or at
      the end of the draws. */
  method SkipTaken(G: Graph, degree: seq<nat>, n: nat, m: nat, e: nat, k: nat, draws: seq<(nat, nat)>) returns (k': nat)
    requires Generating(G, degree, n, m, e, k, draws) && e < m
    ensures k <= k' <= |draws|
    ensures forall j :: k <= j < k' ==> draws[j].0 == draws[j].1 || G[draws[j].0][draws[j].1]
    ensures k' < |draws| ==> draws[k'].0 != draws[k'].1 && !G[draws[k'].0][draws[k'].1]
    ensures Generating(G, degree, n, m, e, k', draws)
  {
    k' := k;
    while k' < |draws| && (draws[k'].0 == draws[k'].1 || G[draws[k'].0][draws[k'].1])
      invariant k <= k' <= |draws|
      invariant forall j :: k <= j < k' ==> draws[j].0 == draws[j].1 || G[draws[j].0][draws[j].1]
      invariant Generating(G, degree, n, m, e, k', draws)
    {
      GeneratingSkip(G, degree, n, m, e, k', draws);
      k' := k' + 1;
    }
  }

  /** Inserts m edges, each from the first later draw (a, b) with a != b
      and no edge a-b yet, keeping every degree in step. The random source
      is a finite list of draws here; the result is the reference placement,
      and the draws run out exactly when it finds fewer than m qualifying
      draws. */
  method Generate(n: nat, m: nat, draws: seq<(nat, nat)>) returns (r: Result<(Graph, seq<nat>), Failure>)
    requires InRange(draws, n)
    ensures r.Ok? ==> Simple(r.value.0) && |r.value.0| == n && Total(r.value.0) == 2 * m
    ensures r.Ok? ==> |r.value.1| == n && forall v :: 0 <= v < n ==> r.value.1[v] == Degree(r.value.0, v)
    ensures r.Err? ==> r.error == DrawsExhausted
    ensures r.Err? <==> Place(NoEdges(n), m, draws).None?
    ensures r.Ok? ==> Place(NoEdges(n), m, draws) == Some(r.value.0)
  {
    var G := NoEdges(n);
    var degree := seq(n, _ => 0);
    GeneratingStart(n, m, draws);
    var k := 0;
    for e := 0 to m
      invariant Generating(G, degree, n, m, e, k, draws)
    {
      k := SkipTaken(G, degree, n, m, e, k, draws);
      if k == |draws| {
        GeneratingExhausted(G, degree, n, m, e, draws);
        return Err(DrawsExhausted);
      }
      var a, b := draws[k].0, draws[k].1;
      GeneratingTake(G, degree, n, m, e, k, draws);
      G := Link(G, a, b, true);
      degree := degree[a := degree[a] + 1][b := degree[b] + 1];
      k := k + 1;
    }
    GeneratingEnd(G, degree, n, m, k, draws);
    return Ok((G, degree));
  }

  /** degree lists the degree of every vertex of G. */
  ghost predicate DegreesOf(G: Graph, degree: seq<nat>) {
    |degree| == |G| && forall v :: 0 <= v < |G| ==> degree[v] == Degree(G, v)
  }

  /** The graph without edges is simple, with degree sum and every degree
      zero. */
  lemma EmptyGraph(G: Graph, degree: seq<nat>)
    requires Square(G) && forall i, j :: 0 <= i < |G| && 0 <= j < |G| ==> !G[i][j]
    requires |degree| == |G| && forall v :: 0 <= v < |G| ==> degree[v] == 0
    ensures Simple(G) && Total(G) == 0 && DegreesOf(G, degree)
  {
    forall v | 0 <= v < |G|
      ensures Degree(G, v) == 0
    {
      ZeroCount(G[v]);
    }
    ZeroTotal(G);
  }

  /** Adding the edge a-b adds one to the degrees of a and b. */
  lemma AddEdgeDegrees(G: Graph, degree: seq<nat>, a: nat, b: nat)
    requires Simple(G) && a < |G| && b < |G| && a != b && !G[a][b] && DegreesOf(G, degree)
    ensures DegreesOf(Link(G, a, b, true), degree[a := degree[a] + 1][b := degree[b] + 1])
  {
    AddEdge(G, a, b);
  }

  lemma {:induction false} ZeroCount(row: seq<bool>)
    requires forall j :: 0 <= j < |row| ==> !row[j]
    ensures Count(row) == 0
    decreases |row|
  {
    if row != [] {
      ZeroCount(row[..|row| - 1]);
    }
  }

  lemma {:induction false} ZeroTotal(G: Graph)
    requires forall i, j :: 0 <= i < |G| && 0 <= j < |G[i]| ==> !G[i][j]
    ensures Total(G) == 0
    decreases |G|
  {
    if G != [] {
      ZeroTotal(G[..|G| - 1]);
      ZeroCount(G[|G| - 1]);
    }
  }

  // ---------------------------------------------------------------------
  // Odd degrees

  /** The odd-degree vertices in increasing order. */
  function OddVertices(degree: seq<nat>): (r: seq<nat>)
    ensures forall x: nat :: x in r <==> (x < |degree| && degree[x] % 2 == 1)
    ensures forall i, j :: 0 <= i < j < |r| ==> r[i] < r[j]
    ensures forall i :: 0 <= i < |r| ==> r[i] < |degree|
  {
    if degree == [] then []
    else
      var n := |degree| - 1;
      var r := OddVertices(degree[..n]);
      if degree[n] % 2 == 1 then r + [n] else r
  }

  function Sum(degree: seq<nat>): nat {
    if degree == [] then 0 else Sum(degree[..|degree| - 1]) + degree[|degree| - 1]
  }

  /** The number of odd entries has the parity of their sum. */
  lemma {:induction false} OddParity(degree: seq<nat>)
    ensures |OddVertices(degree)| % 2 == Sum(degree) % 2
    decreases |degree|
  {
    if degree != [] {
      var n := |degree| - 1;
      OddParity(degree[..n]);
      var odd := if degree[n] % 2 == 1 then 1 else 0;
      assert |OddVertices(degree)| == |OddVertices(degree[..n])| + odd;
      assert Sum(degree) == Sum(degree[..n]) + degree[n];
      ParityStep(|OddVertices(degree[..n])|, Sum(degree[..n]), degree[n]);
    }
  }

  /** Adding d to a sum and one to a count exactly when d is odd keeps
      their parities equal. */
  lemma ParityStep(c: nat, s: nat, d: nat)
    requires c % 2 == s % 2
    ensures (c + (if d % 2 == 1 then 1 else 0)) % 2 == (s + d) % 2
  {
  }

  /** The listed degrees sum to the degree total. */
  lemma {:induction false} SumIsTotal(G: Graph, degree: seq<nat>)
    requires |degree| == |G| && forall v :: 0 <= v < |G| ==> degree[v] == Count(G[v])
    ensures Sum(degree) == Total(G)
    decreases |G|
  {
    if G != [] {
      var n := |G| - 1;
      SumIsTotal(G[..n], degree[..n]);
    }
  }

  lemma {:induction false} SomeEntry(row: seq<bool>)
    requires Count(row) > 0
    ensures exists j :: 0 <= j < |row| && row[j]
    decreases |row|
  {
    if !row[|row| - 1] {
      SomeEntry(row[..|row| - 1]);
      var j :| 0 <= j < |row| - 1 && row[..|row| - 1][j];
    }
  }

  lemma {:induction false} SomeRow(G: Graph)
    requires Total(G) > 0
    ensures exists i :: 0 <= i < |G| && Count(G[i]) > 0
    decreases |G|
  {
    if Count(G[|G| - 1]) == 0 {
      SomeRow(G[..|G| - 1]);
      var i :| 0 <= i < |G| - 1 && Count(G[..|G| - 1][i]) > 0;
    }
  }

  /** A symmetric graph counts every edge twice. */
  lemma {:induction false} TotalEven(G: Graph)
    requires Simple(G)
    ensures Total(G) % 2 == 0
    decreases Total(G)
  {
    if Total(G) > 0 {
      var a, b := SomeEdge(G);
      RemoveEdge(G, a, b);
      TotalEven(Link(G, a, b, false));
    }
  }

  /** A simple graph with a positive degree sum has an edge. */
  lemma SomeEdge(G: Graph) returns (a: nat, b: nat)
    requires Simple(G) && Total(G) > 0
    ensures a < |G| && b < |G| && a != b && G[a][b]
  {
    SomeRow(G);
    var i :| 0 <= i < |G| && Count(G[i]) > 0;
    SomeEntry(G[i]);
    var j :| 0 <= j < |G[i]| && G[i][j];
    a, b := i, j;
  }

  /** Handshake: a simple graph has an even number of odd-degree vertices,
      so a connected graph with at most two of them has none or two. */
  lemma OddVerticesEven(G: Graph, degree: seq<nat>)
    requires Simple(G) && |degree| == |G| && forall v :: 0 <= v < |G| ==> degree[v] == Degree(G, v)
    ensures |OddVertices(degree)| % 2 == 0
  {
    SumIsTotal(G, degree);
    TotalEven(G);
    OddParity(degree);
  }

  datatype Kind = Eulerian | SemiEulerian | Neither

  /** The verdict: a connected graph without odd vertices has an Euler
      circuit, with one or two an Euler path; otherwise neither. */
  function Classify(connected: bool, odd: seq<nat>): (k: Kind)
    ensures k == Eulerian <==> connected && |odd| == 0
    ensures k == SemiEulerian <==> connected && 0 < |odd| <= 2
    ensures k == Neither <==> !connected || |odd| > 2
  {
    if !connected || |odd| > 2 then Neither
    else if odd == [] then Eulerian
    else SemiEulerian
  }

  /** The walk starts at vertex 0 without odd vertices, else at the first
      odd one. */
  function StartVertex(degree: seq<nat>): (v: nat)
    requires |degree| > 0
    ensures v < |degree|
    ensures OddVertices(degree) == [] ==> v == 0
    ensures OddVertices(degree) != [] ==> degree[v] % 2 == 1 && forall u :: 0 <= u < v ==> degree[u] % 2 == 0
  {
    var odd := OddVertices(degree);
    if odd == [] then 0
    else
      assert forall i :: 0 <= i < |odd| ==> odd[0] <= odd[i];
      assert odd[0] in odd;
      odd[0]
  }

  // ---------------------------------------------------------------------
  // The Fleury walk

  /** Whether the row has a true entry. */
  function HasEdge(row: seq<bool>): (b: bool)
    ensures b <==> exists j :: 0 <= j < |row| && row[j]
  {
    if row == [] then false else row[0] || HasEdge(row[1..])
  }

  /** Removing edge c-y would change the number of components while c keeps
      other edges: y is refused as the next vertex. */
  ghost predicate Refused(H: Graph, c: nat, y: nat, prev: nat)
    requires Square(H) && c < |H| && y < |H|
  {
    var R := Link(H, c, y, false);
    HasEdge(R[c]) && !Components(R, prev)
  }

  /** Every neighbour of c is refused. */
  ghost predicate AllRefused(H: Graph, c: nat, prev: nat)
    requires Square(H) && c < |H|
  {
    forall y :: 0 <= y < |H| && y != c && H[c][y] ==> Refused(H, c, y, prev)
  }

  /** One step of the walk: try the neighbours of current in index order,
      removing each edge; keep the first removal that leaves the component
      count at prev or leaves current without edges, and restore the
      others. */
  method Advance(H: Graph, current: nat, prev: nat) returns (H': Graph, next: nat, count: nat, moved: bool)
    requires Simple(H) && current < |H|
    ensures Simple(H') && |H'| == |H|
    ensures moved ==> next < |H| && next != current && H[current][next] && H' == Link(H, current, next, false)
    ensures moved ==> Components(H', count) && (count == prev || !HasEdge(H'[current]))
    ensures moved ==> forall y :: 0 <= y < next && y != current && H[current][y] ==> Refused(H, current, y, prev)
    ensures !moved ==> H' == H
    ensures !moved ==> AllRefused(H, current, prev)
  {
    H' := H;
    for y := 0 to |H|
      invariant H' == H
      invariant forall z :: 0 <= z < y && z != current && H[current][z] ==> Refused(H, current, z, prev)
    {
      if current != y && H'[current][y] {
        RemoveEdge(H', current, y);
        var R := Link(H', current, y, false);
        var c := CountComponents(R);
        if c == prev || !HasEdge(R[current]) {
          return R, y, c, true;
        }
        forall p: nat | Components(R, p)
          ensures p == c
        {
          var A :| |A| == p && Roots(R, A);
          var B :| |B| == c && Roots(R, B);
          ComponentsUnique(R, A, B);
        }
        RemoveRestore(H', current, y);
        H' := Link(R, current, y, true);
      }
    }
    return H', 0, 0, false;
  }

  /** Edge x-y is a step of the walk w, in either direction. */
  ghost predicate Uses(w: seq<nat>, x: nat, y: nat) {
    exists k :: 0 <= k < |w| - 1 && ((w[k] == x && w[k + 1] == y) || (w[k] == y && w[k + 1] == x))
  }

  /** Steps k and l of w traverse the same edge. */
  predicate SameEdge(w: seq<nat>, k: nat, l: nat)
    requires k < |w| - 1 && l < |w| - 1
  {
    (w[k] == w[l] && w[k + 1] == w[l + 1]) || (w[k] == w[l + 1] && w[k + 1] == w[l])
  }

  /** No edge is traversed twice. */
  ghost predicate NoRepeat(w: seq<nat>) {
    forall k: nat, l: nat :: k < l < |w| - 1 ==> !SameEdge(w, k, l)
  }

  /** A walk that never repeats an edge. */
  ghost predicate Trail(G: Graph, w: seq<nat>)
    requires Square(G)
  {
    IsWalk(G, w) && NoRepeat(w)
  }

  /** The edges of G the walk w has not used. */
  ghost predicate Remaining(G: Graph, H: Graph, w: seq<nat>)
    requires Square(G) && Square(H) && |H| == |G|
  {
    forall x, y :: 0 <= x < |G| && 0 <= y < |G| ==> (H[x][y] <==> G[x][y] && !Uses(w, x, y))
  }

  /** The steps of w + [next] are those of w and the new one. */
  lemma UsesExtend(w: seq<nat>, next: nat, x: nat, y: nat)
    requires |w| > 0
    ensures Uses(w + [next], x, y) <==>
      Uses(w, x, y) || (x == w[|w| - 1] && y == next) || (x == next && y == w[|w| - 1])
  {
    var c := w[|w| - 1];
    var w' := w + [next];
    if Uses(w', x, y) {
      var k :| 0 <= k < |w'| - 1 && ((w'[k] == x && w'[k + 1] == y) || (w'[k] == y && w'[k + 1] == x));
      if k < |w| - 1 {
        assert w'[k] == w[k] && w'[k + 1] == w[k + 1];
      }
    }
    if Uses(w, x, y) {
      var k :| 0 <= k < |w| - 1 && ((w[k] == x && w[k + 1] == y) || (w[k] == y && w[k + 1] == x));
      assert w'[k] == w[k] && w'[k + 1] == w[k + 1];
    }
    assert w'[|w| - 1] == c && w'[|w|] == next;
  }

  lemma NoRepeatStep(w: seq<nat>, next: nat)
    requires |w| > 0 && NoRepeat(w) && !Uses(w, w[|w| - 1], next)
    ensures NoRepeat(w + [next])
  {
    var c := w[|w| - 1];
    var w' := w + [next];
    forall k: nat, l: nat | k < l < |w'| - 1
      ensures !SameEdge(w', k, l)
    {
      assert w'[k] == w[k] && w'[k + 1] == w[k + 1];
      if l == |w| - 1 {
        assert w'[l] == c && w'[l + 1] == next;
        assert !((w[k] == c && w[k + 1] == next) || (w[k] == next && w[k + 1] == c));
      } else {
        assert w'[l] == w[l] && w'[l + 1] == w[l + 1];
        assert !SameEdge(w, k, l);
      }
    }
  }

  /** Taking an edge the trail has not used extends the trail. */
  lemma TrailStep(G: Graph, w: seq<nat>, next: nat)
    requires Square(G) && |w| > 0 && Trail(G, w)
    requires next < |G| && G[w[|w| - 1]][next] && !Uses(w, w[|w| - 1], next)
    ensures Trail(G, w + [next])
  {
    var w' := w + [next];
    assert forall k :: 0 <= k < |w| ==> w'[k] == w[k];
    assert IsWalk(G, w');
    NoRepeatStep(w, next);
  }

  /** Taking an unused edge extends the trail and removes that edge from
      the remaining graph. */
  lemma WalkStep(G: Graph, H: Graph, w: seq<nat>, next: nat)
    requires Simple(G) && Simple(H) && |H| == |G| && |w| > 0
    requires Trail(G, w) && Remaining(G, H, w)
    requires next < |G| && H[w[|w| - 1]][next]
    ensures Trail(G, w + [next])
    ensures Remaining(G, Link(H, w[|w| - 1], next, false), w + [next])
  {
    var c := w[|w| - 1];
    assert !Uses(w, c, next);
    TrailStep(G, w, next);
    forall x, y | 0 <= x < |G| && 0 <= y < |G|
      ensures Link(H, c, next, false)[x][y] <==> G[x][y] && !Uses(w + [next], x, y)
    {
      UsesExtend(w, next, x, y);
    }
  }

  datatype WalkEnd = Finished | Stuck

  /** The walk from start: while the current vertex has an edge, record it
      and advance. The walk ends when the current vertex has no edge left;
      when every edge of the current vertex is refused the Rust solver would
      repeat the same step forever, and the model stops with Stuck. The
      returned path ends with the vertex where the walk stopped. */
  method Fleury(G: Graph, start: nat) returns (path: seq<nat>, rest: Graph, end: WalkEnd)
    requires Simple(G) && start < |G|
    ensures |path| > 0 && path[0] == start
    ensures Trail(G, path)
    ensures Simple(rest) && |rest| == |G| && Remaining(G, rest, path)
    ensures end == Finished ==> !HasEdge(rest[path[|path| - 1]])
    ensures end == Stuck ==> HasEdge(rest[path[|path| - 1]])
    ensures end == Stuck ==> exists c :: Components(rest, c) && AllRefused(rest, path[|path| - 1], c)
  {
    var H := G;
    var current: nat := start;
    path := [];
    var prev := CountComponents(H);
    assert IsWalk(G, [start]);
    while HasEdge(H[current])
      invariant Simple(H) && |H| == |G| && current < |G|
      invariant (path + [current])[0] == start
      invariant Trail(G, path + [current]) && Remaining(G, H, path + [current])
      invariant Components(H, prev)
      decreases Total(H)
    {
      path := path + [current];
      var H2, next, count, moved := Advance(H, current, prev);
      if !moved {
        return path, H, Stuck;
      }
      WalkStep(G, H, path, next);
      RemoveEdge(H, current, next);
      H := H2;
      current := next;
      prev := count;
    }
    path := path + [current];
    return path, H, Finished;
  }

  // ---------------------------------------------------------------------
  // Input and the whole solver

  /** An unsigned decimal count: digits with an optional leading `+`; a
      leading `-` is not accepted. */
  function ParseUnsigned(w: string): (r: Option<nat>)
  {
    if |w| > 1 && w[0] == '+' && AllDigits(w[1..]) then Some(ValueOf(w[1..]))
    else if |w| > 0 && AllDigits(w) then Some(ValueOf(w))
    else None
  }

  /** Counts print and read back, with or without a `+`, and the unsigned
      reading agrees with the signed one wherever it succeeds. */
  lemma UnsignedRoundTrip(n: nat)
    ensures ParseUnsigned(NatToString(n)) == Some(n)
    ensures ParseUnsigned("+" + NatToString(n)) == Some(n)
  {
    NatToStringRoundTrip(n);
    assert ("+" + NatToString(n))[1..] == NatToString(n);
  }

  lemma UnsignedIsSigned(w: string)
    ensures ParseUnsigned(w).Some? ==> ParseInt(w) == Some(ParseUnsigned(w).value as int)
    ensures |w| > 0 && w[0] == '-' ==> ParseUnsigned(w) == None
  {
    if |w| > 1 && w[0] == '+' && AllDigits(w[1..]) {
      DigitsAreNumeral(w[1..]);
    } else if |w| > 0 && AllDigits(w) {
      DigitsAreNumeral(w);
    }
  }

  /** The vertex and edge counts: the first two words of the input. Any
      further word is the seed, which the model does not use. */
  function Counts(input: string): (r: Option<(nat, nat)>)
    ensures r.Some? <==> |Words(input)| >= 2 && ParseUnsigned(Words(input)[0]).Some? && ParseUnsigned(Words(input)[1]).Some?
    ensures r.Some? ==> r.value == (ParseUnsigned(Words(input)[0]).value, ParseUnsigned(Words(input)[1]).value)
  {
    var ws := Words(input);
    if |ws| < 2 then None
    else match (ParseUnsigned(ws[0]), ParseUnsigned(ws[1]))
      case (Some(n), Some(m)) => Some((n, m))
      case _ => None
  }

  /** Every edge of G at vertex v is a step of the walk w. */
  ghost predicate Exhausted(G: Graph, w: seq<nat>, v: nat)
    requires Square(G) && v < |G|
  {
    forall y :: 0 <= y < |G| && G[v][y] ==> Uses(w, v, y)
  }

  datatype Report = Report(graph: Graph, degree: seq<nat>, connected: bool, kind: Kind, path: seq<nat>)

  /** Each raw draw brought into range by the remainder modulo n. */
  function Ranged(draws: seq<(nat, nat)>, n: nat): (r: seq<(nat, nat)>)
    requires n > 0
    ensures |r| == |draws| && InRange(r, n)
  {
    seq(|draws|, k requires 0 <= k < |draws| => (draws[k].0 % n, draws[k].1 % n))
  }

  /** The counts parse and pass the edge bound. */
  predicate Admitted(input: string) {
    Counts(input).Some? && CheckCounts(Counts(input).value.0, Counts(input).value.1).Ok?
  }

  /** The graph the reference placement builds from the input's counts and
      the draws, or None when the draws run out. */
  function GraphOf(input: string, draws: seq<(nat, nat)>): (r: Option<Graph>)
    requires Admitted(input)
    ensures r.Some? ==> Simple(r.value) && |r.value| == Counts(input).value.0 > 0
  {
    var (n, m) := Counts(input).value;
    Place(NoEdges(n), m, Ranged(draws, n))
  }

  /** The degree of every vertex of G. */
  function DegreeList(G: Graph): (d: seq<nat>)
    ensures |d| == |G|
  {
    seq(|G|, v requires 0 <= v < |G| => Degree(G, v))
  }

  /** The walk from start in G reached a vertex that still has edges, all
      of which are refused: the remaining graph holds exactly the unused
      edges. */
  ghost predicate StuckWalk(G: Graph, start: nat, path: seq<nat>, rest: Graph)
    requires Simple(G)
  {
    && |path| > 0 && path[0] == start && Trail(G, path)
    && Simple(rest) && |rest| == |G| && Remaining(G, rest, path)
    && HasEdge(rest[path[|path| - 1]])
    && exists c :: Components(rest, c) && AllRefused(rest, path[|path| - 1], c)
  }

  /** The solver's walk gets stuck on G: G has an Euler circuit or path by
      the classification, and the walk from the start vertex ends with every
      edge at its last vertex refused. */
  ghost predicate StuckOn(G: Graph)
    requires Simple(G) && |G| > 0
  {
    && Classify(Components(G, 1), OddVertices(DegreeList(G))) != Neither
    && exists path, rest :: StuckWalk(G, StartVertex(DegreeList(G)), path, rest)
  }

  /** The whole solver. The random source is the list of raw draws; each
      draw is brought into range by the remainder modulo n. */
  method Solve(input: string, draws: seq<(nat, nat)>) returns (r: Result<Report, Failure>)
    ensures r == Err(ParseFailure) <==> Counts(input).None?
    ensures Counts(input).Some? && CheckCounts(Counts(input).value.0, Counts(input).value.1).Err? ==>
      r == Err(CheckCounts(Counts(input).value.0, Counts(input).value.1).error)
    ensures r.Ok? ==> Counts(input).Some? && CheckCounts(Counts(input).value.0, Counts(input).value.1).Ok?
    ensures r == Err(DrawsExhausted) <==> Admitted(input) && GraphOf(input, draws).None?
    ensures r.Ok? ==> Admitted(input) && GraphOf(input, draws) == Some(r.value.graph)
    ensures r == Err(WalkStuck) ==> Admitted(input) && GraphOf(input, draws).Some? && StuckOn(GraphOf(input, draws).value)
    ensures r.Ok? ==> var rep := r.value;
      Simple(rep.graph) && |rep.graph| == Counts(input).value.0 &&
      Total(rep.graph) == 2 * Counts(input).value.1 &&
      |rep.degree| == |rep.graph| && (forall v :: 0 <= v < |rep.graph| ==> rep.degree[v] == Degree(rep.graph, v))
    ensures r.Ok? ==> (r.value.connected <==> Components(r.value.graph, 1))
    ensures r.Ok? ==> r.value.kind == Classify(r.value.connected, OddVertices(r.value.degree))
    ensures r.Ok? && r.value.kind == Neither ==> r.value.path == []
    ensures r.Ok? && r.value.kind != Neither ==> var rep := r.value;
      |rep.path| > 0 && rep.path[0] == StartVertex(rep.degree) && Trail(rep.graph, rep.path) &&
      Exhausted(rep.graph, rep.path, rep.path[|rep.path| - 1])
  {
    var counts := Counts(input);
    if counts.None? {
      return Err(ParseFailure);
    }
    var (n, m) := counts.value;
    var check := CheckCounts(n, m);
    if check.Err? {
      return Err(check.error);
    }
    var ranged := Ranged(draws, n);
    var generated := Generate(n, m, ranged);
    if generated.Err? {
      return Err(generated.error);
    }
    var (G, degree) := generated.value;
    r := Analyse(G, degree);
  }

  /** Everything after generation: connectivity, the classification and,
      for the first two kinds, the walk. It fails only when the walk gets
      stuck. */
  method Analyse(G: Graph, degree: seq<nat>) returns (r: Result<Report, Failure>)
    requires Simple(G) && |G| > 0 && DegreesOf(G, degree)
    ensures r.Err? ==> r.error == WalkStuck && StuckOn(G)
    ensures r.Ok? ==> r.value.graph == G && r.value.degree == degree
    ensures r.Ok? ==> (r.value.connected <==> Components(G, 1))
    ensures r.Ok? ==> r.value.kind == Classify(r.value.connected, OddVertices(degree))
    ensures r.Ok? && r.value.kind == Neither ==> r.value.path == []
    ensures r.Ok? && r.value.kind != Neither ==> var p := r.value.path;
      |p| > 0 && p[0] == StartVertex(degree) && Trail(G, p) && Exhausted(G, p, p[|p| - 1])
  {
    var count := CountComponents(G);
    var connected := count == 1;
    assert connected <==> Components(G, 1) by {
      if Components(G, 1) {
        var A :| |A| == 1 && Roots(G, A);
        var B :| |B| == count && Roots(G, B);
        ComponentsUnique(G, A, B);
      }
    }
    var odd := OddVertices(degree);
    var kind := Classify(connected, odd);
    if kind == Neither {
      return Ok(Report(G, degree, connected, kind, []));
    }
    assert degree == DegreeList(G);
    var path, rest, end := Fleury(G, StartVertex(degree));
    if end == Stuck {
      assert StuckWalk(G, StartVertex(degree), path, rest);
      return Err(WalkStuck);
    }
    var last := path[|path| - 1];
    forall y | 0 <= y < |G| && G[last][y]
      ensures Uses(path, last, y)
    {
      assert !rest[last][y];
    }
    return Ok(Report(G, degree, connected, kind, path));
  }
}

=== FILE: inversion.dfy ===
/**
  The inversion-number solver: a sequence of non-negative integers is read
  from text (every character that is not an ASCII digit separates two
  numbers), its inversion number, the count of pairs i < j with
  a[i] > a[j], is computed by a double loop, and the sequence is called odd
  or even by the parity of that count.
 */
module InversionNumbers {
  import opened Outcomes
  import opened Decimal
  import opened Matrices

  // ---------------------------------------------------------------------
  // Counting inversions

  /** How many entries of s are smaller than x. */
  function Smaller(x: int, s: seq<int>): (n: nat)
    ensures n <= |s|
  {
    if |s| == 0 then 0
    else Smaller(x, s[..|s| - 1]) + (if x > s[|s| - 1] then 1 else 0)
  }

  lemma {:induction false} SmallerNone(x: int, s: seq<int>)
    ensures Smaller(x, s) == 0 <==> forall k :: 0 <= k < |s| ==> x <= s[k]
    decreases |s|
  {
    if |s| > 0 {
      SmallerNone(x, s[..|s| - 1]);
      assert forall k :: 0 <= k < |s| - 1 ==> s[..|s| - 1][k] == s[k];
    }
  }

  lemma {:induction false} SmallerAll(x: int, s: seq<int>)
    ensures Smaller(x, s) == |s| <==> forall k :: 0 <= k < |s| ==> x > s[k]
    decreases |s|
  {
    if |s| > 0 {
      SmallerAll(x, s[..|s| - 1]);
      assert forall k :: 0 <= k < |s| - 1 ==> s[..|s| - 1][k] == s[k];
    }
  }

  lemma {:induction false} SmallerFront(x: int, y: int, t: seq<int>)
    ensures Smaller(x, [y] + t) == (if x > y then 1 else 0) + Smaller(x, t)
    decreases |t|
  {
    if |t| > 0 {
      var s := [y] + t;
      assert s[..|s| - 1] == [y] + t[..|t| - 1];
      SmallerFront(x, y, t[..|t| - 1]);
    } else {
      assert ([y] + t)[..0] == [];
    }
  }

  /** The inversion number: every pair i < j with a[i] > a[j], counted by
      its first index. */
  function Inversions(a: seq<int>): nat {
    if |a| == 0 then 0 else Smaller(a[0], a[1..]) + Inversions(a[1..])
  }

  /** The number of pairs i < j below n, i.e. n(n-1)/2. */
  function Pairs(n: nat): (p: nat)
    ensures 2 * p == n * (n - 1)
  {
    if n == 0 then 0 else (n - 1) + Pairs(n - 1)
  }

  predicate Ascending(a: seq<int>) {
    forall i, j :: 0 <= i < j < |a| ==> a[i] <= a[j]
  }

  predicate StrictlyDescending(a: seq<int>) {
    forall i, j :: 0 <= i < j < |a| ==> a[i] > a[j]
  }

  /** No more inversions than pairs. */
  lemma {:induction false} InversionsBound(a: seq<int>)
    ensures Inversions(a) <= Pairs(|a|)
    decreases |a|
  {
    if |a| > 0 {
      InversionsBound(a[1..]);
    }
  }

  /** A sequence has no inversion exactly when it is ascending. */
  lemma {:induction false} NoInversionsIffAscending(a: seq<int>)
    ensures Inversions(a) == 0 <==> Ascending(a)
    decreases |a|
  {
    if |a| > 0 {
      var t := a[1..];
      NoInversionsIffAscending(t);
      SmallerNone(a[0], t);
      if Ascending(a) {
        assert Ascending(t) by {
          forall i, j | 0 <= i < j < |t|
            ensures t[i] <= t[j]
          {
            assert t[i] == a[i + 1] && t[j] == a[j + 1];
          }
        }
        assert forall k :: 0 <= k < |t| ==> a[0] <= t[k] by {
          forall k | 0 <= k < |t|
            ensures a[0] <= t[k]
          {
            assert t[k] == a[k + 1];
          }
        }
      }
      if Inversions(a) == 0 {
        forall i, j | 0 <= i < j < |a|
          ensures a[i] <= a[j]
        {
          if i == 0 {
            assert a[j] == t[j - 1];
          } else {
            assert a[i] == t[i - 1] && a[j] == t[j - 1];
          }
        }
      }
    }
  }

  /** A sequence has the largest possible number of inversions exactly when
      it is strictly descending. */
  lemma {:induction false} MostInversionsIffDescending(a: seq<int>)
    ensures Inversions(a) == Pairs(|a|) <==> StrictlyDescending(a)
    decreases |a|
  {
    if |a| > 0 {
      var t := a[1..];
      MostInversionsIffDescending(t);
      InversionsBound(t);
      SmallerAll(a[0], t);
      if StrictlyDescending(a) {
        assert StrictlyDescending(t) by {
          forall i, j | 0 <= i < j < |t|
            ensures t[i] > t[j]
          {
            assert t[i] == a[i + 1] && t[j] == a[j + 1];
          }
        }
        assert forall k :: 0 <= k < |t| ==> a[0] > t[k] by {
          forall k | 0 <= k < |t|
            ensures a[0] > t[k]
          {
            assert t[k] == a[k + 1];
          }
        }
      }
      if Inversions(a) == Pairs(|a|) {
        assert Smaller(a[0], t) == |t|;
        forall i, j | 0 <= i < j < |a|
          ensures a[i] > a[j]
        {
          if i == 0 {
            assert a[j] == t[j - 1];
          } else {
            assert a[i] == t[i - 1] && a[j] == t[j - 1];
          }
        }
      }
    }
  }

  lemma InversionsAt(a: seq<int>, i: nat)
    requires i < |a|
    ensures Inversions(a[i..]) == Smaller(a[i], a[i..]) + Inversions(a[i + 1..])
  {
    assert a[i..] == [a[i]] + a[i + 1..];
    SmallerFront(a[i], a[i], a[i + 1..]);
  }

  lemma SmallerNext(x: int, a: seq<int>, i: nat, j: nat)
    requires i <= j < |a|
    ensures Smaller(x, a[i..j + 1]) == Smaller(x, a[i..j]) + (if x > a[j] then 1 else 0)
  {
    assert a[i..j + 1][..j - i] == a[i..j];
  }

  /** Finishing the inner loop at i moves a[i]'s inversions into the count. */
  lemma OuterStep(a: seq<int>, i: nat, base: int, ans: int)
    requires i < |a| && base + Inversions(a[i..]) == Inversions(a)
    requires ans == base + Smaller(a[i], a[i..|a|])
    ensures ans + Inversions(a[i + 1..]) == Inversions(a)
  {
    assert a[i..|a|] == a[i..];
    InversionsAt(a, i);
  }

  /** The double loop of the Rust solver; the inner loop starts at j = i, where
      a[i] > a[i] never holds. */
  method Inv(a: seq<int>) returns (ans: nat)
    ensures ans == Inversions(a)
  {
    ans := 0;
    var i := 0;
    while i < |a|
      invariant i <= |a|
      invariant ans + Inversions(a[i..]) == Inversions(a)
    {
      ghost var base := ans;
      var j := i;
      while j < |a|
        invariant i <= j <= |a|
        invariant ans == base + Smaller(a[i], a[i..j])
      {
        SmallerNext(a[i], a, i, j);
        if a[i] > a[j] {
          ans := ans + 1;
        }
        j := j + 1;
      }
      OuterStep(a, i, base, ans);
      i := i + 1;
    }
  }

  /** What the count tells about the sequence. */
  method InvBounds(a: seq<int>) returns (ans: nat)
    ensures ans <= Pairs(|a|)
    ensures ans == 0 <==> Ascending(a)
    ensures ans == Pairs(|a|) <==> StrictlyDescending(a)
  {
    ans := Inv(a);
    InversionsBound(a);
    NoInversionsIffAscending(a);
    MostInversionsIffDescending(a);
  }

  // ---------------------------------------------------------------------
  // The unit tests of the Rust solver, as lemmas

  lemma AscendingExample()
    ensures Inversions([1, 2, 3, 4]) == 0
  {
    NoInversionsIffAscending([1, 2, 3, 4]);
  }

  lemma DescendingExample()
    ensures Inversions([4, 3, 2, 1]) == 6
  {
    MostInversionsIffDescending([4, 3, 2, 1]);
  }

  lemma AscendingThousand()
    ensures Inversions(seq(1000, i => i + 1)) == 0
  {
    NoInversionsIffAscending(seq(1000, i => i + 1));
  }

  lemma DescendingThousand()
    ensures Inversions(seq(1000, i => 1000 - i)) == 499500
  {
    MostInversionsIffDescending(seq(1000, i => 1000 - i));
  }

  // ---------------------------------------------------------------------
  // Reading the input

  predicate IsSeparator(c: char) {
    !IsDigit(c)
  }

  /** The pieces between separators; there is always at least one. */
  function Pieces(s: string): (P: seq<string>)
    ensures |P| > 0 && forall k :: 0 <= k < |P| ==> AllDigits(P[k])
  {
    SplitBy(s, IsSeparator)
  }

  /** Every piece must be a non-empty run of digits. Whatever parses holds
      at least one number, so the Rust solver's "input is empty" branch can never
      be taken. */
  function ParseNumbers(s: string): (r: Option<seq<int>>)
    ensures r.Some? <==> forall k :: 0 <= k < |Pieces(s)| ==> Pieces(s)[k] != []
    ensures r.Some? ==> |r.value| == |Pieces(s)| >= 1
    ensures r.Some? ==> forall k :: 0 <= k < |r.value| ==> r.value[k] >= 0
  {
    var P := Pieces(s);
    if exists k :: 0 <= k < |P| && P[k] == [] then None
    else Some(seq(|P|, k requires 0 <= k < |P| => ValueOf(P[k]) as int))
  }

  /** Numbers written out with single spaces read back as themselves. */
  lemma ParseRoundTrip(ns: seq<nat>)
    requires |ns| > 0
    ensures ParseNumbers(JoinWith(seq(|ns|, k requires 0 <= k < |ns| => NatToString(ns[k])), " ")) ==
      Some(seq(|ns|, k requires 0 <= k < |ns| => ns[k] as int))
  {
    var parts := seq(|ns|, k requires 0 <= k < |ns| => NatToString(ns[k]));
    JoinSplitRoundTrip(parts, IsSeparator, ' ');
    var P := Pieces(JoinWith(parts, " "));
    assert P == parts;
    assert forall k :: 0 <= k < |P| ==> P[k] != [];
    var r := ParseNumbers(JoinWith(parts, " "));
    var want := seq(|ns|, k requires 0 <= k < |ns| => ns[k] as int);
    assert r.Some? && |r.value| == |want|;
    assert r.value == seq(|P|, k requires 0 <= k < |P| => ValueOf(P[k]) as int);
    forall k | 0 <= k < |ns|
      ensures r.value[k] == want[k]
    {
      NatToStringRoundTrip(ns[k]);
    }
    assert r.value == want;
  }

  /** The empty text is one empty piece, so it fails to parse. */
  lemma EmptyFails()
    ensures ParseNumbers("") == None
  {
    assert Pieces("")[0] == [];
  }

  /** A leading separator (a sign, say) leaves an empty first piece. */
  lemma LeadingSeparatorFails(s: string)
    requires s != [] && !IsDigit(s[0])
    ensures ParseNumbers(s) == None
  {
    assert Pieces(s)[0] == [];
  }

  lemma {:induction false} LastPieceEmpty(s: string)
    requires s != [] && !IsDigit(s[|s| - 1])
    ensures |Pieces(s)| >= 2 && Pieces(s)[|Pieces(s)| - 1] == []
    decreases |s|
  {
    if |s| > 1 {
      assert s[1..][|s| - 2] == s[|s| - 1];
      LastPieceEmpty(s[1..]);
    } else {
      assert s[1..] == [];
      assert SplitBy(s[1..], IsSeparator) == [""];
      assert Pieces(s) == [""] + [""];
    }
  }

  /** A trailing separator leaves an empty last piece. */
  lemma TrailingSeparatorFails(s: string)
    requires s != [] && !IsDigit(s[|s| - 1])
    ensures ParseNumbers(s) == None
  {
    LastPieceEmpty(s);
  }

  lemma {:induction false} DoubleSeparatorPiece(p: string, c1: char, c2: char, q: string)
    requires !IsDigit(c1) && !IsDigit(c2)
    ensures var P := Pieces(p + [c1, c2] + q);
      exists k :: 1 <= k < |P| && P[k] == []
    decreases |p|
  {
    var s := p + [c1, c2] + q;
    var P := Pieces(s);
    if |p| == 0 {
      assert s == [c1] + ([c2] + q);
      assert s[1..] == [c2] + q;
      assert (s[1..])[1..] == q;
      assert P[1] == [];
    } else {
      assert s[1..] == p[1..] + [c1, c2] + q;
      DoubleSeparatorPiece(p[1..], c1, c2, q);
      var R := Pieces(s[1..]);
      var k :| 1 <= k < |R| && R[k] == [];
      if IsSeparator(s[0]) {
        assert P[k + 1] == R[k];
      } else {
        assert P[k] == R[k];
      }
    }
  }

  /** Two separators in a row leave an empty piece between them. */
  lemma DoubleSeparatorFails(p: string, c1: char, c2: char, q: string)
    requires !IsDigit(c1) && !IsDigit(c2)
    ensures ParseNumbers(p + [c1, c2] + q) == None
  {
    DoubleSeparatorPiece(p, c1, c2, q);
  }

  // ---------------------------------------------------------------------
  // The solver

  datatype Verdict = Verdict(numbers: seq<int>, inversions: nat, odd: bool)

  /** Parse, count, and classify by parity. A parse failure is the only
      error: the emptiness check that follows parsing in the Rust solver can
      never fire (see `ParseNumbers`). */
  method Solve(input: string) returns (r: Option<Verdict>)
    ensures r.None? <==> ParseNumbers(input).None?
    ensures r.Some? ==> var v := r.value;
      Some(v.numbers) == ParseNumbers(input) && |v.numbers| >= 1 &&
      v.inversions == Inversions(v.numbers) && (v.odd <==> v.inversions % 2 == 1)
  {
    var p := ParseNumbers(input);
    if p.None? {
      return None;
    }
    var n := Inv(p.value);
    r := Some(Verdict(p.value, n, n % 2 == 1));
  }
}

=== FILE: lexer.dfy ===
/**
  The comment/whitespace preprocessor that runs before lexing C-like source
  text. It is a five-state character machine that drops `//` and `/* */`
  comments, collapses spaces and newlines into single spaces, and tags every
  kept character with its 1-based row and column. It never fails: an
  unterminated block comment is silently dropped, and so is a `/` that ends
  the input.
 */
module Lexer {
  import Matrices

  /** A kept character and where it stood in the source. */
  datatype PositionedChar = PositionedChar(c: char, row: nat, col: nat)

  /** Where the scanner stands with respect to comments. */
  datatype CommentState =
    | NotInComment                                  // ordinary code
    | EnteringInlineOrBlock(slash: PositionedChar)  // a `/` was read and is held back
    | Inline                                        // inside `// ...`
    | Block                                         // inside `/* ... */`
    | LeavingBlock                                  // a `*` was read inside a block comment

  /** The loop state: the characters emitted so far, the position of the
      next character, whether the last emitted character was a space (or
      nothing was emitted yet), and the comment state. */
  datatype State = State(out: seq<PositionedChar>, row: nat, col: nat, spaced: bool, comment: CommentState)

  const Initial := State([], 1, 1, true, NotInComment)

  /** Handling of a character read in code context: a newline or a space
      becomes one space unless a space was just emitted; anything else is
      kept verbatim. */
  function EmitCode(st: State, c: char): State {
    if c == '\n' then
      st.(out := if st.spaced then st.out else st.out + [PositionedChar(' ', st.row, st.col)],
          spaced := true, row := st.row + 1, col := 1)
    else if c == ' ' then
      st.(out := if st.spaced then st.out else st.out + [PositionedChar(' ', st.row, st.col)],
          spaced := true, col := st.col + 1)
    else
      st.(out := st.out + [PositionedChar(c, st.row, st.col)], spaced := false, col := st.col + 1)
  }

  /** One iteration of the scanning loop. */
  function Step(st: State, c: char): State {
    match st.comment
    case NotInComment =>
      if c == '/' then
        st.(comment := EnteringInlineOrBlock(PositionedChar(c, st.row, st.col)), col := st.col + 1)
      else
        EmitCode(st, c)
    case EnteringInlineOrBlock(slash) =>
      if c == '/' || c == '*' then
        // A comment opens; it separates words like a space at the slash.
        st.(comment := if c == '/' then Inline else Block,
            out := if st.spaced then st.out else st.out + [PositionedChar(' ', slash.row, slash.col)],
            spaced := true, col := st.col + 1)
      else
        // The held slash was real text: emit it, then handle c as code.
        EmitCode(st.(comment := NotInComment, out := st.out + [slash], spaced := false), c)
    case Inline =>
      if c == '\n' then st.(comment := NotInComment, row := st.row + 1, col := 1) else st
    case Block =>
      if c == '*' then st.(comment := LeavingBlock, col := st.col + 1)
      else if c == '\n' then st.(row := st.row + 1, col := 1)
      else st.(col := st.col + 1)
    case LeavingBlock =>
      if c == '/' then st.(comment := NotInComment, col := st.col + 1)
      else if c == '\n' then st.(comment := Block, row := st.row + 1, col := 1)
      else st.(comment := Block, col := st.col + 1)
  }

  /** Feeds every character of s to the machine, in order. */
  function Run(st: State, s: string): State
    decreases |s|
  {
    if s == [] then st else Run(Step(st, s[0]), s[1..])
  }

  /** The characters of a preprocessed sequence, without positions. */
  function Chars(out: seq<PositionedChar>): string {
    seq(|out|, i requires 0 <= i < |out| => out[i].c)
  }

  /** No newline, no space at either end, never two spaces in a row. */
  predicate Normalized(out: seq<PositionedChar>) {
    && (forall i :: 0 <= i < |out| ==> out[i].c != '\n')
    && (|out| > 0 ==> out[0].c != ' ' && out[|out| - 1].c != ' ')
    && (forall i :: 0 <= i < |out| - 1 ==> out[i].c != ' ' || out[i + 1].c != ' ')
  }

  /** The preprocessor: run the machine over the whole source, then drop a
      trailing space. Whatever state the machine ends in, nothing more is
      emitted. */
  function Preprocess(source: string): seq<PositionedChar> {
    var out := Run(Initial, source).out;
    if |out| > 0 && out[|out| - 1].c == ' ' then out[..|out| - 1] else out
  }

  /** The layout half of the shape. */
  lemma PreprocessNormalized(source: string)
    ensures Normalized(Preprocess(source))
  {
    RunKeepsShape(Initial, source);
  }

  /** The output has no newline, no space at either end and no two spaces
      in a row; every character comes from some source index, carries that
      index's row and column, and is either the source character itself,
      read outside every comment, or a space standing for a blank or a
      comment opener there; and those source indices strictly increase
      along the output. */
  lemma PreprocessShape(source: string)
    ensures Normalized(Preprocess(source))
    ensures forall i :: 0 <= i < |Preprocess(source)| ==> HasOrigin(source, Preprocess(source)[i])
    ensures exists ks :: OriginsAt(Preprocess(source), source, ks)
  {
    PreprocessNormalized(source);
    var ks := RunOrigins(source);
    var r := Preprocess(source);
    PrefixOrigins(Run(Initial, source).out, source, ks, |r|);
    assert r == Run(Initial, source).out[..|r|];
    HaveOrigins(r, source, ks[..|r|]);
  }

  // ---------------------------------------------------------------------
  // Layout of the output

  /** The output is free of newlines, does not start with a space and has no
      two spaces in a row; `spaced` says whether it ends in a space. */
  ghost predicate Shaped(st: State) {
    && (forall i :: 0 <= i < |st.out| ==> st.out[i].c != '\n')
    && (|st.out| > 0 ==> st.out[0].c != ' ')
    && (forall i :: 0 <= i < |st.out| - 1 ==> st.out[i].c != ' ' || st.out[i + 1].c != ' ')
    && (st.spaced <==> (|st.out| == 0 || st.out[|st.out| - 1].c == ' '))
    && (st.comment.EnteringInlineOrBlock? ==> st.comment.slash.c == '/')
  }

  lemma EmitKeepsShape(st: State, c: char)
    requires Shaped(st) && st.comment == NotInComment
    ensures Shaped(EmitCode(st, c))
  {
  }

  lemma StepKeepsShape(st: State, c: char)
    requires Shaped(st)
    ensures Shaped(Step(st, c))
  {
    match st.comment
    case NotInComment =>
      if c != '/' {
        EmitKeepsShape(st, c);
      }
    case EnteringInlineOrBlock(slash) =>
      if c != '/' && c != '*' {
        var held := st.(comment := NotInComment, out := st.out + [slash], spaced := false);
        assert Shaped(held);
        EmitKeepsShape(held, c);
      }
    case _ =>
  }

  lemma {:induction false} RunKeepsShape(st: State, s: string)
    requires Shaped(st)
    ensures Shaped(Run(st, s))
    decreases |s|
  {
    if s != [] {
      StepKeepsShape(st, s[0]);
      RunKeepsShape(Step(st, s[0]), s[1..]);
    }
  }

  // ---------------------------------------------------------------------
  // Positions

  /** Number of newlines in s. */
  function Newlines(s: string): nat {
    if s == [] then 0 else Newlines(s[..|s| - 1]) + (if s[|s| - 1] == '\n' then 1 else 0)
  }

  /** Index just after the last newline of s, or 0. */
  function LineStart(s: string): (r: nat)
    ensures r <= |s|
  {
    if s == [] then 0 else if s[|s| - 1] == '\n' then |s| else LineStart(s[..|s| - 1])
  }

  /** Row of source index k: one more than the newlines before it. */
  function RowAt(s: string, k: nat): nat
    requires k <= |s|
  {
    1 + Newlines(s[..k])
  }

  /** Column of source index k: one more than the characters since the last
      newline before it. */
  function ColAt(s: string, k: nat): nat
    requires k <= |s|
  {
    1 + k - LineStart(s[..k])
  }

  /** The machine reads the character after p in code context: outside
      every comment (a held slash still counts as code). */
  ghost predicate InCode(p: string) {
    Run(Initial, p).comment.NotInComment? || Run(Initial, p).comment.EnteringInlineOrBlock?
  }

  /** e was produced from source index k: it carries k's row and column, and
      it is either source[k] itself, read in code context, or a space
      standing for the blank or the comment-opening slash at k. */
  ghost predicate Origin(source: string, e: PositionedChar, k: int) {
    && 0 <= k < |source|
    && e.row == RowAt(source, k)
    && e.col == ColAt(source, k)
    && (if e.c == ' ' then source[k] == ' ' || source[k] == '\n' || source[k] == '/'
        else e.c == source[k] && InCode(source[..k]))
  }

  /** Some source index is the origin of e. */
  ghost predicate HasOrigin(source: string, e: PositionedChar) {
    exists k :: Origin(source, e, k)
  }

  /** Strictly increasing indices. */
  ghost predicate Increasing(ks: seq<int>) {
    forall i, j :: 0 <= i < j < |ks| ==> ks[i] < ks[j]
  }

  /** ks[i] is the source index that out[i] was produced from, and the
      indices strictly increase: distinct characters of the output come
      from distinct source characters, in source order. */
  ghost predicate OriginsAt(out: seq<PositionedChar>, p: string, ks: seq<int>) {
    && |ks| == |out|
    && Increasing(ks)
    && (forall i :: 0 <= i < |out| ==> Origin(p, out[i], ks[i]))
  }

  /** st is the machine after reading p; its position counters agree with p
      (the column is left loose inside a line comment, where the Rust
      preprocessor does not advance it), a held slash carries the position of
      p's last character and was read in code context, and ks gives the
      emitted characters' origins in p, all before a held slash. */
  ghost predicate Tracks(st: State, p: string, ks: seq<int>) {
    && st == Run(Initial, p)
    && st.row == RowAt(p, |p|)
    && (st.comment != Inline ==> st.col == ColAt(p, |p|))
    && (st.comment.EnteringInlineOrBlock? ==>
          && |p| > 0 && p[|p| - 1] == '/'
          && st.comment.slash == PositionedChar('/', RowAt(p, |p| - 1), ColAt(p, |p| - 1))
          && InCode(p[..|p| - 1])
          && (forall i :: 0 <= i < |ks| ==> ks[i] < |p| - 1))
    && OriginsAt(st.out, p, ks)
  }

  /** Reading one more character is one more step of the machine. */
  lemma RunSnoc(p: string, c: char)
    ensures Run(Initial, p + [c]) == Step(Run(Initial, p), c)
  {
    RunAppend(Initial, p, [c]);
    assert [c][1..] == [];
  }

  /** Appending a character moves the counters as the Rust preprocessor does and leaves
      the positions of earlier indices alone. */
  lemma PositionsOnAppend(p: string, c: char)
    ensures RowAt(p + [c], |p| + 1) == RowAt(p, |p|) + (if c == '\n' then 1 else 0)
    ensures ColAt(p + [c], |p| + 1) == (if c == '\n' then 1 else ColAt(p, |p|) + 1)
    ensures forall k :: 0 <= k <= |p| ==> RowAt(p + [c], k) == RowAt(p, k) && ColAt(p + [c], k) == ColAt(p, k)
  {
    var q := p + [c];
    assert q[..|q|] == q && q[..|q|][..|q| - 1] == p && p[..|p|] == p;
    forall k | 0 <= k <= |p|
      ensures RowAt(q, k) == RowAt(p, k) && ColAt(q, k) == ColAt(p, k)
    {
      assert q[..k] == p[..k];
    }
  }

  lemma OriginsOnAppend(out: seq<PositionedChar>, p: string, c: char, ks: seq<int>)
    requires OriginsAt(out, p, ks)
    ensures OriginsAt(out, p + [c], ks)
    ensures forall i :: 0 <= i < |ks| ==> ks[i] < |p|
  {
    var q := p + [c];
    PositionsOnAppend(p, c);
    forall i | 0 <= i < |out|
      ensures Origin(q, out[i], ks[i])
    {
      var k := ks[i];
      assert q[k] == p[k] && q[..k] == p[..k];
    }
  }

  /** One more character whose origin lies after all earlier ones. */
  lemma OriginsExtend(out: seq<PositionedChar>, p: string, ks: seq<int>, e: PositionedChar, k: int)
    requires OriginsAt(out, p, ks) && Origin(p, e, k)
    requires forall i :: 0 <= i < |ks| ==> ks[i] < k
    ensures OriginsAt(out + [e], p, ks + [k])
  {
  }

  /** A prefix of the output keeps the matching prefix of origins. */
  lemma PrefixOrigins(out: seq<PositionedChar>, p: string, ks: seq<int>, n: nat)
    requires OriginsAt(out, p, ks) && n <= |out|
    ensures OriginsAt(out[..n], p, ks[..n])
  {
  }

  /** Indices as witnesses: every element has an origin. */
  lemma HaveOrigins(out: seq<PositionedChar>, p: string, ks: seq<int>)
    requires OriginsAt(out, p, ks)
    ensures forall i :: 0 <= i < |out| ==> HasOrigin(p, out[i])
  {
    forall i | 0 <= i < |out|
      ensures HasOrigin(p, out[i])
    {
      assert Origin(p, out[i], ks[i]);
    }
  }

  /** Facts shared by every step of the origin invariant. */
  lemma StepFacts(st: State, p: string, c: char, ks: seq<int>)
    requires Tracks(st, p, ks)
    ensures OriginsAt(st.out, p + [c], ks)
    ensures forall i :: 0 <= i < |ks| ==> ks[i] < |p|
    ensures Run(Initial, p + [c]) == Step(st, c)
    ensures (p + [c])[|p|] == c && (p + [c])[..|p|] == p
    ensures RowAt(p + [c], |p| + 1) == RowAt(p, |p|) + (if c == '\n' then 1 else 0)
    ensures ColAt(p + [c], |p| + 1) == (if c == '\n' then 1 else ColAt(p, |p|) + 1)
    ensures forall k :: 0 <= k <= |p| ==> RowAt(p + [c], k) == RowAt(p, k) && ColAt(p + [c], k) == ColAt(p, k)
  {
    PositionsOnAppend(p, c);
    OriginsOnAppend(st.out, p, c, ks);
    RunSnoc(p, c);
  }

  /** A held slash and the character after it. */
  lemma HeldKeepsOrigins(st: State, p: string, c: char, ks: seq<int>)
    requires Tracks(st, p, ks) && st.comment.EnteringInlineOrBlock?
    ensures exists ks' :: Tracks(Step(st, c), p + [c], ks')
  {
    var q := p + [c];
    StepFacts(st, p, c, ks);
    var st' := Step(st, c);
    var slash := st.comment.slash;
    assert q[..|q| - 1] == p && q[..|p| - 1] == p[..|p| - 1] && q[|p| - 1] == '/';
    if c == '/' || c == '*' {
      if st.spaced {
        assert Tracks(st', q, ks);
      } else {
        var e := PositionedChar(' ', slash.row, slash.col);
        assert Origin(q, e, |p| - 1);
        OriginsExtend(st.out, q, ks, e, |p| - 1);
        assert Tracks(st', q, ks + [|p| - 1]);
      }
    } else {
      assert Origin(q, slash, |p| - 1);
      OriginsExtend(st.out, q, ks, slash, |p| - 1);
      var held := st.(comment := NotInComment, out := st.out + [slash], spaced := false);
      var e := st'.out[|held.out|];
      assert st'.out == held.out + [e];
      assert Origin(q, e, |p|);
      OriginsExtend(held.out, q, ks + [|p| - 1], e, |p|);
      assert Tracks(st', q, ks + [|p| - 1] + [|p|]);
    }
  }

  lemma StepKeepsOrigins(st: State, p: string, c: char, ks: seq<int>)
    requires Tracks(st, p, ks)
    ensures exists ks' :: Tracks(Step(st, c), p + [c], ks')
  {
    if st.comment.EnteringInlineOrBlock? {
      HeldKeepsOrigins(st, p, c, ks);
    } else {
      var q := p + [c];
      StepFacts(st, p, c, ks);
      var st' := Step(st, c);
      assert q[..|q| - 1] == p;
      if !st.comment.NotInComment? || |st'.out| == |st.out| {
        assert Tracks(st', q, ks);
      } else {
        var e := st'.out[|st.out|];
        assert st'.out == st.out + [e];
        assert Origin(q, e, |p|);
        OriginsExtend(st.out, q, ks, e, |p|);
        assert Tracks(st', q, ks + [|p|]);
      }
    }
  }

  lemma {:induction false} RunKeepsOrigins(st: State, p: string, s: string, ks: seq<int>)
    requires Tracks(st, p, ks)
    ensures exists ks' :: Tracks(Run(st, s), p + s, ks')
    decreases |s|
  {
    if s == [] {
      assert p + s == p;
      assert Tracks(Run(st, s), p + s, ks);
    } else {
      StepKeepsOrigins(st, p, s[0], ks);
      var ks' :| Tracks(Step(st, s[0]), p + [s[0]], ks');
      RunKeepsOrigins(Step(st, s[0]), p + [s[0]], s[1..], ks');
      assert p + [s[0]] + s[1..] == p + s;
      var ks'' :| Tracks(Run(Step(st, s[0]), s[1..]), p + [s[0]] + s[1..], ks'');
      assert Tracks(Run(st, s), p + s, ks'');
    }
  }

  /** The whole loop over a source: origins for everything it emits. */
  lemma RunOrigins(source: string) returns (ks: seq<int>)
    ensures OriginsAt(Run(Initial, source).out, source, ks)
  {
    assert Tracks(Initial, [], []);
    RunKeepsOrigins(Initial, [], source, []);
    assert [] + source == source;
    ks :| Tracks(Run(Initial, source), source, ks);
  }

  // ---------------------------------------------------------------------
  // Comment-free sources

  /** s with every character of `drop` removed. */
  function Without(s: string, drop: set<char>): string {
    if s == [] then [] else (if s[0] in drop then [] else [s[0]]) + Without(s[1..], drop)
  }

  lemma {:induction false} WithoutAppend(a: string, b: string, drop: set<char>)
    ensures Without(a + b, drop) == Without(a, drop) + Without(b, drop)
    decreases |a|
  {
    if a == [] {
      assert a + b == b;
    } else {
      assert (a + b)[0] == a[0] && (a + b)[1..] == a[1..] + b;
      WithoutAppend(a[1..], b, drop);
    }
  }

  lemma TextsAssociate(a: string, b: string, c: string)
    ensures a + (b + c) == (a + b) + c
  {
  }

  lemma CharsAppend(out: seq<PositionedChar>, e: seq<PositionedChar>)
    ensures Chars(out + e) == Chars(out) + Chars(e)
  {
  }

  /** One character other than a slash, read in code context. */
  lemma StepWithoutSlash(st: State, c: char)
    requires st.comment == NotInComment && c != '/'
    ensures Step(st, c).comment == NotInComment
    ensures Without(Chars(Step(st, c).out), {' '}) == Without(Chars(st.out), {' '}) + Without([c], {' ', '\n'})
  {
    var st' := Step(st, c);
    var added := st'.out[|st.out|..];
    assert st'.out == st.out + added;
    CharsAppend(st.out, added);
    WithoutAppend(Chars(st.out), Chars(added), {' '});
    if c == ' ' || c == '\n' {
      assert Chars(added) == [] || Chars(added) == [' '];
    } else {
      assert Chars(added) == [c];
    }
  }

  /** Without a slash the machine never leaves code context. */
  lemma {:induction false} RunWithoutSlash(st: State, s: string)
    requires st.comment == NotInComment && '/' !in s
    ensures Run(st, s).comment == NotInComment
    ensures Without(Chars(Run(st, s).out), {' '}) == Without(Chars(st.out), {' '}) + Without(s, {' ', '\n'})
    decreases |s|
  {
    if s == [] {
      assert Without(s, {' ', '\n'}) == [];
    } else {
      var st' := Step(st, s[0]);
      assert '/' !in s[1..] by { assert forall k :: 0 <= k < |s[1..]| ==> s[1..][k] == s[k + 1]; }
      StepWithoutSlash(st, s[0]);
      RunWithoutSlash(st', s[1..]);
      assert Run(st, s) == Run(st', s[1..]);
      assert s == [s[0]] + s[1..];
      WithoutAppend([s[0]], s[1..], {' ', '\n'});
      TextsAssociate(Without(Chars(st.out), {' '}), Without([s[0]], {' ', '\n'}), Without(s[1..], {' ', '\n'}));
    }
  }

  /** For a source free of slashes, the preprocessor keeps exactly the
      non-blank characters, in order; only the spaces between them are
      rearranged. Tabs count as ordinary characters. */
  lemma PreprocessKeepsWords(s: string)
    requires '/' !in s
    ensures Without(Chars(Preprocess(s)), {' '}) == Without(s, {' ', '\n'})
  {
    RunWithoutSlash(Initial, s);
    var out := Run(Initial, s).out;
    var r := Preprocess(s);
    assert Chars(Initial.out) == [];
    assert Without(Chars(out), {' '}) == Without(s, {' ', '\n'});
    if |out| > 0 && out[|out| - 1].c == ' ' {
      var front := out[..|out| - 1];
      assert r == front;
      assert out == front + [out[|out| - 1]];
      CharsAppend(front, [out[|out| - 1]]);
      assert Chars([out[|out| - 1]]) == [' '];
      WithoutAppend(Chars(front), [' '], {' '});
      assert Without([' '], {' '}) == [] by {
        assert [' '][1..] == [];
      }
      assert Without(Chars(out), {' '}) == Without(Chars(front), {' '});
    } else {
      assert r == out;
    }
  }

  /** A text that the preprocessor would copy unchanged: no slash, no
      newline, no space at either end and no two spaces in a row. */
  predicate Clean(t: string) {
    && (forall i :: 0 <= i < |t| ==> t[i] != '/' && t[i] != '\n')
    && (|t| > 0 ==> t[0] != ' ' && t[|t| - 1] != ' ')
    && (forall i :: 0 <= i < |t| - 1 ==> t[i] != ' ' || t[i + 1] != ' ')
  }

  lemma {:induction false} RunCopiesClean(st: State, p: string, u: string)
    requires st.comment == NotInComment && Chars(st.out) == p
    requires st.spaced <==> (p == [] || p[|p| - 1] == ' ')
    requires forall i :: 0 <= i < |u| ==> u[i] != '/' && u[i] != '\n'
    requires p == [] && |u| > 0 ==> u[0] != ' '
    requires forall i :: 0 <= i < |p + u| - 1 ==> (p + u)[i] != ' ' || (p + u)[i + 1] != ' '
    ensures Chars(Run(st, u).out) == p + u
    decreases |u|
  {
    if u == [] {
      assert p + u == p;
    } else {
      var c := u[0];
      var st' := Step(st, c);
      if c == ' ' {
        assert p != [] && (p + u)[|p| - 1] == p[|p| - 1];
        assert (p + u)[|p|] == ' ';
        assert !st.spaced;
      }
      assert st'.out == st.out + [PositionedChar(c, st.row, st.col)];
      CharsAppend(st.out, [PositionedChar(c, st.row, st.col)]);
      assert p + [c] + u[1..] == p + u;
      RunCopiesClean(st', p + [c], u[1..]);
    }
  }

  lemma CleanRun(t: string)
    requires Clean(t)
    ensures Chars(Run(Initial, t).out) == t
  {
    assert [] + t == t;
    assert forall i :: 0 <= i < |[] + t| - 1 ==> ([] + t)[i] != ' ' || ([] + t)[i + 1] != ' ';
    RunCopiesClean(Initial, [], t);
  }

  /** A clean text is a fixed point of the preprocessor (up to positions). */
  lemma CleanIsFixedPoint(t: string)
    requires Clean(t)
    ensures Chars(Preprocess(t)) == t
  {
    CleanRun(t);
    var out := Run(Initial, t).out;
    assert |out| == |Chars(out)|;
    if |out| > 0 {
      assert out[|out| - 1].c == t[|t| - 1];
    }
    assert Preprocess(t) == out;
  }

  /** Idempotence on slash-free input: preprocessing the characters of the
      output again gives the same characters. */
  lemma PreprocessIdempotent(s: string)
    requires '/' !in s
    ensures Chars(Preprocess(Chars(Preprocess(s)))) == Chars(Preprocess(s))
  {
    var r := Preprocess(s);
    var t := Chars(r);
    PreprocessShape(s);
    forall i | 0 <= i < |t|
      ensures t[i] != '/'
    {
      assert HasOrigin(s, r[i]);
      var k :| Origin(s, r[i], k);
    }
    CleanIsFixedPoint(t);
  }

  // ---------------------------------------------------------------------
  // Comment stripping for every source

  /** The non-blank characters of s. */
  function Visible(s: string): string {
    Without(s, {' ', '\n'})
  }

  /** A reference reading of comments, one character of lookahead at a
      time: in code, two slashes open a line comment, a slash followed by a
      star opens a block comment, a slash that ends the text is dropped, and
      every other character is kept. A comment separates what stands on
      either side of it, so it is replaced by one space. */
  function StripComments(s: string): string
    decreases |s|
  {
    if s == [] then []
    else if s[0] != '/' then [s[0]] + StripComments(s[1..])
    else if |s| == 1 then []
    else if s[1] == '/' then " " + SkipLine(s[2..])
    else if s[1] == '*' then " " + SkipBlock(s[2..])
    else [s[0]] + StripComments(s[1..])
  }

  /** Inside a line comment: everything up to and including the newline is
      dropped. */
  function SkipLine(s: string): string
    decreases |s|
  {
    if s == [] then []
    else if s[0] == '\n' then StripComments(s[1..])
    else SkipLine(s[1..])
  }

  /** Inside a block comment: a `*` is read together with the character
      after it, so only a star directly followed by a slash closes the
      comment, and of two stars before a slash the second is taken up by the
      first. */
  function SkipBlock(s: string): string
    decreases |s|
  {
    if s == [] then []
    else if s[0] != '*' then SkipBlock(s[1..])
    else if |s| == 1 then []
    else if s[1] == '/' then StripComments(s[2..])
    else SkipBlock(s[2..])
  }

  /** What the reference still keeps of s when the machine reads s in
      comment state cs: a held slash or a pending `*` is put back in
      front. */
  function Pending(cs: CommentState, s: string): string {
    match cs
    case NotInComment => StripComments(s)
    case EnteringInlineOrBlock(_) => StripComments("/" + s)
    case Inline => SkipLine(s)
    case Block => SkipBlock(s)
    case LeavingBlock => SkipBlock("*" + s)
  }

  /** A held character is the slash it stands for. */
  predicate HeldSlash(st: State) {
    st.comment.EnteringInlineOrBlock? ==> st.comment.slash.c == '/'
  }

  lemma VisibleCons(c: char, s: string)
    ensures Visible([c] + s) == Visible([c]) + Visible(s)
  {
    WithoutAppend([c], s, {' ', '\n'});
  }

  /** Handling a character as code keeps its visible part, and only that. */
  lemma EmitVisible(st: State, c: char)
    ensures Visible(Chars(EmitCode(st, c).out)) == Visible(Chars(st.out)) + Visible([c])
  {
    var added := EmitCode(st, c).out[|st.out|..];
    assert EmitCode(st, c).out == st.out + added;
    CharsAppend(st.out, added);
    WithoutAppend(Chars(st.out), Chars(added), {' ', '\n'});
    if c == ' ' || c == '\n' {
      assert Chars(added) == [] || Chars(added) == [' '];
      assert Visible([c]) == [] by { assert [c][1..] == []; }
    } else {
      assert Chars(added) == [c];
    }
  }

  /** A space pushed for a comment opener adds nothing visible. */
  lemma SpaceInvisible(out: seq<PositionedChar>, e: PositionedChar)
    requires e.c == ' '
    ensures Visible(Chars(out + [e])) == Visible(Chars(out))
  {
    CharsAppend(out, [e]);
    WithoutAppend(Chars(out), [' '], {' ', '\n'});
    assert Chars([e]) == [' '];
    assert Visible([' ']) == [] by { assert [' '][1..] == []; }
  }

  lemma StripKeeps(c: char, s: string)
    requires c != '/'
    ensures StripComments([c] + s) == [c] + StripComments(s)
  {
    assert ([c] + s)[0] == c && ([c] + s)[1..] == s;
  }

  /** The lookahead of the reference after a held slash. */
  lemma StripAfterSlash(c: char, s: string)
    ensures c == '/' ==> StripComments("/" + ([c] + s)) == " " + SkipLine(s)
    ensures c == '*' ==> StripComments("/" + ([c] + s)) == " " + SkipBlock(s)
    ensures c != '/' && c != '*' ==> StripComments("/" + ([c] + s)) == "/" + StripComments([c] + s)
  {
    var t := "/" + ([c] + s);
    assert t[0] == '/' && t[1] == c && t[2..] == s && t[1..] == [c] + s;
  }

  /** The lookahead of the reference after a `*` in a block comment. */
  lemma SkipAfterStar(c: char, s: string)
    ensures SkipBlock("*" + ([c] + s)) == if c == '/' then StripComments(s) else SkipBlock(s)
  {
    var t := "*" + ([c] + s);
    assert t[0] == '*' && t[1] == c && t[2..] == s;
  }

  /** The invariant of the reference reading for one character: visible
      text moves from the reference's pending part to the machine's output
      without changing the whole. */
  ghost predicate StripsStep(st: State, c: char, s: string) {
    Visible(Chars(Step(st, c).out)) + Visible(Pending(Step(st, c).comment, s))
      == Visible(Chars(st.out)) + Visible(Pending(st.comment, [c] + s))
  }

  lemma CodeStrips(st: State, c: char, s: string)
    requires st.comment == NotInComment
    ensures StripsStep(st, c, s)
  {
    if c == '/' {
      assert [c] + s == "/" + s;
    } else {
      EmitVisible(st, c);
      StripKeeps(c, s);
      VisibleCons(c, StripComments(s));
    }
  }

  /** A held slash that turns out to be text is emitted before c. */
  lemma HeldTextVisible(st: State, c: char, s: string)
    requires st.comment.EnteringInlineOrBlock? && st.comment.slash.c == '/' && c != '/' && c != '*'
    ensures Visible(Chars(Step(st, c).out)) == Visible(Chars(st.out)) + ("/" + Visible([c]))
  {
    var slash := st.comment.slash;
    var held := st.(comment := NotInComment, out := st.out + [slash], spaced := false);
    EmitVisible(held, c);
    CharsAppend(st.out, [slash]);
    assert Chars([slash]) == "/";
    WithoutAppend(Chars(st.out), "/", {' ', '\n'});
    assert Visible("/") == "/" by { assert "/"[1..] == []; }
  }

  lemma SpaceThenInvisible(x: string)
    ensures Visible(" " + x) == Visible(x)
  {
    VisibleCons(' ', x);
    assert Visible(" ") == [] by { assert " "[1..] == []; }
  }

  lemma HeldStrips(st: State, c: char, s: string)
    requires st.comment.EnteringInlineOrBlock? && st.comment.slash.c == '/'
    ensures StripsStep(st, c, s)
  {
    var slash := st.comment.slash;
    StripAfterSlash(c, s);
    if c == '/' || c == '*' {
      if !st.spaced {
        SpaceInvisible(st.out, PositionedChar(' ', slash.row, slash.col));
      }
      SpaceThenInvisible(Pending(Step(st, c).comment, s));
    } else {
      HeldTextVisible(st, c, s);
      StripKeeps(c, s);
      var rest := StripComments(s);
      VisibleCons('/', [c] + rest);
      VisibleCons(c, rest);
      assert Visible("/") == "/" by { assert "/"[1..] == []; }
      assert "/" + ([c] + rest) == ['/'] + ([c] + rest);
    }
  }

  lemma CommentStrips(st: State, c: char, s: string)
    requires st.comment.Inline? || st.comment.Block? || st.comment.LeavingBlock?
    ensures StripsStep(st, c, s)
  {
    assert ([c] + s)[0] == c && ([c] + s)[1..] == s;
    if st.comment.LeavingBlock? {
      SkipAfterStar(c, s);
    } else if st.comment.Block? && c == '*' {
      assert [c] + s == "*" + s;
    }
  }

  lemma StepStrips(st: State, c: char, s: string)
    requires HeldSlash(st)
    ensures HeldSlash(Step(st, c))
    ensures Visible(Chars(Step(st, c).out)) + Visible(Pending(Step(st, c).comment, s))
         == Visible(Chars(st.out)) + Visible(Pending(st.comment, [c] + s))
  {
    if st.comment.NotInComment? {
      CodeStrips(st, c, s);
    } else if st.comment.EnteringInlineOrBlock? {
      HeldStrips(st, c, s);
    } else {
      CommentStrips(st, c, s);
    }
  }

  /** Nothing is pending once the text is used up. */
  lemma PendingEnd(cs: CommentState)
    ensures Pending(cs, []) == []
  {
    assert "/" + [] == "/" && "*" + [] == "*";
  }

  /** Over any text, the machine's visible output grows by exactly what the
      reference keeps. */
  lemma {:induction false} RunStrips(st: State, s: string)
    requires HeldSlash(st)
    ensures Visible(Chars(Run(st, s).out)) == Visible(Chars(st.out)) + Visible(Pending(st.comment, s))
    decreases |s|
  {
    if s == [] {
      PendingEnd(st.comment);
      assert Visible([]) == [];
    } else {
      StepStrips(st, s[0], s[1..]);
      assert [s[0]] + s[1..] == s;
      RunStrips(Step(st, s[0]), s[1..]);
    }
  }

  lemma {:induction false} WithoutNoNewline(s: string)
    requires forall i :: 0 <= i < |s| ==> s[i] != '\n'
    ensures Without(s, {' '}) == Visible(s)
    decreases |s|
  {
    if s != [] {
      WithoutNoNewline(s[1..]);
    }
  }

  /** For every source, removing the spaces from the preprocessed text
      gives exactly the non-blank characters outside comments, in order:
      nothing inside `//` or `/* */` is ever emitted, and nothing outside is
      lost except blanks and a final `/`. */
  lemma PreprocessStripsComments(s: string)
    ensures Without(Chars(Preprocess(s)), {' '}) == Visible(StripComments(s))
  {
    RunStrips(Initial, s);
    var out := Run(Initial, s).out;
    var r := Preprocess(s);
    assert Chars(Initial.out) == [] && Visible([]) == [];
    PreprocessNormalized(s);
    assert forall i :: 0 <= i < |Chars(r)| ==> Chars(r)[i] != '\n';
    WithoutNoNewline(Chars(r));
    if |out| > 0 && out[|out| - 1].c == ' ' {
      assert out == r + [out[|out| - 1]];
      SpaceInvisible(r, out[|out| - 1]);
    }
  }

  /** On slash-free text the reference keeps everything, so the general
      statement agrees with the slash-free one. */
  lemma {:induction false} StripSlashFree(s: string)
    requires '/' !in s
    ensures StripComments(s) == s
    decreases |s|
  {
    if s != [] {
      assert '/' !in s[1..] by { assert forall k :: 0 <= k < |s[1..]| ==> s[1..][k] == s[k + 1]; }
      StripSlashFree(s[1..]);
      StripKeeps(s[0], s[1..]);
      assert s == [s[0]] + s[1..];
    }
  }

  // ---------------------------------------------------------------------
  // Folding blanks

  /** What the preprocessor folds: a space or a newline. */
  predicate IsBlank(c: char) {
    c == ' ' || c == '\n'
  }

  /** The maximal runs of non-blank characters of t, in order. */
  function Runs(t: string): (r: seq<string>)
    ensures forall i :: 0 <= i < |r| ==> r[i] != []
    ensures forall i, k :: 0 <= i < |r| && 0 <= k < |r[i]| ==> !IsBlank(r[i][k])
  {
    Matrices.NonEmptyKeepsLetters(Matrices.SplitBy(t, IsBlank), IsBlank);
    Matrices.NonEmpty(Matrices.SplitBy(t, IsBlank))
  }

  /** The runs written out with one space between consecutive runs. */
  function Spaced(t: string): string {
    Matrices.JoinWith(Runs(t), " ")
  }

  /** The reference output: what the reference reading of comments keeps,
      with every run of blanks (a comment counting as one) folded into one
      space and the runs at either end dropped. */
  function Fold(s: string): string {
    Spaced(StripComments(s))
  }

  /** Blanks folded one at a time, given whether a space (or nothing) was
      emitted last: a blank becomes a space unless a space came just
      before. */
  function Squeeze(t: string, spaced: bool): string
    decreases |t|
  {
    if t == [] then []
    else if IsBlank(t[0]) then (if spaced then [] else " ") + Squeeze(t[1..], true)
    else [t[0]] + Squeeze(t[1..], false)
  }

  lemma RunsOfEmpty()
    ensures Runs([]) == []
  {
    assert Matrices.SplitBy([], IsBlank) == [""];
    assert Matrices.NonEmpty([""]) == Matrices.NonEmpty([]);
  }

  /** A leading blank starts no run. */
  lemma RunsBlank(c: char, r: string)
    requires IsBlank(c)
    ensures Runs([c] + r) == Runs(r)
  {
    var t := [c] + r;
    assert t[0] == c && t[1..] == r;
    var R := Matrices.SplitBy(r, IsBlank);
    assert Matrices.SplitBy(t, IsBlank) == [""] + R;
    assert ([""] + R)[1..] == R;
  }

  /** A non-blank character in front of a run joins that run. */
  lemma RunsJoin(c: char, r: string)
    requires !IsBlank(c) && r != [] && !IsBlank(r[0])
    ensures Runs(r) != [] && Runs([c] + r) == [[c] + Runs(r)[0]] + Runs(r)[1..]
  {
    var t := [c] + r;
    assert t[0] == c && t[1..] == r;
    assert r[0] == r[0] && r[1..] == r[1..];
    var R := Matrices.SplitBy(r, IsBlank);
    var R1 := Matrices.SplitBy(r[1..], IsBlank);
    assert R == [[r[0]] + R1[0]] + R1[1..];
    assert R[0] != [] && R[1..] == R1[1..];
    assert Matrices.NonEmpty(R) == [R[0]] + Matrices.NonEmpty(R[1..]);
    assert Matrices.SplitBy(t, IsBlank) == [[c] + R[0]] + R[1..];
    var T := [[c] + R[0]] + R[1..];
    assert T[0] != [] && T[1..] == R[1..];
  }

  /** A non-blank character followed by a blank or by nothing is a run of
      its own. */
  lemma RunsAlone(c: char, r: string)
    requires !IsBlank(c) && (r == [] || IsBlank(r[0]))
    ensures Runs([c] + r) == [[c]] + Runs(r)
  {
    var t := [c] + r;
    assert t[0] == c && t[1..] == r;
    var R := Matrices.SplitBy(r, IsBlank);
    if r == [] {
      RunsOfEmpty();
      assert R == [""];
    } else {
      assert R == [""] + Matrices.SplitBy(r[1..], IsBlank);
    }
    assert R[0] == [];
    assert Matrices.NonEmpty(R) == Matrices.NonEmpty(R[1..]);
    assert Matrices.SplitBy(t, IsBlank) == [[c] + R[0]] + R[1..];
    var T := [[c]] + R[1..];
    assert [c] + R[0] == [c];
    assert T[0] != [] && T[1..] == R[1..];
  }

  lemma SpacedEmpty(t: string)
    ensures Spaced(t) == [] <==> Runs(t) == []
  {
    var ws := Runs(t);
    if ws != [] && |ws| > 1 {
      assert Spaced(t) == ws[0] + " " + Matrices.JoinWith(ws[1..], " ");
    }
  }

  /** The spaced runs never end in a blank. */
  lemma {:induction false} JoinEndsInRun(ws: seq<string>)
    requires forall i :: 0 <= i < |ws| ==> ws[i] != []
    requires forall i, k :: 0 <= i < |ws| && 0 <= k < |ws[i]| ==> !IsBlank(ws[i][k])
    ensures var j := Matrices.JoinWith(ws, " "); j != [] ==> !IsBlank(j[|j| - 1])
    decreases |ws|
  {
    if |ws| > 1 {
      JoinEndsInRun(ws[1..]);
      var rest := Matrices.JoinWith(ws[1..], " ");
      assert rest != [] by { assert ws[1..][0] == ws[1]; if |ws[1..]| > 1 { assert rest == ws[1] + " " + Matrices.JoinWith(ws[2..], " "); } }
      var j := ws[0] + " " + rest;
      assert j[|j| - 1] == rest[|rest| - 1];
    } else if |ws| == 1 {
      assert ws[0][|ws[0]| - 1] == ws[0][|ws[0]| - 1];
    }
  }

  lemma SpacedEndsInRun(t: string)
    ensures Spaced(t) != [] ==> !IsBlank(Spaced(t)[|Spaced(t)| - 1])
  {
    JoinEndsInRun(Runs(t));
  }

  /** Folding one blank at a time gives the spaced runs, with a space in
      front when a blank opens t after non-blank output, and a space at the
      end when blanks close t after some run. */
  ghost predicate SqueezeLaw(t: string, spaced: bool) {
    Squeeze(t, spaced)
      == (if !spaced && t != [] && IsBlank(t[0]) then " " else [])
       + Spaced(t)
       + (if Spaced(t) != [] && t != [] && IsBlank(t[|t| - 1]) then " " else [])
  }

  lemma {:induction false} SqueezeSpaced(t: string, spaced: bool)
    ensures SqueezeLaw(t, spaced)
    decreases |t|
  {
    if t == [] {
      RunsOfEmpty();
    } else {
      var c, r := t[0], t[1..];
      assert t == [c] + r;
      SqueezeSpaced(r, IsBlank(c));
      if IsBlank(c) {
        SqueezeBlank(c, r, spaced);
      } else if r != [] && !IsBlank(r[0]) {
        SqueezeJoin(c, r, spaced);
      } else {
        SqueezeAlone(c, r, spaced);
      }
    }
  }

  lemma SqueezeBlank(c: char, r: string, spaced: bool)
    requires IsBlank(c) && SqueezeLaw(r, true)
    ensures SqueezeLaw([c] + r, spaced)
  {
    var t := [c] + r;
    assert t[0] == c && t[1..] == r;
    RunsBlank(c, r);
    if r == [] {
      RunsOfEmpty();
    } else {
      assert t[|t| - 1] == r[|r| - 1];
    }
  }

  lemma SqueezeJoin(c: char, r: string, spaced: bool)
    requires !IsBlank(c) && r != [] && !IsBlank(r[0]) && SqueezeLaw(r, false)
    ensures SqueezeLaw([c] + r, spaced)
  {
    var t := [c] + r;
    assert t[0] == c && t[1..] == r && t[|t| - 1] == r[|r| - 1];
    RunsJoin(c, r);
    JoinFront(c, Runs(r));
    assert Spaced(t) == [c] + Spaced(r);
  }

  lemma SqueezeAlone(c: char, r: string, spaced: bool)
    requires !IsBlank(c) && (r == [] || IsBlank(r[0])) && SqueezeLaw(r, false)
    ensures SqueezeLaw([c] + r, spaced)
  {
    var t := [c] + r;
    assert t[0] == c && t[1..] == r;
    RunsAlone(c, r);
    JoinAlone(c, Runs(r));
    SpacedEmpty(r);
    if r == [] {
      RunsOfEmpty();
    } else {
      assert t[|t| - 1] == r[|r| - 1];
      LastBlankOrRun(r);
      var x := Spaced(r);
      var tail := if x != [] && IsBlank(r[|r| - 1]) then " " else [];
      assert Squeeze(t, spaced) == [c] + (" " + x + tail);
      if x == [] {
        assert Spaced(t) == [c];
      } else {
        assert Spaced(t) == [c] + " " + x;
      }
    }
  }

  /** Text that ends in a non-blank character has a run. */
  lemma {:induction false} LastBlankOrRun(t: string)
    ensures t != [] && !IsBlank(t[|t| - 1]) ==> Runs(t) != []
    decreases |t|
  {
    if t != [] && !IsBlank(t[|t| - 1]) {
      var c, r := t[0], t[1..];
      assert t == [c] + r;
      if r == [] {
        RunsAlone(c, r);
      } else {
        assert r[|r| - 1] == t[|t| - 1];
        LastBlankOrRun(r);
        if IsBlank(c) {
          RunsBlank(c, r);
        } else if !IsBlank(r[0]) {
          RunsJoin(c, r);
        } else {
          RunsAlone(c, r);
        }
      }
    }
  }

  /** Joining a first part onto the rest. */
  lemma JoinCons(w: string, rest: seq<string>)
    ensures Matrices.JoinWith([w] + rest, " ") == if rest == [] then w else w + " " + Matrices.JoinWith(rest, " ")
  {
    assert ([w] + rest)[0] == w && ([w] + rest)[1..] == rest;
  }

  lemma JoinFront(c: char, ws: seq<string>)
    requires ws != []
    ensures Matrices.JoinWith([[c] + ws[0]] + ws[1..], " ") == [c] + Matrices.JoinWith(ws, " ")
  {
    assert ws == [ws[0]] + ws[1..];
    JoinFrontParts(c, ws[0], ws[1..]);
  }

  lemma JoinFrontParts(c: char, w: string, rest: seq<string>)
    ensures Matrices.JoinWith([[c] + w] + rest, " ") == [c] + Matrices.JoinWith([w] + rest, " ")
  {
    JoinCons([c] + w, rest);
    JoinCons(w, rest);
    if rest != [] {
      FrontAssociates(c, w, Matrices.JoinWith(rest, " "));
    }
  }

  lemma FrontAssociates(c: char, w: string, x: string)
    ensures ([c] + w) + " " + x == [c] + (w + " " + x)
  {
  }

  lemma JoinAlone(c: char, ws: seq<string>)
    ensures Matrices.JoinWith([[c]] + ws, " ") == [c] + (if ws == [] then [] else " " + Matrices.JoinWith(ws, " "))
  {
    var vs := [[c]] + ws;
    assert vs[0] == [c] && vs[1..] == ws;
  }

  /** One character read through Squeeze. */
  lemma SqueezeCons(c: char, x: string, spaced: bool)
    ensures Squeeze([c] + x, spaced)
         == (if IsBlank(c) then (if spaced then [] else " ") else [c]) + Squeeze(x, IsBlank(c))
  {
    assert ([c] + x)[0] == c && ([c] + x)[1..] == x;
  }

  /** Handling a character as code emits what Squeeze folds it into. */
  lemma EmitChars(st: State, c: char)
    ensures EmitCode(st, c).spaced == IsBlank(c)
    ensures Chars(EmitCode(st, c).out)
         == Chars(st.out) + (if IsBlank(c) then (if st.spaced then [] else " ") else [c])
  {
    var added := EmitCode(st, c).out[|st.out|..];
    assert EmitCode(st, c).out == st.out + added;
    CharsAppend(st.out, added);
  }

  /** Inside a comment the output and the flag stay, and the reference's
      pending part is the same text. */
  lemma CommentPending(st: State, c: char, s: string)
    requires st.comment.Inline? || st.comment.Block? || st.comment.LeavingBlock?
    ensures Step(st, c).out == st.out && Step(st, c).spaced == st.spaced
    ensures Pending(Step(st, c).comment, s) == Pending(st.comment, [c] + s)
  {
    assert ([c] + s)[0] == c && ([c] + s)[1..] == s;
    if st.comment.LeavingBlock? {
      SkipAfterStar(c, s);
    } else if st.comment.Block? && c == '*' {
      assert [c] + s == "*" + s;
    }
  }

  /** The invariant of the exact output for one character: what the
      machine emits plus what Squeeze makes of the reference's pending
      part does not change. */
  ghost predicate SqueezesStep(st: State, c: char, s: string) {
    Chars(Step(st, c).out) + Squeeze(Pending(Step(st, c).comment, s), Step(st, c).spaced)
      == Chars(st.out) + Squeeze(Pending(st.comment, [c] + s), st.spaced)
  }

  lemma CodeSqueezes(st: State, c: char, s: string)
    requires st.comment == NotInComment
    ensures SqueezesStep(st, c, s)
  {
    if c == '/' {
      assert [c] + s == "/" + s;
    } else {
      EmitChars(st, c);
      StripKeeps(c, s);
      SqueezeCons(c, StripComments(s), st.spaced);
    }
  }

  /** A held slash followed by a slash or a star: the comment counts as
      one blank. */
  lemma HeldOpensSqueezes(st: State, c: char, s: string)
    requires st.comment.EnteringInlineOrBlock? && st.comment.slash.c == '/'
    requires c == '/' || c == '*'
    ensures SqueezesStep(st, c, s)
  {
    var slash := st.comment.slash;
    StripAfterSlash(c, s);
    var rest := Pending(Step(st, c).comment, s);
    assert Pending(st.comment, [c] + s) == [' '] + rest;
    SqueezeCons(' ', rest, st.spaced);
    var added := if st.spaced then [] else [PositionedChar(' ', slash.row, slash.col)];
    assert Step(st, c).out == st.out + added;
    CharsAppend(st.out, added);
  }

  /** A held slash followed by any other character: the slash is code. */
  lemma HeldEmitsSqueezes(st: State, c: char, s: string)
    requires st.comment.EnteringInlineOrBlock? && st.comment.slash.c == '/'
    requires c != '/' && c != '*'
    ensures SqueezesStep(st, c, s)
  {
    var x := if IsBlank(c) then " " else [c];
    var rest := StripComments(s);
    HeldEmitOutput(st, c);
    HeldEmitPending(st, c, s);
    assert Pending(Step(st, c).comment, s) == rest;
    TextsAssociate(Chars(st.out), "/" + x, Squeeze(rest, IsBlank(c)));
    TextsAssociate("/", x, Squeeze(rest, IsBlank(c)));
  }

  /** A held slash and a character other than a slash or a star: both are
      emitted, the character folded as code. */
  lemma HeldEmitOutput(st: State, c: char)
    requires st.comment.EnteringInlineOrBlock? && st.comment.slash.c == '/'
    requires c != '/' && c != '*'
    ensures Step(st, c).comment == NotInComment && Step(st, c).spaced == IsBlank(c)
    ensures Chars(Step(st, c).out) == Chars(st.out) + ("/" + (if IsBlank(c) then " " else [c]))
  {
    var slash := st.comment.slash;
    var held := st.(comment := NotInComment, out := st.out + [slash], spaced := false);
    assert Step(st, c) == EmitCode(held, c);
    EmitChars(held, c);
    CharsAppend(st.out, [slash]);
    assert Chars([slash]) == "/";
  }

  /** The reference reads the held slash as text, then c as code. */
  lemma HeldEmitPending(st: State, c: char, s: string)
    requires st.comment.EnteringInlineOrBlock? && st.comment.slash.c == '/'
    requires c != '/' && c != '*'
    ensures Squeeze(Pending(st.comment, [c] + s), st.spaced)
         == "/" + ((if IsBlank(c) then " " else [c]) + Squeeze(StripComments(s), IsBlank(c)))
  {
    StripAfterSlash(c, s);
    StripKeeps(c, s);
    var rest := StripComments(s);
    assert Pending(st.comment, [c] + s) == ['/'] + ([c] + rest);
    SqueezeCons('/', [c] + rest, st.spaced);
    SqueezeCons(c, rest, false);
  }

  lemma StepSqueezes(st: State, c: char, s: string)
    requires HeldSlash(st)
    ensures HeldSlash(Step(st, c))
    ensures Chars(Step(st, c).out) + Squeeze(Pending(Step(st, c).comment, s), Step(st, c).spaced)
         == Chars(st.out) + Squeeze(Pending(st.comment, [c] + s), st.spaced)
  {
    if st.comment.NotInComment? {
      CodeSqueezes(st, c, s);
    } else if st.comment.EnteringInlineOrBlock? {
      if c == '/' || c == '*' {
        HeldOpensSqueezes(st, c, s);
      } else {
        HeldEmitsSqueezes(st, c, s);
      }
    } else {
      CommentPending(st, c, s);
    }
  }

  /** Over any text, the machine emits exactly what Squeeze makes of the
      reference's reading of that text. */
  lemma {:induction false} RunSqueezes(st: State, s: string)
    requires HeldSlash(st)
    ensures Chars(Run(st, s).out) == Chars(st.out) + Squeeze(Pending(st.comment, s), st.spaced)
    decreases |s|
  {
    if s == [] {
      PendingEnd(st.comment);
      assert Chars(st.out) + [] == Chars(st.out);
    } else {
      StepSqueezes(st, s[0], s[1..]);
      assert [s[0]] + s[1..] == s;
      RunSqueezes(Step(st, s[0]), s[1..]);
    }
  }

  /** Dropping one trailing space leaves the runs joined by spaces. */
  lemma DropTrailingSpace(out: seq<PositionedChar>, x: string, trail: string)
    requires Chars(out) == x + trail
    requires trail == [] || (trail == " " && x != [])
    requires x != [] ==> !IsBlank(x[|x| - 1])
    ensures Chars(if |out| > 0 && out[|out| - 1].c == ' ' then out[..|out| - 1] else out) == x
  {
    assert |Chars(out)| == |out|;
    if |out| > 0 {
      assert Chars(out)[|out| - 1] == out[|out| - 1].c;
    }
    if trail != [] {
      CharsPrefix(out, |out| - 1);
      assert (x + trail)[..|x|] == x;
    }
  }

  /** For every source, the preprocessed text is exactly the reference
      folding: the text outside comments, cut at blanks and comments into
      its non-blank runs, with one space between consecutive runs and
      nothing at either end. */
  lemma PreprocessFolds(s: string)
    ensures Chars(Preprocess(s)) == Fold(s)
  {
    var t := StripComments(s);
    var out := Run(Initial, s).out;
    RunSqueezes(Initial, s);
    assert Chars(Initial.out) == [];
    SqueezeSpaced(t, true);
    SpacedEndsInRun(t);
    var x := Spaced(t);
    var trail := if x != [] && t != [] && IsBlank(t[|t| - 1]) then " " else [];
    assert Chars(out) == x + trail;
    DropTrailingSpace(out, x, trail);
  }

  /** Chars of a prefix of the output. */
  lemma CharsPrefix(out: seq<PositionedChar>, n: nat)
    requires n <= |out|
    ensures Chars(out[..n]) == Chars(out)[..n]
  {
  }

  // ---------------------------------------------------------------------
  // Edge cases of the machine

  lemma {:induction false} RunAppend(st: State, a: string, b: string)
    ensures Run(st, a + b) == Run(Run(st, a), b)
    decreases |a|
  {
    if a == [] {
      assert a + b == b;
    } else {
      assert (a + b)[0] == a[0] && (a + b)[1..] == a[1..] + b;
      RunAppend(Step(st, a[0]), a[1..], b);
    }
  }

  lemma {:induction false} BlockSwallows(st: State, u: string)
    requires st.comment == Block && '*' !in u
    ensures Run(st, u).out == st.out && Run(st, u).comment == Block
    decreases |u|
  {
    if u != [] {
      assert '*' !in u[1..] by { assert forall k :: 0 <= k < |u[1..]| ==> u[1..][k] == u[k + 1]; }
      BlockSwallows(Step(st, u[0]), u[1..]);
    }
  }

  /** An unterminated block comment is dropped without an error: once the
      machine is inside a block comment, text without a `*` adds nothing. */
  lemma UnterminatedBlockIsDropped(p: string, u: string)
    requires Run(Initial, p).comment == Block && '*' !in u
    ensures Preprocess(p + u) == Preprocess(p)
  {
    RunAppend(Initial, p, u);
    BlockSwallows(Run(Initial, p), u);
  }

  /** A slash that ends the input in code context is never emitted. */
  lemma FinalSlashIsDropped(p: string)
    requires Run(Initial, p).comment == NotInComment
    ensures Preprocess(p + "/") == Preprocess(p)
  {
    RunAppend(Initial, p, "/");
  }

  /** Inside a block comment, `*` followed by anything but `/` (another `*`
      included) goes back to the comment body, so "/* a**/" stays open. */
  lemma DoubleStarDoesNotClose()
    ensures Run(Initial, "/* a**/").comment == Block
    ensures Preprocess("/* a**/b") == []
  {
  }

  // ---------------------------------------------------------------------
  // The three golden cases (the longer two take the source as a parameter
  // so that the verifier does not try to evaluate the literal in one go)

  /** Runs the machine over a + b through the given intermediate state. */
  lemma RunThrough(st: State, a: string, b: string, mid: State, end: State)
    requires Run(st, a) == mid && Run(mid, b) == end
    ensures Run(st, a + b) == end
  {
    RunAppend(st, a, b);
  }

  /** A final emitted space is dropped. */
  lemma DropsFinalSpace(source: string, kept: seq<PositionedChar>, e: PositionedChar)
    requires Run(Initial, source).out == kept + [e] && e.c == ' '
    ensures Preprocess(source) == kept
  {
    assert (kept + [e])[..|kept|] == kept;
  }

  const KeptI := [PositionedChar('i', 1, 1), PositionedChar(' ', 1, 2)]

  lemma EmptyCommentOpening()
    ensures Run(Initial, "i/**/") == State(KeptI, 1, 6, true, NotInComment)
  {
  }

  lemma EmptyCommentTail()
    ensures Run(State(KeptI, 1, 6, true, NotInComment), "n\nt\n")
         == State(KeptI + [PositionedChar('n', 1, 6), PositionedChar(' ', 1, 7), PositionedChar('t', 2, 1),
                           PositionedChar(' ', 2, 2)], 3, 1, true, NotInComment)
  {
  }

  lemma EmptyCommentSeparates(source: string)
    requires source == "i/**/n\nt\n"
    ensures Preprocess(source) == [
      PositionedChar('i', 1, 1), PositionedChar(' ', 1, 2), PositionedChar('n', 1, 6),
      PositionedChar(' ', 1, 7), PositionedChar('t', 2, 1)]
  {
    var mid := State(KeptI, 1, 6, true, NotInComment);
    var end := State(KeptI + [PositionedChar('n', 1, 6), PositionedChar(' ', 1, 7), PositionedChar('t', 2, 1),
                              PositionedChar(' ', 2, 2)], 3, 1, true, NotInComment);
    EmptyCommentOpening();
    EmptyCommentTail();
    RunThrough(Initial, "i/**/", "n\nt\n", mid, end);
    assert "i/**/" + "n\nt\n" == source;
  }

  lemma InertOpening()
    ensures Run(Initial, "i/* /") == State(KeptI, 1, 6, true, Block)
  {
  }

  lemma InertClosing()
    ensures Run(State(KeptI, 1, 6, true, Block), "/ */") == State(KeptI, 1, 10, true, NotInComment)
  {
  }

  lemma InertTail()
    ensures Run(State(KeptI, 1, 10, true, NotInComment), "n//\nt\n")
         == State(KeptI + [PositionedChar('n', 1, 10), PositionedChar(' ', 1, 11), PositionedChar('t', 2, 1),
                           PositionedChar(' ', 2, 2)], 3, 1, true, NotInComment)
  {
  }

  lemma LineCommentInsideBlockIsInert(source: string)
    requires source == "i/* // */n//\nt\n"
    ensures Preprocess(source) == [
      PositionedChar('i', 1, 1), PositionedChar(' ', 1, 2), PositionedChar('n', 1, 10),
      PositionedChar(' ', 1, 11), PositionedChar('t', 2, 1)]
  {
    var mid := State(KeptI, 1, 10, true, NotInComment);
    var end := State(KeptI + [PositionedChar('n', 1, 10), PositionedChar(' ', 1, 11), PositionedChar('t', 2, 1),
                              PositionedChar(' ', 2, 2)], 3, 1, true, NotInComment);
    InertOpening();
    InertClosing();
    RunThrough(Initial, "i/* /", "/ */", State(KeptI, 1, 6, true, Block), mid);
    InertTail();
    RunThrough(Initial, "i/* /" + "/ */", "n//\nt\n", mid, end);
    assert "i/* /" + "/ */" + "n//\nt\n" == source;
  }

  lemma SwallowOpening()
    ensures Run(Initial, "i/* */") == State(KeptI, 1, 7, true, NotInComment)
  {
  }

  lemma SwallowMiddle()
    ensures Run(State(KeptI, 1, 7, true, NotInComment), "// */n") == State(KeptI, 1, 9, true, Inline)
  {
  }

  lemma SwallowTail()
    ensures Run(State(KeptI, 1, 9, true, Inline), "//\nt\n")
         == State(KeptI + [PositionedChar('t', 2, 1), PositionedChar(' ', 2, 2)], 3, 1, true, NotInComment)
  {
  }

  lemma LineCommentAfterBlockSwallowsLine(source: string)
    requires source == "i/* */// */n//\nt\n"
    ensures Preprocess(source) == [
      PositionedChar('i', 1, 1), PositionedChar(' ', 1, 2), PositionedChar('t', 2, 1)]
  {
    var mid := State(KeptI, 1, 9, true, Inline);
    var end := State(KeptI + [PositionedChar('t', 2, 1), PositionedChar(' ', 2, 2)], 3, 1, true, NotInComment);
    SwallowOpening();
    SwallowMiddle();
    RunThrough(Initial, "i/* */", "// */n", State(KeptI, 1, 7, true, NotInComment), mid);
    SwallowTail();
    RunThrough(Initial, "i/* */" + "// */n", "//\nt\n", mid, end);
    SwallowPieces();
    assert Run(Initial, source) == end;
    DropsFinalSpace(source, KeptI + [PositionedChar('t', 2, 1)], PositionedChar(' ', 2, 2));
  }

  lemma SwallowPieces()
    ensures "i/* */" + "// */n" + "//\nt\n" == "i/* */// */n//\nt\n"
  {
  }
}

=== FILE: lineq.dfy ===
/**
  The linear-equations solver: an augmented matrix read from text is
  classified as homogeneous or not, reduced to row echelon form, and its
  solution set is reported as "only the zero solution", "no solution", "a
  unique solution", or a particular solution plus a system of basic solutions.

  `BasicSolutionsAsWritten` and `OneSolutionAsWritten` follow the Rust solver's
  loop literally, including where it places entries; `Classify` uses the
  corrected construction (`Basis`, `Particular`), whose vectors are proved to
  be solutions.
 */
module LinearEquations {
  import opened Outcomes
  import opened Matrices
  import opened Decimal
  import opened Elimination
  import opened LinearSystems

  /** Why no report is produced. */
  datatype Failure =
    | ParseFailure   // a cell is not an integer or fraction, or rows differ in length
    | NoRows         // the text holds no cell, so the matrix has no shape
    | TooFewColumns  // fewer than two columns: no unknown
    | Unimplemented  // a coefficient column of the reduced form is entirely zero
    | Underflow      // a basic solution is padded to a negative length

  datatype Kind =
    | OnlyZero
    | NoSolution
    | Unique
    | Homogeneous(basis: seq<seq<real>>)
    | General(particular: seq<real>, basis: seq<seq<real>>)

  datatype Report = Report(system: Matrix<real>, reduced: Matrix<real>, kind: Kind)

  // ---------------------------------------------------------------------
  // The three tests

  /** Every right-hand side is zero. */
  predicate IsHomogeneous(M: Matrix<real>)
    requires Rect(M) && Width(M) >= 1
  {
    forall r :: 0 <= r < |M| ==> M[r][Width(M) - 1] == 0.0
  }

  /** Homogeneous systems are exactly those the zero vector solves. */
  lemma HomogeneousIffZeroSolves(M: Matrix<real>)
    requires Rect(M) && Width(M) >= 1
    ensures IsHomogeneous(M) <==> Solves(M, Zeros(Width(M) - 1))
  {
    var n := Width(M) - 1;
    forall r | 0 <= r < |M|
      ensures Dot(M[r][..n], Zeros(n)) == 0.0
    {
      DotZeroTerms(M[r][..n], Zeros(n));
    }
  }

  /** The rank test of the Rust solver, which decides consistency. */
  function HasAnySolution(M: Matrix<real>): (b: bool)
    requires Rect(M) && Width(M) >= 1
    ensures b <==> Solvable(M)
  {
    RankTest(M);
    Rank(Coefficients(M)) == Rank(M)
  }

  function HasInfiniteSolutions(M: Matrix<real>): bool
    requires Rect(M) && Width(M) >= 1
  {
    Rank(M) < Width(M) - 1
  }

  /** For a consistent system, rank below the number of unknowns means
      several solutions, and otherwise the solution is unique. */
  lemma InfiniteSolutionsCorrect(M: Matrix<real>)
    requires Rect(M) && Width(M) >= 1 && Solvable(M)
    ensures HasInfiniteSolutions(M) <==> HasManySolutions(M)
    ensures !HasInfiniteSolutions(M) <==> HasUniqueSolution(M)
  {
    SolutionCount(M);
  }

  /** Entry j of every row. */
  function Col(M: Matrix<real>, j: nat): (c: seq<real>)
    requires forall i :: 0 <= i < |M| ==> j < |M[i]|
    ensures |c| == |M| && forall i :: 0 <= i < |M| ==> c[i] == M[i][j]
  {
    seq(|M|, i requires 0 <= i < |M| => M[i][j])
  }

  predicate IsZeroColumn(M: Matrix<real>, j: nat)
    requires Rect(M) && j < Width(M)
  {
    forall i :: 0 <= i < |M| ==> M[i][j] == 0.0
  }

  // ---------------------------------------------------------------------
  // Basic solutions, corrected

  lemma {:induction false} PivotRowOfFree(R: Matrix<real>, t: nat, c: nat, from: nat)
    requires t <= |R| && from <= t && IsFree(R, t, c)
    ensures PivotRow(R, t, c, from) == None
    decreases t - from
  {
    if from < t {
      PivotRowOfFree(R, t, c, from + 1);
    }
  }

  /** The free unknowns from column j on, in increasing order. */
  function FreeUnknowns(R: Matrix<real>, t: nat, j: nat): (F: seq<nat>)
    requires Reduced(R, t) && Width(R) >= 1 && j <= Width(R) - 1
    ensures forall k :: 0 <= k < |F| ==> j <= F[k] < Width(R) - 1 && IsFree(R, t, F[k])
    ensures forall c :: j <= c < Width(R) - 1 && IsFree(R, t, c) ==> c in F
    ensures forall k, l :: 0 <= k < l < |F| ==> F[k] < F[l]
    decreases Width(R) - 1 - j
  {
    if j == Width(R) - 1 then []
    else if PivotRow(R, t, j, 0).None? then [j] + FreeUnknowns(R, t, j + 1)
    else FreeUnknowns(R, t, j + 1)
  }

  /** Fewer pivots than unknowns: some unknown is free. */
  lemma FreeUnknownsNonEmpty(R: Matrix<real>, t: nat)
    requires Reduced(R, t) && Width(R) >= 1 && t < Width(R) - 1
    requires forall r :: 0 <= r < t ==> Lead(R[r]) < Width(R) - 1
    ensures |FreeUnknowns(R, t, 0)| > 0
  {
    var f := FreeUnknownExists(R, t, Width(R) - 1);
    assert f in FreeUnknowns(R, t, 0);
  }

  /** One basic solution per free unknown, in column order. */
  function Basis(R: Matrix<real>, t: nat): (B: seq<seq<real>>)
    requires Reduced(R, t) && Width(R) >= 1
    ensures |B| == |FreeUnknowns(R, t, 0)|
  {
    var F := FreeUnknowns(R, t, 0);
    seq(|F|, k requires 0 <= k < |F| => Basic(R, t, F[k]))
  }

  /** Every basic solution solves the homogeneous system, and on the free
      unknowns they form the identity, so they are linearly independent. */
  lemma BasisCorrect(R: Matrix<real>, t: nat)
    requires Reduced(R, t) && Width(R) >= 1
    requires forall r :: 0 <= r < t ==> Lead(R[r]) < Width(R) - 1
    ensures forall k :: 0 <= k < |Basis(R, t)| ==> SolvesHomogeneous(R, Basis(R, t)[k])
    ensures forall k, l :: 0 <= k < |Basis(R, t)| && 0 <= l < |Basis(R, t)| ==>
      Basis(R, t)[k][FreeUnknowns(R, t, 0)[l]] == if k == l then 1.0 else 0.0
  {
    var F := FreeUnknowns(R, t, 0);
    var B := Basis(R, t);
    forall k | 0 <= k < |B|
      ensures SolvesHomogeneous(R, B[k])
    {
      BasicSolvesHomogeneous(R, t, F[k]);
    }
    forall k, l | 0 <= k < |B| && 0 <= l < |B|
      ensures B[k][F[l]] == if k == l then 1.0 else 0.0
    {
      if k != l {
        PivotRowOfFree(R, t, F[l], 0);
      }
    }
  }

  /** Whether some coefficient column from j on is entirely zero. */
  function HasZeroColumn(R: Matrix<real>, j: nat): (b: bool)
    requires Rect(R) && Width(R) >= 1 && j <= Width(R) - 1
    ensures b <==> exists c :: j <= c < Width(R) - 1 && IsZeroColumn(R, c)
    decreases Width(R) - 1 - j
  {
    if j == Width(R) - 1 then false
    else if IsZeroColumn(R, j) then true
    else HasZeroColumn(R, j + 1)
  }

  /** The basic solutions of a reduced system, or `Unimplemented` where the
      source stops at an all-zero coefficient column. */
  function BasicSolutions(R: Matrix<real>, t: nat): (r: Result<seq<seq<real>>, Failure>)
    requires Reduced(R, t) && Width(R) >= 1
    requires forall i :: 0 <= i < t ==> Lead(R[i]) < Width(R) - 1
    ensures r.Err? <==> exists c :: 0 <= c < Width(R) - 1 && IsZeroColumn(R, c)
    ensures r.Err? ==> r.error == Unimplemented
    ensures r.Ok? ==> |r.value| == |FreeUnknowns(R, t, 0)|
    ensures r.Ok? ==> forall k :: 0 <= k < |r.value| ==> SolvesHomogeneous(R, r.value[k])
  {
    BasisCorrect(R, t);
    if HasZeroColumn(R, 0) then Err(Unimplemented) else Ok(Basis(R, t))
  }

  // ---------------------------------------------------------------------
  // Moving solutions between a system and its reduced form

  lemma DifferenceIsHomogeneous(M: Matrix<real>, x: seq<real>, h: seq<real>)
    requires Solves(M, x) && |h| == |x| && Solves(M, VecAdd(x, h))
    ensures SolvesHomogeneous(M, h)
  {
    var n := |x|;
    forall r | 0 <= r < |M|
      ensures Dot(M[r][..n], h) == 0.0
    {
      DotAddRight(M[r][..n], x, h);
    }
  }

  /** A homogeneous solution of the reduced form of a consistent system is a
      homogeneous solution of the system itself. */
  lemma HomogeneousTransfer(M: Matrix<real>, h: seq<real>)
    requires Rect(M) && Width(M) >= 1 && Solvable(M)
    requires SolvesHomogeneous(ReducedRowEchelonForm(M), h)
    ensures SolvesHomogeneous(M, h)
  {
    var R := ReducedRowEchelonForm(M);
    var x :| Solves(M, x);
    ReductionKeepsSolutions(M, x);
    AddHomogeneous(R, x, h);
    ReductionKeepsSolutions(M, VecAdd(x, h));
    DifferenceIsHomogeneous(M, x, h);
  }

  // ---------------------------------------------------------------------
  // Classification

  predicate AllHomogeneous(M: Matrix<real>, B: seq<seq<real>>) {
    forall k :: 0 <= k < |B| ==> SolvesHomogeneous(M, B[k])
  }

  /** Facts about the reduced form R of M that every branch uses: R is
      reduced with Rank(M) pivots, the tests give the same answers on R as on
      M, and when consistent no pivot is in the right-hand-side column. */
  lemma ReducedFacts(M: Matrix<real>)
    requires Rect(M) && Width(M) >= 1
    ensures var R := ReducedRowEchelonForm(M);
      Rect(R) && Width(R) == Width(M) && Reduced(R, Rank(M)) && Rank(R) == Rank(M) &&
      (Solvable(R) <==> Solvable(M))
    ensures Solvable(M) ==> forall i :: 0 <= i < Rank(M) ==> Lead(ReducedRowEchelonForm(M)[i]) < Width(M) - 1
  {
    EliminateCorrect(M);
    ReduceIdempotent(M);
    ReductionKeepsSolvable(M);
    if Solvable(M) {
      ConsistentPivots(M);
    }
  }

  lemma HomogeneousSolvable(M: Matrix<real>)
    requires Rect(M) && Width(M) >= 1 && IsHomogeneous(M)
    ensures Solvable(M)
  {
    HomogeneousIffZeroSolves(M);
  }

  /** What a branch with free unknowns needs of the reduced form R of a
      consistent M with t = Rank(M) pivots. */
  lemma FreeBranchFacts(M: Matrix<real>)
    requires Rect(M) && Width(M) >= 2 && HasManySolutions(M)
    ensures Solvable(M) && Rank(M) < Width(M) - 1
    ensures var R := ReducedRowEchelonForm(M); var t := Rank(M);
      Reduced(R, t) && Width(R) == Width(M) &&
      (forall i :: 0 <= i < t ==> Lead(R[i]) < Width(R) - 1) &&
      |FreeUnknowns(R, t, 0)| > 0
  {
    var x, y :| Solves(M, x) && Solves(M, y) && x != y;
    InfiniteSolutionsCorrect(M);
    ReducedFacts(M);
    FreeUnknownsNonEmpty(ReducedRowEchelonForm(M), Rank(M));
  }

  /** Basic solutions of the reduced form solve M's homogeneous system, and
      the first one plus the particular solution solves M. */
  lemma FreeBranchResult(M: Matrix<real>, B: seq<seq<real>>)
    requires Rect(M) && Width(M) >= 2 && Solvable(M)
    requires |B| > 0 && AllHomogeneous(ReducedRowEchelonForm(M), B)
    ensures AllHomogeneous(M, B) && |B[0]| == Width(M) - 1
    ensures Solves(M, VecAdd(Particular(ReducedRowEchelonForm(M), Rank(M)), B[0]))
  {
    ReducedFacts(M);
    forall k | 0 <= k < |B|
      ensures SolvesHomogeneous(M, B[k])
    {
      HomogeneousTransfer(M, B[k]);
    }
    OneSolutionSolves(M, B[0]);
  }

  /** Where the Rust solver stops with `todo!()`: the system has several
      solutions and its reduced form has a coefficient column that is
      entirely zero. */
  ghost predicate StopsAtZeroColumn(M: Matrix<real>)
    requires Rect(M) && Width(M) >= 2
  {
    && HasManySolutions(M)
    && exists c :: 0 <= c < Width(M) - 1 && IsZeroColumn(ReducedRowEchelonForm(M), c)
  }

  /** With several solutions the basic solutions fail exactly where the
      Rust solver stops. */
  lemma FreeBranchStops(M: Matrix<real>)
    requires Rect(M) && Width(M) >= 2 && HasManySolutions(M)
    ensures Reduced(ReducedRowEchelonForm(M), Rank(M))
    ensures forall i :: 0 <= i < Rank(M) ==> Lead(ReducedRowEchelonForm(M)[i]) < Width(M) - 1
    ensures BasicSolutions(ReducedRowEchelonForm(M), Rank(M)).Err? <==> StopsAtZeroColumn(M)
  {
    FreeBranchFacts(M);
  }

  /** A unique solution rules the stop out. */
  lemma UniqueNeverStops(M: Matrix<real>)
    requires Rect(M) && Width(M) >= 2 && HasUniqueSolution(M)
    ensures !StopsAtZeroColumn(M)
  {
  }

  /** The report for a homogeneous system. */
  function ClassifyHomogeneous(M: Matrix<real>): (r: Result<Report, Failure>)
    requires Rect(M) && Width(M) >= 2 && IsHomogeneous(M)
    ensures r.Ok? ==> r.value.system == M && r.value.reduced == ReducedRowEchelonForm(M)
    ensures r.Err? ==> r.error == Unimplemented && HasManySolutions(M)
    ensures r.Err? <==> StopsAtZeroColumn(M)
    ensures r.Ok? ==> r.value.kind.OnlyZero? || r.value.kind.Homogeneous?
    ensures r.Ok? && r.value.kind.OnlyZero? ==> HasUniqueSolution(M)
    ensures r.Ok? && r.value.kind.Homogeneous? ==>
      HasManySolutions(M) && |r.value.kind.basis| > 0 && AllHomogeneous(M, r.value.kind.basis)
  {
    var R := ReducedRowEchelonForm(M);
    HomogeneousSolvable(M);
    ReducedFacts(M);
    InfiniteSolutionsCorrect(M);
    if HasInfiniteSolutions(R) then
      var t := Rank(M);
      FreeBranchFacts(M);
      FreeBranchStops(M);
      match BasicSolutions(R, t)
      case Err(e) => Err(e)
      case Ok(B) =>
        FreeBranchResult(M, B);
        Ok(Report(M, R, Homogeneous(B)))
    else
      UniqueNeverStops(M);
      Ok(Report(M, R, OnlyZero))
  }

  /** The report for a consistent system with several solutions. */
  function GeneralFamily(M: Matrix<real>): (r: Result<Report, Failure>)
    requires Rect(M) && Width(M) >= 2 && HasManySolutions(M)
    ensures r.Ok? ==> r.value.system == M && r.value.reduced == ReducedRowEchelonForm(M)
    ensures r.Err? ==> r.error == Unimplemented
    ensures r.Err? <==> StopsAtZeroColumn(M)
    ensures r.Ok? ==> r.value.kind.General?
    ensures r.Ok? ==> Solves(M, r.value.kind.particular)
    ensures r.Ok? ==> |r.value.kind.basis| > 0 && AllHomogeneous(M, r.value.kind.basis)
  {
    var R := ReducedRowEchelonForm(M);
    var t := Rank(M);
    FreeBranchFacts(M);
    FreeBranchStops(M);
    match BasicSolutions(R, t)
    case Err(e) => Err(e)
    case Ok(B) =>
      FreeBranchResult(M, B);
      Ok(Report(M, R, General(OneSolution(R, t, B[0]), B)))
  }

  /** The report for a system with some non-zero right-hand side. */
  function ClassifyGeneral(M: Matrix<real>): (r: Result<Report, Failure>)
    requires Rect(M) && Width(M) >= 2 && !IsHomogeneous(M)
    ensures r.Ok? ==> r.value.system == M && r.value.reduced == ReducedRowEchelonForm(M)
    ensures r.Err? ==> r.error == Unimplemented && HasManySolutions(M)
    ensures r.Err? <==> StopsAtZeroColumn(M)
    ensures r.Ok? ==> r.value.kind.NoSolution? || r.value.kind.Unique? || r.value.kind.General?
    ensures r.Ok? && r.value.kind.NoSolution? ==> !Solvable(M)
    ensures r.Ok? && r.value.kind.Unique? ==> HasUniqueSolution(M)
    ensures r.Ok? && r.value.kind.General? ==>
      HasManySolutions(M) && Solves(M, r.value.kind.particular) &&
      |r.value.kind.basis| > 0 && AllHomogeneous(M, r.value.kind.basis)
  {
    var R := ReducedRowEchelonForm(M);
    ReducedFacts(M);
    if !HasAnySolution(R) then
      Ok(Report(M, R, NoSolution))
    else
      InfiniteSolutionsCorrect(M);
      if HasInfiniteSolutions(R) then GeneralFamily(M)
      else
        UniqueNeverStops(M);
        Ok(Report(M, R, Unique))
  }

  /** The particular solution shown: the first basic solution plus the
      right-hand sides placed on the pivot unknowns. */
  function OneSolution(R: Matrix<real>, t: nat, xi: seq<real>): (eta: seq<real>)
    requires Reduced(R, t) && Width(R) >= 1 && |xi| == Width(R) - 1
    requires forall i :: 0 <= i < t ==> Lead(R[i]) < Width(R) - 1
    requires SolvesHomogeneous(R, xi)
    ensures Solves(R, eta)
  {
    ParticularSolves(R, t);
    AddHomogeneous(R, Particular(R, t), xi);
    VecAdd(Particular(R, t), xi)
  }

  lemma OneSolutionSolves(M: Matrix<real>, xi: seq<real>)
    requires Rect(M) && Width(M) >= 1 && Solvable(M) && |xi| == Width(M) - 1
    requires SolvesHomogeneous(ReducedRowEchelonForm(M), xi)
    ensures Solves(M, VecAdd(Particular(ReducedRowEchelonForm(M), Rank(M)), xi))
  {
    ReducedFacts(M);
    var R := ReducedRowEchelonForm(M);
    ReductionKeepsSolutions(M, OneSolution(R, Rank(M), xi));
  }

  /** The whole classification of a system with at least one unknown. */
  function Classify(M: Matrix<real>): (r: Result<Report, Failure>)
    requires Rect(M) && Width(M) >= 2
    ensures r.Ok? ==> r.value.system == M && r.value.reduced == ReducedRowEchelonForm(M)
    ensures r.Err? ==> r.error == Unimplemented && HasManySolutions(M)
    ensures r.Err? <==> StopsAtZeroColumn(M)
    ensures r.Ok? ==> (r.value.kind.OnlyZero? || r.value.kind.Homogeneous? <==> IsHomogeneous(M))
    ensures r.Ok? ==> (r.value.kind.NoSolution? <==> !Solvable(M))
    ensures r.Ok? ==> (r.value.kind.OnlyZero? || r.value.kind.Unique? <==> HasUniqueSolution(M))
    ensures r.Ok? && r.value.kind.Homogeneous? ==>
      HasManySolutions(M) && |r.value.kind.basis| > 0 && AllHomogeneous(M, r.value.kind.basis)
    ensures r.Ok? && r.value.kind.General? ==>
      HasManySolutions(M) && Solves(M, r.value.kind.particular) &&
      |r.value.kind.basis| > 0 && AllHomogeneous(M, r.value.kind.basis)
  {
    if IsHomogeneous(M) then
      HomogeneousSolvable(M);
      ClassifyHomogeneous(M)
    else
      ClassifyGeneral(M)
  }

  /** A report that tells the truth about its system: the reduced matrix is
      the system's reduced row echelon form, and each kind holds exactly when
      the system has that kind of solution set, with its solutions. */
  ghost predicate Truthful(rep: Report) {
    var M := rep.system;
    && Rect(M) && Width(M) >= 2
    && rep.reduced == ReducedRowEchelonForm(M)
    && (rep.kind.OnlyZero? || rep.kind.Homogeneous? <==> IsHomogeneous(M))
    && (rep.kind.NoSolution? <==> !Solvable(M))
    && (rep.kind.OnlyZero? || rep.kind.Unique? <==> HasUniqueSolution(M))
    && (rep.kind.Homogeneous? ==> HasManySolutions(M) && |rep.kind.basis| > 0 && AllHomogeneous(M, rep.kind.basis))
    && (rep.kind.General? ==>
          HasManySolutions(M) && Solves(M, rep.kind.particular) &&
          |rep.kind.basis| > 0 && AllHomogeneous(M, rep.kind.basis))
  }

  /** The solver on its text input. */
  function Solve(input: string): (r: Result<Report, Failure>)
    ensures FromText(input, ParseRational).None? <==> r == Err(ParseFailure)
    ensures r == Err(NoRows) <==> FromText(input, ParseRational) == Some([])
    ensures r == Err(TooFewColumns) <==>
      exists M :: FromText(input, ParseRational) == Some(M) && |M| > 0 && |M[0]| < 2
    ensures r.Ok? ==> FromText(input, ParseRational) == Some(r.value.system)
    ensures r.Ok? ==> Truthful(r.value)
    ensures r == Err(Unimplemented) ==>
      exists M :: FromText(input, ParseRational) == Some(M) && Rect(M) && Width(M) >= 2 && HasManySolutions(M)
    ensures r == Err(Unimplemented) <==>
      exists M :: FromText(input, ParseRational) == Some(M) && Rect(M) && Width(M) >= 2 && StopsAtZeroColumn(M)
    ensures r != Err(Underflow)
  {
    match FromText(input, ParseRational)
    case None => Err(ParseFailure)
    case Some(M) =>
      if |M| == 0 then Err(NoRows)
      else if |M[0]| < 2 then Err(TooFewColumns)
      else
        assert Rect(M);
        Classify(M)
  }

  // ---------------------------------------------------------------------
  // Display

  /** The equations printed: the rows that are not entirely zero, in order.
      Being a subsequence of M made of non-zero rows, as many as M has, pins
      the result down (`NonZeroSubseqUnique`). */
  function ShownRows(M: Matrix<real>): (S: Matrix<real>)
    ensures forall k :: 0 <= k < |S| ==> S[k] in M && !IsZeroRow(S[k])
    ensures forall i :: 0 <= i < |M| && !IsZeroRow(M[i]) ==> M[i] in S
    ensures IsSubseq(S, M)
    ensures |S| == CountNonZeroRows(M)
  {
    if M == [] then []
    else
      var init := ShownRows(M[..|M| - 1]);
      assert forall i :: 0 <= i < |M| - 1 ==> M[i] == M[..|M| - 1][i];
      assert M == M[..|M| - 1] + [M[|M| - 1]];
      if IsZeroRow(M[|M| - 1]) then
        SubseqSkip(init, M[..|M| - 1], M[|M| - 1]);
        init
      else
        SubseqKeep(init, M[..|M| - 1], M[|M| - 1]);
        init + [M[|M| - 1]]
  }

  /** The reduced system shows exactly as many equations as the rank. */
  lemma ReducedShowsRank(M: Matrix<real>)
    requires Rect(M)
    ensures |ShownRows(ReducedRowEchelonForm(M))| == Rank(M)
  {
  }

  // ---------------------------------------------------------------------
  // Basic solutions and the particular solution, as written

  /** Rows where a column is non-zero, in increasing order. */
  function NonZeroRows(col: seq<real>, from: nat): (r: seq<nat>)
    requires from <= |col|
    ensures forall k :: 0 <= k < |r| ==> from <= r[k] < |col| && col[r[k]] != 0.0
    ensures forall i :: from <= i < |col| && col[i] != 0.0 ==> i in r
    ensures forall k, l :: 0 <= k < l < |r| ==> r[k] < r[l]
    decreases |col| - from
  {
    if from == |col| then []
    else if col[from] != 0.0 then [from] + NonZeroRows(col, from + 1)
    else NonZeroRows(col, from + 1)
  }

  /** State of the Rust solver's column loop: the rows recognised as pivot rows,
      and for each basic solution pushed the column it came from. */
  datatype Sweep = Sweep(mainRows: seq<nat>, columns: seq<nat>, basis: seq<seq<real>>)

  predicate SweepShape(R: Matrix<real>, n: nat, s: Sweep)
    requires Rect(R)
  {
    n == Width(R) && |s.columns| == |s.basis| &&
    forall k :: 0 <= k < |s.basis| ==>
      s.columns[k] < n - 1 && |s.basis[k]| == n - 1 && |R| <= n - 1 &&
      s.basis[k][s.columns[k]] == 1.0 &&
      (forall i :: 0 <= i < |R| && i != s.columns[k] ==> s.basis[k][i] == -R[i][s.columns[k]]) &&
      (forall i :: |R| <= i < n - 1 && i != s.columns[k] ==> s.basis[k][i] == 0.0)
  }

  /** Column j negated, padded with zeros to n - 1 entries, with entry j
      set to 1, as the Rust solver builds a basic solution. */
  function PaddedColumn(R: Matrix<real>, n: nat, j: nat): (v: seq<real>)
    requires Rect(R) && Width(R) == n && j < n - 1 && |R| <= n - 1
    ensures |v| == n - 1 && v[j] == 1.0
    ensures forall i :: 0 <= i < |R| && i != j ==> v[i] == -R[i][j]
    ensures forall i :: |R| <= i < n - 1 && i != j ==> v[i] == 0.0
  {
    var col := Col(R, j);
    var padded := seq(|col|, i requires 0 <= i < |col| => -col[i]) + Zeros(n - 1 - |col|);
    padded[j := 1.0]
  }

  /** Pushing a padded column keeps the loop state's shape. */
  lemma SweepPush(R: Matrix<real>, n: nat, acc: Sweep, j: nat)
    requires Rect(R) && Width(R) == n && j < n - 1 && |R| <= n - 1
    requires SweepShape(R, n, acc)
    ensures SweepShape(R, n, Sweep(acc.mainRows, acc.columns + [j], acc.basis + [PaddedColumn(R, n, j)]))
  {
    var next := Sweep(acc.mainRows, acc.columns + [j], acc.basis + [PaddedColumn(R, n, j)]);
    forall k | 0 <= k < |next.basis|
      ensures next.columns[k] < n - 1 && |next.basis[k]| == n - 1
      ensures next.basis[k][next.columns[k]] == 1.0
      ensures forall i :: 0 <= i < |R| && i != next.columns[k] ==> next.basis[k][i] == -R[i][next.columns[k]]
      ensures forall i :: |R| <= i < n - 1 && i != next.columns[k] ==> next.basis[k][i] == 0.0
    {
      if k < |acc.basis| {
        assert next.basis[k] == acc.basis[k] && next.columns[k] == acc.columns[k];
      }
    }
  }

  /** The loop over coefficient columns j as the Rust solver writes it: a column
      whose only non-zero entry is in a row not seen before marks that row as
      a pivot row; any other non-zero column yields the column negated, padded
      with zeros to n - 1 entries, with entry j set to 1; the negated entry
      of row i lands at index i. */
  function SweepAsWritten(R: Matrix<real>, n: nat, j: nat, acc: Sweep): (r: Result<Sweep, Failure>)
    requires Rect(R) && Width(R) == n && 1 <= n && j <= n - 1
    requires SweepShape(R, n, acc)
    ensures r.Ok? ==> SweepShape(R, n, r.value)
    ensures r.Ok? ==> |r.value.basis| >= |acc.basis| && r.value.basis[..|acc.basis|] == acc.basis
    ensures r.Err? ==> r.error == Unimplemented || (r.error == Underflow && |R| > n - 1)
    decreases n - 1 - j
  {
    if j == n - 1 then Ok(acc)
    else
      var col := Col(R, j);
      var nz := NonZeroRows(col, 0);
      if |nz| == 0 then Err(Unimplemented)
      else if |nz| == 1 && nz[0] !in acc.mainRows then
        SweepAsWritten(R, n, j + 1, acc.(mainRows := acc.mainRows + [nz[0]]))
      else if |col| > n - 1 then Err(Underflow)
      else
        var v := PaddedColumn(R, n, j);
        var next := Sweep(acc.mainRows, acc.columns + [j], acc.basis + [v]);
        SweepPush(R, n, acc, j);
        assert next.basis[..|acc.basis|] == acc.basis;
        var r := SweepAsWritten(R, n, j + 1, next);
        assert r.Ok? ==> r.value.basis[..|acc.basis|] == r.value.basis[..|next.basis|][..|acc.basis|];
        r
  }

  function BasicSolutionsAsWritten(R: Matrix<real>): (r: Result<seq<seq<real>>, Failure>)
    requires Rect(R) && Width(R) >= 1
    ensures r.Ok? ==> forall k :: 0 <= k < |r.value| ==> |r.value[k]| == Width(R) - 1
    ensures r.Err? && r.error == Underflow ==> |R| > Width(R) - 1
  {
    match SweepAsWritten(R, Width(R), 0, Sweep([], [], []))
    case Err(e) => Err(e)
    case Ok(s) => Ok(s.basis)
  }

  /** The particular solution as the Rust solver computes it: the right-hand side
      of row i is added at index i of the first basic solution. */
  function OneSolutionAsWritten(R: Matrix<real>, xi: seq<real>): (eta: seq<real>)
    requires Rect(R) && Width(R) >= 1 && |xi| == Width(R) - 1 && |R| <= |xi|
    ensures |eta| == |xi|
    ensures forall i :: 0 <= i < |R| ==> eta[i] == xi[i] + R[i][Width(R) - 1]
    ensures forall i :: |R| <= i < |xi| ==> eta[i] == xi[i]
  {
    var n := Width(R);
    seq(|xi|, i requires 0 <= i < |xi| => if i < |R| then xi[i] + R[i][n - 1] else xi[i])
  }
}

=== FILE: lineq_findings.dfy ===
/**
  Concrete systems on which the Rust solver's basic-solution loop and particular
  solution go wrong, next to what the corrected construction gives. Each
  matrix here is already in reduced row echelon form, so it is also the
  reduced form the solver works on.
 */
module LinearEquationsFindings {
  import opened Outcomes
  import opened Elimination
  import opened LinearSystems
  import opened LinearEquations

  /** x1 + x2 + x4 = 0, x3 + x4 = 0: the pivot of row 2 is in column 3, not
      column 2. */
  const Shifted: seq<seq<real>> := [[1.0, 1.0, 0.0, 1.0, 0.0], [0.0, 0.0, 1.0, 1.0, 0.0]]

  /** x1 + x2 = 0 written with two extra zero equations: more rows than
      unknowns. */
  const Tall: seq<seq<real>> := [[1.0, 1.0, 0.0], [0.0, 0.0, 0.0], [0.0, 0.0, 0.0]]

  /** x1 + x2 = 1, x3 = 1. */
  const Offset: seq<seq<real>> := [[1.0, 1.0, 0.0, 1.0], [0.0, 0.0, 1.0, 1.0]]

  lemma ShiftedIsReduced()
    ensures IsRref(Shifted) && ReducedRowEchelonForm(Shifted) == Shifted
  {
    assert Lead(Shifted[0]) == 0;
    assert Lead(Shifted[1][1..]) == 1;
    assert Lead(Shifted[1]) == 2;
    RrefIsFixedPoint(Shifted);
  }

  // The loop state on `Shifted` before columns 1 (x2), 2, 3 and after 4.
  const ShiftedAfter1: Sweep := Sweep([0], [], [])
  const ShiftedAfter2: Sweep := Sweep([0], [1], [[-1.0, 1.0, 0.0, 0.0]])
  const ShiftedAfter3: Sweep := Sweep([0, 1], [1], [[-1.0, 1.0, 0.0, 0.0]])
  const ShiftedAfter4: Sweep := Sweep([0, 1], [1, 3], [[-1.0, 1.0, 0.0, 0.0], [-1.0, -1.0, 0.0, 1.0]])

  lemma ShiftedColumn1()
    ensures SweepAsWritten(Shifted, 5, 0, Sweep([], [], [])) == SweepAsWritten(Shifted, 5, 1, ShiftedAfter1)
  {
    var acc := Sweep([], [], []);
    assert Width(Shifted) == 5;
    assert SweepShape(Shifted, 5, acc);
    var col := Col(Shifted, 0);
    assert col == [1.0, 0.0];
    assert NonZeroRows([1.0, 0.0], 1) == [];
    var nz := NonZeroRows(col, 0);
    assert nz == [0];
    assert nz[0] !in acc.mainRows;
    assert acc.(mainRows := acc.mainRows + [nz[0]]) == ShiftedAfter1;
    assert SweepAsWritten(Shifted, 5, 0, acc) == SweepAsWritten(Shifted, 5, 1, acc.(mainRows := acc.mainRows + [nz[0]]));
  }

  lemma ShiftedColumn2()
    ensures SweepAsWritten(Shifted, 5, 1, ShiftedAfter1) == SweepAsWritten(Shifted, 5, 2, ShiftedAfter2)
  {
    var acc := ShiftedAfter1;
    assert Width(Shifted) == 5;
    var col := Col(Shifted, 1);
    assert col == [1.0, 0.0];
    assert NonZeroRows([1.0, 0.0], 1) == [];
    var nz := NonZeroRows(col, 0);
    assert nz == [0];
    assert nz[0] in acc.mainRows;
    var padded := seq(|col|, i requires 0 <= i < |col| => -col[i]) + Zeros(2);
    assert padded[1 := 1.0] == [-1.0, 1.0, 0.0, 0.0];
    assert Sweep(acc.mainRows, acc.columns + [1], acc.basis + [padded[1 := 1.0]]) == ShiftedAfter2;
  }

  lemma ShiftedColumn3()
    ensures SweepAsWritten(Shifted, 5, 2, ShiftedAfter2) == SweepAsWritten(Shifted, 5, 3, ShiftedAfter3)
  {
    var acc := ShiftedAfter2;
    assert Width(Shifted) == 5;
    var col := Col(Shifted, 2);
    assert col == [0.0, 1.0];
    assert NonZeroRows([0.0, 1.0], 1) == [1];
    var nz := NonZeroRows(col, 0);
    assert nz == [1];
    assert nz[0] !in acc.mainRows;
    assert acc.(mainRows := acc.mainRows + [nz[0]]) == ShiftedAfter3;
  }

  lemma ShiftedAfter4Shape()
    ensures SweepShape(Shifted, 5, ShiftedAfter4)
  {
    var b := ShiftedAfter4.basis;
    assert b[0] == [-1.0, 1.0, 0.0, 0.0] && b[1] == [-1.0, -1.0, 0.0, 1.0];
    assert Shifted[0][1] == 1.0 && Shifted[1][1] == 0.0;
    assert Shifted[0][3] == 1.0 && Shifted[1][3] == 1.0;
  }

  lemma ShiftedColumn4()
    ensures SweepAsWritten(Shifted, 5, 3, ShiftedAfter3) == Ok(ShiftedAfter4)
  {
    var acc := ShiftedAfter3;
    assert Width(Shifted) == 5;
    var col := Col(Shifted, 3);
    assert col == [1.0, 1.0];
    assert NonZeroRows([1.0, 1.0], 2) == [];
    assert NonZeroRows([1.0, 1.0], 1) == [1];
    var nz := NonZeroRows(col, 0);
    assert nz == [0, 1];
    var padded := seq(|col|, i requires 0 <= i < |col| => -col[i]) + Zeros(2);
    assert padded[3 := 1.0] == [-1.0, -1.0, 0.0, 1.0];
    assert Sweep(acc.mainRows, acc.columns + [3], acc.basis + [padded[3 := 1.0]]) == ShiftedAfter4;
    ShiftedAfter4Shape();
    assert SweepAsWritten(Shifted, 5, 4, ShiftedAfter4) == Ok(ShiftedAfter4);
  }

  lemma SumOfThree(s: seq<real>)
    requires |s| == 3
    ensures Sum(s) == s[0] + s[1] + s[2]
  {
    var s2 := s[..2];
    var s1 := s2[..1];
    assert s1[..0] == [];
    assert Sum(s1) == s[0];
    assert Sum(s2) == s[0] + s[1];
  }

  lemma SumOfFour(s: seq<real>)
    requires |s| == 4
    ensures Sum(s) == s[0] + s[1] + s[2] + s[3]
  {
    SumOfThree(s[..3]);
  }

  /** The Rust solver's loop on `Shifted` pushes (-1, -1, 0, 1) for x4: the -1 of
      row 2 lands on x2 instead of x3, and the vector violates equation 1. */
  lemma ShiftedBasicSolutionAsWritten()
    ensures BasicSolutionsAsWritten(Shifted).Ok?
    ensures BasicSolutionsAsWritten(Shifted).value == [[-1.0, 1.0, 0.0, 0.0], [-1.0, -1.0, 0.0, 1.0]]
    ensures !SolvesHomogeneous(Shifted, [-1.0, -1.0, 0.0, 1.0])
  {
    ShiftedColumn1();
    ShiftedColumn2();
    ShiftedColumn3();
    ShiftedColumn4();
    var x := [-1.0, -1.0, 0.0, 1.0];
    assert Shifted[0][..4] == [1.0, 1.0, 0.0, 1.0];
    var P := Products(Shifted[0][..4], x);
    assert P == [-1.0, -1.0, 0.0, 1.0];
    SumOfFour(P);
  }

  /** The corrected basic solutions of `Shifted` solve it. */
  lemma ShiftedBasicSolutionsCorrected()
    ensures Reduced(Shifted, 2) && forall i :: 0 <= i < 2 ==> Lead(Shifted[i]) < Width(Shifted) - 1
    ensures BasicSolutions(Shifted, 2).Ok?
    ensures forall k :: 0 <= k < |BasicSolutions(Shifted, 2).value| ==>
      SolvesHomogeneous(Shifted, BasicSolutions(Shifted, 2).value[k])
  {
    assert Lead(Shifted[0]) == 0;
    assert Lead(Shifted[1][1..]) == 1;
    assert Lead(Shifted[1]) == 2;
    forall c | 0 <= c < 4
      ensures !IsZeroColumn(Shifted, c)
    {
      if c == 2 {
        assert Shifted[1][2] != 0.0;
      } else {
        assert Shifted[0][c] != 0.0;
      }
    }
  }

  /** On `Tall` the Rust solver pads column x2 (three entries) to 3 - 1 - 3
      entries: the subtraction goes below zero. */
  lemma TallUnderflowsAsWritten()
    ensures BasicSolutionsAsWritten(Tall) == Err(Underflow)
  {
    assert Width(Tall) == 3;
    TallColumn0();
    TallColumn1();
  }

  /** Column x1 of `Tall` makes row 0 a main row. */
  lemma TallColumn0()
    ensures SweepAsWritten(Tall, 3, 0, Sweep([], [], [])) == SweepAsWritten(Tall, 3, 1, Sweep([0], [], []))
  {
    var col0 := Col(Tall, 0);
    assert col0 == [1.0, 0.0, 0.0];
    assert NonZeroRows(col0, 2) == [] && NonZeroRows(col0, 1) == [];
    assert NonZeroRows(col0, 0) == [0];
  }

  /** Column x2 of `Tall` is the one whose padding underflows. */
  lemma TallColumn1()
    ensures SweepAsWritten(Tall, 3, 1, Sweep([0], [], [])) == Err(Underflow)
  {
    var col1 := Col(Tall, 1);
    assert col1 == [1.0, 0.0, 0.0];
    assert NonZeroRows(col1, 2) == [] && NonZeroRows(col1, 1) == [];
    assert NonZeroRows(col1, 0) == [0];
  }

  lemma TallIsReduced()
    ensures Reduced(Tall, 1) && Lead(Tall[0]) == 0 && Width(Tall) == 3
  {
    assert Lead(Tall[0]) == 0;
    assert forall r, c :: 1 <= r < 3 && 0 <= c < 3 ==> Tall[r][c] == 0.0;
    assert forall i :: 0 <= i < 3 && i != 0 ==> Tall[i][0] == 0.0;
  }

  /** `Tall` is its own reduced form, so the solver's elimination leaves it
      as it is. */
  lemma TallIsFixedPoint()
    ensures IsRref(Tall) && ReducedRowEchelonForm(Tall) == Tall
  {
    TallIsRref();
    RrefIsFixedPoint(Tall);
  }

  lemma TallIsRref()
    ensures IsRref(Tall)
  {
    assert Lead(Tall[0]) == 0 && Tall[0][0] == 1.0;
    assert Lead(Tall[1]) == 3 && Lead(Tall[2]) == 3;
    assert Tall[1][0] == 0.0 && Tall[2][0] == 0.0;
  }

  /** The corrected construction gives `Tall` its one basic solution. */
  lemma TallBasicSolutionsCorrected()
    ensures Reduced(Tall, 1) && forall i :: 0 <= i < 1 ==> Lead(Tall[i]) < Width(Tall) - 1
    ensures BasicSolutions(Tall, 1).Ok?
    ensures BasicSolutions(Tall, 1).value == [[-1.0, 1.0]]
    ensures SolvesHomogeneous(Tall, [-1.0, 1.0])
  {
    TallIsReduced();
    assert !IsZeroColumn(Tall, 0) && !IsZeroColumn(Tall, 1);
    assert PivotRow(Tall, 1, 0, 0) == Some(0);
    assert PivotRow(Tall, 1, 1, 1) == None;
    assert FreeUnknowns(Tall, 1, 2) == [];
    assert FreeUnknowns(Tall, 1, 1) == [1];
    assert FreeUnknowns(Tall, 1, 0) == [1];
    assert Basic(Tall, 1, 1) == [-1.0, 1.0];
    BasicSolvesHomogeneous(Tall, 1, 1);
  }

  // The loop state on `Offset` after column x1 and after x2.
  const OffsetAfter1: Sweep := Sweep([0], [], [])
  const OffsetAfter2: Sweep := Sweep([0], [1], [[-1.0, 1.0, 0.0]])

  lemma OffsetColumn1()
    ensures SweepAsWritten(Offset, 4, 0, Sweep([], [], [])) == SweepAsWritten(Offset, 4, 1, OffsetAfter1)
  {
    assert Width(Offset) == 4;
    var col0 := Col(Offset, 0);
    assert col0 == [1.0, 0.0];
    assert NonZeroRows(col0, 1) == [];
    var acc := Sweep([], [], []);
    var nz := NonZeroRows(col0, 0);
    assert nz == [0];
    assert nz[0] !in acc.mainRows;
    assert acc.(mainRows := acc.mainRows + [nz[0]]) == OffsetAfter1;
  }

  lemma OffsetColumn2()
    ensures SweepAsWritten(Offset, 4, 1, OffsetAfter1) == SweepAsWritten(Offset, 4, 2, OffsetAfter2)
  {
    assert Width(Offset) == 4;
    var col1 := Col(Offset, 1);
    assert col1 == [1.0, 0.0];
    assert NonZeroRows(col1, 1) == [];
    var nz1 := NonZeroRows(col1, 0);
    assert nz1 == [0];
    assert nz1[0] in OffsetAfter1.mainRows;
    var padded := seq(|col1|, i requires 0 <= i < |col1| => -col1[i]) + Zeros(1);
    assert padded[1 := 1.0] == [-1.0, 1.0, 0.0];
    assert Sweep(OffsetAfter1.mainRows, OffsetAfter1.columns + [1], OffsetAfter1.basis + [padded[1 := 1.0]]) == OffsetAfter2;
  }

  lemma OffsetColumn3()
    ensures SweepAsWritten(Offset, 4, 2, OffsetAfter2) == Ok(Sweep([0, 1], [1], [[-1.0, 1.0, 0.0]]))
  {
    assert Width(Offset) == 4;
    var col2 := Col(Offset, 2);
    assert col2 == [0.0, 1.0];
    assert NonZeroRows(col2, 1) == [1];
    var nz := NonZeroRows(col2, 0);
    assert nz == [1];
    assert nz[0] !in OffsetAfter2.mainRows;
    var last := OffsetAfter2.(mainRows := OffsetAfter2.mainRows + [nz[0]]);
    assert last == Sweep([0, 1], [1], [[-1.0, 1.0, 0.0]]);
    assert SweepAsWritten(Offset, 4, 3, last) == Ok(last);
  }

  lemma OffsetRejects()
    ensures !Solves(Offset, [0.0, 2.0, 0.0])
  {
    assert Offset[0][..3] == [1.0, 1.0, 0.0];
    var P := Products(Offset[0][..3], [0.0, 2.0, 0.0]);
    assert P == [0.0, 2.0, 0.0];
    SumOfThree(P);
    assert !Satisfies(Offset[0], [0.0, 2.0, 0.0]);
  }

  lemma OffsetShifts()
    ensures OneSolutionAsWritten(Offset, [-1.0, 1.0, 0.0]) == [0.0, 2.0, 0.0]
  {
    var eta := OneSolutionAsWritten(Offset, [-1.0, 1.0, 0.0]);
    assert eta[0] == 0.0 && eta[1] == 2.0 && eta[2] == 0.0;
  }

  /** The Rust solver shows (0, 2, 0) as a solution of `Offset`: the right-hand
      side of row 2 is added to x2 instead of x3, and equation 1 reads
      0 + 2 = 1. */
  lemma OffsetOneSolutionAsWritten()
    ensures BasicSolutionsAsWritten(Offset) == Ok([[-1.0, 1.0, 0.0]])
    ensures OneSolutionAsWritten(Offset, [-1.0, 1.0, 0.0]) == [0.0, 2.0, 0.0]
    ensures !Solves(Offset, [0.0, 2.0, 0.0])
  {
    OffsetColumn1();
    OffsetColumn2();
    OffsetColumn3();
    OffsetShifts();
    OffsetRejects();
  }

  /** The corrected particular solution of `Offset` is (0, 1, 1): the
      right-hand sides (1, 1) on the pivot unknowns x1 and x3, plus the first
      basic solution (-1, 1, 0). */
  lemma OffsetIsReduced()
    ensures Reduced(Offset, 2) && Lead(Offset[0]) == 0 && Lead(Offset[1]) == 2
  {
    assert Lead(Offset[0]) == 0;
    assert Lead(Offset[1][1..]) == 1;
    assert Lead(Offset[1]) == 2;
  }

  /** `Offset` is its own reduced form, so the solver's elimination leaves it
      as it is. */
  lemma OffsetIsFixedPoint()
    ensures IsRref(Offset) && ReducedRowEchelonForm(Offset) == Offset
  {
    assert Lead(Offset[0]) == 0;
    assert Lead(Offset[1][1..]) == 1;
    assert Lead(Offset[1]) == 2;
    RrefIsFixedPoint(Offset);
  }

  lemma OffsetOneSolutionCorrected()
    ensures Reduced(Offset, 2) && SolvesHomogeneous(Offset, [-1.0, 1.0, 0.0])
    ensures OneSolution(Offset, 2, [-1.0, 1.0, 0.0]) == [0.0, 1.0, 1.0]
    ensures Solves(Offset, [0.0, 1.0, 1.0])
  {
    OffsetIsReduced();
    assert PivotRow(Offset, 2, 0, 0) == Some(0);
    assert PivotRow(Offset, 2, 1, 2) == None;
    assert PivotRow(Offset, 2, 1, 1) == None;
    assert PivotRow(Offset, 2, 1, 0) == None;
    assert PivotRow(Offset, 2, 2, 1) == Some(1);
    assert PivotRow(Offset, 2, 2, 0) == Some(1);
    assert Particular(Offset, 2) == [1.0, 0.0, 1.0];
    assert Basic(Offset, 2, 1) == [-1.0, 1.0, 0.0];
    BasicSolvesHomogeneous(Offset, 2, 1);
  }
}

=== FILE: matrix.dfy ===
/**
  The shared matrix container: a list of rows. Matrices are read from text
  one row per line, cells separated by whitespace, blank lines ignored, and
  printed as TeX array bodies (cells joined by ` & `, rows by ` \\[1ex] `).
  The cell syntax is a parameter: decimal integers, exact fractions, or
  anything else with a partial parser.
 */
module Matrices {
  import opened Outcomes

  type Matrix<T> = seq<seq<T>>

  /** Every row has the same length. */
  predicate Rectangular<T>(m: Matrix<T>) {
    forall i, j :: 0 <= i < |m| && 0 <= j < |m| ==> |m[i]| == |m[j]|
  }

  /** Rows, and the length of the first row; a matrix without rows has no
      shape. */
  function Shape<T>(m: Matrix<T>): (r: (nat, nat))
    requires |m| > 0
    ensures r.0 == |m|
    ensures Rectangular(m) ==> forall i :: 0 <= i < |m| ==> |m[i]| == r.1
  {
    (|m|, |m[0]|)
  }

  /** Apply f to every cell, keeping each cell where it is. */
  function Map<T, U>(m: Matrix<T>, f: T -> U): (r: Matrix<U>)
    ensures |r| == |m|
    ensures forall i :: 0 <= i < |m| ==> |r[i]| == |m[i]|
    ensures forall i, j :: 0 <= i < |m| && 0 <= j < |m[i]| ==> r[i][j] == f(m[i][j])
  {
    seq(|m|, i requires 0 <= i < |m| => seq(|m[i]|, j requires 0 <= j < |m[i]| => f(m[i][j])))
  }

  lemma MapKeepsShape<T, U>(m: Matrix<T>, f: T -> U)
    requires Rectangular(m) && |m| > 0
    ensures Rectangular(Map(m, f)) && Shape(Map(m, f)) == Shape(m)
  {
  }

  // ---------------------------------------------------------------------
  // Splitting and joining text

  /** Pieces of s between separator characters; like splitting on a
      character predicate, there is always at least one (possibly empty)
      piece. */
  function SplitBy(s: string, isSep: char -> bool): (r: seq<string>)
    ensures |r| > 0
    ensures forall i, k :: 0 <= i < |r| && 0 <= k < |r[i]| ==> !isSep(r[i][k])
    decreases |s|
  {
    if s == [] then [""]
    else
      var rest := SplitBy(s[1..], isSep);
      if isSep(s[0]) then [""] + rest
      else
        var first := [s[0]] + rest[0];
        assert forall k :: 1 <= k < |first| ==> first[k] == rest[0][k - 1];
        [first] + rest[1..]
  }

  /** The parts with sep between consecutive parts. */
  function JoinWith(parts: seq<string>, sep: string): string {
    if |parts| == 0 then ""
    else if |parts| == 1 then parts[0]
    else parts[0] + sep + JoinWith(parts[1..], sep)
  }

  lemma {:induction false} SplitJoinRoundTrip(s: string, isSep: char -> bool, sep: char)
    requires forall c :: isSep(c) <==> c == sep
    ensures JoinWith(SplitBy(s, isSep), [sep]) == s
    decreases |s|
  {
    if s != [] {
      var rest := SplitBy(s[1..], isSep);
      SplitJoinRoundTrip(s[1..], isSep, sep);
      if !isSep(s[0]) && |rest| > 1 {
        assert JoinWith(rest, [sep]) == rest[0] + [sep] + JoinWith(rest[1..], [sep]);
        assert s == [s[0]] + s[1..];
      }
    }
  }

  lemma {:induction false} JoinSplitRoundTrip(parts: seq<string>, isSep: char -> bool, sep: char)
    requires |parts| > 0 && isSep(sep)
    requires forall i, k :: 0 <= i < |parts| && 0 <= k < |parts[i]| ==> !isSep(parts[i][k])
    ensures SplitBy(JoinWith(parts, [sep]), isSep) == parts
    decreases |parts|, |parts[0]|
  {
    var s := JoinWith(parts, [sep]);
    if |parts[0]| > 0 {
      var shorter := [parts[0][1..]] + parts[1..];
      assert JoinWith(shorter, [sep]) == s[1..] by {
        if |parts| == 1 {
        } else {
          assert JoinWith(shorter, [sep]) == parts[0][1..] + [sep] + JoinWith(parts[1..], [sep]);
        }
      }
      JoinSplitRoundTrip(shorter, isSep, sep);
      assert s[0] == parts[0][0];
      assert [s[0]] + parts[0][1..] == parts[0];
    } else if |parts| > 1 {
      JoinSplitRoundTrip(parts[1..], isSep, sep);
      assert s == [sep] + JoinWith(parts[1..], [sep]);
      assert s[1..] == JoinWith(parts[1..], [sep]);
    }
  }

  /** The pieces of a list that are not empty, in order. */
  function NonEmpty(pieces: seq<string>): (r: seq<string>)
    ensures forall i :: 0 <= i < |r| ==> r[i] != []
  {
    if pieces == [] then []
    else if pieces[0] == [] then NonEmpty(pieces[1..])
    else [pieces[0]] + NonEmpty(pieces[1..])
  }

  lemma {:induction false} NonEmptyKeeps(pieces: seq<string>)
    requires forall i :: 0 <= i < |pieces| ==> pieces[i] != []
    ensures NonEmpty(pieces) == pieces
  {
    if pieces != [] {
      NonEmptyKeeps(pieces[1..]);
    }
  }

  lemma {:induction false} NonEmptyKeepsLetters(pieces: seq<string>, isSep: char -> bool)
    requires forall i, k :: 0 <= i < |pieces| && 0 <= k < |pieces[i]| ==> !isSep(pieces[i][k])
    ensures forall i, k :: 0 <= i < |NonEmpty(pieces)| && 0 <= k < |NonEmpty(pieces)[i]| ==> !isSep(NonEmpty(pieces)[i][k])
  {
    if pieces != [] {
      NonEmptyKeepsLetters(pieces[1..], isSep);
    }
  }

  /** Unicode White_Space characters, the set Rust's char::is_whitespace
      accepts. */
  predicate IsWhitespace(c: char) {
    ('\t' <= c <= '\r') || c == ' ' || c == '\U{85}' || c == '\U{A0}' || c == '\U{1680}'
    || ('\U{2000}' <= c <= '\U{200A}') || c == '\U{2028}' || c == '\U{2029}'
    || c == '\U{202F}' || c == '\U{205F}' || c == '\U{3000}'
  }

  predicate IsNewline(c: char) {
    c == '\n'
  }

  function Lines(s: string): seq<string> {
    SplitBy(s, IsNewline)
  }

  /** The maximal runs of non-whitespace characters. */
  function Words(line: string): (r: seq<string>)
    ensures forall i :: 0 <= i < |r| ==> r[i] != []
    ensures forall i, k :: 0 <= i < |r| && 0 <= k < |r[i]| ==> !IsWhitespace(r[i][k])
  {
    NonEmptyKeepsLetters(SplitBy(line, IsWhitespace), IsWhitespace);
    NonEmpty(SplitBy(line, IsWhitespace))
  }

  lemma EmptyHasNoWords()
    ensures Words("") == []
  {
    assert SplitBy("", IsWhitespace) == [""];
    assert NonEmpty([""]) == NonEmpty([]);
  }

  /** Splitting into lines and joining them back with newlines gives the
      text back. */
  lemma LinesRoundTrip(s: string)
    ensures JoinWith(Lines(s), "\n") == s
  {
    SplitJoinRoundTrip(s, IsNewline, '\n');
  }

  /** Words written out with single spaces are split back into the same
      words. */
  lemma WordsRoundTrip(words: seq<string>)
    requires forall i :: 0 <= i < |words| ==> words[i] != []
    requires forall i, k :: 0 <= i < |words| && 0 <= k < |words[i]| ==> !IsWhitespace(words[i][k])
    ensures Words(JoinWith(words, " ")) == words
  {
    if words != [] {
      JoinSplitRoundTrip(words, IsWhitespace, ' ');
      NonEmptyKeeps(words);
    } else {
      EmptyHasNoWords();
    }
  }

  // ---------------------------------------------------------------------
  // Reading a matrix

  /** The words of every line that has at least one word. */
  function Grid(lines: seq<string>): (g: Matrix<string>)
    ensures forall i :: 0 <= i < |g| ==> |g[i]| > 0
  {
    if lines == [] then []
    else if Words(lines[0]) == [] then Grid(lines[1..])
    else [Words(lines[0])] + Grid(lines[1..])
  }

  predicate AllParse<T>(g: Matrix<string>, parse: string -> Option<T>) {
    forall i, j :: 0 <= i < |g| && 0 <= j < |g[i]| ==> parse(g[i][j]).Some?
  }

  /** Parse every word of a line, failing if any word fails. */
  function ParseRow<T>(words: seq<string>, parse: string -> Option<T>): Option<seq<T>> {
    if words == [] then Some([])
    else match (parse(words[0]), ParseRow(words[1..], parse))
      case (Some(x), Some(xs)) => Some([x] + xs)
      case _ => None
  }

  /** Parse every line, dropping lines without words, failing if any word
      fails. */
  function ParseLines<T>(lines: seq<string>, parse: string -> Option<T>): Option<Matrix<T>> {
    if lines == [] then Some([])
    else Prepend(ParseRow(Words(lines[0]), parse), ParseLines(lines[1..], parse))
  }

  /** A parsed line in front of the parsed lines after it; an empty line
      adds no row. */
  function Prepend<T>(row: Option<seq<T>>, rest: Option<Matrix<T>>): Option<Matrix<T>> {
    match (row, rest)
    case (Some(row), Some(rest)) => Some(if row == [] then rest else [row] + rest)
    case _ => None
  }

  function AllEqualLengths<T>(rows: Matrix<T>): bool {
    forall i :: 0 <= i < |rows| ==> |rows[i]| == |rows[0]|
  }

  /** Read a matrix: the text is split into lines, lines into words, lines
      without words are dropped, every word must parse and all rows must be
      equally long. Text without any word reads as the matrix with no rows. */
  function FromText<T>(s: string, parse: string -> Option<T>): (r: Option<Matrix<T>>)
    ensures r.Some? <==> AllParse(Grid(Lines(s)), parse) && Rectangular(Grid(Lines(s)))
    ensures r.Some? ==>
      var g := Grid(Lines(s));
      |r.value| == |g| &&
      (forall i :: 0 <= i < |g| ==> |r.value[i]| == |g[i]|) &&
      (forall i, j :: 0 <= i < |g| && 0 <= j < |g[i]| ==> r.value[i][j] == parse(g[i][j]).value)
  {
    ParseLinesMatchesGrid(Lines(s), parse);
    match ParseLines(Lines(s), parse)
    case None => None
    case Some(rows) => if AllEqualLengths(rows) then Some(rows) else None
  }

  lemma {:induction false} ParseRowMatches<T>(words: seq<string>, parse: string -> Option<T>)
    ensures ParseRow(words, parse).Some? <==> forall j :: 0 <= j < |words| ==> parse(words[j]).Some?
    ensures ParseRow(words, parse).Some? ==>
      |ParseRow(words, parse).value| == |words| &&
      forall j :: 0 <= j < |words| ==> ParseRow(words, parse).value[j] == parse(words[j]).value
  {
    if words != [] {
      ParseRowMatches(words[1..], parse);
      if parse(words[0]).Some? && ParseRow(words[1..], parse).Some? {
        var xs := ParseRow(words[1..], parse).value;
        assert forall j :: 1 <= j < |words| ==> words[j] == words[1..][j - 1];
      } else if parse(words[0]).Some? {
        var j :| 0 <= j < |words[1..]| && parse(words[1..][j]).None?;
        assert parse(words[j + 1]).None?;
      }
    }
  }

  /** r is what parsing every word of g gives: present exactly when every
      word parses, and then of g's shape holding the parsed words. */
  ghost predicate ParsedGrid<T>(r: Option<Matrix<T>>, g: Matrix<string>, parse: string -> Option<T>) {
    (r.Some? <==> AllParse(g, parse)) &&
    (r.Some? ==>
      |r.value| == |g| &&
      (forall i :: 0 <= i < |g| ==> |r.value[i]| == |g[i]|) &&
      (forall i, j :: 0 <= i < |g| && 0 <= j < |g[i]| ==> r.value[i][j] == parse(g[i][j]).value))
  }

  /** The same for one line of words. */
  ghost predicate ParsedRow<T>(r: Option<seq<T>>, ws: seq<string>, parse: string -> Option<T>) {
    (r.Some? <==> forall j :: 0 <= j < |ws| ==> parse(ws[j]).Some?) &&
    (r.Some? ==> |r.value| == |ws| && forall j :: 0 <= j < |ws| ==> r.value[j] == parse(ws[j]).value)
  }

  /** A parsed non-empty line in front of a parsed grid is the parsed grid
      with that line on top. */
  lemma PrependParsed<T>(ws: seq<string>, tail: Matrix<string>, parse: string -> Option<T>,
                         row: Option<seq<T>>, rest: Option<Matrix<T>>)
    requires ws != [] && ParsedRow(row, ws, parse) && ParsedGrid(rest, tail, parse)
    ensures ParsedGrid(Prepend(row, rest), [ws] + tail, parse)
  {
    var g := [ws] + tail;
    assert forall i :: 1 <= i < |g| ==> g[i] == tail[i - 1];
    if !AllParse(tail, parse) {
      var i, j :| 0 <= i < |tail| && 0 <= j < |tail[i]| && parse(tail[i][j]).None?;
      assert parse(g[i + 1][j]).None?;
    }
    if row.None? {
      var j :| 0 <= j < |ws| && parse(ws[j]).None?;
      assert parse(g[0][j]).None?;
    }
  }

  lemma {:induction false} ParseLinesMatchesGrid<T>(lines: seq<string>, parse: string -> Option<T>)
    ensures ParsedGrid(ParseLines(lines, parse), Grid(lines), parse)
  {
    if lines != [] {
      var ws := Words(lines[0]);
      ParseRowMatches(ws, parse);
      ParseLinesMatchesGrid(lines[1..], parse);
      if ws != [] {
        PrependParsed(ws, Grid(lines[1..]), parse, ParseRow(ws, parse), ParseLines(lines[1..], parse));
      }
    }
  }

  /** Text written one row per line with single spaces between cells reads
      back as the matrix the cells parse to. */
  lemma TextRoundTrip<T>(g: Matrix<string>, parse: string -> Option<T>)
    requires Rectangular(g) && AllParse(g, parse)
    requires forall i :: 0 <= i < |g| ==> |g[i]| > 0
    requires forall i, j :: 0 <= i < |g| && 0 <= j < |g[i]| ==> g[i][j] != []
    requires forall i, j, k :: 0 <= i < |g| && 0 <= j < |g[i]| && 0 <= k < |g[i][j]| ==> !IsWhitespace(g[i][j][k])
    ensures FromText(JoinWith(seq(|g|, i requires 0 <= i < |g| => JoinWith(g[i], " ")), "\n"), parse).Some?
    ensures Grid(Lines(JoinWith(seq(|g|, i requires 0 <= i < |g| => JoinWith(g[i], " ")), "\n"))) == g
  {
    var texts := seq(|g|, i requires 0 <= i < |g| => JoinWith(g[i], " "));
    forall i | 0 <= i < |g|
      ensures Words(texts[i]) == g[i]
    {
      WordsRoundTrip(g[i]);
    }
    if g == [] {
      EmptyHasNoWords();
      assert Lines(JoinWith(texts, "\n")) == [""];
    } else {
      forall i, k | 0 <= i < |texts| && 0 <= k < |texts[i]|
        ensures !IsNewline(texts[i][k])
      {
        JoinKeepsOut(g[i], " ", '\n', k);
      }
      JoinSplitRoundTrip(texts, IsNewline, '\n');
      GridOfWordLines(texts, g);
    }
  }

  lemma {:induction false} GridOfWordLines(texts: seq<string>, g: Matrix<string>)
    requires |texts| == |g|
    requires forall i :: 0 <= i < |g| ==> Words(texts[i]) == g[i] && |g[i]| > 0
    ensures Grid(texts) == g
  {
    if texts != [] {
      GridOfWordLines(texts[1..], g[1..]);
    }
  }

  lemma {:induction false} JoinKeepsOut(parts: seq<string>, sep: string, c: char, k: int)
    requires c !in sep
    requires forall i, k :: 0 <= i < |parts| && 0 <= k < |parts[i]| ==> !IsWhitespace(parts[i][k])
    requires IsWhitespace(c)
    requires 0 <= k < |JoinWith(parts, sep)|
    ensures JoinWith(parts, sep)[k] != c
    decreases |parts|
  {
    if |parts| > 1 {
      var rest := JoinWith(parts[1..], sep);
      assert JoinWith(parts, sep) == parts[0] + sep + rest;
      if k >= |parts[0]| + |sep| {
        JoinKeepsOut(parts[1..], sep, c, k - |parts[0]| - |sep|);
      }
    }
  }

  // ---------------------------------------------------------------------
  // Showing a matrix

  /** The TeX line break placed between rows. */
  const RowBreak: string := @" \\[1ex] "

  function ShowRow<T>(row: seq<T>, show: T -> string): string {
    JoinWith(seq(|row|, j requires 0 <= j < |row| => show(row[j])), " & ")
  }

  /** Rows joined by the TeX line break; a matrix without rows shows as
      nothing. */
  function Show<T>(m: Matrix<T>, show: T -> string): string {
    JoinWith(seq(|m|, i requires 0 <= i < |m| => ShowRow(m[i], show)), RowBreak)
  }

  /** Pieces of s between occurrences of sep, taking the leftmost occurrence
      first. */
  function SplitOn(s: string, sep: string): (r: seq<string>)
    requires |sep| > 0
    ensures |r| > 0
    decreases |s|
  {
    if |s| < |sep| then [s]
    else if s[..|sep|] == sep then [""] + SplitOn(s[|sep|..], sep)
    else
      var rest := SplitOn(s[1..], sep);
      [[s[0]] + rest[0]] + rest[1..]
  }

  /** Joining with sep and splitting on it gives the parts back when some
      character of sep, found nowhere before it in sep, occurs in no part:
      then no occurrence of sep can start inside a part. */
  lemma {:induction false} JoinSplitOnRoundTrip(parts: seq<string>, sep: string, q: nat)
    requires |parts| > 0 && q < |sep|
    requires forall j :: 0 <= j < q ==> sep[j] != sep[q]
    requires forall i, k :: 0 <= i < |parts| && 0 <= k < |parts[i]| ==> parts[i][k] != sep[q]
    ensures SplitOn(JoinWith(parts, sep), sep) == parts
    decreases |parts|, |parts[0]|
  {
    var s := JoinWith(parts, sep);
    if |parts[0]| > 0 {
      var shorter := [parts[0][1..]] + parts[1..];
      if |parts| == 1 {
        assert s == parts[0];
      } else {
        assert s == parts[0] + sep + JoinWith(parts[1..], sep);
        assert JoinWith(shorter, sep) == parts[0][1..] + sep + JoinWith(parts[1..], sep);
      }
      assert JoinWith(shorter, sep) == s[1..];
      if |s| >= |sep| {
        assert s[q] != sep[q] by {
          if q < |parts[0]| {
            assert s[q] == parts[0][q];
          } else {
            assert s[q] == sep[q - |parts[0]|];
          }
        }
        assert s[..|sep|] != sep by { assert s[..|sep|][q] == s[q]; }
      }
      JoinSplitOnRoundTrip(shorter, sep, q);
      assert [s[0]] + parts[0][1..] == parts[0];
    } else if |parts| > 1 {
      assert s == sep + JoinWith(parts[1..], sep);
      assert s[..|sep|] == sep && s[|sep|..] == JoinWith(parts[1..], sep);
      JoinSplitOnRoundTrip(parts[1..], sep, q);
      assert [""] + parts[1..] == parts;
    }
  }

  /** The rows of a shown matrix can be read back by splitting at the line
      breaks, as long as no shown row contains a `[`. */
  lemma ShowRoundTrip<T>(m: Matrix<T>, show: T -> string)
    requires |m| > 0
    requires forall i, k :: 0 <= i < |m| && 0 <= k < |ShowRow(m[i], show)| ==> ShowRow(m[i], show)[k] != '['
    ensures SplitOn(Show(m, show), RowBreak) == seq(|m|, i requires 0 <= i < |m| => ShowRow(m[i], show))
  {
    var rows := seq(|m|, i requires 0 <= i < |m| => ShowRow(m[i], show));
    assert RowBreak[3] == '[' && RowBreak[0] != '[' && RowBreak[1] != '[' && RowBreak[2] != '[';
    JoinSplitOnRoundTrip(rows, RowBreak, 3);
  }

  // ---------------------------------------------------------------------
  // Subsequences

  /** a is obtained from b by deleting entries. */
  predicate IsSubseq<T(==)>(a: seq<T>, b: seq<T>)
    decreases |b|
  {
    if |a| == 0 then true
    else if |b| == 0 then false
    else (a[|a| - 1] == b[|b| - 1] && IsSubseq(a[..|a| - 1], b[..|b| - 1])) || IsSubseq(a, b[..|b| - 1])
  }

  lemma SubseqSkip<T>(a: seq<T>, b: seq<T>, x: T)
    requires IsSubseq(a, b)
    ensures IsSubseq(a, b + [x])
  {
    assert (b + [x])[..|b|] == b;
  }

  lemma SubseqKeep<T>(a: seq<T>, b: seq<T>, x: T)
    requires IsSubseq(a, b)
    ensures IsSubseq(a + [x], b + [x])
  {
    assert (a + [x])[..|a|] == a;
    assert (b + [x])[..|b|] == b;
  }

  lemma {:induction false} SubseqMembers<T>(a: seq<T>, b: seq<T>)
    requires IsSubseq(a, b)
    ensures forall x :: x in a ==> x in b
    decreases |b|
  {
    if |a| > 0 {
      var a', b' := a[..|a| - 1], b[..|b| - 1];
      if a[|a| - 1] == b[|b| - 1] && IsSubseq(a', b') {
        SubseqMembers(a', b');
        assert a == a' + [a[|a| - 1]];
        assert b == b' + [b[|b| - 1]];
      } else {
        SubseqMembers(a, b');
        assert b == b' + [b[|b| - 1]];
      }
    }
  }
}

=== FILE: outcomes.dfy ===
/** Optional values and fallible results, used wherever the Rust solver returns
    `Option`, `Result`, or reports an error string instead of a value. */
module Outcomes {

  datatype Option<T> = None | Some(value: T)

  datatype Result<T, E> = Ok(value: T) | Err(error: E)
}

=== FILE: propositional.dfy ===
/**
  The truth-table solver for propositional formulas: a formula tree is
  evaluated under every assignment of its propositions (sorted, each row
  listing `true` before `false`), and the full disjunctive and conjunctive
  normal forms are read off the table, one clause per true (resp. false)
  row. The same logic appears twice in the repository, once inside the
  solver collection and once as a standalone program; it is modelled once.
 */
module Propositional {
  import opened Decimal
  import opened Matrices

  datatype Operator = Conjunction | Disjunction | Implication | Equivalence

  datatype Expr =
    | Literal(value: bool)
    | Proposition(name: string)
    | Negation(operand: Expr)
    | BinOp(lhs: Expr, op: Operator, rhs: Expr)

  /** The meaning of each binary connective. */
  function Apply(op: Operator, l: bool, r: bool): bool {
    match op
    case Conjunction => l && r
    case Disjunction => l || r
    case Implication => !l || r
    case Equivalence => l == r
  }

  /** The names occurring as propositions; literals contribute none. */
  function Propositions(e: Expr): set<string> {
    match e
    case Literal(_) => {}
    case Proposition(p) => {p}
    case Negation(x) => Propositions(x)
    case BinOp(l, _, r) => Propositions(l) + Propositions(r)
  }

  /** The value of e when every proposition takes its value from a. The
      source indexes the assignment, which panics on a missing name, so the
      assignment must cover the propositions. */
  function Eval(e: Expr, a: map<string, bool>): bool
    requires Propositions(e) <= a.Keys
  {
    match e
    case Literal(v) => v
    case Proposition(p) => a[p]
    case Negation(x) => !Eval(x, a)
    case BinOp(l, op, r) => Apply(op, Eval(l, a), Eval(r, a))
  }

  /** The value depends only on the propositions of e. */
  lemma {:induction false} EvalAgrees(e: Expr, a: map<string, bool>, b: map<string, bool>)
    requires Propositions(e) <= a.Keys && Propositions(e) <= b.Keys
    requires forall p :: p in Propositions(e) ==> a[p] == b[p]
    ensures Eval(e, a) == Eval(e, b)
  {
    match e
    case Literal(_) =>
    case Proposition(_) =>
    case Negation(x) => EvalAgrees(x, a, b);
    case BinOp(l, _, r) =>
      EvalAgrees(l, a, b);
      EvalAgrees(r, a, b);
  }

  // ---------------------------------------------------------------------
  // Words as terms

  function AsciiLower(s: string): (t: string)
    ensures |t| == |s|
  {
    seq(|s|, i requires 0 <= i < |s| => if 'A' <= s[i] <= 'Z' then (s[i] as int + 32) as char else s[i])
  }

  /** A proposition word of the grammar: `t`/`true` and `f`/`false`, in
      any ASCII case, are the constants; any other word is a proposition
      named by the word as written. */
  function FromWord(w: string): (e: Expr)
    ensures e.Literal? || e.Proposition?
    ensures e.Literal? <==> AsciiLower(w) in ["t", "true", "f", "false"]
    ensures e.Literal? ==> (e.value <==> AsciiLower(w) in ["t", "true"])
    ensures e.Proposition? ==> e.name == w
    ensures Propositions(e) == if e.Literal? then {} else {w}
  {
    var l := AsciiLower(w);
    if l == "t" || l == "true" then Literal(true)
    else if l == "f" || l == "false" then Literal(false)
    else Proposition(w)
  }

  lemma WordExamples()
    ensures FromWord("TRUE") == Literal(true) && FromWord("F") == Literal(false)
    ensures FromWord("fAlSe") == Literal(false) && FromWord("P") == Proposition("P")
  {
    assert AsciiLower("TRUE") == "true";
    assert AsciiLower("F") == "f";
    assert AsciiLower("fAlSe") == "false";
    assert AsciiLower("P") == "p";
  }

  // ---------------------------------------------------------------------
  // Sorting proposition names

  /** a comes no later than b in character order. */
  predicate NoLater(a: string, b: string)
    decreases |a|
  {
    if a == [] then true
    else if b == [] then false
    else if a[0] != b[0] then a[0] < b[0]
    else NoLater(a[1..], b[1..])
  }

  lemma {:induction false} NoLaterTotal(a: string, b: string)
    ensures NoLater(a, b) || NoLater(b, a)
    decreases |a|
  {
    if a != [] && b != [] && a[0] == b[0] {
      NoLaterTotal(a[1..], b[1..]);
    }
  }

  lemma {:induction false} NoLaterAntisymmetric(a: string, b: string)
    requires NoLater(a, b) && NoLater(b, a)
    ensures a == b
    decreases |a|
  {
    if a != [] {
      NoLaterAntisymmetric(a[1..], b[1..]);
      assert a == [a[0]] + a[1..] && b == [b[0]] + b[1..];
    }
  }

  lemma {:induction false} NoLaterTransitive(a: string, b: string, c: string)
    requires NoLater(a, b) && NoLater(b, c)
    ensures NoLater(a, c)
    decreases |a|
  {
    if a != [] && a[0] == b[0] && b[0] == c[0] {
      NoLaterTransitive(a[1..], b[1..], c[1..]);
    }
  }

  lemma {:induction false} NoLaterReflexive(a: string)
    ensures NoLater(a, a)
    decreases |a|
  {
    if a != [] {
      NoLaterReflexive(a[1..]);
    }
  }

  /** m is the first name of s in character order. */
  predicate IsLeast(m: string, s: set<string>) {
    m in s && forall x :: x in s ==> NoLater(m, x)
  }

  /** Adding a name to a set with a least name leaves a least name. */
  lemma LeastOfAdded(m: string, y: string, rest: set<string>) returns (n: string)
    requires IsLeast(m, rest)
    ensures IsLeast(n, rest + {y})
  {
    NoLaterTotal(m, y);
    if NoLater(m, y) {
      n := m;
    } else {
      n := y;
      NoLaterReflexive(y);
      forall x | x in rest + {y}
        ensures NoLater(y, x)
      {
        if x != y {
          NoLaterTransitive(y, m, x);
        }
      }
    }
  }

  lemma {:induction false} LeastExists(s: set<string>)
    requires s != {}
    ensures exists m :: IsLeast(m, s)
    decreases |s|
  {
    var y :| y in s;
    var rest := s - {y};
    if rest == {} {
      assert s == {y};
      NoLaterReflexive(y);
      assert IsLeast(y, s);
    } else {
      LeastExists(rest);
      var m :| IsLeast(m, rest);
      var n := LeastOfAdded(m, y, rest);
      assert rest + {y} == s;
    }
  }

  /** Strictly increasing in character order. */
  predicate Sorted(ps: seq<string>) {
    forall i, j :: 0 <= i < j < |ps| ==> NoLater(ps[i], ps[j]) && ps[i] != ps[j]
  }

  /** Putting the least name of s in front of a sorted listing of the rest
      lists s in order. */
  lemma PrependLeast(m: string, rest: seq<string>, s: set<string>)
    requires m in s && forall x :: x in s ==> NoLater(m, x)
    requires Sorted(rest) && forall p :: p in rest <==> p in s - {m}
    ensures Sorted([m] + rest)
    ensures forall p :: p in [m] + rest <==> p in s
  {
    var ps := [m] + rest;
    forall i, j | 0 <= i < j < |ps|
      ensures NoLater(ps[i], ps[j]) && ps[i] != ps[j]
    {
      if i > 0 {
        assert ps[i] == rest[i - 1] && ps[j] == rest[j - 1];
      } else {
        assert ps[j] == rest[j - 1];
        assert ps[j] in s - {m};
      }
    }
  }

  /** The least element of a set of names is unique. */
  lemma LeastUnique(s: set<string>, m: string, n: string)
    requires m in s && forall x :: x in s ==> NoLater(m, x)
    requires n in s && forall x :: x in s ==> NoLater(n, x)
    ensures m == n
  {
    NoLaterAntisymmetric(m, n);
  }

  /** The first name of s in character order. */
  function Least(s: set<string>): (m: string)
    requires s != {}
    ensures m in s && forall x :: x in s ==> NoLater(m, x)
  {
    LeastExists(s);
    assert forall m, n | IsLeast(m, s) && IsLeast(n, s) :: m == n by {
      forall m, n | IsLeast(m, s) && IsLeast(n, s)
        ensures m == n
      {
        LeastUnique(s, m, n);
      }
    }
    var m :| IsLeast(m, s);
    m
  }

  /** The names in increasing order, as `sorted()` lists a set. */
  function SortedList(s: set<string>): (ps: seq<string>)
    ensures |ps| == |s| && Sorted(ps)
    ensures forall p :: p in ps <==> p in s
    decreases |s|
  {
    if s == {} then []
    else
      var m := Least(s);
      var rest := SortedList(s - {m});
      PrependLeast(m, rest, s);
      [m] + rest
  }

  // ---------------------------------------------------------------------
  // Rows of the truth table

  function Pow2(k: nat): (n: nat)
    ensures n >= 1
  {
    if k == 0 then 1 else 2 * Pow2(k - 1)
  }

  /** Every boolean vector of length k, as the cartesian product of k copies
      of [true, false] lists them: first component slowest, `true` first. */
  function Rows(k: nat): (R: seq<seq<bool>>)
    ensures |R| == Pow2(k)
    ensures forall i :: 0 <= i < |R| ==> |R[i]| == k
  {
    if k == 0 then [[]]
    else
      var T := Rows(k - 1);
      seq(|T|, i requires 0 <= i < |T| => [true] + T[i]) +
      seq(|T|, i requires 0 <= i < |T| => [false] + T[i])
  }

  /** u comes strictly before v when `true` counts as smaller. */
  predicate Before(u: seq<bool>, v: seq<bool>)
    requires |u| == |v|
    decreases |u|
  {
    |u| > 0 && ((u[0] && !v[0]) || (u[0] == v[0] && Before(u[1..], v[1..])))
  }

  lemma {:induction false} BeforeDiffers(u: seq<bool>, v: seq<bool>)
    requires |u| == |v| && Before(u, v)
    ensures u != v
    decreases |u|
  {
    if u[0] == v[0] {
      BeforeDiffers(u[1..], v[1..]);
      assert u[1..] != v[1..];
    }
  }

  /** The first half of the rows put `true` in front of the shorter rows,
      the second half `false`. */
  lemma RowsHalves(k: nat, i: nat)
    requires k > 0 && i < |Rows(k - 1)|
    ensures |Rows(k)| == 2 * |Rows(k - 1)|
    ensures Rows(k)[i] == [true] + Rows(k - 1)[i]
    ensures Rows(k)[|Rows(k - 1)| + i] == [false] + Rows(k - 1)[i]
  {
  }

  /** Where v stands among the rows of its length. */
  function RowIndex(v: seq<bool>): nat
    decreases |v|
  {
    if v == [] then 0
    else if v[0] then RowIndex(v[1..])
    else Pow2(|v| - 1) + RowIndex(v[1..])
  }

  /** Every vector of length k is a row, at its index. */
  lemma {:induction false} RowsComplete(k: nat, v: seq<bool>)
    requires |v| == k
    ensures RowIndex(v) < |Rows(k)| && Rows(k)[RowIndex(v)] == v
    decreases k
  {
    if k > 0 {
      var w, T := v[1..], Rows(k - 1);
      var i := RowIndex(w);
      RowsComplete(k - 1, w);
      RowsHalves(k, i);
      assert v == [v[0]] + w;
      assert T[i] == w;
      if v[0] {
        assert RowIndex(v) == i;
        assert Rows(k)[i] == [true] + w;
      } else {
        assert |T| == Pow2(k - 1);
        assert RowIndex(v) == |T| + i;
        assert Rows(k)[|T| + i] == [false] + w;
      }
    }
  }

  /** The rows are in strictly increasing order, hence all different. */
  lemma {:induction false} RowsOrdered(k: nat)
    ensures forall i, j :: 0 <= i < j < |Rows(k)| ==> Before(Rows(k)[i], Rows(k)[j])
    decreases k
  {
    if k > 0 {
      RowsOrdered(k - 1);
      forall i, j | 0 <= i < j < |Rows(k)|
        ensures Before(Rows(k)[i], Rows(k)[j])
      {
        RowsPairOrdered(k, Rows(k - 1), i, j);
      }
    }
  }

  /** One step of the induction: ordered shorter rows give ordered rows. */
  lemma RowsPairOrdered(k: nat, T: seq<seq<bool>>, i: nat, j: nat)
    requires k > 0 && T == Rows(k - 1) && i < j < |Rows(k)|
    requires forall a, b :: 0 <= a < b < |T| ==> Before(T[a], T[b])
    ensures Before(Rows(k)[i], Rows(k)[j])
  {
    if j < |T| {
      RowsHalves(k, i);
      RowsHalves(k, j);
      BeforeCons(true, T[i], true, T[j]);
    } else if i >= |T| {
      RowsHalves(k, i - |T|);
      RowsHalves(k, j - |T|);
      BeforeCons(false, T[i - |T|], false, T[j - |T|]);
    } else {
      RowsHalves(k, i);
      RowsHalves(k, j - |T|);
      BeforeCons(true, T[i], false, T[j - |T|]);
    }
  }

  lemma BeforeCons(b: bool, u: seq<bool>, c: bool, v: seq<bool>)
    requires |u| == |v|
    requires (b && !c) || (b == c && Before(u, v))
    ensures Before([b] + u, [c] + v)
  {
    var x, y := [b] + u, [c] + v;
    assert x[0] == b && y[0] == c && x[1..] == u && y[1..] == v;
  }

  function LastRow(k: nat): (v: seq<bool>)
    ensures |v| == k
  {
    Rows(k)[|Rows(k)| - 1]
  }

  /** The first row is all `true` and the last all `false`. */
  lemma {:induction false} RowsEnds(k: nat)
    ensures forall j :: 0 <= j < k ==> Rows(k)[0][j]
    ensures forall j :: 0 <= j < k ==> !LastRow(k)[j]
    decreases k
  {
    if k > 0 {
      RowsEnds(k - 1);
      var T := Rows(k - 1);
      RowsHalves(k, 0);
      RowsHalves(k, |T| - 1);
      assert LastRow(k) == [false] + LastRow(k - 1);
      forall j | 0 < j < k
        ensures Rows(k)[0][j] && !LastRow(k)[j]
      {
        assert Rows(k)[0][j] == T[0][j - 1];
        assert LastRow(k)[j] == LastRow(k - 1)[j - 1];
      }
    }
  }

  // ---------------------------------------------------------------------
  // The truth table

  /** The assignment pairing each name with the value at the same place;
      a later pair overrides an earlier one, as collecting into a hash map
      does. */
  function Zip(ps: seq<string>, row: seq<bool>): (a: map<string, bool>)
    requires |ps| == |row|
    ensures forall p :: p in a <==> p in ps
  {
    if ps == [] then map[]
    else
      var n := |ps| - 1;
      assert forall p :: p in ps <==> p in ps[..n] || p == ps[n];
      Zip(ps[..n], row[..n])[ps[n] := row[n]]
  }

  /** Without repeated names every name receives its own value. */
  lemma {:induction false} ZipAt(ps: seq<string>, row: seq<bool>, i: nat)
    requires |ps| == |row| && Sorted(ps) && i < |ps|
    ensures Zip(ps, row)[ps[i]] == row[i]
    decreases |ps|
  {
    var n := |ps| - 1;
    if i < n {
      assert ps[i] != ps[n];
      ZipAt(ps[..n], row[..n], i);
    }
  }

  datatype TableRow = TableRow(assignment: map<string, bool>, result: bool)

  /** One row per assignment of the sorted propositions, in the order of
      Rows, each with the value of the formula. */
  function TruthTable(e: Expr): (t: seq<TableRow>)
    ensures |t| == Pow2(|Propositions(e)|)
    ensures forall i :: 0 <= i < |t| ==> t[i].assignment.Keys == Propositions(e)
    ensures forall i :: 0 <= i < |t| ==> t[i].result == Eval(e, t[i].assignment)
  {
    var ps := SortedList(Propositions(e));
    var R := Rows(|ps|);
    seq(|R|, i requires 0 <= i < |R| => var a := Zip(ps, R[i]); TableRow(a, Eval(e, a)))
  }

  /** Row i of the table assigns the sorted propositions the values of
      row i of Rows. */
  lemma TableAssignment(e: Expr, i: nat)
    requires i < |TruthTable(e)|
    ensures var ps := SortedList(Propositions(e));
      |Rows(|ps|)| == |TruthTable(e)| && TruthTable(e)[i].assignment == Zip(ps, Rows(|ps|)[i])
  {
  }

  /** Zipping the names with their values under a gives back a. */
  lemma ZipOfValues(ps: seq<string>, a: map<string, bool>, v: seq<bool>)
    requires Sorted(ps) && forall p :: p in a <==> p in ps
    requires |v| == |ps| && forall j :: 0 <= j < |ps| ==> v[j] == a[ps[j]]
    ensures Zip(ps, v) == a
  {
    var z := Zip(ps, v);
    forall p | p in a
      ensures z[p] == a[p]
    {
      var j :| 0 <= j < |ps| && ps[j] == p;
      ZipAt(ps, v, j);
    }
  }

  /** Every assignment of exactly the propositions appears in the table. */
  lemma TableComplete(e: Expr, a: map<string, bool>)
    requires a.Keys == Propositions(e)
    ensures exists i :: 0 <= i < |TruthTable(e)| && TruthTable(e)[i].assignment == a
  {
    var ps := SortedList(Propositions(e));
    var v := seq(|ps|, j requires 0 <= j < |ps| => a[ps[j]]);
    ZipOfValues(ps, a, v);
    RowsComplete(|ps|, v);
    TableAssignment(e, RowIndex(v));
  }

  /** Different rows of values give different assignments. */
  lemma ZipDistinct(ps: seq<string>, u: seq<bool>, v: seq<bool>)
    requires Sorted(ps) && |u| == |ps| && |v| == |ps| && u != v
    ensures Zip(ps, u) != Zip(ps, v)
  {
    var j :| 0 <= j < |ps| && u[j] != v[j];
    ZipAt(ps, u, j);
    ZipAt(ps, v, j);
  }

  /** No assignment appears twice. */
  lemma TableDistinct(e: Expr, i: nat, k: nat)
    requires i < k < |TruthTable(e)|
    ensures TruthTable(e)[i].assignment != TruthTable(e)[k].assignment
  {
    var ps := SortedList(Propositions(e));
    var R := Rows(|ps|);
    TableAssignment(e, i);
    TableAssignment(e, k);
    RowsOrdered(|ps|);
    BeforeDiffers(R[i], R[k]);
    ZipDistinct(ps, R[i], R[k]);
  }

  /** In the first row of values every name is true, in the last every
      name is false. */
  lemma ZipEnds(ps: seq<string>, j: nat)
    requires Sorted(ps) && j < |ps|
    ensures Zip(ps, Rows(|ps|)[0])[ps[j]]
    ensures !Zip(ps, LastRow(|ps|))[ps[j]]
  {
    RowsEnds(|ps|);
    ZipAt(ps, Rows(|ps|)[0], j);
    ZipAt(ps, LastRow(|ps|), j);
  }

  lemma TableFirst(e: Expr, j: nat)
    requires j < |SortedList(Propositions(e))|
    ensures TruthTable(e)[0].assignment[SortedList(Propositions(e))[j]]
  {
    TableAssignment(e, 0);
    ZipEnds(SortedList(Propositions(e)), j);
  }

  lemma TableLast(e: Expr, j: nat)
    requires j < |SortedList(Propositions(e))|
    ensures !TruthTable(e)[|TruthTable(e)| - 1].assignment[SortedList(Propositions(e))[j]]
  {
    var t := TruthTable(e);
    var n := |t| - 1;
    TableAssignment(e, n);
    LastAssignment(t, SortedList(Propositions(e)), j);
  }

  /** A table whose last row assigns the last row of values falsifies
      every name in it. */
  lemma LastAssignment(t: seq<TableRow>, ps: seq<string>, j: nat)
    requires Sorted(ps) && j < |ps| && |t| == |Rows(|ps|)|
    requires t[|t| - 1].assignment == Zip(ps, Rows(|ps|)[|t| - 1])
    ensures !t[|t| - 1].assignment[ps[j]]
  {
    var R := Rows(|ps|);
    assert R[|t| - 1] == LastRow(|ps|);
    ZipEnds(ps, j);
  }

  /** The table starts with every proposition true and ends with every
      proposition false. */
  lemma TableEnds(e: Expr, p: string)
    requires p in Propositions(e)
    ensures TruthTable(e)[0].assignment[p]
    ensures !TruthTable(e)[|TruthTable(e)| - 1].assignment[p]
  {
    var ps := SortedList(Propositions(e));
    var j :| 0 <= j < |ps| && ps[j] == p;
    TableFirst(e, j);
    TableLast(e, j);
  }

  // ---------------------------------------------------------------------
  // Normal forms

  datatype Lit = Pos(name: string) | Neg(name: string)

  predicate Holds(l: Lit, a: map<string, bool>)
    requires l.name in a
  {
    if l.Pos? then a[l.name] else !a[l.name]
  }

  predicate Named(ps: seq<string>, a: map<string, bool>) {
    forall j :: 0 <= j < |ps| ==> ps[j] in a
  }

  /** a and b give every name of ps the same value. */
  predicate Agrees(ps: seq<string>, a: map<string, bool>, b: map<string, bool>)
    requires Named(ps, a) && Named(ps, b)
  {
    forall j :: 0 <= j < |ps| ==> a[ps[j]] == b[ps[j]]
  }

  /** The clause of a row: with polarity `true` the conjunct of a true row,
      each proposition as b assigns it; with polarity `false` the disjunct of
      a false row, each proposition negated against b. */
  function Term(ps: seq<string>, b: map<string, bool>, polarity: bool): (m: seq<Lit>)
    requires Named(ps, b)
    ensures |m| == |ps| && forall j :: 0 <= j < |m| ==> m[j].name == ps[j]
    ensures forall j :: 0 <= j < |m| ==> Holds(m[j], b) == polarity
  {
    seq(|ps|, j requires 0 <= j < |ps| => if b[ps[j]] == polarity then Pos(ps[j]) else Neg(ps[j]))
  }

  /** Under a, a literal of the clause of b has the clause's polarity
      exactly where a agrees with b. */
  lemma TermHolds(ps: seq<string>, b: map<string, bool>, polarity: bool, a: map<string, bool>, j: nat)
    requires Named(ps, b) && Named(ps, a) && j < |ps|
    ensures Holds(Term(ps, b, polarity)[j], a) == polarity <==> a[ps[j]] == b[ps[j]]
  {
  }

  predicate Tabulated(t: seq<TableRow>, ps: seq<string>) {
    forall i :: 0 <= i < |t| ==> Named(ps, t[i].assignment)
  }

  /** The clauses of the rows whose result is the polarity, in table order. */
  function Clauses(t: seq<TableRow>, ps: seq<string>, polarity: bool): (C: seq<seq<Lit>>)
    requires Tabulated(t, ps)
    ensures |C| <= |t|
    decreases |t|
  {
    if t == [] then []
    else
      var n := |t| - 1;
      var C := Clauses(t[..n], ps, polarity);
      if t[n].result == polarity then C + [Term(ps, t[n].assignment, polarity)] else C
  }

  /** Every clause comes from a row with the matching result. */
  lemma {:induction false} ClausesFromRows(t: seq<TableRow>, ps: seq<string>, polarity: bool, k: nat)
    requires Tabulated(t, ps) && k < |Clauses(t, ps, polarity)|
    ensures exists i :: (0 <= i < |t| && t[i].result == polarity &&
                         Clauses(t, ps, polarity)[k] == Term(ps, t[i].assignment, polarity))
    decreases |t|
  {
    var n := |t| - 1;
    var C := Clauses(t[..n], ps, polarity);
    if k < |C| {
      ClausesFromRows(t[..n], ps, polarity, k);
      var i :| 0 <= i < n && t[..n][i].result == polarity && C[k] == Term(ps, t[..n][i].assignment, polarity);
      assert t[..n][i] == t[i];
    } else {
      assert t[n].result == polarity;
    }
  }

  /** Every row with the matching result contributes its clause. */
  lemma {:induction false} RowsToClauses(t: seq<TableRow>, ps: seq<string>, polarity: bool, i: nat)
    requires Tabulated(t, ps) && i < |t| && t[i].result == polarity
    ensures Term(ps, t[i].assignment, polarity) in Clauses(t, ps, polarity)
    decreases |t|
  {
    var n := |t| - 1;
    if i < n {
      RowsToClauses(t[..n], ps, polarity, i);
      assert t[..n][i] == t[i];
    }
  }

  function Dnf(e: Expr): seq<seq<Lit>> {
    Clauses(TruthTable(e), SortedList(Propositions(e)), true)
  }

  function Cnf(e: Expr): seq<seq<Lit>> {
    Clauses(TruthTable(e), SortedList(Propositions(e)), false)
  }

  predicate Covers(C: seq<seq<Lit>>, a: map<string, bool>) {
    forall k, j :: 0 <= k < |C| && 0 <= j < |C[k]| ==> C[k][j].name in a
  }

  /** Some conjunction has all its literals true. */
  predicate SatisfiesDnf(D: seq<seq<Lit>>, a: map<string, bool>)
    requires Covers(D, a)
  {
    exists k :: 0 <= k < |D| && forall j :: 0 <= j < |D[k]| ==> Holds(D[k][j], a)
  }

  /** Every disjunction has some literal true. */
  predicate SatisfiesCnf(C: seq<seq<Lit>>, a: map<string, bool>)
    requires Covers(C, a)
  {
    forall k :: 0 <= k < |C| ==> SomeHolds(C[k], a)
  }

  /** Some literal of the disjunction is true. */
  predicate SomeHolds(c: seq<Lit>, a: map<string, bool>)
    requires forall j :: 0 <= j < |c| ==> c[j].name in a
  {
    exists j :: 0 <= j < |c| && Holds(c[j], a)
  }

  /** The literals of the clauses are names of ps. */
  lemma ClausesCover(t: seq<TableRow>, ps: seq<string>, polarity: bool, a: map<string, bool>)
    requires Tabulated(t, ps) && Named(ps, a)
    ensures Covers(Clauses(t, ps, polarity), a)
  {
    var C: seq<seq<Lit>> := Clauses(t, ps, polarity);
    forall k: int, j: int | 0 <= k < |C| && 0 <= j < |C[k]|
      ensures C[k][j].name in a
    {
      ClausesFromRows(t, ps, polarity, k);
    }
  }

  /** A clause whose literals all take its polarity under a comes from a row
      that agrees with a. */
  lemma ClauseGivesRow(t: seq<TableRow>, ps: seq<string>, polarity: bool, a: map<string, bool>, k: nat)
    requires Tabulated(t, ps) && Named(ps, a)
    requires k < |Clauses(t, ps, polarity)|
    requires var c := Clauses(t, ps, polarity)[k];
      forall j :: 0 <= j < |c| ==> c[j].name in a && Holds(c[j], a) == polarity
    ensures exists i :: 0 <= i < |t| && t[i].result == polarity && Agrees(ps, a, t[i].assignment)
  {
    var c := Clauses(t, ps, polarity)[k];
    ClausesFromRows(t, ps, polarity, k);
    var i :| 0 <= i < |t| && t[i].result == polarity && c == Term(ps, t[i].assignment, polarity);
    forall j | 0 <= j < |ps|
      ensures a[ps[j]] == t[i].assignment[ps[j]]
    {
      TermHolds(ps, t[i].assignment, polarity, a, j);
    }
  }

  /** A row that agrees with a gives a clause whose literals all take its
      polarity under a. */
  lemma RowGivesClause(t: seq<TableRow>, ps: seq<string>, polarity: bool, a: map<string, bool>, i: nat)
    requires Tabulated(t, ps) && Named(ps, a)
    requires i < |t| && t[i].result == polarity && Agrees(ps, a, t[i].assignment)
    ensures var C := Clauses(t, ps, polarity);
      exists k :: 0 <= k < |C| && forall j :: 0 <= j < |C[k]| ==> C[k][j].name in a && Holds(C[k][j], a) == polarity
  {
    var C := Clauses(t, ps, polarity);
    RowsToClauses(t, ps, polarity, i);
    var k :| 0 <= k < |C| && C[k] == Term(ps, t[i].assignment, polarity);
    forall j | 0 <= j < |C[k]|
      ensures C[k][j].name in a && Holds(C[k][j], a) == polarity
    {
      TermHolds(ps, t[i].assignment, polarity, a, j);
    }
  }

  /** a restricted to the propositions of e. */
  function Restrict(e: Expr, a: map<string, bool>): (r: map<string, bool>)
    requires Propositions(e) <= a.Keys
    ensures r.Keys == Propositions(e) && forall p :: p in r ==> r[p] == a[p]
    ensures Eval(e, r) == Eval(e, a)
  {
    var r := map p | p in Propositions(e) :: a[p];
    EvalAgrees(e, r, a);
    r
  }

  lemma TableTabulated(e: Expr)
    ensures Tabulated(TruthTable(e), SortedList(Propositions(e)))
  {
  }

  /** Some row of the table agrees with a on the propositions. */
  lemma SomeRowAgrees(e: Expr, a: map<string, bool>)
    requires Propositions(e) <= a.Keys
    ensures var t := TruthTable(e); var ps := SortedList(Propositions(e));
      Tabulated(t, ps) && Named(ps, a) &&
      exists i :: 0 <= i < |t| && Agrees(ps, a, t[i].assignment)
  {
    TableTabulated(e);
    var t := TruthTable(e);
    var ps := SortedList(Propositions(e));
    var r := Restrict(e, a);
    TableComplete(e, r);
    var i :| 0 <= i < |t| && t[i].assignment == r;
    assert Agrees(ps, a, t[i].assignment);
  }

  /** A row that agrees with a carries the value of the formula under a. */
  lemma AgreeingRow(e: Expr, a: map<string, bool>, i: nat)
    requires Propositions(e) <= a.Keys
    requires i < |TruthTable(e)|
    requires Named(SortedList(Propositions(e)), a)
    requires Agrees(SortedList(Propositions(e)), a, TruthTable(e)[i].assignment)
    ensures TruthTable(e)[i].result == Eval(e, a)
  {
    var b := TruthTable(e)[i].assignment;
    AgreeOnNames(SortedList(Propositions(e)), a, b, Propositions(e));
    EvalAgrees(e, b, a);
  }

  /** Agreement on a list of names is agreement on the set it lists. */
  lemma AgreeOnNames(ps: seq<string>, a: map<string, bool>, b: map<string, bool>, P: set<string>)
    requires forall p :: p in ps <==> p in P
    requires Named(ps, a) && Named(ps, b) && Agrees(ps, a, b)
    ensures P <= a.Keys && P <= b.Keys
    ensures forall p :: p in P ==> b[p] == a[p]
  {
    forall p | p in P
      ensures p in a && p in b && b[p] == a[p]
    {
      var j :| 0 <= j < |ps| && ps[j] == p;
    }
  }

  /** A true row agreeing with a makes the true-row clauses hold. */
  lemma DnfFromRow(t: seq<TableRow>, ps: seq<string>, a: map<string, bool>, i: nat)
    requires Tabulated(t, ps) && Named(ps, a)
    requires i < |t| && t[i].result && Agrees(ps, a, t[i].assignment)
    ensures Covers(Clauses(t, ps, true), a) && SatisfiesDnf(Clauses(t, ps, true), a)
  {
    var D: seq<seq<Lit>> := Clauses(t, ps, true);
    ClausesCover(t, ps, true, a);
    RowGivesClause(t, ps, true, a, i);
    var k: int :| 0 <= k < |D| && forall j: int :: 0 <= j < |D[k]| ==> D[k][j].name in a && Holds(D[k][j], a) == true;
    assert forall j :: 0 <= j < |D[k]| ==> Holds(D[k][j], a);
  }

  /** When the true-row clauses hold, some true row agrees with a. */
  lemma DnfGivesRow(t: seq<TableRow>, ps: seq<string>, a: map<string, bool>)
    requires Tabulated(t, ps) && Named(ps, a)
    requires Covers(Clauses(t, ps, true), a) && SatisfiesDnf(Clauses(t, ps, true), a)
    ensures exists i :: 0 <= i < |t| && t[i].result && Agrees(ps, a, t[i].assignment)
  {
    var D: seq<seq<Lit>> := Clauses(t, ps, true);
    var k :| 0 <= k < |D| && forall j :: 0 <= j < |D[k]| ==> Holds(D[k][j], a);
    ClauseGivesRow(t, ps, true, a, k);
  }

  /** A table whose rows agreeing with a all carry v, with at least one
      such row: its true-row clauses hold under a exactly when v does. */
  lemma DnfOfTable(t: seq<TableRow>, ps: seq<string>, a: map<string, bool>, v: bool)
    requires Tabulated(t, ps) && Named(ps, a)
    requires exists i :: 0 <= i < |t| && Agrees(ps, a, t[i].assignment)
    requires forall i :: 0 <= i < |t| && Agrees(ps, a, t[i].assignment) ==> t[i].result == v
    ensures Covers(Clauses(t, ps, true), a)
    ensures SatisfiesDnf(Clauses(t, ps, true), a) <==> v
  {
    ClausesCover(t, ps, true, a);
    if v {
      var i :| 0 <= i < |t| && Agrees(ps, a, t[i].assignment);
      DnfFromRow(t, ps, a, i);
    } else if SatisfiesDnf(Clauses(t, ps, true), a) {
      DnfGivesRow(t, ps, a);
    }
  }

  /** A false row agreeing with a makes some false-row clause fail. */
  lemma CnfFromRow(t: seq<TableRow>, ps: seq<string>, a: map<string, bool>, i: nat)
    requires Tabulated(t, ps) && Named(ps, a)
    requires i < |t| && !t[i].result && Agrees(ps, a, t[i].assignment)
    ensures Covers(Clauses(t, ps, false), a) && !SatisfiesCnf(Clauses(t, ps, false), a)
  {
    var C: seq<seq<Lit>> := Clauses(t, ps, false);
    ClausesCover(t, ps, false, a);
    RowGivesClause(t, ps, false, a, i);
    var k: int :| 0 <= k < |C| && forall j: int :: 0 <= j < |C[k]| ==> C[k][j].name in a && Holds(C[k][j], a) == false;
    FailingClause(C, a, k);
  }

  /** A clause with every literal false falsifies the conjunction. */
  lemma FailingClause(C: seq<seq<Lit>>, a: map<string, bool>, k: nat)
    requires Covers(C, a) && k < |C|
    requires forall j :: 0 <= j < |C[k]| ==> !Holds(C[k][j], a)
    ensures !SatisfiesCnf(C, a)
  {
    assert !SomeHolds(C[k], a);
  }

  /** When some false-row clause fails, some false row agrees with a. */
  lemma CnfGivesRow(t: seq<TableRow>, ps: seq<string>, a: map<string, bool>)
    requires Tabulated(t, ps) && Named(ps, a)
    requires Covers(Clauses(t, ps, false), a) && !SatisfiesCnf(Clauses(t, ps, false), a)
    ensures exists i :: 0 <= i < |t| && !t[i].result && Agrees(ps, a, t[i].assignment)
  {
    var C: seq<seq<Lit>> := Clauses(t, ps, false);
    var k :| 0 <= k < |C| && !SomeHolds(C[k], a);
    ClauseGivesRow(t, ps, false, a, k);
  }

  /** The same table: its false-row clauses all hold under a exactly when v
      does. */
  lemma CnfOfTable(t: seq<TableRow>, ps: seq<string>, a: map<string, bool>, v: bool)
    requires Tabulated(t, ps) && Named(ps, a)
    requires exists i :: 0 <= i < |t| && Agrees(ps, a, t[i].assignment)
    requires forall i :: 0 <= i < |t| && Agrees(ps, a, t[i].assignment) ==> t[i].result == v
    ensures Covers(Clauses(t, ps, false), a)
    ensures SatisfiesCnf(Clauses(t, ps, false), a) <==> v
  {
    ClausesCover(t, ps, false, a);
    if !v {
      var i :| 0 <= i < |t| && Agrees(ps, a, t[i].assignment);
      CnfFromRow(t, ps, a, i);
    } else if !SatisfiesCnf(Clauses(t, ps, false), a) {
      CnfGivesRow(t, ps, a);
    }
  }

  /** Every row of the table that agrees with a carries the value of e. */
  lemma AgreeingRows(e: Expr, a: map<string, bool>)
    requires Propositions(e) <= a.Keys
    ensures var t := TruthTable(e); var ps := SortedList(Propositions(e));
      Named(ps, a) &&
      forall i :: 0 <= i < |t| && Agrees(ps, a, t[i].assignment) ==> t[i].result == Eval(e, a)
  {
    SomeRowAgrees(e, a);
    var t := TruthTable(e);
    forall i | 0 <= i < |t| && Agrees(SortedList(Propositions(e)), a, t[i].assignment)
      ensures t[i].result == Eval(e, a)
    {
      AgreeingRow(e, a, i);
    }
  }

  /** The disjunctive normal form is equivalent to the formula. */
  lemma DnfEquivalent(e: Expr, a: map<string, bool>)
    requires Propositions(e) <= a.Keys
    ensures Covers(Dnf(e), a)
    ensures SatisfiesDnf(Dnf(e), a) <==> Eval(e, a)
  {
    SomeRowAgrees(e, a);
    AgreeingRows(e, a);
    DnfOfTable(TruthTable(e), SortedList(Propositions(e)), a, Eval(e, a));
  }

  /** The conjunctive normal form is equivalent to the formula. */
  lemma CnfEquivalent(e: Expr, a: map<string, bool>)
    requires Propositions(e) <= a.Keys
    ensures Covers(Cnf(e), a)
    ensures SatisfiesCnf(Cnf(e), a) <==> Eval(e, a)
  {
    SomeRowAgrees(e, a);
    AgreeingRows(e, a);
    CnfOfTable(TruthTable(e), SortedList(Propositions(e)), a, Eval(e, a));
  }

  /** Each row gives exactly one clause, to one form or the other. */
  lemma {:induction false} ClausesPartition(t: seq<TableRow>, ps: seq<string>)
    requires Tabulated(t, ps)
    ensures |Clauses(t, ps, true)| + |Clauses(t, ps, false)| == |t|
    decreases |t|
  {
    if t != [] {
      ClausesPartition(t[..|t| - 1], ps);
    }
  }

  /** Between them the two forms have one clause per assignment. */
  lemma FormsShareTheTable(e: Expr)
    ensures |Dnf(e)| + |Cnf(e)| == Pow2(|Propositions(e)|)
  {
    TableTabulated(e);
    ClausesPartition(TruthTable(e), SortedList(Propositions(e)));
  }

  // ---------------------------------------------------------------------
  // Rendering as TeX

  /** A literal of a conjunction; the negation sign carries a space in
      front. */
  function DnfLiteral(l: Lit): string {
    if l.Pos? then l.name else @" \lnot " + l.name
  }

  /** A literal of a disjunction. */
  function CnfLiteral(l: Lit): string {
    if l.Pos? then l.name else @"\lnot " + l.name
  }

  function Bracket(body: string): (r: string)
    ensures |r| > |body|
  {
    @" \left(" + body + @"\right) "
  }

  /** Joining parts of which the first is non-empty gives a non-empty text. */
  lemma JoinNonEmpty(parts: seq<string>, sep: string)
    requires |parts| > 0 && parts[0] != ""
    ensures JoinWith(parts, sep) != ""
  {
    if |parts| > 1 {
      assert JoinWith(parts, sep)[..|parts[0]|] == parts[0];
    }
  }

  function DnfClauseText(c: seq<Lit>): string {
    Bracket(JoinWith(seq(|c|, j requires 0 <= j < |c| => DnfLiteral(c[j])), @" \land "))
  }

  function CnfClauseText(c: seq<Lit>): string {
    Bracket(JoinWith(seq(|c|, j requires 0 <= j < |c| => CnfLiteral(c[j])), @" \lor "))
  }

  /** The disjunctive normal form as the page renders it: bracketed
      conjunctions joined by `\lor`. It is empty exactly when no row is
      true. */
  function DnfText(e: Expr): (r: string)
    ensures r == "" <==> Dnf(e) == []
  {
    var D := Dnf(e);
    var parts := seq(|D|, k requires 0 <= k < |D| => DnfClauseText(D[k]));
    if D != [] then JoinNonEmpty(parts, @" \lor "); JoinWith(parts, @" \lor ")
    else JoinWith(parts, @" \lor ")
  }

  /** The conjunctive normal form: bracketed disjunctions joined by
      `\land`. It is empty exactly when no row is false. */
  function CnfText(e: Expr): (r: string)
    ensures r == "" <==> Cnf(e) == []
  {
    var C := Cnf(e);
    var parts := seq(|C|, k requires 0 <= k < |C| => CnfClauseText(C[k]));
    if C != [] then JoinNonEmpty(parts, @" \land "); JoinWith(parts, @" \land ")
    else JoinWith(parts, @" \land ")
  }

  ghost predicate Contradiction(e: Expr) {
    forall a: map<string, bool> :: Propositions(e) <= a.Keys ==> !Eval(e, a)
  }

  ghost predicate Tautology(e: Expr) {
    forall a: map<string, bool> :: Propositions(e) <= a.Keys ==> Eval(e, a)
  }

  /** Some clause means some row with the clause's polarity. */
  lemma ClauseRow(t: seq<TableRow>, ps: seq<string>, polarity: bool) returns (i: nat)
    requires Tabulated(t, ps) && Clauses(t, ps, polarity) != []
    ensures i < |t| && t[i].result == polarity
  {
    ClausesFromRows(t, ps, polarity, 0);
    i :| 0 <= i < |t| && t[i].result == polarity;
  }

  /** There are no true rows exactly when nothing satisfies the formula:
      a true row is a satisfying assignment, and without one every
      assignment falsifies it. */
  lemma NoTrueRowIffContradiction(e: Expr)
    ensures Dnf(e) == [] <==> Contradiction(e)
  {
    if Dnf(e) == [] {
      forall a: map<string, bool> | Propositions(e) <= a.Keys
        ensures !Eval(e, a)
      {
        DnfEquivalent(e, a);
      }
    } else {
      var t := TruthTable(e);
      TableTabulated(e);
      var i := ClauseRow(t, SortedList(Propositions(e)), true);
      var a := t[i].assignment;
      assert Propositions(e) <= a.Keys && Eval(e, a);
    }
  }

  /** There are no false rows exactly when everything satisfies the
      formula. */
  lemma NoFalseRowIffTautology(e: Expr)
    ensures Cnf(e) == [] <==> Tautology(e)
  {
    if Cnf(e) == [] {
      forall a: map<string, bool> | Propositions(e) <= a.Keys
        ensures Eval(e, a)
      {
        CnfEquivalent(e, a);
      }
    } else {
      var t := TruthTable(e);
      TableTabulated(e);
      var i := ClauseRow(t, SortedList(Propositions(e)), false);
      var a := t[i].assignment;
      assert Propositions(e) <= a.Keys && !Eval(e, a);
    }
  }

  /** The disjunctive normal form is blank exactly for a contradiction. */
  lemma BlankDnfIffContradiction(e: Expr)
    ensures DnfText(e) == "" <==> Contradiction(e)
  {
    NoTrueRowIffContradiction(e);
  }

  /** The conjunctive normal form is blank exactly for a tautology. */
  lemma BlankCnfIffTautology(e: Expr)
    ensures CnfText(e) == "" <==> Tautology(e)
  {
    NoFalseRowIffTautology(e);
  }

  // ---------------------------------------------------------------------
  // The standalone program's title

  const TitleHead := "DiscreteMathematicsExp1 (with "
  const TitleTail := " propositions)"

  /** The window title after solving: the number of distinct propositions,
      in decimal, inside fixed text. */
  function Title(e: Expr): (r: string)
    ensures |r| > |TitleHead| + |TitleTail|
    ensures r[..|TitleHead|] == TitleHead && r[|r| - |TitleTail|..] == TitleTail
  {
    TitleHead + NatToString(|Propositions(e)|) + TitleTail
  }

  /** The digits between the fixed parts read back as the proposition
      count. */
  lemma TitleCount(e: Expr)
    ensures var r := Title(e); var d := r[|TitleHead|..|r| - |TitleTail|];
      AllDigits(d) && ValueOf(d) == |Propositions(e)|
  {
    var r := Title(e);
    assert r[|TitleHead|..|r| - |TitleTail|] == NatToString(|Propositions(e)|);
    NatToStringRoundTrip(|Propositions(e)|);
  }
}

=== FILE: rational_text.dfy ===
/**
  TeX text for exact rationals and for the labels of elimination steps.

  A rational is printed as its integer when its denominator is 1 and as
  `\frac{|p|}{q}` (after a `-` when negative) otherwise; the signed variant
  puts `+` before every non-negative value, and the parenthesised variant
  wraps negative values in `\left(` and `\right)`. Step labels name rows
  1-based: `r_{a} \leftrightarrow r_{b}`, `r_{a} \times c`, `r_{a} + c r_{b}` or `r_{a} - c r_{b}`.

  Each printer has a reader here, and reading what was printed gives back
  what was printed from; that is how the printers are specified.
 */
module RationalText {
  import opened Outcomes
  import opened Decimal
  import opened Elimination

  /** A rational p/q as the big-rational type stores it: in lowest terms
      with q >= 1. The printers below need only q >= 1. */
  datatype Fraction = Fraction(num: int, den: nat)

  function Abs(n: int): nat {
    if n < 0 then -n else n
  }

  predicate IsInteger(x: Fraction) {
    x.den == 1
  }

  predicate IsNegative(x: Fraction) {
    x.num < 0
  }

  function Value(x: Fraction): real
    requires x.den >= 1
  {
    x.num as real / x.den as real
  }

  const FracOpen: string := @"\frac{"
  const FracMid: string := "}{"
  const ParenOpen: string := @"\left("
  const ParenClose: string := @"\right)"

  function FracText(p: nat, q: nat): string {
    FracOpen + NatToString(p) + FracMid + NatToString(q) + "}"
  }

  // ---------------------------------------------------------------------
  // Printers

  lemma IntTextSign(n: int)
    ensures |IntToString(n)| > 0 && (IntToString(n)[0] == '-' <==> n < 0)
    ensures IsDigit(IntToString(n)[0]) <==> n >= 0
  {
    var d := NatToString(Abs(n));
    assert IsDigit(d[0]);
    if n < 0 {
      assert IntToString(n)[1..] == d;
    }
  }

  /** Plain printing: a leading `-` exactly for negative values. */
  function ToTex(x: Fraction): (s: string)
    requires x.den >= 1
    ensures |s| > 0 && (s[0] == '-' <==> IsNegative(x))
  {
    IntTextSign(x.num);
    if IsInteger(x) then IntToString(x.num)
    else (if IsNegative(x) then "-" else "") + FracText(Abs(x.num), x.den)
  }

  /** Signed printing: always starts with `+` or `-`, and `-` exactly for
      negative values, so zero prints as `+0`. */
  function WithSign(x: Fraction): (s: string)
    requires x.den >= 1
    ensures |s| > 1 && (s[0] == '+' || s[0] == '-') && (s[0] == '-' <==> IsNegative(x))
  {
    IntTextSign(x.num);
    if IsInteger(x) then (if IsNegative(x) then "" else "+") + IntToString(x.num)
    else (if IsNegative(x) then "-" else "+") + FracText(Abs(x.num), x.den)
  }

  function WithParen(x: Fraction): string
    requires x.den >= 1
  {
    if IsInteger(x) then
      (if IsNegative(x) then ParenOpen else "") + IntToString(x.num) + (if IsNegative(x) then ParenClose else "")
    else
      (if IsNegative(x) then ParenOpen + "-" else "") + FracText(Abs(x.num), x.den) +
      (if IsNegative(x) then ParenClose else "")
  }

  /** The signed form is the plain form with a `+` added before non-negative
      values. */
  lemma WithSignIsSignedTex(x: Fraction)
    requires x.den >= 1
    ensures WithSign(x) == if IsNegative(x) then ToTex(x) else "+" + ToTex(x)
  {
  }

  /** The parenthesised form is the plain form, wrapped when negative. */
  lemma WithParenWrapsNegative(x: Fraction)
    requires x.den >= 1
    ensures WithParen(x) == if IsNegative(x) then ParenOpen + ToTex(x) + ParenClose else ToTex(x)
  {
  }

  // ---------------------------------------------------------------------
  // Readers

  /** Split off the longest prefix of digits. */
  function LeadingDigits(s: string): (r: (string, string))
    ensures r.0 + r.1 == s && AllDigits(r.0) && (r.1 == [] || !IsDigit(r.1[0]))
  {
    if s != [] && IsDigit(s[0]) then
      var (d, rest) := LeadingDigits(s[1..]);
      assert [s[0]] + d + rest == s;
      ([s[0]] + d, rest)
    else ([], s)
  }

  lemma {:induction false} LeadingDigitsOf(d: string, rest: string)
    requires AllDigits(d) && (rest == [] || !IsDigit(rest[0]))
    ensures LeadingDigits(d + rest) == (d, rest)
  {
    if d != [] {
      var s := d + rest;
      assert s[0] == d[0] && IsDigit(s[0]);
      assert s[1..] == d[1..] + rest;
      LeadingDigitsOf(d[1..], rest);
      assert [d[0]] + d[1..] == d;
    } else {
      assert d + rest == rest;
    }
  }

  /** A non-empty run of digits at the start, and what follows it. */
  function ReadNat(s: string): Option<(nat, string)> {
    var (d, rest) := LeadingDigits(s);
    if d == [] then None else Some((ValueOf(d), rest))
  }

  lemma ReadNatOf(n: nat, rest: string)
    requires rest == [] || !IsDigit(rest[0])
    ensures ReadNat(NatToString(n) + rest) == Some((n, rest))
  {
    LeadingDigitsOf(NatToString(n), rest);
    NatToStringRoundTrip(n);
  }

  /** What follows the prefix p, if s starts with p. */
  function Expect(s: string, p: string): Option<string> {
    if |p| <= |s| && s[..|p|] == p then Some(s[|p|..]) else None
  }

  lemma ExpectOf(p: string, rest: string)
    ensures Expect(p + rest, p) == Some(rest)
  {
    assert (p + rest)[..|p|] == p;
  }

  /** `\frac{a}{b}` at the start of s: a, b and what follows. */
  function ReadFrac(s: string): Option<(nat, nat, string)> {
    match Expect(s, FracOpen)
    case None => None
    case Some(s1) =>
      match ReadNat(s1)
      case None => None
      case Some((a, s2)) =>
        match ReadDenominator(s2)
        case None => None
        case Some((b, s5)) => Some((a, b, s5))
  }

  /** The denominator `b` with the brackets around it, at the start of s:
      b and what follows. */
  function ReadDenominator(s: string): Option<(nat, string)> {
    match Expect(s, FracMid)
    case None => None
    case Some(s3) =>
      match ReadNat(s3)
      case None => None
      case Some((b, s4)) =>
        match Expect(s4, "}")
        case None => None
        case Some(s5) => Some((b, s5))
  }

  lemma ReadDenominatorOf(q: nat, rest: string)
    ensures ReadDenominator(FracMid + NatToString(q) + "}" + rest) == Some((q, rest))
  {
    var s4 := "}" + rest;
    var s3 := NatToString(q) + s4;
    assert FracMid + NatToString(q) + "}" + rest == FracMid + s3;
    ExpectOf(FracMid, s3);
    ReadNatOf(q, s4);
    ExpectOf("}", rest);
  }

  lemma ReadFracOf(p: nat, q: nat, rest: string)
    ensures ReadFrac(FracText(p, q) + rest) == Some((p, q, rest))
  {
    var s2 := FracMid + NatToString(q) + "}" + rest;
    var s1 := NatToString(p) + s2;
    assert FracText(p, q) + rest == FracOpen + s1;
    ExpectOf(FracOpen, s1);
    ReadNatOf(p, s2);
    ReadDenominatorOf(q, rest);
  }

  /** A number printed by `ToTex` at the start of s, and what follows. */
  function ReadTex(s: string): Option<(Fraction, string)> {
    if s != [] && s[0] == '-' then
      match ReadFrac(s[1..])
      case Some((a, b, rest)) => Some((Fraction(-(a as int), b), rest))
      case None =>
        match ReadNat(s[1..])
        case Some((n, rest)) => Some((Fraction(-(n as int), 1), rest))
        case None => None
    else
      match ReadFrac(s)
      case Some((a, b, rest)) => Some((Fraction(a, b), rest))
      case None =>
        match ReadNat(s)
        case Some((n, rest)) => Some((Fraction(n, 1), rest))
        case None => None
  }

  lemma ReadFracOfDigits(s: string)
    requires s != [] && IsDigit(s[0])
    ensures ReadFrac(s) == None
  {
  }

  lemma ReadTexOfInteger(x: Fraction, rest: string)
    requires x.den == 1
    requires rest == [] || !IsDigit(rest[0])
    ensures ReadTex(ToTex(x) + rest) == Some((x, rest))
  {
    var s := ToTex(x) + rest;
    var d := NatToString(Abs(x.num));
    ReadNatOf(Abs(x.num), rest);
    ReadFracOfDigits(d + rest);
    if IsNegative(x) {
      assert s[1..] == d + rest;
    } else {
      assert s == d + rest;
    }
  }

  lemma ReadTexFracPositive(s: string, a: nat, b: nat, rest: string)
    requires s == FracText(a, b) + rest
    ensures ReadTex(s) == Some((Fraction(a, b), rest))
  {
    ReadFracOf(a, b, rest);
    assert s[0] == FracOpen[0];
  }

  lemma ReadTexFracNegative(s: string, a: nat, b: nat, rest: string)
    requires s == "-" + FracText(a, b) + rest
    ensures ReadTex(s) == Some((Fraction(-(a as int), b), rest))
  {
    assert s[0] == '-' && s[1..] == FracText(a, b) + rest;
    ReadFracOf(a, b, rest);
    ReadTexMinusFrac(s, a, b, rest);
  }

  /** After a `-`, a fraction read from the tail is negated. */
  lemma ReadTexMinusFrac(s: string, a: nat, b: nat, rest: string)
    requires s != [] && s[0] == '-' && ReadFrac(s[1..]) == Some((a, b, rest))
    ensures ReadTex(s) == Some((Fraction(-(a as int), b), rest))
  {
  }

  lemma ReadTexOfFraction(x: Fraction, rest: string)
    requires x.den > 1
    ensures ReadTex(ToTex(x) + rest) == Some((x, rest))
  {
    var f := FracText(Abs(x.num), x.den);
    if IsNegative(x) {
      assert ToTex(x) == "-" + f;
      ReadTexFracNegative(ToTex(x) + rest, Abs(x.num), x.den, rest);
    } else {
      assert ToTex(x) == f;
      ReadTexFracPositive(ToTex(x) + rest, Abs(x.num), x.den, rest);
    }
  }

  /** Reading back what `ToTex` printed gives the same fraction, whatever
      non-digit text follows. */
  lemma ReadTexOf(x: Fraction, rest: string)
    requires x.den >= 1
    requires rest == [] || !IsDigit(rest[0])
    ensures ReadTex(ToTex(x) + rest) == Some((x, rest))
  {
    if IsInteger(x) {
      ReadTexOfInteger(x, rest);
    } else {
      ReadTexOfFraction(x, rest);
    }
  }

  /** The whole of s is one number printed by `ToTex`. */
  function FromTex(s: string): Option<Fraction> {
    match ReadTex(s)
    case Some((x, rest)) => if rest == [] then Some(x) else None
    case None => None
  }

  lemma TexRoundTrip(x: Fraction)
    requires x.den >= 1
    ensures FromTex(ToTex(x)) == Some(x)
  {
    ReadTexOf(x, []);
    assert ToTex(x) + [] == ToTex(x);
  }

  /** A number printed by `WithSign`: an optional `+`, then `ToTex` text. */
  function ReadSigned(s: string): Option<(Fraction, string)> {
    if s != [] && s[0] == '+' then ReadTex(s[1..]) else ReadTex(s)
  }

  lemma ReadSignedSkip(s: string)
    requires s != [] && s[0] == '+'
    ensures ReadSigned(s) == ReadTex(s[1..])
  {
  }

  lemma PlusTail(w: string, tx: string, rest: string)
    requires w == "+" + tx
    ensures (w + rest) != [] && (w + rest)[0] == '+' && (w + rest)[1..] == tx + rest
  {
  }

  /** A `+` before `ToTex` text is skipped. */
  lemma ReadSignedPlus(w: string, tx: string, rest: string, x: Fraction)
    requires w == "+" + tx && ReadTex(tx + rest) == Some((x, rest))
    ensures ReadSigned(w + rest) == Some((x, rest))
  {
    PlusTail(w, tx, rest);
    ReadSignedSkip(w + rest);
  }

  /** Negative `ToTex` text is read as it stands. */
  lemma ReadSignedMinus(w: string, rest: string, x: Fraction)
    requires w != [] && w[0] == '-' && ReadTex(w + rest) == Some((x, rest))
    ensures ReadSigned(w + rest) == Some((x, rest))
  {
    assert (w + rest)[0] == '-';
  }

  lemma ReadSignedOf(x: Fraction, rest: string)
    requires x.den >= 1
    requires rest == [] || !IsDigit(rest[0])
    ensures ReadSigned(WithSign(x) + rest) == Some((x, rest))
  {
    ReadTexOf(x, rest);
    WithSignIsSignedTex(x);
    if IsNegative(x) {
      ReadSignedMinus(WithSign(x), rest, x);
    } else {
      ReadSignedPlus(WithSign(x), ToTex(x), rest, x);
    }
  }

  /** A number printed by `WithParen`. */
  function ReadParen(s: string): Option<(Fraction, string)> {
    match Expect(s, ParenOpen)
    case Some(s1) =>
      (match ReadTex(s1)
       case Some((x, s2)) =>
         (match Expect(s2, ParenClose)
          case Some(s3) => Some((x, s3))
          case None => None)
       case None => None)
    case None => ReadTex(s)
  }

  lemma ReadParenWrapped(w: string, rest: string, x: Fraction)
    requires ReadTex(w + (ParenClose + rest)) == Some((x, ParenClose + rest))
    ensures ReadParen(ParenOpen + w + ParenClose + rest) == Some((x, rest))
  {
    var s1 := w + (ParenClose + rest);
    assert ParenOpen + w + ParenClose + rest == ParenOpen + s1;
    ExpectOf(ParenOpen, s1);
    ExpectOf(ParenClose, rest);
  }

  lemma ReadParenBare(s: string, rest: string, x: Fraction)
    requires Expect(s, ParenOpen) == None && ReadTex(s) == Some((x, rest))
    ensures ReadParen(s) == Some((x, rest))
  {
  }

  /** Non-negative `ToTex` text starts with a digit or `\f`, never `\left(`. */
  lemma NotParenthesised(x: Fraction, rest: string)
    requires x.den >= 1 && !IsNegative(x)
    ensures Expect(ToTex(x) + rest, ParenOpen) == None
  {
    var s := ToTex(x) + rest;
    assert s[0] == ToTex(x)[0];
    if |ParenOpen| <= |s| {
      if IsInteger(x) {
        IntTextSign(x.num);
        assert IsDigit(s[0]);
        assert s[..|ParenOpen|][0] != ParenOpen[0];
      } else {
        assert s[1] == 'f';
        assert s[..|ParenOpen|][1] != ParenOpen[1];
      }
    }
  }

  lemma ReadParenOf(x: Fraction, rest: string)
    requires x.den >= 1
    requires rest == [] || !IsDigit(rest[0])
    ensures ReadParen(WithParen(x) + rest) == Some((x, rest))
  {
    WithParenWrapsNegative(x);
    if IsNegative(x) {
      ReadTexOf(x, ParenClose + rest);
      ReadParenWrapped(ToTex(x), rest, x);
    } else {
      NotParenthesised(x, rest);
      ReadTexOf(x, rest);
      ReadParenBare(ToTex(x) + rest, rest, x);
    }
  }

  // ---------------------------------------------------------------------
  // Step labels

  /** `r_{k+1}`: row k, counted from 1. */
  function RowName(k: nat): string {
    "r_{" + NatToString(k + 1) + "}"
  }

  const SwapWord: string := @" \leftrightarrow "
  const TimesWord: string := @" \times "

  /** The label of exchanging rows t and p, both counted from 1. */
  function SwapLabel(t: nat, p: nat): string {
    RowName(t) + SwapWord + RowName(p)
  }

  /** The swap label as the Rust solver prints it: the second row is printed
      without adding 1. */
  function SwapLabelAsWritten(t: nat, p: nat): string {
    RowName(t) + SwapWord + "r_{" + NatToString(p) + "}"
  }

  function ScaleLabel(t: nat, f: Fraction): string
    requires f.den >= 1
  {
    RowName(t) + TimesWord + WithParen(f)
  }

  /** The coefficient of an elimination step: a bare `+` or `-` for 1 and
      -1, the signed number otherwise. */
  function Coefficient(f: Fraction): (c: string)
    requires f.den >= 1
    ensures |c| == 1 <==> IsInteger(f) && Abs(f.num) == 1
    ensures |c| >= 1 && c[0] == '-' <==> IsNegative(f)
  {
    if IsInteger(f) && Abs(f.num) == 1 then (if f.num > 0 then "+" else "-") else WithSign(f)
  }

  /** The label of adding f times row t to row i. */
  function ScaleAddLabel(i: nat, f: Fraction, t: nat): string
    requires f.den >= 1
  {
    RowName(i) + " " + Coefficient(f) + " " + RowName(t)
  }

  /** A row name at the start of s: the 0-based row and what follows. */
  function ReadRow(s: string): Option<(nat, string)> {
    match Expect(s, "r_{")
    case None => None
    case Some(s1) =>
      match ReadNat(s1)
      case None => None
      case Some((n, s2)) =>
        if n == 0 then None
        else match Expect(s2, "}")
          case None => None
          case Some(s3) => Some((n - 1, s3))
  }

  lemma ReadRowOf(k: nat, rest: string)
    ensures ReadRow(RowName(k) + rest) == Some((k, rest))
  {
    var d := NatToString(k + 1);
    assert RowName(k) + rest == "r_{" + (d + ("}" + rest));
    ExpectOf("r_{", d + ("}" + rest));
    ReadNatOf(k + 1, "}" + rest);
    ExpectOf("}", rest);
  }

  function ReadSwapLabel(s: string): Option<(nat, nat)> {
    match ReadRow(s)
    case None => None
    case Some((a, s1)) =>
      match Expect(s1, SwapWord)
      case None => None
      case Some(s2) =>
        match ReadRow(s2)
        case Some((b, s3)) => if s3 == [] then Some((a, b)) else None
        case None => None
  }

  lemma Regroup(a: string, x: string, y: string, z: string)
    ensures a + x + y + z == a + (x + y + z)
  {
  }

  /** The corrected swap label names exactly the two rows exchanged. */
  lemma SwapLabelRoundTrip(t: nat, p: nat)
    ensures ReadSwapLabel(SwapLabel(t, p)) == Some((t, p))
  {
    assert SwapLabel(t, p) == RowName(t) + (SwapWord + (RowName(p) + []));
    ReadRowOf(t, SwapWord + (RowName(p) + []));
    ExpectOf(SwapWord, RowName(p) + []);
    ReadRowOf(p, []);
  }

  /** As written, the label of exchanging rows t and p (p >= 1) is the
      corrected label of exchanging rows t and p - 1, and so reads as that
      exchange (`SwapLabelRoundTrip`). */
  lemma SwapLabelAsWrittenReadsOneRowUp(t: nat, p: nat)
    requires p >= 1
    ensures SwapLabelAsWritten(t, p) == SwapLabel(t, p - 1)
  {
    var a := RowName(t) + SwapWord;
    var n := NatToString(p);
    assert RowName(p - 1) == "r_{" + n + "}";
    Regroup(a, "r_{", n, "}");
  }

  function ReadScaleLabel(s: string): Option<(nat, Fraction)> {
    match ReadRow(s)
    case None => None
    case Some((t, s1)) =>
      match Expect(s1, TimesWord)
      case None => None
      case Some(s2) =>
        match ReadParen(s2)
        case Some((f, s3)) => if s3 == [] then Some((t, f)) else None
        case None => None
  }

  lemma ScaleLabelRoundTrip(t: nat, f: Fraction)
    requires f.den >= 1
    ensures ReadScaleLabel(ScaleLabel(t, f)) == Some((t, f))
  {
    assert ScaleLabel(t, f) == RowName(t) + (TimesWord + (WithParen(f) + []));
    ReadRowOf(t, TimesWord + (WithParen(f) + []));
    ExpectOf(TimesWord, WithParen(f) + []);
    ReadParenOf(f, []);
  }

  /** A coefficient: a bare sign followed by a space stands for 1 or -1. */
  function ReadCoefficient(s: string): Option<(Fraction, string)> {
    if |s| >= 2 && s[0] == '+' && s[1] == ' ' then Some((Fraction(1, 1), s[1..]))
    else if |s| >= 2 && s[0] == '-' && s[1] == ' ' then Some((Fraction(-1, 1), s[1..]))
    else ReadSigned(s)
  }

  lemma ReadCoefficientOf(f: Fraction, rest: string)
    requires f.den >= 1 && rest != [] && rest[0] == ' '
    ensures ReadCoefficient(Coefficient(f) + rest) == Some((f, rest))
  {
    var s := Coefficient(f) + rest;
    if IsInteger(f) && Abs(f.num) == 1 {
      assert s[1..] == rest;
    } else {
      var w := WithSign(f);
      assert s[1] == w[1];
      assert w[1] != ' ' by {
        IntTextSign(f.num);
        if IsInteger(f) && !IsNegative(f) {
          assert w[1..] == IntToString(f.num);
        } else if IsInteger(f) {
          assert w == IntToString(f.num);
          assert w[1..] == NatToString(Abs(f.num));
        } else {
          assert w[1..] == FracText(Abs(f.num), f.den);
        }
      }
      ReadSignedOf(f, rest);
    }
  }

  function ReadScaleAddLabel(s: string): Option<(nat, Fraction, nat)> {
    match ReadRow(s)
    case None => None
    case Some((i, s1)) =>
      match Expect(s1, " ")
      case None => None
      case Some(s2) =>
        match ReadCoefficient(s2)
        case None => None
        case Some((f, s3)) =>
          match Expect(s3, " ")
          case None => None
          case Some(s4) =>
            match ReadRow(s4)
            case Some((t, s5)) => if s5 == [] then Some((i, f, t)) else None
            case None => None
  }

  /** The label of an elimination step names the target row, the factor and
      the pivot row, whether or not the factor is printed as a bare sign. */
  lemma ScaleAddLabelRoundTrip(i: nat, f: Fraction, t: nat)
    requires f.den >= 1
    ensures ReadScaleAddLabel(ScaleAddLabel(i, f, t)) == Some((i, f, t))
  {
    var tail := RowName(t) + [];
    assert ScaleAddLabel(i, f, t) == RowName(i) + (" " + (Coefficient(f) + (" " + tail)));
    ReadRowOf(i, " " + (Coefficient(f) + (" " + tail)));
    ExpectOf(" ", Coefficient(f) + (" " + tail));
    ReadCoefficientOf(f, " " + tail);
    ExpectOf(" ", tail);
    ReadRowOf(t, []);
  }

  // ---------------------------------------------------------------------
  // Captions of the step log

  /** The caption of a logged row operation, with both rows counted from 1;
      f is the reduced fraction whose value the operation's factor has. A
      swap of t and p, scaling row r, and adding a multiple of row s to row
      t are captioned as the elimination loop captions them. */
  function Label(op: RowOp, f: Fraction): string
    requires f.den >= 1
    requires op.Scale? ==> op.factor == Value(f)
    requires op.ScaleAdd? ==> op.multiple == Value(f)
  {
    match op
    case Swap(t, p) => SwapLabel(t, p)
    case Scale(r, _) => ScaleLabel(r, f)
    case ScaleAdd(s, _, t) => ScaleAddLabel(t, f, s)
  }

  /** Reading a caption gives back the operation's rows and the fraction
      whose value is the operation's factor. */
  lemma LabelRoundTrip(op: RowOp, f: Fraction)
    requires f.den >= 1
    requires op.Scale? ==> op.factor == Value(f)
    requires op.ScaleAdd? ==> op.multiple == Value(f)
    ensures op.Swap? ==> ReadSwapLabel(Label(op, f)) == Some((op.row1, op.row2))
    ensures op.Scale? ==> ReadScaleLabel(Label(op, f)) == Some((op.row, f))
    ensures op.ScaleAdd? ==> ReadScaleAddLabel(Label(op, f)) == Some((op.target, f, op.source))
  {
    match op
    case Swap(t, p) => SwapLabelRoundTrip(t, p);
    case Scale(r, _) => ScaleLabelRoundTrip(r, f);
    case ScaleAdd(s, _, t) => ScaleAddLabelRoundTrip(t, f, s);
  }
}

=== FILE: relation.dfy ===
/**
  The binary-relation solver: a square integer matrix is read as a relation
  (a non-zero entry relates its row to its column), five properties are
  decided, and the transitive closure is computed by Warshall's algorithm
  updating the matrix in place.
 */
module Relations {
  import opened Outcomes
  import opened Decimal
  import opened Matrices

  type Relation = seq<seq<bool>>

  predicate Square(R: Relation) {
    forall i :: 0 <= i < |R| ==> |R[i]| == |R|
  }

  /** Every non-zero entry relates. */
  function Related(M: Matrix<int>): (R: Relation)
    requires forall i :: 0 <= i < |M| ==> |M[i]| == |M|
    ensures Square(R) && |R| == |M|
    ensures forall i, j :: 0 <= i < |M| && 0 <= j < |M| ==> (R[i][j] <==> M[i][j] != 0)
  {
    Map(M, x => x != 0)
  }

  // ---------------------------------------------------------------------
  // The four direct properties

  /** Whether the first m diagonal entries all equal v, checked from the
      top left. */
  function Diagonal(R: Relation, m: nat, v: bool): (b: bool)
    requires Square(R) && m <= |R|
    ensures b <==> forall i :: 0 <= i < m ==> R[i][i] == v
  {
    m == 0 || (Diagonal(R, m - 1, v) && R[m - 1][m - 1] == v)
  }

  function Reflexive(R: Relation): bool
    requires Square(R)
  {
    Diagonal(R, |R|, true)
  }

  function Irreflexive(R: Relation): bool
    requires Square(R)
  {
    Diagonal(R, |R|, false)
  }

  /** A relation is both reflexive and irreflexive only on the empty set. */
  lemma ReflexiveAndIrreflexive(R: Relation)
    requires Square(R)
    ensures Reflexive(R) && Irreflexive(R) <==> |R| == 0
  {
    if |R| > 0 && Reflexive(R) {
      assert R[0][0];
    }
  }

  /** Whether ok holds of (R[a][b], R[b][a]) for the pairs below row i that
      lie under the diagonal, as the Rust solver enumerates them: row a, then
      every column b < a. */
  function LowerPairs(R: Relation, i: nat, ok: (bool, bool) -> bool): (b: bool)
    requires Square(R) && i <= |R|
    ensures b <==> forall a, c :: 0 <= c < a < i ==> ok(R[a][c], R[c][a])
  {
    i == 0 || (LowerPairs(R, i - 1, ok) && LowerRow(R, i - 1, i - 1, ok))
  }

  /** Whether ok holds of (R[a][c], R[c][a]) for every c < j. */
  function LowerRow(R: Relation, a: nat, j: nat, ok: (bool, bool) -> bool): (b: bool)
    requires Square(R) && a < |R| && j <= |R|
    ensures b <==> forall c :: 0 <= c < j ==> ok(R[a][c], R[c][a])
  {
    j == 0 || (LowerRow(R, a, j - 1, ok) && ok(R[a][j - 1], R[j - 1][a]))
  }

  function Symmetric(R: Relation): bool
    requires Square(R)
  {
    LowerPairs(R, |R|, (x, y) => x == y)
  }

  function Antisymmetric(R: Relation): bool
    requires Square(R)
  {
    LowerPairs(R, |R|, (x, y) => !x || !y)
  }

  /** Every pair is related both ways or neither way. */
  predicate RelatedBothWays(R: Relation)
    requires Square(R)
  {
    forall a, c :: 0 <= a < |R| && 0 <= c < |R| ==> R[a][c] == R[c][a]
  }

  /** Two distinct elements are never related both ways. */
  predicate NeverBothWays(R: Relation)
    requires Square(R)
  {
    forall a, c :: 0 <= a < |R| && 0 <= c < |R| && R[a][c] && R[c][a] ==> a == c
  }

  /** Checking the pairs under the diagonal decides symmetry of every pair. */
  lemma SymmetricIff(R: Relation)
    requires Square(R)
    ensures Symmetric(R) <==> RelatedBothWays(R)
  {
    if Symmetric(R) {
      forall a, c | 0 <= a < |R| && 0 <= c < |R|
        ensures R[a][c] == R[c][a]
      {
        if c < a {
          assert ((x, y) => x == y)(R[a][c], R[c][a]);
        } else if a < c {
          assert ((x, y) => x == y)(R[c][a], R[a][c]);
        }
      }
    }
  }

  /** Checking the pairs under the diagonal decides antisymmetry: two
      distinct elements are never related both ways. */
  lemma AntisymmetricIff(R: Relation)
    requires Square(R)
    ensures Antisymmetric(R) <==> NeverBothWays(R)
  {
    if Antisymmetric(R) {
      forall a, c | 0 <= a < |R| && 0 <= c < |R| && a != c
        ensures !R[a][c] || !R[c][a]
      {
        if c < a {
          assert ((x, y) => !x || !y)(R[a][c], R[c][a]);
        } else {
          assert ((x, y) => !x || !y)(R[c][a], R[a][c]);
        }
      }
    }
  }

  // ---------------------------------------------------------------------
  // Transitive closure

  predicate Transitive(R: Relation)
    requires Square(R)
  {
    forall a, b, c :: 0 <= a < |R| && 0 <= b < |R| && 0 <= c < |R| && R[a][b] && R[b][c] ==> R[a][c]
  }

  /** j reaches k through intermediate elements all below i: the relation
      after the first i rounds of Warshall's algorithm. */
  ghost function Through(R: Relation, i: nat, j: nat, k: nat): bool
    requires Square(R) && i <= |R| && j < |R| && k < |R|
    decreases i
  {
    if i == 0 then R[j][k]
    else Through(R, i - 1, j, k) || (Through(R, i - 1, j, i - 1) && Through(R, i - 1, i - 1, k))
  }

  ghost function Closure(R: Relation): (C: Relation)
    requires Square(R)
    ensures Square(C) && |C| == |R|
  {
    seq(|R|, j requires 0 <= j < |R| => seq(|R|, k requires 0 <= k < |R| => Through(R, |R|, j, k)))
  }

  /** Round i leaves the row and the column of element i unchanged. */
  lemma PivotStable(R: Relation, i: nat, x: nat)
    requires Square(R) && i < |R| && x < |R|
    ensures Through(R, i + 1, i, x) == Through(R, i, i, x)
    ensures Through(R, i + 1, x, i) == Through(R, i, x, i)
  {
  }

  /** Later rounds only add pairs. */
  lemma {:induction false} ThroughGrows(R: Relation, i: nat, l: nat, j: nat, k: nat)
    requires Square(R) && i <= l <= |R| && j < |R| && k < |R|
    requires Through(R, i, j, k)
    ensures Through(R, l, j, k)
    decreases l - i
  {
    if i < l {
      ThroughGrows(R, i + 1, l, j, k);
    }
  }

  /** Composing through an element already admitted as intermediate. */
  lemma {:induction false} ThroughComposes(R: Relation, i: nat, j: nat, k: nat, l: nat)
    requires Square(R) && i <= |R| && j < |R| && k < i && l < |R|
    requires Through(R, i, j, k) && Through(R, i, k, l)
    ensures Through(R, i, j, l)
    decreases i
  {
    var p := i - 1;
    if k < p {
      if Through(R, p, j, k) && Through(R, p, k, l) {
        ThroughComposes(R, p, j, k, l);
      } else if Through(R, p, j, k) {
        ThroughComposes(R, p, j, k, p);
      } else if Through(R, p, k, l) {
        ThroughComposes(R, p, p, k, l);
      }
    }
  }

  /** The closure contains the relation. */
  lemma ClosureContains(R: Relation, j: nat, k: nat)
    requires Square(R) && j < |R| && k < |R| && R[j][k]
    ensures Closure(R)[j][k]
  {
    ThroughGrows(R, 0, |R|, j, k);
  }

  /** The closure is transitive. */
  lemma ClosureTransitive(R: Relation)
    requires Square(R)
    ensures Transitive(Closure(R))
  {
    var C := Closure(R);
    forall a, b, c | 0 <= a < |R| && 0 <= b < |R| && 0 <= c < |R| && C[a][b] && C[b][c]
      ensures C[a][c]
    {
      ThroughComposes(R, |R|, a, b, c);
    }
  }

  /** Every transitive relation containing R contains each round. */
  lemma {:induction false} ThroughWithin(R: Relation, S: Relation, i: nat, j: nat, k: nat)
    requires Square(R) && Square(S) && |S| == |R| && Transitive(S)
    requires forall a, b :: 0 <= a < |R| && 0 <= b < |R| && R[a][b] ==> S[a][b]
    requires i <= |R| && j < |R| && k < |R| && Through(R, i, j, k)
    ensures S[j][k]
    decreases i
  {
    if i > 0 {
      var p := i - 1;
      if Through(R, p, j, k) {
        ThroughWithin(R, S, p, j, k);
      } else {
        ThroughWithin(R, S, p, j, p);
        ThroughWithin(R, S, p, p, k);
      }
    }
  }

  /** The closure is the least transitive relation containing R. */
  lemma ClosureLeast(R: Relation, S: Relation)
    requires Square(R) && Square(S) && |S| == |R| && Transitive(S)
    requires forall a, b :: 0 <= a < |R| && 0 <= b < |R| && R[a][b] ==> S[a][b]
    ensures forall a, b :: 0 <= a < |R| && 0 <= b < |R| && Closure(R)[a][b] ==> S[a][b]
  {
    forall a, b | 0 <= a < |R| && 0 <= b < |R| && Closure(R)[a][b]
      ensures S[a][b]
    {
      ThroughWithin(R, S, |R|, a, b);
    }
  }

  /** A relation is transitive exactly when it is its own closure. */
  lemma TransitiveIffClosed(R: Relation)
    requires Square(R)
    ensures Transitive(R) <==> Closure(R) == R
  {
    var C := Closure(R);
    if Transitive(R) {
      ClosureLeast(R, R);
      forall a | 0 <= a < |R|
        ensures C[a] == R[a]
      {
        forall b | 0 <= b < |R|
          ensures C[a][b] == R[a][b]
        {
          if R[a][b] {
            ClosureContains(R, a, b);
          }
        }
      }
    }
    if C == R {
      ClosureTransitive(R);
    }
  }

  /** Closing twice adds nothing. */
  lemma ClosureIdempotent(R: Relation)
    requires Square(R)
    ensures Closure(Closure(R)) == Closure(R)
  {
    ClosureTransitive(R);
    TransitiveIffClosed(Closure(R));
  }

  /** Warshall's algorithm, in place: for each intermediate i, every row j
      related to i gains row i. */
  method Warshall(R: Relation) returns (t: Relation)
    requires Square(R)
    ensures t == Closure(R)
  {
    var n := |R|;
    t := R;
    for i := 0 to n
      invariant Square(t) && |t| == n
      invariant forall a, k :: 0 <= a < n && 0 <= k < n ==> t[a][k] == Through(R, i, a, k)
    {
      for j := 0 to n
        invariant Square(t) && |t| == n
        invariant forall a, k :: 0 <= a < j && 0 <= k < n ==> t[a][k] == Through(R, i + 1, a, k)
        invariant forall a, k :: j <= a < n && 0 <= k < n ==> t[a][k] == Through(R, i, a, k)
      {
        PivotStable(R, i, j);
        if t[j][i] {
          for k := 0 to n
            invariant Square(t) && |t| == n
            invariant forall a, c :: 0 <= a < j && 0 <= c < n ==> t[a][c] == Through(R, i + 1, a, c)
            invariant forall a, c :: j < a < n && 0 <= c < n ==> t[a][c] == Through(R, i, a, c)
            invariant forall c :: 0 <= c < k ==> t[j][c] == Through(R, i + 1, j, c)
            invariant forall c :: k <= c < n ==> t[j][c] == Through(R, i, j, c)
          {
            PivotStable(R, i, k);
            if t[i][k] {
              t := t[j := t[j][k := true]];
            }
          }
        } else {
          forall c | 0 <= c < n
            ensures Through(R, i + 1, j, c) == Through(R, i, j, c)
          {
          }
        }
      }
    }
    assert forall a :: 0 <= a < n ==> t[a] == Closure(R)[a];
  }

  // ---------------------------------------------------------------------
  // The solver

  datatype Failure =
    | ParseFailure   // a cell is not an integer, or rows differ in length
    | NoRows         // nothing to take the shape of
    | NotSquare

  datatype Verdict = Verdict(
    relation: Relation,
    closure: Relation,
    reflexive: bool,
    irreflexive: bool,
    symmetric: bool,
    antisymmetric: bool,
    transitive: bool)

  /** A relation matrix shown as zeros and ones. */
  function Bits(R: Relation): (r: Matrix<string>)
    ensures |r| == |R| && forall i :: 0 <= i < |R| ==> |r[i]| == |R[i]|
    ensures forall i, j :: 0 <= i < |R| && 0 <= j < |R[i]| ==> (r[i][j] == "1" <==> R[i][j])
    ensures forall i, j :: 0 <= i < |R| && 0 <= j < |R[i]| ==> r[i][j] in ["0", "1"]
  {
    Map(R, (x: bool) => if x then "1" else "0")
  }

  method Solve(input: string) returns (r: Result<Verdict, Failure>)
    ensures r == Err(ParseFailure) <==> FromText(input, ParseInt).None?
    ensures r == Err(NoRows) <==> FromText(input, ParseInt) == Some([])
    ensures r == Err(NotSquare) <==>
      exists M :: FromText(input, ParseInt) == Some(M) && |M| > 0 && |M[0]| != |M|
    ensures r.Ok? ==> exists M :: FromText(input, ParseInt) == Some(M) && r.value.relation == Related(M)
    ensures r.Ok? ==> Square(r.value.relation) && r.value.closure == Closure(r.value.relation)
    ensures r.Ok? ==> (r.value.reflexive <==> forall i :: 0 <= i < |r.value.relation| ==> r.value.relation[i][i])
    ensures r.Ok? ==> (r.value.irreflexive <==> forall i :: 0 <= i < |r.value.relation| ==> !r.value.relation[i][i])
    ensures r.Ok? ==> r.value.symmetric == Symmetric(r.value.relation)
    ensures r.Ok? ==> r.value.antisymmetric == Antisymmetric(r.value.relation)
    ensures r.Ok? ==> (r.value.symmetric <==> RelatedBothWays(r.value.relation))
    ensures r.Ok? ==> (r.value.antisymmetric <==> NeverBothWays(r.value.relation))
    ensures r.Ok? ==> (r.value.transitive <==> Transitive(r.value.relation))
  {
    var parsed := FromText(input, ParseInt);
    if parsed.None? {
      return Err(ParseFailure);
    }
    var M := parsed.value;
    if |M| == 0 {
      return Err(NoRows);
    }
    if |M[0]| != |M| {
      return Err(NotSquare);
    }
    var R := Related(M);
    var t := Warshall(R);
    TransitiveIffClosed(R);
    SymmetricIff(R);
    AntisymmetricIff(R);
    r := Ok(Verdict(R, t, Reflexive(R), Irreflexive(R), Symmetric(R), Antisymmetric(R), R == t));
  }
}

=== FILE: systems.dfy ===
/**
  Linear systems given by augmented matrices: the last column holds the
  right-hand sides, the others the coefficients. Row operations keep the
  solution set, so the reduced form answers every question about it: the
  rank test for consistency, uniqueness when every unknown has a pivot, and
  a basic solution for every free unknown.
 */
module LinearSystems {
  import opened Outcomes
  import opened Matrices
  import opened Elimination

  // ---------------------------------------------------------------------
  // Vectors

  /** The sum of the entries, added from the front. */
  function Sum(s: seq<real>): real
    decreases |s|
  {
    if |s| == 0 then 0.0 else Sum(s[..|s| - 1]) + s[|s| - 1]
  }

  /** The entry-wise products a[c] * x[c]. */
  function Products(a: seq<real>, x: seq<real>): (p: seq<real>)
    requires |a| == |x|
    ensures |p| == |a| && forall c :: 0 <= c < |a| ==> p[c] == a[c] * x[c]
  {
    seq(|a|, c requires 0 <= c < |a| => a[c] * x[c])
  }

  function Dot(a: seq<real>, x: seq<real>): real
    requires |a| == |x|
  {
    Sum(Products(a, x))
  }

  function VecAdd(x: seq<real>, y: seq<real>): (z: seq<real>)
    requires |x| == |y|
    ensures |z| == |x| && forall c :: 0 <= c < |x| ==> z[c] == x[c] + y[c]
  {
    seq(|x|, c requires 0 <= c < |x| => x[c] + y[c])
  }

  function VecScale(x: seq<real>, f: real): (z: seq<real>)
    ensures |z| == |x| && forall c :: 0 <= c < |x| ==> z[c] == x[c] * f
  {
    seq(|x|, c requires 0 <= c < |x| => x[c] * f)
  }

  function Zeros(n: nat): (z: seq<real>)
    ensures |z| == n && forall c :: 0 <= c < n ==> z[c] == 0.0
  {
    seq(n, c => 0.0)
  }

  lemma {:induction false} SumZero(s: seq<real>)
    requires forall c :: 0 <= c < |s| ==> s[c] == 0.0
    ensures Sum(s) == 0.0
    decreases |s|
  {
    if |s| > 0 {
      SumZero(s[..|s| - 1]);
    }
  }

  /** A sum with one possibly non-zero entry is that entry. */
  lemma {:induction false} SumOne(s: seq<real>, p: nat)
    requires p < |s|
    requires forall c :: 0 <= c < |s| && c != p ==> s[c] == 0.0
    ensures Sum(s) == s[p]
    decreases |s|
  {
    var l := |s| - 1;
    if l == p {
      SumZero(s[..l]);
    } else {
      SumOne(s[..l], p);
    }
  }

  /** A sum with two possibly non-zero entries is their sum. */
  lemma {:induction false} SumTwo(s: seq<real>, p: nat, q: nat)
    requires p < |s| && q < |s| && p != q
    requires forall c :: 0 <= c < |s| && c != p && c != q ==> s[c] == 0.0
    ensures Sum(s) == s[p] + s[q]
    decreases |s|
  {
    var l := |s| - 1;
    if l == p {
      SumOne(s[..l], q);
    } else if l == q {
      SumOne(s[..l], p);
    } else {
      SumTwo(s[..l], p, q);
    }
  }

  lemma {:induction false} SumAdd(s: seq<real>, u: seq<real>)
    requires |s| == |u|
    ensures Sum(VecAdd(s, u)) == Sum(s) + Sum(u)
    decreases |s|
  {
    if |s| > 0 {
      var l := |s| - 1;
      forall c | 0 <= c < l
        ensures VecAdd(s, u)[..l][c] == VecAdd(s[..l], u[..l])[c]
      {
      }
      assert VecAdd(s, u)[..l] == VecAdd(s[..l], u[..l]);
      SumAdd(s[..l], u[..l]);
    }
  }

  lemma Distributes(u: real, v: real, f: real)
    ensures (u + v) * f == u * f + v * f
  {
  }

  lemma {:induction false} SumScale(s: seq<real>, f: real)
    ensures Sum(VecScale(s, f)) == Sum(s) * f
    decreases |s|
  {
    if |s| > 0 {
      var l := |s| - 1;
      forall c | 0 <= c < l
        ensures VecScale(s, f)[..l][c] == VecScale(s[..l], f)[c]
      {
      }
      assert VecScale(s, f)[..l] == VecScale(s[..l], f);
      SumScale(s[..l], f);
      Distributes(Sum(s[..l]), s[l], f);
    }
  }

  /** The last term splits off a dot product. */
  lemma DotLast(a: seq<real>, x: seq<real>)
    requires |a| == |x| > 0
    ensures Dot(a, x) == Dot(a[..|a| - 1], x[..|x| - 1]) + a[|a| - 1] * x[|x| - 1]
  {
    var l := |a| - 1;
    forall c | 0 <= c < l
      ensures Products(a, x)[..l][c] == Products(a[..l], x[..l])[c]
    {
    }
    assert Products(a, x)[..l] == Products(a[..l], x[..l]);
  }

  lemma DotZeroTerms(a: seq<real>, x: seq<real>)
    requires |a| == |x|
    requires forall c :: 0 <= c < |a| ==> a[c] * x[c] == 0.0
    ensures Dot(a, x) == 0.0
  {
    SumZero(Products(a, x));
  }

  /** A dot product with one possibly non-zero term is that term. */
  lemma DotOneTerm(a: seq<real>, x: seq<real>, p: nat)
    requires |a| == |x| && p < |a|
    requires forall c :: 0 <= c < |a| && c != p ==> a[c] * x[c] == 0.0
    ensures Dot(a, x) == a[p] * x[p]
  {
    SumOne(Products(a, x), p);
  }

  /** A dot product with two possibly non-zero terms is their sum. */
  lemma DotTwoTerms(a: seq<real>, x: seq<real>, p: nat, q: nat)
    requires |a| == |x| && p < |a| && q < |a| && p != q
    requires forall c :: 0 <= c < |a| && c != p && c != q ==> a[c] * x[c] == 0.0
    ensures Dot(a, x) == a[p] * x[p] + a[q] * x[q]
  {
    SumTwo(Products(a, x), p, q);
  }

  lemma MulSwap(u: real, f: real, v: real)
    ensures u * f * v == u * v * f
  {
  }

  lemma DotScaleLeft(a: seq<real>, x: seq<real>, f: real)
    requires |a| == |x|
    ensures Dot(VecScale(a, f), x) == Dot(a, x) * f
  {
    var P := Products(a, x);
    var A := VecScale(a, f);
    var Q := Products(A, x);
    var S := VecScale(P, f);
    forall c | 0 <= c < |a|
      ensures Q[c] == S[c]
    {
      assert A[c] == a[c] * f;
      assert Q[c] == (a[c] * f) * x[c];
      assert S[c] == (a[c] * x[c]) * f;
      MulSwap(a[c], f, x[c]);
    }
    assert Q == S;
    SumScale(P, f);
  }

  lemma DotAddLeft(a: seq<real>, b: seq<real>, x: seq<real>)
    requires |a| == |b| == |x|
    ensures Dot(VecAdd(a, b), x) == Dot(a, x) + Dot(b, x)
  {
    forall c | 0 <= c < |a|
      ensures Products(VecAdd(a, b), x)[c] == VecAdd(Products(a, x), Products(b, x))[c]
    {
      Distributes(a[c], b[c], x[c]);
    }
    assert Products(VecAdd(a, b), x) == VecAdd(Products(a, x), Products(b, x));
    SumAdd(Products(a, x), Products(b, x));
  }

  lemma DotAddRight(a: seq<real>, x: seq<real>, y: seq<real>)
    requires |a| == |x| == |y|
    ensures Dot(a, VecAdd(x, y)) == Dot(a, x) + Dot(a, y)
  {
    forall c | 0 <= c < |a|
      ensures Products(a, VecAdd(x, y))[c] == VecAdd(Products(a, x), Products(a, y))[c]
    {
      Distributes(x[c], y[c], a[c]);
    }
    assert Products(a, VecAdd(x, y)) == VecAdd(Products(a, x), Products(a, y));
    SumAdd(Products(a, x), Products(a, y));
  }

  // ---------------------------------------------------------------------
  // Augmented matrices and their solutions

  /** x (one value per unknown) satisfies the equation of one row. */
  predicate Satisfies(row: seq<real>, x: seq<real>)
    requires |row| == |x| + 1
  {
    Dot(row[..|x|], x) == row[|x|]
  }

  predicate Solves(M: Matrix<real>, x: seq<real>) {
    Rect(M) && Width(M) == |x| + 1 && forall r :: 0 <= r < |M| ==> Satisfies(M[r], x)
  }

  /** x satisfies every equation with its right-hand side replaced by 0. */
  predicate SolvesHomogeneous(M: Matrix<real>, x: seq<real>) {
    Rect(M) && Width(M) == |x| + 1 && forall r :: 0 <= r < |M| ==> Dot(M[r][..|x|], x) == 0.0
  }

  ghost predicate Solvable(M: Matrix<real>) {
    exists x :: Solves(M, x)
  }

  ghost predicate HasUniqueSolution(M: Matrix<real>) {
    Solvable(M) && forall x, y :: Solves(M, x) && Solves(M, y) ==> x == y
  }

  ghost predicate HasManySolutions(M: Matrix<real>) {
    exists x, y :: Solves(M, x) && Solves(M, y) && x != y
  }

  /** The coefficient matrix: every column but the last. */
  function Coefficients(M: Matrix<real>): (C: Matrix<real>)
    requires Rect(M) && Width(M) >= 1
    ensures Rect(C) && |C| == |M| && Width(C) == Width(M) - 1
    ensures forall i :: 0 <= i < |M| ==> C[i] == M[i][..Width(M) - 1]
  {
    var C := Truncate(M, Width(M) - 1);
    assert forall i :: 0 <= i < |M| ==> C[i] == M[i][..Width(M) - 1];
    C
  }

  /** A solution plus a solution of the homogeneous system is a solution. */
  lemma AddHomogeneous(M: Matrix<real>, x: seq<real>, h: seq<real>)
    requires Solves(M, x) && SolvesHomogeneous(M, h)
    ensures Solves(M, VecAdd(x, h))
  {
    var n := |x|;
    forall r | 0 <= r < |M|
      ensures Satisfies(M[r], VecAdd(x, h))
    {
      DotAddRight(M[r][..n], x, h);
    }
  }

  // ---------------------------------------------------------------------
  // Row operations keep the solution set

  lemma SwapKeepsSolutions(M: Matrix<real>, a: nat, b: nat, x: seq<real>)
    requires Rect(M) && a < |M| && b < |M| && Width(M) == |x| + 1
    ensures Solves(M, x) <==> Solves(SwapRow(M, a, b), x)
  {
    var R := SwapRow(M, a, b);
    assert Rect(R) by {
      assert forall i :: 0 <= i < |R| ==> R[i] in M;
    }
    if Solves(R, x) {
      forall r | 0 <= r < |M|
        ensures Satisfies(M[r], x)
      {
        if r == a {
          assert M[r] == R[b];
        } else if r == b {
          assert M[r] == R[a];
        } else {
          assert M[r] == R[r];
        }
      }
    }
  }

  lemma ScaledEquation(d: real, e: real, f: real)
    requires f != 0.0
    ensures d * f == e * f <==> d == e
  {
  }

  /** Scaling an equation by a non-zero factor keeps its solutions. */
  lemma SatisfiesScaled(row: seq<real>, f: real, x: seq<real>)
    requires |row| == |x| + 1 && f != 0.0
    ensures Satisfies(VecScale(row, f), x) <==> Satisfies(row, x)
  {
    var n := |x|;
    forall c | 0 <= c < n
      ensures VecScale(row, f)[..n][c] == VecScale(row[..n], f)[c]
    {
    }
    assert VecScale(row, f)[..n] == VecScale(row[..n], f);
    DotScaleLeft(row[..n], x, f);
    ScaledEquation(Dot(row[..n], x), row[n], f);
  }

  /** Adding a multiple of a satisfied equation keeps an equation's
      solutions. */
  lemma SatisfiesCombined(rb: seq<real>, ra: seq<real>, f: real, x: seq<real>)
    requires |rb| == |ra| == |x| + 1 && Satisfies(ra, x)
    ensures Satisfies(VecAdd(rb, VecScale(ra, f)), x) <==> Satisfies(rb, x)
  {
    var n := |x|;
    var sa := VecScale(ra, f);
    forall c | 0 <= c < n
      ensures VecAdd(rb, sa)[..n][c] == VecAdd(rb[..n], VecScale(ra[..n], f))[c]
    {
    }
    assert VecAdd(rb, sa)[..n] == VecAdd(rb[..n], VecScale(ra[..n], f));
    DotAddLeft(rb[..n], VecScale(ra[..n], f), x);
    DotScaleLeft(ra[..n], x, f);
    assert Dot(ra[..n], x) * f == ra[n] * f;
  }

  lemma ScaleKeepsSolutions(M: Matrix<real>, row: nat, f: real, x: seq<real>)
    requires Rect(M) && row < |M| && f != 0.0 && Width(M) == |x| + 1
    ensures Solves(M, x) <==> Solves(ScaleRow(M, row, f), x)
  {
    var R := ScaleRow(M, row, f);
    assert R[row] == VecScale(M[row], f);
    SatisfiesScaled(M[row], f, x);
    forall r | 0 <= r < |M|
      ensures Satisfies(R[r], x) <==> Satisfies(M[r], x)
    {
      if r != row {
        assert M[r] == R[r];
      }
    }
  }

  lemma ScaleAddKeepsSolutions(M: Matrix<real>, a: nat, f: real, b: nat, x: seq<real>)
    requires Rect(M) && a < |M| && b < |M| && a != b && Width(M) == |x| + 1
    ensures Solves(M, x) <==> Solves(ScaleAddRow(M, a, f, b), x)
  {
    var R := ScaleAddRow(M, a, f, b);
    assert R[b] == VecAdd(M[b], VecScale(M[a], f));
    assert R[a] == M[a];
    if Satisfies(M[a], x) {
      SatisfiesCombined(M[b], M[a], f, x);
      forall r | 0 <= r < |M|
        ensures Satisfies(R[r], x) <==> Satisfies(M[r], x)
      {
        if r != b {
          assert M[r] == R[r];
        }
      }
    }
  }

  lemma OpKeepsSolutions(M: Matrix<real>, op: RowOp, x: seq<real>)
    requires Rect(M) && Valid(|M|, op) && Width(M) == |x| + 1
    ensures Solves(M, x) <==> Solves(Apply(M, op), x)
  {
    match op
    case Swap(a, b) => SwapKeepsSolutions(M, a, b, x);
    case Scale(row, f) => ScaleKeepsSolutions(M, row, f, x);
    case ScaleAdd(a, f, b) => ScaleAddKeepsSolutions(M, a, f, b, x);
  }

  lemma {:induction false} OpsKeepSolutions(M: Matrix<real>, ops: seq<RowOp>, x: seq<real>)
    requires Rect(M) && AllValid(|M|, ops) && Width(M) == |x| + 1
    ensures Solves(M, x) <==> Solves(ApplyAll(M, ops), x)
    decreases |ops|
  {
    if ops != [] {
      OpKeepsSolutions(M, ops[0], x);
      OpsKeepSolutions(Apply(M, ops[0]), ops[1..], x);
    }
  }

  /** An augmented matrix and its reduced row echelon form have the same
      solutions. */
  lemma ReductionKeepsSolutions(M: Matrix<real>, x: seq<real>)
    requires Rect(M) && Width(M) == |x| + 1
    ensures Solves(M, x) <==> Solves(ReducedRowEchelonForm(M), x)
  {
    OpsKeepSolutions(M, Eliminate(M).ops, x);
  }

  lemma ReductionKeepsSolvable(M: Matrix<real>)
    requires Rect(M) && Width(M) >= 1
    ensures Solvable(M) <==> Solvable(ReducedRowEchelonForm(M))
  {
    var R := ReducedRowEchelonForm(M);
    if Solvable(M) {
      var x :| Solves(M, x);
      ReductionKeepsSolutions(M, x);
    }
    if Solvable(R) {
      var x :| Solves(R, x);
      ReductionKeepsSolutions(M, x);
    }
  }

  // ---------------------------------------------------------------------
  // Reading solutions off the reduced form

  /** R is in reduced row echelon form with pivots in rows 0..t-1. */
  predicate Reduced(R: Matrix<real>, t: nat) {
    |R| > 0 && Partial(R, t, Width(R))
  }

  /** The row among 0..t-1 whose leading entry is in column c, if any. */
  function PivotRow(R: Matrix<real>, t: nat, c: nat, from: nat): (r: Option<nat>)
    requires t <= |R| && from <= t
    ensures r.Some? ==> from <= r.value < t && Lead(R[r.value]) == c
    ensures r.None? ==> forall k :: from <= k < t ==> Lead(R[k]) != c
    decreases t - from
  {
    if from == t then None
    else if Lead(R[from]) == c then Some(from)
    else PivotRow(R, t, c, from + 1)
  }

  lemma {:induction false} PivotRowFinds(R: Matrix<real>, t: nat, r: nat, from: nat)
    requires Reduced(R, t) && from <= r < t
    ensures PivotRow(R, t, Lead(R[r]), from) == Some(r)
    decreases r - from
  {
    if from < r {
      assert Lead(R[from]) < Lead(R[r]);
      PivotRowFinds(R, t, r, from + 1);
    }
  }

  /** The solution that puts each pivot row's right-hand side on its pivot
      unknown and 0 on every free unknown. */
  function Particular(R: Matrix<real>, t: nat): (x: seq<real>)
    requires Rect(R) && Width(R) >= 1 && t <= |R|
    ensures |x| == Width(R) - 1
  {
    var n := Width(R) - 1;
    seq(n, c requires 0 <= c < n =>
      match PivotRow(R, t, c, 0)
      case Some(r) => R[r][n]
      case None => 0.0)
  }

  /** The basic solution of free unknown f: 1 at f, minus column f of each
      pivot row at that row's pivot unknown, 0 elsewhere. */
  function Basic(R: Matrix<real>, t: nat, f: nat): (x: seq<real>)
    requires Rect(R) && t <= |R| && f < Width(R)
    ensures |x| == Width(R) - 1
  {
    var n := Width(R) - 1;
    seq(n, c requires 0 <= c < n =>
      if c == f then 1.0
      else match PivotRow(R, t, c, 0)
        case Some(r) => -R[r][f]
        case None => 0.0)
  }

  predicate IsFree(R: Matrix<real>, t: nat, c: nat)
    requires t <= |R|
  {
    forall r :: 0 <= r < t ==> Lead(R[r]) != c
  }

  /** Off its pivot column a pivot row meets the particular solution only in
      zero terms. */
  lemma ParticularTerms(R: Matrix<real>, t: nat, r: nat, c: nat)
    requires Reduced(R, t) && Width(R) >= 1 && r < t && c < Width(R) - 1
    requires c != Lead(R[r])
    ensures R[r][c] * Particular(R, t)[c] == 0.0
  {
    match PivotRow(R, t, c, 0)
    case None =>
    case Some(k) =>
      assert R[r][Lead(R[k])] == 0.0;
  }

  /** With no pivot in the right-hand-side column, the particular solution
      solves the reduced system. */
  lemma ParticularSolves(R: Matrix<real>, t: nat)
    requires Reduced(R, t) && Width(R) >= 1
    requires forall r :: 0 <= r < t ==> Lead(R[r]) < Width(R) - 1
    ensures Solves(R, Particular(R, t))
  {
    forall r | 0 <= r < |R|
      ensures Satisfies(R[r], Particular(R, t))
    {
      ParticularRow(R, t, r);
    }
  }

  lemma ParticularRow(R: Matrix<real>, t: nat, r: nat)
    requires Reduced(R, t) && Width(R) >= 1 && r < |R|
    requires forall r :: 0 <= r < t ==> Lead(R[r]) < Width(R) - 1
    ensures Satisfies(R[r], Particular(R, t))
  {
    var n := Width(R) - 1;
    var x := Particular(R, t);
    var a := R[r][..n];
    if r < t {
      var p := Lead(R[r]);
      PivotRowFinds(R, t, r, 0);
      forall c | 0 <= c < n && c != p
        ensures a[c] * x[c] == 0.0
      {
        ParticularTerms(R, t, r, c);
      }
      DotOneTerm(a, x, p);
      assert a[p] == 1.0 && x[p] == R[r][n];
    } else {
      forall c | 0 <= c < n
        ensures a[c] * x[c] == 0.0
      {
        assert a[c] == 0.0;
      }
      DotZeroTerms(a, x);
    }
  }

  lemma BasicTerms(R: Matrix<real>, t: nat, f: nat, r: nat, c: nat)
    requires Reduced(R, t) && Width(R) >= 1 && r < t && f < Width(R) - 1
    requires c < Width(R) - 1 && c != Lead(R[r]) && c != f
    ensures R[r][c] * Basic(R, t, f)[c] == 0.0
  {
    match PivotRow(R, t, c, 0)
    case None =>
    case Some(k) =>
      assert R[r][Lead(R[k])] == 0.0;
  }

  /** The basic solution of a free unknown solves the homogeneous system. */
  lemma BasicSolvesHomogeneous(R: Matrix<real>, t: nat, f: nat)
    requires Reduced(R, t) && Width(R) >= 1 && f < Width(R) - 1
    requires IsFree(R, t, f)
    requires forall r :: 0 <= r < t ==> Lead(R[r]) < Width(R) - 1
    ensures SolvesHomogeneous(R, Basic(R, t, f))
    ensures Basic(R, t, f)[f] == 1.0
  {
    var n := Width(R) - 1;
    forall r | 0 <= r < |R|
      ensures Dot(R[r][..n], Basic(R, t, f)) == 0.0
    {
      BasicRow(R, t, f, r);
    }
  }

  lemma BasicRow(R: Matrix<real>, t: nat, f: nat, r: nat)
    requires Reduced(R, t) && Width(R) >= 1 && f < Width(R) - 1 && r < |R|
    requires IsFree(R, t, f)
    requires forall r :: 0 <= r < t ==> Lead(R[r]) < Width(R) - 1
    ensures Dot(R[r][..Width(R) - 1], Basic(R, t, f)) == 0.0
  {
    if r < t {
      BasicPivotRow(R, t, f, r);
    } else {
      var n := Width(R) - 1;
      var a := R[r][..n];
      forall c | 0 <= c < n
        ensures a[c] * Basic(R, t, f)[c] == 0.0
      {
        assert a[c] == 0.0;
      }
      DotZeroTerms(a, Basic(R, t, f));
    }
  }

  lemma BasicPivotRow(R: Matrix<real>, t: nat, f: nat, r: nat)
    requires Reduced(R, t) && Width(R) >= 1 && f < Width(R) - 1 && r < t
    requires IsFree(R, t, f)
    requires forall r :: 0 <= r < t ==> Lead(R[r]) < Width(R) - 1
    ensures Dot(R[r][..Width(R) - 1], Basic(R, t, f)) == 0.0
  {
    var a, x, p := R[r][..Width(R) - 1], Basic(R, t, f), Lead(R[r]);
    BasicRowTerms(R, t, f, r, a, x, p);
    CancellingTerms(a, x, p, f);
  }

  /** Of the terms of pivot row r at a basic solution, at most the pivot's
      and the free unknown's are non-zero, and those two cancel. */
  lemma BasicRowTerms(R: Matrix<real>, t: nat, f: nat, r: nat, a: seq<real>, x: seq<real>, p: nat)
    requires Reduced(R, t) && Width(R) >= 1 && f < Width(R) - 1 && r < t
    requires IsFree(R, t, f)
    requires forall r :: 0 <= r < t ==> Lead(R[r]) < Width(R) - 1
    requires a == R[r][..Width(R) - 1] && x == Basic(R, t, f) && p == Lead(R[r])
    ensures |a| == |x| && p < |a| && f < |a| && p != f
    ensures forall c :: 0 <= c < |a| && c != p && c != f ==> a[c] * x[c] == 0.0
    ensures a[p] * x[p] + a[f] * x[f] == 0.0
  {
    PivotRowFinds(R, t, r, 0);
    forall c | 0 <= c < |a| && c != p && c != f
      ensures a[c] * x[c] == 0.0
    {
      BasicTerms(R, t, f, r, c);
      assert a[c] == R[r][c];
    }
    BasicPivotTerms(R, t, f, r);
    assert a[p] == 1.0 && a[f] == R[r][f];
    assert x[f] == 1.0 && x[p] == -a[f];
  }

  lemma CancellingTerms(a: seq<real>, x: seq<real>, p: nat, q: nat)
    requires |a| == |x| && p < |a| && q < |a| && p != q
    requires forall c :: 0 <= c < |a| && c != p && c != q ==> a[c] * x[c] == 0.0
    requires a[p] * x[p] + a[q] * x[q] == 0.0
    ensures Dot(a, x) == 0.0
  {
    DotTwoTerms(a, x, p, q);
  }

  /** At a basic solution the pivot of row r is 1, the free unknown is 1,
      and the pivot's unknown is minus the row's entry in the free column. */
  lemma BasicPivotTerms(R: Matrix<real>, t: nat, f: nat, r: nat)
    requires Reduced(R, t) && Width(R) >= 1 && f < Width(R) - 1 && r < t
    requires IsFree(R, t, f)
    requires forall r :: 0 <= r < t ==> Lead(R[r]) < Width(R) - 1
    requires PivotRow(R, t, Lead(R[r]), 0) == Some(r)
    ensures Lead(R[r]) != f && R[r][Lead(R[r])] == 1.0
    ensures Basic(R, t, f)[f] == 1.0 && Basic(R, t, f)[Lead(R[r])] == -R[r][f]
  {
  }

  /** A pivot in the right-hand-side column is the equation 0 = 1. */
  lemma LastColumnPivotUnsolvable(R: Matrix<real>, t: nat, r: nat, x: seq<real>)
    requires Reduced(R, t) && r < t && Lead(R[r]) == Width(R) - 1
    requires |x| == Width(R) - 1
    ensures !Solves(R, x)
  {
    var n := |x|;
    DotZeroTerms(R[r][..n], x);
    assert !Satisfies(R[r], x);
  }

  // ---------------------------------------------------------------------
  // Counting pivots

  lemma {:induction false} LeadsAtLeastIndex(R: Matrix<real>, t: nat, r: nat)
    requires Reduced(R, t) && r < t
    ensures Lead(R[r]) >= r
  {
    if r > 0 {
      LeadsAtLeastIndex(R, t, r - 1);
    }
  }

  lemma {:induction false} LeadsAtMostIndex(R: Matrix<real>, t: nat, k: nat, r: nat)
    requires Reduced(R, t) && r < t
    requires forall q :: 0 <= q < t ==> Lead(R[q]) < k
    ensures Lead(R[r]) < k - (t - 1 - r)
    decreases t - r
  {
    if r + 1 < t {
      LeadsAtMostIndex(R, t, k, r + 1);
    }
  }

  /** Fewer pivots than unknowns leave an unknown without a pivot. */
  lemma FreeUnknownExists(R: Matrix<real>, t: nat, n: nat) returns (f: nat)
    requires Reduced(R, t) && t < n <= Width(R)
    requires forall r :: 0 <= r < t ==> Lead(R[r]) < n
    ensures f < n && IsFree(R, t, f)
  {
    f := 0;
    while f < t && Lead(R[f]) == f
      invariant f <= t
      invariant forall r :: 0 <= r < f ==> Lead(R[r]) == r
    {
      f := f + 1;
    }
    forall r | 0 <= r < t
      ensures Lead(R[r]) != f
    {
      if r < f {
        assert Lead(R[r]) == r;
      } else {
        LeadsAtLeastIndex(R, t, r);
        if r > f {
          LeadsAtLeastIndex(R, t, f);
          assert Lead(R[f]) < Lead(R[r]);
        }
      }
    }
  }

  /** As many pivots as unknowns: each unknown has its own equation. */
  lemma FullRankDetermines(R: Matrix<real>, t: nat, x: seq<real>)
    requires Reduced(R, t) && t == Width(R) - 1 == |x|
    requires forall r :: 0 <= r < t ==> Lead(R[r]) < t
    requires Solves(R, x)
    ensures forall c :: 0 <= c < t ==> x[c] == R[c][t]
  {
    forall r | 0 <= r < t
      ensures Lead(R[r]) == r
    {
      LeadsAtLeastIndex(R, t, r);
      LeadsAtMostIndex(R, t, t, r);
    }
    forall c | 0 <= c < t
      ensures x[c] == R[c][t]
    {
      forall k | 0 <= k < t && k != c
        ensures R[c][..t][k] * x[k] == 0.0
      {
        assert R[c][Lead(R[k])] == 0.0;
      }
      DotOneTerm(R[c][..t], x, c);
      assert Satisfies(R[c], x);
    }
  }

  // ---------------------------------------------------------------------
  // The rank test and the solution count

  /** Elimination of an augmented matrix stops after the coefficient columns
      with t1 pivots; the last column then adds a pivot or not. */
  lemma LastColumn(M: Matrix<real>)
    requires Rect(M) && Width(M) >= 1
    ensures var n := Width(M) - 1;
      var s := Reduce(M, 0, 0, n);
      var E := Eliminate(M);
      Rank(Coefficients(M)) == s.pivots &&
      Partial(E.m, E.pivots, Width(M)) &&
      (E.pivots == s.pivots ==> forall r :: 0 <= r < E.pivots ==> Lead(E.m[r]) < n) &&
      (E.pivots != s.pivots ==> E.pivots == s.pivots + 1 && Lead(E.m[s.pivots]) == n)
  {
    var n := Width(M) - 1;
    var s := Reduce(M, 0, 0, n);
    ReduceTruncate(M, n, 0, 0, n);
    assert Coefficients(M) == Truncate(M, n);
    EliminateCorrect(Coefficients(M));
    assert Partial(M, 0, 0);
    ReduceCorrect(M, 0, 0, n);
    ReduceSplit(M, 0, 0, n);
    ColumnCorrect(s.m, s.pivots, n);
    EliminateCorrect(M);
  }

  /** Consistency: the coefficient matrix and the augmented matrix have the
      same rank exactly when the system has a solution. */
  lemma RankTest(M: Matrix<real>)
    requires Rect(M) && Width(M) >= 1
    ensures Rank(Coefficients(M)) == Rank(M) <==> Solvable(M)
  {
    var n := Width(M) - 1;
    var E := Eliminate(M);
    var R := ReducedRowEchelonForm(M);
    LastColumn(M);
    EliminateCorrect(M);
    assert R == E.m;
    ReductionKeepsSolvable(M);
    var t1 := Reduce(M, 0, 0, n).pivots;
    if E.pivots == t1 {
      ParticularSolves(R, E.pivots);
    } else {
      forall x | Solves(R, x)
        ensures false
      {
        LastColumnPivotUnsolvable(R, E.pivots, t1, x);
      }
    }
  }

  /** In a consistent system every pivot is on an unknown, so the rank is
      at most the number of unknowns. */
  lemma ConsistentPivots(M: Matrix<real>)
    requires Rect(M) && Width(M) >= 1 && Solvable(M)
    ensures Reduced(ReducedRowEchelonForm(M), Rank(M))
    ensures forall r :: 0 <= r < Rank(M) ==> Lead(ReducedRowEchelonForm(M)[r]) < Width(M) - 1
    ensures Rank(M) <= Width(M) - 1
  {
    var R := ReducedRowEchelonForm(M);
    var t := Rank(M);
    LastColumn(M);
    EliminateCorrect(M);
    RankTest(M);
    if t > 0 {
      LeadsAtLeastIndex(R, t, t - 1);
    }
  }

  /** With full rank, a solution is the right-hand side column of the
      reduced form, read down its pivot rows. */
  lemma SolutionIsRhs(M: Matrix<real>, x: seq<real>)
    requires Rect(M) && Width(M) >= 1 && Solvable(M) && Rank(M) == Width(M) - 1 && Solves(M, x)
    ensures |x| == Rank(M)
    ensures forall c :: 0 <= c < Rank(M) ==> x[c] == ReducedRowEchelonForm(M)[c][Rank(M)]
  {
    ConsistentPivots(M);
    ReductionKeepsSolutions(M, x);
    FullRankDetermines(ReducedRowEchelonForm(M), Rank(M), x);
  }

  lemma UniqueWhenFullRank(M: Matrix<real>)
    requires Rect(M) && Width(M) >= 1 && Solvable(M)
    ensures Rank(M) == Width(M) - 1 ==> HasUniqueSolution(M)
  {
    if Rank(M) == Width(M) - 1 {
      forall x, y | Solves(M, x) && Solves(M, y)
        ensures x == y
      {
        SolutionIsRhs(M, x);
        SolutionIsRhs(M, y);
      }
    }
  }

  lemma ManyWhenRankDeficient(M: Matrix<real>)
    requires Rect(M) && Width(M) >= 1 && Solvable(M)
    ensures Rank(M) < Width(M) - 1 ==> HasManySolutions(M)
  {
    if Rank(M) < Width(M) - 1 {
      var n := Width(M) - 1;
      var R := ReducedRowEchelonForm(M);
      var t := Rank(M);
      ConsistentPivots(M);
      var f := FreeUnknownExists(R, t, n);
      ParticularSolves(R, t);
      BasicSolvesHomogeneous(R, t, f);
      var x := Particular(R, t);
      var y := VecAdd(x, Basic(R, t, f));
      AddHomogeneous(R, x, Basic(R, t, f));
      assert y[f] != x[f];
      ReductionKeepsSolutions(M, x);
      ReductionKeepsSolutions(M, y);
    }
  }

  /** A consistent system has a unique solution when its rank equals the
      number of unknowns, and two different solutions when the rank is
      smaller; the rank is never larger. */
  lemma SolutionCount(M: Matrix<real>)
    requires Rect(M) && Width(M) >= 1 && Solvable(M)
    ensures Rank(M) <= Width(M) - 1
    ensures Rank(M) == Width(M) - 1 <==> HasUniqueSolution(M)
    ensures Rank(M) < Width(M) - 1 <==> HasManySolutions(M)
  {
    ConsistentPivots(M);
    if Rank(M) == Width(M) - 1 {
      UniqueWhenFullRank(M);
    } else {
      ManyWhenRankDeficient(M);
    }
  }
}

=== FILE: vectorset.dfy ===
/**
  The maximal-linearly-independent-subset solver. The columns of a matrix
  read from text form a set of vectors; duplicates (after the first
  occurrence) and zero vectors are dropped, and a greedy pass keeps each
  remaining vector that is not in the span of those kept so far. Span
  membership is decided by the rank test on the augmented system
  [kept vectors | candidate].

  The result is proved linearly independent, and every vector of the input
  is proved to lie in its span.
 */
module VectorSets {
  import opened Outcomes
  import opened Matrices
  import opened Decimal
  import opened Elimination
  import opened LinearSystems
  import LinearEquations

  type Vector = seq<real>

  /** Why no answer is produced. */
  datatype Failure =
    | ParseFailure  // a cell is not an integer or fraction, or rows differ in length
    | NoVectors     // the text holds no cell, so the set has no shape
    | AllZero       // every vector is zero, so there is no first vector to keep

  /** The outcome: the vectors read and the independent subset kept. */
  datatype Answer = Answer(vectors: seq<Vector>, independent: seq<Vector>)

  // ---------------------------------------------------------------------
  // Sequences

  predicate Distinct<T(==)>(u: seq<T>) {
    forall a, b :: 0 <= a < b < |u| ==> u[a] != u[b]
  }

  /** The reference for the dedup pass: the entries of S that do not occur
      earlier in S, in order. */
  function FirstOccurrences(S: seq<Vector>): (u: seq<Vector>)
    ensures forall x :: x in u <==> x in S
    ensures Distinct(u)
    ensures IsSubseq(u, S)
  {
    if |S| == 0 then []
    else
      var p, x := FirstOccurrences(S[..|S| - 1]), S[|S| - 1];
      assert S == S[..|S| - 1] + [x];
      if x in S[..|S| - 1] then
        SubseqSkip(p, S[..|S| - 1], x);
        p
      else
        SubseqKeep(p, S[..|S| - 1], x);
        p + [x]
  }

  /** The dedup loop: a vector is appended unless the result so far already
      contains it. */
  method Dedup(S: seq<Vector>) returns (u: seq<Vector>)
    ensures u == FirstOccurrences(S)
    ensures forall x :: x in u <==> x in S
    ensures Distinct(u)
  {
    u := [];
    var i := 0;
    while i < |S|
      invariant i <= |S|
      invariant u == FirstOccurrences(S[..i])
    {
      assert S[..i + 1][..i] == S[..i];
      if !(S[i] in u) {
        u := u + [S[i]];
      }
      i := i + 1;
    }
    assert S[..|S|] == S;
  }

  /** The non-zero vectors of S, in order: a subsequence of S made of
      non-zero vectors, as many as S has. */
  function NonZeroVectors(S: seq<Vector>): (r: seq<Vector>)
    ensures IsSubseq(r, S)
    ensures forall x :: x in r <==> x in S && !IsZeroRow(x)
    ensures |r| == CountNonZeroRows(S)
  {
    if |S| == 0 then []
    else
      var p, x := NonZeroVectors(S[..|S| - 1]), S[|S| - 1];
      assert S == S[..|S| - 1] + [x];
      if IsZeroRow(x) then
        SubseqSkip(p, S[..|S| - 1], x);
        p
      else
        SubseqKeep(p, S[..|S| - 1], x);
        p + [x]
  }

  /** The zero filter here and the filter of the printed equations keep
      the same entries. */
  lemma NonZeroVectorsAreShownRows(S: seq<Vector>)
    ensures NonZeroVectors(S) == LinearEquations.ShownRows(S)
  {
    var r := NonZeroVectors(S);
    forall k | 0 <= k < |r|
      ensures !IsZeroRow(r[k])
    {
      assert r[k] in r;
    }
    NonZeroSubseqUnique(r, LinearEquations.ShownRows(S), S);
  }

  // ---------------------------------------------------------------------
  // Vector sets as matrices

  /** Every vector has m entries. */
  predicate Dimension(S: seq<Vector>, m: nat) {
    forall j :: 0 <= j < |S| ==> |S[j]| == m
  }

  /** A non-empty set of equally long vectors; the length of the first is
      the dimension. */
  predicate WellShaped(S: seq<Vector>) {
    |S| > 0 && Dimension(S, |S[0]|)
  }

  /** Entry i of every vector. */
  function Entries(S: seq<Vector>, i: nat): (e: seq<real>)
    requires forall j :: 0 <= j < |S| ==> i < |S[j]|
    ensures |e| == |S| && forall j :: 0 <= j < |S| ==> e[j] == S[j][i]
  {
    seq(|S|, j requires 0 <= j < |S| => S[j][i])
  }

  /** The set's shape: (dimension, number of vectors). */
  function SetShape(S: seq<Vector>): (nat, nat)
    requires |S| > 0
  {
    (|S[0]|, |S|)
  }

  /** The matrix whose columns are the vectors. */
  function ToMatrix(S: seq<Vector>): (A: Matrix<real>)
    requires WellShaped(S)
    ensures |A| == |S[0]| && forall i :: 0 <= i < |A| ==> |A[i]| == |S|
    ensures forall i, j :: 0 <= i < |A| && 0 <= j < |S| ==> A[i][j] == S[j][i]
    ensures |A| > 0 ==> Shape(A) == SetShape(S)
  {
    seq(|S[0]|, i requires 0 <= i < |S[0]| => Entries(S, i))
  }

  /** The vectors made of the columns of a matrix. */
  function FromColumns(M: Matrix<real>): (S: seq<Vector>)
    requires |M| > 0 && Rectangular(M)
    ensures |S| == |M[0]| && Dimension(S, |M|)
    ensures forall j, i :: 0 <= j < |S| && 0 <= i < |M| ==> S[j][i] == M[i][j]
  {
    seq(|M[0]|, j requires 0 <= j < |M[0]| => seq(|M|, i requires 0 <= i < |M| => M[i][j]))
  }

  /** Reading the columns of a matrix and putting them back side by side
      gives the matrix. */
  lemma ColumnsRoundTrip(M: Matrix<real>)
    requires |M| > 0 && Rectangular(M) && |M[0]| > 0
    ensures WellShaped(FromColumns(M)) && ToMatrix(FromColumns(M)) == M
  {
    var A := ToMatrix(FromColumns(M));
    assert |A| == |M|;
    forall i | 0 <= i < |M|
      ensures A[i] == M[i]
    {
      assert |A[i]| == |M[i]|;
    }
  }

  /** And the other way round. */
  lemma MatrixRoundTrip(S: seq<Vector>)
    requires WellShaped(S) && |S[0]| > 0
    ensures FromColumns(ToMatrix(S)) == S
  {
    var T := FromColumns(ToMatrix(S));
    forall j | 0 <= j < |S|
      ensures T[j] == S[j]
    {
    }
  }

  // ---------------------------------------------------------------------
  // Linear combinations and span

  /** The sum of c[j] * S[j], every vector having m entries. */
  function Combination(S: seq<Vector>, c: seq<real>, m: nat): (v: Vector)
    requires |c| == |S| && Dimension(S, m)
    ensures |v| == m
    decreases |S|
  {
    if |S| == 0 then Zeros(m)
    else VecAdd(Combination(S[..|S| - 1], c[..|c| - 1], m), VecScale(S[|S| - 1], c[|c| - 1]))
  }

  ghost predicate InSpan(S: seq<Vector>, v: Vector)
    requires Dimension(S, |v|)
  {
    exists c :: |c| == |S| && Combination(S, c, |v|) == v
  }

  /** Only the zero combination of the vectors is zero. */
  ghost predicate Independent(S: seq<Vector>, m: nat)
    requires Dimension(S, m)
  {
    forall c :: |c| == |S| && Combination(S, c, m) == Zeros(m) ==> c == Zeros(|S|)
  }

  /** Entry i of a combination is the dot product of the coefficients with
      entry i of the vectors, i.e. row i of the matrix times c. */
  lemma {:induction false} CombinationEntry(S: seq<Vector>, c: seq<real>, m: nat, i: nat)
    requires |c| == |S| && Dimension(S, m) && i < m
    ensures Combination(S, c, m)[i] == Dot(Entries(S, i), c)
    decreases |S|
  {
    if |S| > 0 {
      var n := |S|;
      CombinationEntry(S[..n - 1], c[..n - 1], m, i);
      assert Entries(S, i)[..n - 1] == Entries(S[..n - 1], i);
      DotLast(Entries(S, i), c);
    }
  }

  /** Entry i of a combination: the combination of all but the last
      vector, plus the last vector's term. */
  lemma CombinationLast(S: seq<Vector>, c: seq<real>, m: nat, i: nat)
    requires |c| == |S| > 0 && Dimension(S, m) && i < m
    ensures Combination(S, c, m)[i] ==
      Combination(S[..|S| - 1], c[..|c| - 1], m)[i] + S[|S| - 1][i] * c[|c| - 1]
  {
  }

  lemma Associates(u: real, a: real, f: real)
    ensures u * (a * f) == (u * a) * f
  {
  }

  /** Scaling by a * f is scaling by a, then by f. */
  lemma ScaleTwice(x: Vector, a: real, f: real)
    ensures VecScale(x, a * f) == VecScale(VecScale(x, a), f)
  {
    var l, r := VecScale(x, a * f), VecScale(VecScale(x, a), f);
    forall k | 0 <= k < |x|
      ensures l[k] == r[k]
    {
      Associates(x[k], a, f);
    }
  }

  /** Scaling distributes over the sum of two vectors. */
  lemma ScaleSum(x: Vector, y: Vector, f: real)
    requires |x| == |y|
    ensures VecAdd(VecScale(x, f), VecScale(y, f)) == VecScale(VecAdd(x, y), f)
  {
    var l, r := VecAdd(VecScale(x, f), VecScale(y, f)), VecScale(VecAdd(x, y), f);
    forall k | 0 <= k < |x|
      ensures l[k] == r[k]
    {
      Distributes(x[k], y[k], f);
    }
  }

  lemma ScalePrefix(c: seq<real>, f: real, n: nat)
    requires n <= |c|
    ensures VecScale(c, f)[..n] == VecScale(c[..n], f)
  {
    var cs, ps := VecScale(c, f)[..n], VecScale(c[..n], f);
    forall k | 0 <= k < n
      ensures cs[k] == ps[k]
    {
    }
  }

  /** Scaling the coefficients scales the combination. */
  lemma {:induction false} CombinationScale(S: seq<Vector>, c: seq<real>, f: real, m: nat)
    requires |c| == |S| && Dimension(S, m)
    ensures Combination(S, VecScale(c, f), m) == VecScale(Combination(S, c, m), f)
    decreases |S|
  {
    if |S| > 0 {
      var n, d := |S|, VecScale(c, f);
      var P, cp, w := S[..n - 1], c[..n - 1], S[n - 1];
      ScalePrefix(c, f, n - 1);
      CombinationScale(P, cp, f, m);
      var a := c[n - 1];
      var x, y := Combination(P, cp, m), VecScale(w, a);
      assert d[..n - 1] == VecScale(cp, f) && d[n - 1] == a * f;
      ScaleTwice(w, a, f);
      ScaleSum(x, y, f);
      assert Combination(S, d, m) == VecAdd(VecScale(x, f), VecScale(w, a * f));
      assert Combination(S, c, m) == VecAdd(x, y);
    }
  }

  lemma {:induction false} CombinationOfZeros(S: seq<Vector>, m: nat)
    requires Dimension(S, m)
    ensures Combination(S, Zeros(|S|), m) == Zeros(m)
    decreases |S|
  {
    if |S| > 0 {
      assert Zeros(|S|)[..|S| - 1] == Zeros(|S| - 1);
      CombinationOfZeros(S[..|S| - 1], m);
    }
  }

  /** A zero coefficient for an added vector changes nothing. */
  lemma CombinationExtendZero(A: seq<Vector>, c: seq<real>, w: Vector, m: nat)
    requires |c| == |A| && Dimension(A, m) && |w| == m
    ensures Combination(A + [w], c + [0.0], m) == Combination(A, c, m)
  {
    var B, d := A + [w], c + [0.0];
    assert B[..|A|] == A;
    assert d[..|c|] == c;
    var e := Combination(B, d, m);
    forall i | 0 <= i < m
      ensures e[i] == Combination(A, c, m)[i]
    {
    }
  }

  /** Adding a vector to a set keeps everything its span held. */
  lemma SpanGrows(A: seq<Vector>, w: Vector, v: Vector)
    requires Dimension(A, |v|) && |w| == |v| && InSpan(A, v)
    ensures InSpan(A + [w], v)
  {
    var c :| |c| == |A| && Combination(A, c, |v|) == v;
    CombinationExtendZero(A, c, w, |v|);
  }

  /** A vector lies in the span of any set containing it as the last member. */
  lemma SpanHasMember(A: seq<Vector>, w: Vector)
    requires Dimension(A, |w|)
    ensures InSpan(A + [w], w)
  {
    var m := |w|;
    var d := Zeros(|A|) + [1.0];
    assert (A + [w])[..|A|] == A;
    assert d[..|A|] == Zeros(|A|);
    CombinationOfZeros(A, m);
    assert Combination(A + [w], d, m) == w;
  }

  /** The span of no vectors holds only the zero vector. */
  lemma EmptySpan(v: Vector)
    ensures InSpan([], v) <==> IsZeroRow(v)
  {
    assert Combination([], [], |v|) == Zeros(|v|);
    if IsZeroRow(v) {
      assert v == Zeros(|v|);
    }
  }

  /** The augmented matrix [A | v]. */
  function Augment(A: Matrix<real>, v: Vector): (B: Matrix<real>)
    requires |A| == |v|
    ensures |B| == |A| && forall i :: 0 <= i < |A| ==> B[i] == A[i] + [v[i]]
  {
    seq(|A|, i requires 0 <= i < |A| => A[i] + [v[i]])
  }

  /** c solves [set | v] exactly when it is the coefficient list of a
      combination equal to v. */
  lemma SolvesAugmented(S: seq<Vector>, v: Vector, c: seq<real>)
    requires WellShaped(S) && |v| == |S[0]| && |v| >= 1
    ensures Solves(Augment(ToMatrix(S), v), c) <==> |c| == |S| && Combination(S, c, |v|) == v
  {
    var m := |v|;
    var A := ToMatrix(S);
    var B := Augment(A, v);
    assert Rect(B) && Width(B) == |S| + 1;
    if |c| == |S| {
      forall r | 0 <= r < m
        ensures Satisfies(B[r], c) <==> Combination(S, c, m)[r] == v[r]
      {
        assert B[r][..|c|] == A[r] == Entries(S, r);
        CombinationEntry(S, c, m, r);
      }
      if Solves(B, c) {
        assert Combination(S, c, m) == v;
      }
    }
  }

  lemma SpanIffSolvable(S: seq<Vector>, v: Vector)
    requires WellShaped(S) && |v| == |S[0]| && |v| >= 1
    ensures InSpan(S, v) <==> Solvable(Augment(ToMatrix(S), v))
  {
    var B := Augment(ToMatrix(S), v);
    if InSpan(S, v) {
      var c :| |c| == |S| && Combination(S, c, |v|) == v;
      SolvesAugmented(S, v, c);
    }
    if Solvable(B) {
      var c :| Solves(B, c);
      SolvesAugmented(S, v, c);
    }
  }

  /** Span membership by the rank test on [set | v]; a vector of the wrong
      length is a precondition violation (the Rust solver panics). */
  function IsInSpan(S: seq<Vector>, v: Vector): (b: bool)
    requires WellShaped(S) && |v| == |S[0]| && |v| >= 1
    ensures b <==> InSpan(S, v)
  {
    SpanIffSolvable(S, v);
    var B := Augment(ToMatrix(S), v);
    assert Rect(B) && Width(B) == |S| + 1;
    LinearEquations.HasAnySolution(B)
  }

  // ---------------------------------------------------------------------
  // Greedy selection

  /** No member lies in the span of the members before it; in particular
      the first one is not zero. */
  ghost predicate Stepwise(S: seq<Vector>, m: nat)
    requires Dimension(S, m)
  {
    forall k :: 0 <= k < |S| ==> !InSpan(S[..k], S[k])
  }

  lemma Cancel(p: real, s: real, a: real)
    requires a != 0.0 && p + s * a == 0.0
    ensures p * (-1.0 / a) == s
  {
    assert p == -(s * a);
  }

  lemma LastTermEntry(S: seq<Vector>, c: seq<real>, m: nat, i: nat)
    requires |c| == |S| >= 1 && Dimension(S, m) && i < m
    requires c[|S| - 1] != 0.0 && Combination(S, c, m)[i] == 0.0
    requires var n, f := |S|, -1.0 / c[|S| - 1];
      Combination(S[..n - 1], VecScale(c[..n - 1], f), m) == VecScale(Combination(S[..n - 1], c[..n - 1], m), f)
    ensures Combination(S[..|S| - 1], VecScale(c[..|S| - 1], -1.0 / c[|S| - 1]), m)[i] == S[|S| - 1][i]
  {
    var n := |S|;
    CombinationLast(S, c, m, i);
    Cancel(Combination(S[..n - 1], c[..n - 1], m)[i], S[n - 1][i], c[n - 1]);
  }

  /** If a zero combination gives the last vector a non-zero coefficient,
      the last vector lies in the span of the others. */
  lemma LastTermInSpan(S: seq<Vector>, c: seq<real>, m: nat)
    requires |c| == |S| >= 1 && Dimension(S, m)
    requires Combination(S, c, m) == Zeros(m)
    ensures c[|S| - 1] != 0.0 ==> InSpan(S[..|S| - 1], S[|S| - 1])
  {
    var n := |S|;
    if c[n - 1] != 0.0 {
      var P, cp := S[..n - 1], c[..n - 1];
      var f := -1.0 / c[n - 1];
      CombinationScale(P, cp, f, m);
      var e := Combination(P, VecScale(cp, f), m);
      forall i | 0 <= i < m
        ensures e[i] == S[n - 1][i]
      {
        LastTermEntry(S, c, m, i);
      }
      assert e == S[n - 1];
    }
  }

  /** One step of the independence proof: a zero combination of a set whose
      last vector is outside the span of the others, which are independent,
      has only zero coefficients. */
  lemma ZeroCombination(S: seq<Vector>, c: seq<real>, m: nat)
    requires |c| == |S| >= 1 && Dimension(S, m) && |S[|S| - 1]| == m
    requires !InSpan(S[..|S| - 1], S[|S| - 1])
    requires Independent(S[..|S| - 1], m)
    requires Combination(S, c, m) == Zeros(m)
    ensures c == Zeros(|S|)
  {
    var n := |S|;
    var P, cp := S[..n - 1], c[..n - 1];
    LastTermInSpan(S, c, m);
    assert c[n - 1] == 0.0;
    var p := Combination(P, cp, m);
    forall i | 0 <= i < m
      ensures p[i] == 0.0
    {
      CombinationLast(S, c, m, i);
    }
    assert p == Zeros(m);
    assert cp == Zeros(n - 1);
    assert c == cp + [c[n - 1]];
  }

  /** The greedy condition makes a set linearly independent. */
  lemma {:induction false} StepwiseIndependent(S: seq<Vector>, m: nat)
    requires Dimension(S, m) && Stepwise(S, m)
    ensures Independent(S, m)
    decreases |S|
  {
    var n := |S|;
    if n > 0 {
      var P := S[..n - 1];
      assert Stepwise(P, m) by {
        forall k | 0 <= k < |P|
          ensures P[..k] == S[..k] && P[k] == S[k]
        {
        }
      }
      StepwiseIndependent(P, m);
      assert !InSpan(S[..n - 1], S[n - 1]);
      forall c | |c| == n && Combination(S, c, m) == Zeros(m)
        ensures c == Zeros(n)
      {
        ZeroCombination(S, c, m);
      }
    } else {
      forall c | |c| == n && Combination(S, c, m) == Zeros(m)
        ensures c == Zeros(n)
      {
      }
    }
  }

  /** What the greedy pass keeps true after looking at U[..k]: K is the
      reference choice for U[..k] (stated separately, in the loop); it
      starts with U[0], is drawn from U[..k] in order, each kept vector after
      the first is outside the span of those kept before it, and every vector
      looked at lies in the span of K. */
  ghost predicate GreedyState(K: seq<Vector>, U: seq<Vector>, k: nat, m: nat)
    requires 1 <= k <= |U| && Dimension(U, m)
  {
    |K| >= 1 && K[0] == U[0] && Dimension(K, m) && IsSubseq(K, U[..k]) &&
    (forall a :: 1 <= a < |K| ==> !InSpan(K[..a], K[a])) &&
    (forall j :: 0 <= j < k ==> InSpan(K, U[j]))
  }

  /** The state of the greedy pass after k vectors, and the reference
      choice over those k vectors it has made. */
  ghost predicate GreedySoFar(K: seq<Vector>, U: seq<Vector>, k: nat, m: nat)
    requires 1 <= k <= |U| && Dimension(U, m)
  {
    GreedyState(K, U, k, m) && K == GreedyChoice(U[..k], m)
  }

  /** The reference for the greedy pass: the first vector, then, in order,
      every later vector that is outside the span of the vectors chosen
      from before it; a vector inside that span is skipped. */
  ghost function GreedyChoice(U: seq<Vector>, m: nat): (K: seq<Vector>)
    requires |U| >= 1 && Dimension(U, m)
    ensures |K| >= 1 && Dimension(K, m)
    decreases |U|
  {
    if |U| == 1 then [U[0]]
    else
      var P := U[..|U| - 1];
      assert Dimension(P, m) by {
        forall j | 0 <= j < |P|
          ensures |P[j]| == m
        {
          assert P[j] == U[j];
        }
      }
      var K := GreedyChoice(P, m);
      if InSpan(K, U[|U| - 1]) then K else K + [U[|U| - 1]]
  }

  /** The reference after one more vector. */
  lemma GreedyChoiceNext(U: seq<Vector>, k: nat, m: nat)
    requires 1 <= k < |U| && Dimension(U, m)
    ensures var K := GreedyChoice(U[..k], m);
      GreedyChoice(U[..k + 1], m) == if InSpan(K, U[k]) then K else K + [U[k]]
  {
    assert U[..k + 1][..k] == U[..k];
  }

  lemma GreedyStart(U: seq<Vector>, m: nat)
    requires |U| >= 1 && Dimension(U, m)
    ensures GreedySoFar([U[0]], U, 1, m)
  {
    SpanHasMember([], U[0]);
    assert [U[0]] == [] + [U[0]];
    assert [U[0]][..0] == U[..1][..0];
  }

  /** Between steps the kept vectors and the next candidate have the shape
      the span test needs. */
  lemma GreedyShaped(K: seq<Vector>, U: seq<Vector>, k: nat, m: nat)
    requires 1 <= k < |U| && m >= 1 && Dimension(U, m) && GreedySoFar(K, U, k, m)
    ensures WellShaped(K) && |U[k]| == |K[0]| >= 1
  {
  }

  /** After the last step the kept vectors are the greedy choice over all
      of U, with the properties the state records. */
  lemma GreedyEnd(K: seq<Vector>, U: seq<Vector>, m: nat)
    requires |U| >= 1 && Dimension(U, m)
    requires GreedySoFar(K, U, |U|, m)
    ensures |K| >= 1 && K[0] == U[0] && IsSubseq(K, U) && Dimension(K, m)
    ensures forall k :: 1 <= k < |K| ==> !InSpan(K[..k], K[k])
    ensures forall j :: 0 <= j < |U| ==> InSpan(K, U[j])
    ensures K == GreedyChoice(U, m)
  {
    assert U[..|U|] == U;
  }

  lemma GreedySkip(K: seq<Vector>, U: seq<Vector>, k: nat, m: nat)
    requires 1 <= k < |U| && Dimension(U, m)
    requires GreedyState(K, U, k, m) && InSpan(K, U[k])
    ensures GreedyState(K, U, k + 1, m)
  {
    assert U[..k + 1] == U[..k] + [U[k]];
    SubseqSkip(K, U[..k], U[k]);
  }

  /** Adding a vector outside the span keeps every kept vector outside
      the span of those before it. */
  lemma AddKeepsStepwise(K: seq<Vector>, w: Vector, m: nat)
    requires Dimension(K, m) && |w| == m
    requires forall a :: 1 <= a < |K| ==> !InSpan(K[..a], K[a])
    requires !InSpan(K, w)
    ensures forall a :: 1 <= a < |K + [w]| ==> !InSpan((K + [w])[..a], (K + [w])[a])
  {
    var K' := K + [w];
    forall a | 1 <= a < |K'|
      ensures !InSpan(K'[..a], K'[a])
    {
      if a < |K| {
        assert K'[..a] == K[..a] && K'[a] == K[a];
      } else {
        assert K'[..a] == K;
      }
    }
  }

  /** Adding a vector keeps the span of the vectors already looked at and
      adds the vector itself. */
  lemma AddKeepsCovering(K: seq<Vector>, U: seq<Vector>, k: nat, m: nat)
    requires k < |U| && Dimension(U, m) && Dimension(K, m)
    requires forall j :: 0 <= j < k ==> InSpan(K, U[j])
    ensures forall j :: 0 <= j < k + 1 ==> InSpan(K + [U[k]], U[j])
  {
    forall j | 0 <= j < k
      ensures InSpan(K + [U[k]], U[j])
    {
      SpanGrows(K, U[k], U[j]);
    }
    SpanHasMember(K, U[k]);
  }

  lemma GreedyAdd(K: seq<Vector>, U: seq<Vector>, k: nat, m: nat)
    requires 1 <= k < |U| && Dimension(U, m)
    requires GreedyState(K, U, k, m) && !InSpan(K, U[k])
    ensures GreedyState(K + [U[k]], U, k + 1, m)
  {
    assert U[..k + 1] == U[..k] + [U[k]];
    SubseqKeep(K, U[..k], U[k]);
    AddKeepsCovering(K, U, k, m);
    AddKeepsStepwise(K, U[k], m);
  }

  /** One iteration of the greedy pass keeps both the state and the
      reference choice. */
  lemma GreedyNext(K: seq<Vector>, U: seq<Vector>, k: nat, m: nat, keep: bool)
    requires 1 <= k < |U| && Dimension(U, m)
    requires GreedySoFar(K, U, k, m)
    requires keep <==> !InSpan(K, U[k])
    ensures keep ==> GreedySoFar(K + [U[k]], U, k + 1, m)
    ensures !keep ==> GreedySoFar(K, U, k + 1, m)
  {
    GreedyChoiceNext(U, k, m);
    if keep {
      GreedyAdd(K, U, k, m);
    } else {
      GreedySkip(K, U, k, m);
    }
  }

  /** The greedy pass: keep the first vector, then every vector not in the
      span of those kept. An empty input has no first vector (the Rust solver
      panics), reported as `AllZero` since only the zero filter can empty it. */
  method SelectIndependent(U: seq<Vector>, m: nat) returns (r: Result<seq<Vector>, Failure>)
    requires m >= 1 && Dimension(U, m)
    ensures r.Err? <==> |U| == 0
    ensures r.Err? ==> r.error == AllZero
    ensures r.Ok? ==> var K := r.value;
      |K| >= 1 && K[0] == U[0] && IsSubseq(K, U) && Dimension(K, m) &&
      (forall k :: 1 <= k < |K| ==> !InSpan(K[..k], K[k])) &&
      (forall j :: 0 <= j < |U| ==> InSpan(K, U[j]))
    ensures r.Ok? ==> r.value == GreedyChoice(U, m)
  {
    if |U| == 0 {
      return Err(AllZero);
    }
    var K := [U[0]];
    GreedyStart(U, m);
    var k := 1;
    while k < |U|
      invariant 1 <= k <= |U|
      invariant GreedySoFar(K, U, k, m)
    {
      GreedyShaped(K, U, k, m);
      var keep := !IsInSpan(K, U[k]);
      GreedyNext(K, U, k, m, keep);
      if keep {
        K := K + [U[k]];
      }
      k := k + 1;
    }
    GreedyEnd(K, U, m);
    r := Ok(K);
  }

  /** A greedy result over the unique non-zero vectors of S is independent,
      drawn from the non-zero vectors of S, and spans every vector of S. */
  lemma SelectionSpans(S: seq<Vector>, u: seq<Vector>, z: seq<Vector>, K: seq<Vector>, m: nat)
    requires m >= 1 && Dimension(S, m) && Dimension(z, m)
    requires forall x :: x in u <==> x in S
    requires forall x :: x in z <==> x in u && !IsZeroRow(x)
    requires |z| >= 1 && |K| >= 1 && K[0] == z[0] && IsSubseq(K, z) && Dimension(K, m)
    requires forall k :: 1 <= k < |K| ==> !InSpan(K[..k], K[k])
    requires forall j :: 0 <= j < |z| ==> InSpan(K, z[j])
    ensures Independent(K, m)
    ensures forall x :: x in K ==> x in S && !IsZeroRow(x)
    ensures forall j :: 0 <= j < |S| ==> InSpan(K, S[j])
  {
    assert !InSpan(K[..0], K[0]) by {
      assert z[0] in z;
      EmptySpan(K[0]);
    }
    StepwiseIndependent(K, m);
    SubseqMembers(K, z);
    forall j | 0 <= j < |S|
      ensures InSpan(K, S[j])
    {
      if IsZeroRow(S[j]) {
        CombinationOfZeros(K, m);
        assert S[j] == Zeros(m);
      } else {
        assert S[j] in u;
        assert S[j] in z;
        var k :| 0 <= k < |z| && z[k] == S[j];
      }
    }
  }

  /** The whole selection on a set of vectors: dedup, drop zero vectors,
      then the greedy pass. The result is the greedy choice over the unique
      non-zero vectors; it is independent and spans every input vector. */
  method MaximalIndependent(S: seq<Vector>, m: nat) returns (r: Result<seq<Vector>, Failure>)
    requires m >= 1 && Dimension(S, m)
    ensures r.Err? <==> forall j :: 0 <= j < |S| ==> IsZeroRow(S[j])
    ensures r.Err? ==> r.error == AllZero
    ensures r.Ok? ==> Dimension(r.value, m) && Independent(r.value, m)
    ensures r.Ok? ==> forall x :: x in r.value ==> x in S && !IsZeroRow(x)
    ensures r.Ok? ==> forall j :: 0 <= j < |S| ==> InSpan(r.value, S[j])
    ensures r.Ok? ==> var z := NonZeroVectors(FirstOccurrences(S));
      |z| >= 1 && Dimension(z, m) && r.value == GreedyChoice(z, m)
  {
    var u := Dedup(S);
    var z := NonZeroVectors(u);
    assert Dimension(z, m) by {
      forall j | 0 <= j < |z|
        ensures |z[j]| == m
      {
        assert z[j] in z;
      }
    }
    r := SelectIndependent(z, m);
    if r.Err? {
      forall j | 0 <= j < |S|
        ensures IsZeroRow(S[j])
      {
        assert S[j] in u;
      }
    } else {
      SelectionSpans(S, u, z, r.value, m);
      assert z[0] in z && z[0] in S;
      var j0 :| 0 <= j0 < |S| && S[j0] == z[0];
      assert !IsZeroRow(S[j0]);
    }
  }

  // ---------------------------------------------------------------------
  // The solver

  /** Read the vectors: column j of the matrix read from the text is
      vector j. */
  function Parse(input: string): (r: Result<seq<Vector>, Failure>)
    ensures r == Err(ParseFailure) <==> FromText(input, ParseRational).None?
    ensures r == Err(NoVectors) <==> FromText(input, ParseRational) == Some([])
    ensures r.Err? ==> r.error != AllZero
    ensures r.Ok? ==> WellShaped(r.value) && |r.value[0]| >= 1
    ensures r.Ok? ==> FromText(input, ParseRational) == Some(ToMatrix(r.value))
  {
    match FromText(input, ParseRational)
    case None => Err(ParseFailure)
    case Some(M) =>
      if |M| == 0 then Err(NoVectors)
      else
        assert Rectangular(M) && |M[0]| > 0 by {
          var g := Grid(Lines(input));
          assert |M[0]| == |g[0]|;
        }
        ColumnsRoundTrip(M);
        Ok(FromColumns(M))
  }

  /** The solver: the vectors read and a maximal linearly independent
      subset of them, or why there is none. */
  method Solve(input: string) returns (r: Result<Answer, Failure>)
    ensures r == Err(ParseFailure) <==> FromText(input, ParseRational).None?
    ensures r == Err(NoVectors) <==> FromText(input, ParseRational) == Some([])
    ensures r == Err(AllZero) <==> Parse(input).Ok? && forall j :: 0 <= j < |Parse(input).value| ==> IsZeroRow(Parse(input).value[j])
    ensures r.Ok? ==> var S, K := r.value.vectors, r.value.independent;
      Parse(input) == Ok(S) && Dimension(K, |S[0]|) && Independent(K, |S[0]|) &&
      (forall x :: x in K ==> x in S) && (forall j :: 0 <= j < |S| ==> InSpan(K, S[j]))
    ensures r.Ok? ==> var S, z := r.value.vectors, NonZeroVectors(FirstOccurrences(r.value.vectors));
      |S| > 0 && |z| >= 1 && Dimension(z, |S[0]|) && r.value.independent == GreedyChoice(z, |S[0]|)
  {
    var p := Parse(input);
    if p.Err? {
      return Err(p.error);
    }
    var S := p.value;
    var k := MaximalIndependent(S, |S[0]|);
    if k.Err? {
      return Err(AllZero);
    }
    r := Ok(Answer(S, k.value));
  }
}
